=== FILE: README.md ===
# S2RM material calculator and source extractor — a Dafny model

S2RM ("schematic to raw materials") turns a Litematica material list into
the raw materials needed to build it. It has two parts, and this project
models the logic of both as pure Dafny functions over immutable data, with
their properties proved.

**The calculator (Python).**
- `versioned_json.dfy`: the per-version patch store. It covers version keys and ordering, best-version lookup, patch replay, diffs, and storing a payload as a diff. The store-then-replay round trip is proved.
- `exclude_parser.dfy`: the exclude-string parsers (`2sb 3s 5`) of every generation, with the test table of the regex test script.
- `quantities.dfy`: the shulker-box / stack / item arithmetic and its text forms. The parser reads the shorthand back.
- `helpers.dfy`: `clamp`, `add_material`, Roman numerals and block-to-item names.
- `condense.dfy`: ingot-to-block compaction.
- `material_lists.dfy`, `csv_lists.dfy`, `input_files.dfy`: name cleaning, the `.txt` and `.csv` material-list validators and parsers, and the dispatch on the file extension.
- `entities.dfy`: the entity / NBT to material rules. NBT is a JSON-like value.
- `porting.dfy`: the saved-table forward-porting state machine, schema versions 3 to 8.
- The raw-material database builder:
  - `recipes.dfy`: recipe parsing;
  - `recipe_graph.dfy`: the weighted ingredient graph and the raw-material pattern;
  - `resolver.dfy`: the recursive resolver;
  - `item_names.dfy`, `ingredients.dfy`: target-name normalisation and ingredient lists;
  - `recipe_listing.dfy`: the recursive recipe listing.
- `mc_data.dfy`: the game-data text transforms.

**The extractor (Java) and its Python driver.**
- `version_tokens.dfy`: the version-token pattern that both languages use.
- `extractor_runner.dfy`: the Python driver.
- `release_watcher.dfy`: the release watcher and its queue rule.
- `source_extractor.dfy`: the Java entry point.
- `build_meta.dfy`: build metadata and Maven URLs.
- `sparrow.dfy`: the Sparrow signature provider.
- `decompiler.dfy`: the decompiler step.
- `launchable.dfy`: the launchable-jar step, including JVM access-flag widening as defined in sections 4.1, 4.5 and 4.6 of The Java Virtual Machine Specification.
- `identity_mappings.dfy`: the identity mapping flavour.
- `steps.dfy`: the step vocabulary shared by these steps.

**Shared modules.**
- `results.dfy`: `Result`/`Option` and the exception kinds. A raised exception is an `Err`.
- `strings.dfy`: character classes, split/strip/replace and decimal text.
- `ordering.dfy`: orders and a stable sort.
- `ordered_dict.dfy`: insertion-ordered dictionaries, as a Python `dict` is.
- `json.dfy`: JSON values.
- `seqs.dfy`: small sequence facts.

**Older versions.** Several functions have an older, root-level version with different constants or behaviour. Each is modelled next to the current one as a `Legacy…` member, and where the two agree a lemma says on which inputs.

**Parameters.** The file system, the network, the game's constant tables, the decompiler and the other engines are function parameters or plain values, so every function here is total.

## Model

| member | source | states |
|---|---|---|
| VersionedJson.DigitRuns | src/versioned_json.py:8-13 | the digit runs of a version are empty exactly when the version holds no digit |
| VersionedJson.VersionKey | src/versioned_json.py:11-16 | a version has a key exactly when it holds a digit; the key is its non-empty list of digit runs as numbers, and a version without digits raises `ValueError` |
| VersionedJson.KeyLeTotalPreorder | src/versioned_json.py:19-21 | comparing version keys is a total preorder, so sorting by them is well defined |
| VersionedJson.SortVersions | src/versioned_json.py:19-21 | sorting succeeds exactly when every version has a key; the result is a permutation of the input in ascending key order |
| VersionedJson.ResolveBestVersion | src/versioned_json.py:24-26 | a target without digits raises `ValueError` |
| VersionedJson.ResolveBestVersionSpec | src/versioned_json.py:24-39 | the chosen baseline is a candidate whose key is not above the target's and not below any other such candidate, the first of those in input order; there is none exactly when no candidate qualifies; candidates without digits are skipped |
| VersionedJson.Patch | src/versioned_json.py:56-60 | applying a patch: a `null` item deletes the key, any other value sets it, and keys the patch does not name keep their value |
| VersionedJson.Upto | src/versioned_json.py:50-52 | the replay loop visits a prefix of the sorted versions, each not above the target, and stops at the first one above it |
| VersionedJson.UptoMembers | src/versioned_json.py:47-52 | on a sorted list the replay loop visits exactly the versions whose key is not above the target |
| VersionedJson.ApplyVersionedPayload | src/versioned_json.py:42-61 | a document with no version keys expands to `{}`; otherwise expansion succeeds exactly when the target and every stored version have keys; the expanded payload never holds `null` |
| JsonValues.PyEq | src/versioned_json.py:73 | Python `==` on JSON values: only numbers of different kinds (integer, float, boolean) can be equal across kinds, so null, text, lists and objects equal only values of their own kind, and text equals exactly the same text |
| JsonValues.PyEqReflexive | src/versioned_json.py:73 | under Python's `==` every JSON value equals itself |
| JsonValues.PyEqSymmetric | src/versioned_json.py:73 | Python's `==` on JSON values is symmetric |
| JsonValues.NumbersOfEveryKindEqual | src/versioned_json.py:73 | `1`, `1.0` and `True` are equal to Python though they are different values, also inside lists |
| VersionedJson.CalculateDiff | src/versioned_json.py:64-79 | the diff names a key exactly when it is in only one payload or Python's `==` finds its two values unequal (so `1` against `1.0` is no change, and a missing key differs from a `null` one); a removed key maps to `null`, any other to its new value |
| VersionedJson.DiffPatchRoundTrip | src/versioned_json.py:56-79 | patching the old payload with the diff gives the new one up to Python's `==` when neither holds `null`; every value Python finds changed is the new value itself |
| VersionedJson.EmptyDiffMeansEqual | src/versioned_json.py:64-79 | an empty diff means the two payloads have the same keys and Python-equal values |
| VersionedJson.DiffWithSelfEmpty | src/versioned_json.py:64-79 | a payload differs from itself nowhere |
| VersionedJson.UpdateVersionedData | src/versioned_json.py:82-109 | the updated document's `"version"` is the greater of the recorded one and the new version; every entry other than the new version and `"version"` is left as it was |
| VersionedJson.StoreVersionFrame | src/versioned_json.py:88-102 | storing an entry for a version touches no other entry |
| VersionedJson.SingleVersionApply | src/versioned_json.py:42-92 | a document holding one version, stored as a full payload, expands back to that payload |
| VersionedJson.StoreSame | src/versioned_json.py:99-102 | when the diff is empty the entry for the version is dropped and expanding at the version gives the baseline |
| VersionedJson.UpdateThenApply | src/versioned_json.py:42-102 | round trip: when the stored versions have distinct keys and the payload holds no `null`, expanding the updated document at the version just stored gives back the stored payload up to Python's `==`, whether it became a full payload, a diff, or was dropped as an empty diff |
| VersionedJson.UpdateKeepsEarlier | src/versioned_json.py:42-109 | storing a version above every stored one changes what no lower version expands to, so versions stored in ascending order all keep expanding to their payloads |
| VersionedJson.OrderVersionedPayload | src/versioned_json.py:112-120 | ordering keeps every key and its value, puts `"version"` first when present, and lists the versions from newest to oldest; it fails exactly when a stored version has no digits |
| ExcludeParser.StackSizeOf | src/S2RM_backend.py:96-97 | a material's stack size is its entry in the limited-stack table, 64 when it has none |
| ExcludeParser.TokensIffAllowed | src/S2RM_backend.py:85-88 | the allowed-token pattern accepts exactly the strings whose characters are digits, whitespace or `s`, or a `b` directly after an `s`, in either case |
| ExcludeParser.ContainsPair | src/S2RM_backend.py:90-92 | the `'ss' in input` test holds exactly when two adjacent positions hold `s` and `s` |
| ExcludeParser.ValidJoin | src/S2RM_backend.py:81-92 | two accepted inputs joined by a whitespace character are accepted |
| ExcludeParser.UnitAt | src/S2RM_backend.py:94-110 | the suffix after a number is `sb` exactly when `s` and `b` follow (either case), `s` when `s` follows without `b`, otherwise none |
| ExcludeParser.UnitAtExtend | src/S2RM_backend.py:94 | the suffix after a number does not depend on text after a following whitespace |
| ExcludeParser.ProcessExclude | src/S2RM_backend.py:62-112 | -1 exactly for the rejected inputs (empty, a character outside the pattern, or a lower-case `ss`); otherwise a non-negative total |
| ExcludeParser.ProcessExcludeFor | src/S2RM_backend.py:62-112 | the named material's stack size is used, and a material missing from the table is counted with 64 to a stack |
| ExcludeParser.ScanTerm | src/S2RM_backend.py:100-110 | a term `N`, `Ns` or `Nsb` counts N items, N stacks or N shulker boxes of 27 stacks |
| ExcludeParser.ScanRunsSplit | src/S2RM_backend.py:94-112 | the total of two inputs joined by whitespace is the sum of their totals |
| ExcludeParser.ProcessExcludeDigits | scripts_to_generate_raw_mats_4_all_items/regex_test.py:3-48 | the prototype returns -1 exactly for the same rejected inputs, otherwise a non-negative total |
| ExcludeParser.ScanDigitsSplit | scripts_to_generate_raw_mats_4_all_items/regex_test.py:33-48 | the one-digit-at-a-time total of two whitespace-joined inputs is the sum of their totals |
| ExcludeParser.ScanDigitsIsScanRuns | scripts_to_generate_raw_mats_4_all_items/regex_test.py:34-46 | on input whose numbers are single digits, reading one digit at a time and reading whole digit runs agree |
| ExcludeParser.PrototypeAgreesWithBackend | S2RM_frontend.py:653-696 | the regex_test.py prototype, the old frontend parser and the current backend with 64 to a stack agree on input without multi-digit numbers |
| ExcludeParser.MultiDigitDiffers | S2RM_backend.py:325-374 | on multi-digit numbers they differ: the backends read `12s` as 768, the prototype as 129 |
| ExcludeParserTable.SpaceJoin | scripts_to_generate_raw_mats_4_all_items/regex_test.py:19-48 | a space-joined input of accepted parts is accepted and totals the sum of its parts |
| ExcludeParserTable.Row01 | scripts_to_generate_raw_mats_4_all_items/regex_test.py:53 | `"1s 2Sb 3 4S 5sb"` gives 12419 |
| ExcludeParserTable.Row02 | scripts_to_generate_raw_mats_4_all_items/regex_test.py:54 | `"1 "` gives 1 |
| ExcludeParserTable.Row03 | scripts_to_generate_raw_mats_4_all_items/regex_test.py:55 | `"2s"` gives 128 |
| ExcludeParserTable.Row04 | scripts_to_generate_raw_mats_4_all_items/regex_test.py:56 | `"3sb "` gives 5184 |
| ExcludeParserTable.Row05 | scripts_to_generate_raw_mats_4_all_items/regex_test.py:57 | `"1s1s1s"` gives 192 |
| ExcludeParserTable.Row06 | scripts_to_generate_raw_mats_4_all_items/regex_test.py:58 | `"1sb1sb1sb"` gives 5184 |
| ExcludeParserTable.Row07 | scripts_to_generate_raw_mats_4_all_items/regex_test.py:59 | `"1 2 3"` gives 6 |
| ExcludeParserTable.Row08 | scripts_to_generate_raw_mats_4_all_items/regex_test.py:60 | `"1S 2sb 3"` gives 3523 |
| ExcludeParserTable.Row09 | scripts_to_generate_raw_mats_4_all_items/regex_test.py:61 | `"1 2s 3sb"` gives 5313 |
| ExcludeParserTable.Row10 | scripts_to_generate_raw_mats_4_all_items/regex_test.py:62 | `""` gives -1 |
| ExcludeParserTable.Row11 | scripts_to_generate_raw_mats_4_all_items/regex_test.py:63 | `"0s"` gives 0 |
| ExcludeParserTable.Row12 | scripts_to_generate_raw_mats_4_all_items/regex_test.py:64 | `"0sb"` gives 0 |
| ExcludeParserTable.Row13 | scripts_to_generate_raw_mats_4_all_items/regex_test.py:65 | `"0"` gives 0 |
| ExcludeParserTable.Row14 | scripts_to_generate_raw_mats_4_all_items/regex_test.py:66 | `"1a"` gives -1 |
| ExcludeParserTable.Row15 | scripts_to_generate_raw_mats_4_all_items/regex_test.py:67 | `"1-"` gives -1 |
| ExcludeParserTable.Row16 | scripts_to_generate_raw_mats_4_all_items/regex_test.py:68 | `"1#"` gives -1 |
| ExcludeParserTable.Row17 | scripts_to_generate_raw_mats_4_all_items/regex_test.py:69 | `"1 s b"` gives -1 |
| ExcludeParserTable.Row18 | scripts_to_generate_raw_mats_4_all_items/regex_test.py:70 | `"1 ss"` gives -1 |
| ExcludeParserTable.Row19 | scripts_to_generate_raw_mats_4_all_items/regex_test.py:71 | `"1 sss"` gives -1 |
| ExcludeParserTable.Row20 | scripts_to_generate_raw_mats_4_all_items/regex_test.py:72 | `"1s 2b"` gives -1 |
| ExcludeParserTable.Row21 | scripts_to_generate_raw_mats_4_all_items/regex_test.py:73 | `"1s 2s 3x"` gives -1 |
| ExcludeParserTable.Row22 | scripts_to_generate_raw_mats_4_all_items/regex_test.py:74 | `"1s 2s 3-"` gives -1 |
| ExcludeParserTable.Row23 | scripts_to_generate_raw_mats_4_all_items/regex_test.py:75 | `"a1s"` gives -1 |
| ExcludeParserTable.Row24 | scripts_to_generate_raw_mats_4_all_items/regex_test.py:76 | `"1s a"` gives -1 |
| Quantities.DivModUnique | src/helpers.py:154-160 | Python's floor division and remainder by a positive divisor are the unique quotient and remainder |
| Quantities.Decompose | src/helpers.py:149-164 | the split into shulker boxes, stacks and items adds back up to the quantity (q = boxes·stack·27 + stacks·stack + items); fewer stacks than a box holds and fewer items than a stack; an item that does not stack gets no stacks and fewer than 27 items |
| Quantities.DecomposeUnique | src/helpers.py:149-164 | any breakdown with those bounds that adds up to the quantity is the one computed |
| Quantities.TermValid | src/helpers.py:167-178 | every shorthand term `Nsb`, `Ns` or `N` is accepted by the exclude parser (also src/S2RM_backend.py:81-92) |
| Quantities.PartsValid | src/helpers.py:167-178 | every term of a count's shorthand is accepted by the exclude parser |
| Quantities.ShorthandRoundTrip | src/helpers.py:167-178 | the exclude parser reads the shorthand of a count (the non-zero parts joined by spaces, or `"0"`) back as that count (also src/S2RM_backend.py:62-112) |
| Quantities.LongFormLeadingTotal | src/helpers.py:179-202 | the long form starts with the total: reading the text before `(` gives the quantity back, whatever the parenthetical holds |
| Quantities.FormatQuantity | src/helpers.py:119-202 | the text shown for any integer count, negative ones included, is never empty; shulker boxes and the long form start with the decimal count itself |
| Quantities.NegativeCountShorthand | src/helpers.py:149-178 | a negative count is formatted, not rejected: with floor division `-5` of a 64-stack item shows as `26s 59` |
| Quantities.ExcludeCellRoundTrip | src/helpers.py:119-178 | what the exclude column shows for a count, shulker boxes included, the parser reads back as that count |
| Quantities.ResultCellLeadingTotal | src/helpers.py:119-202 | what the raw-materials column shows for a count starts with that count |
| Quantities.FormatQuantities | src/helpers.py:89-117 | a `TypeError` unless the three lists have one length; otherwise every text slot, and only the text slots, are overwritten, each with its own value formatted under its own material |
| Quantities.ExcludeColumnRoundTrip | src/helpers.py:89-117 | a formatted exclude column reads back, cell by cell, as the values it was made from (also src/S2RM_backend.py:62-112) |
| Quantities.LegacyShorthandOfZero | helpers.py:78-89 | the older shorthand of zero is the empty text, which the exclude parser rejects |
| Quantities.LegacyShorthandAgrees | helpers.py:78-89 | for any positive count the older and the current shorthand agree (also src/helpers.py:167-178) |
| Quantities.LegacyFormatQuantities | helpers.py:22-39 | a list gives a list of formatted texts of the same length; a dictionary is formatted in place with the same entries; any other argument raises `TypeError` |
| Quantities.FormatCellsOk | helpers.py:32-37 | the dictionary branch succeeds exactly when every text cell starts with a number, as `int()` of the text before `(` otherwise raises |
| Quantities.FormatCellsAt | helpers.py:32-37 | each formatted cell keeps its key and holds its count's formatted text, a text cell's count being its leading total |
| Quantities.FormatCellsIdempotent | helpers.py:32-37 | formatting a dictionary into long forms a second time changes nothing |
| Quantities.FrontendBreakdownIsDecompose | S2RM_frontend.py:592-604 | the numbers the old frontend prints for a count from a stack up are the current generation's split with 64 to a stack |
| Quantities.FrontendLeadingTotal | S2RM_frontend.py:592-604 | every text the old frontend prints starts with the count |
| Quantities.FrontendFormatAll | S2RM_frontend.py:592-604 | every count of the dictionary is replaced, in place and in order, by its text |
| Quantities.FrontendFormatAllLeadingTotals | S2RM_frontend.py:592-604 | reading each cell's leading total gives the dictionary back |
| Helpers.Reset | src/helpers.py:23-29 | after `reset` every column of the table is empty |
| Helpers.ResetForgets | src/helpers.py:23-29 | a reset table is the same whatever it held, and resetting again changes nothing |
| Helpers.Clamp | src/helpers.py:31-32 | `max(smallest, min(n, largest))`: never below `smallest`, never above `largest` when the bounds are ordered, `n` itself inside them, the nearer bound outside them, and `smallest` when the bounds cross |
| Helpers.ClampIdempotent | src/helpers.py:31-32 | clamping a clamped value again changes nothing |
| Helpers.AddMaterial | src/helpers.py:34-36 | the item's count grows by `count`, from 0 when absent; the key set gains only the item; every other entry is unchanged |
| Helpers.AddMaterialTwice | src/helpers.py:34-36 | two additions to one item are one addition of their sum |
| Helpers.AddMaterialCommutes | src/helpers.py:34-36 | additions to two different items can happen in either order |
| Helpers.GreedyOrdered | src/helpers.py:238-249 | the numerals are picked in table order, so their values never increase |
| Helpers.GreedySum | src/helpers.py:246-249 | the values of the numerals picked for n add up to n |
| Helpers.IntToRoman | src/helpers.py:233-251 | `ValueError` exactly outside 1..3999; otherwise the numerals of the greedy picks, largest first |
| Helpers.RomanValue | src/helpers.py:233-251 | every numeral string `int_to_roman` writes stands for its argument: the values sum to n |
| Helpers.BlockToItemName | src/helpers.py:270-290 | a name that started with a quote comes back quoted; any other comes back lowered, unquoted, with the placement prefixes removed, the block tag applied and vine plants mapped to vines |
| Helpers.QuotedBlockName | src/helpers.py:277-289 | a quoted block name maps to the quoted item name of its contents |
| Helpers.PlainNameUnchanged | src/helpers.py:277-290 | a lower-case name with no quote, placement prefix, block tag or vine plant is its own item name |
| Helpers.ConvertBlockToItem | src/helpers.py:253-268 | one or two items: a candle cake gives `candle` and `cake`, a filled cauldron gives `cauldron` and the bucket of its liquid, any other block its item name alone |
| Helpers.PlainBlockConverts | src/helpers.py:253-268 | a plain block name no rule touches converts to itself alone |
| Helpers.LegacyConvertBlockToItem | S2RM_backend.py:169-185 | the older conversion gives one or two items |
| Helpers.LegacyConvertAgrees | S2RM_backend.py:169-185 | on a plain name no rule touches the two generations agree (also src/helpers.py:253-290) |
| Condense.Credit | src/S2RM_backend.py:135-138 | crediting adds to one key, from 0 when absent, and leaves every other entry as it was |
| Condense.BlocksOf | src/S2RM_backend.py:131 | the number of blocks is the floor of quantity / factor |
| Condense.RemainderOf | src/S2RM_backend.py:132 | what is left after packing lies in [0, factor) and, with the blocks times the factor, makes up the quantity |
| Condense.AddResources | src/S2RM_backend.py:128-141 | the block is credited only when some block is packed and the resource only when something is left; no other key changes and no key appears besides those two; the `ValueError` for more than a block's worth left never fires |
| Condense.AddResourcesConserves | src/S2RM_backend.py:128-141 | packing conserves the quantity: blocks credited times the factor plus resource credited equals the quantity |
| Condense.CondenseBy | src/S2RM_backend.py:114-122 | with a rule the material is packed; without one its quantity is stored as it is, overwriting any earlier value |
| Condense.SrcRule | src/S2RM_backend.py:114-122 | there is no packing rule exactly when the name is not an `_ingot` name and not in the `CONDENSABLES` table |
| Condense.IngotPacksToBlock | src/S2RM_backend.py:115-117 | an ingot `w_ingot` packs nine to a `w_block` (also S2RM_frontend.py:619-621) |
| Condense.FrontendGemRule | S2RM_frontend.py:622-624 | diamond, redstone, coal, lapis lazuli and emerald pack nine to `<name>_block` |
| Condense.FrontendNamedRules | S2RM_frontend.py:625-636 | slime balls, wheat and bone meal pack nine to their block, snowballs four to a snow block |
| Condense.FrontendOtherNames | S2RM_frontend.py:637-638 | any other name is stored as it is |
| Condense.LegacyAddsHoney | S2RM_backend.py:287-310 | the root backend differs from the frontend on honey bottles alone, which it packs four to a honey block |
| MaterialLists.Keep | src/S2RM_backend.py:180-184 | the character filter keeps only characters of the class, never lengthens the text, and leaves text already in the class as it is |
| MaterialLists.NextLine | src/S2RM_backend.py:180-184 | `.*` stops at the first newline: everything before the cut point is on the same line, and the cut point is a newline or the end |
| MaterialLists.CutAtBad | src/S2RM_backend.py:180-184 | after `re.sub(r'[^<class>].*', '', …)` only characters of the class remain, and text already in the class is untouched |
| MaterialLists.DropTrailingUnderscores | src/S2RM_backend.py:166 | the result is a prefix of the text, does not end in `_`, and only underscores were removed |
| MaterialLists.WordPrefix | src/S2RM_backend.py:174 | `\w+` matches the longest run of word characters at the position |
| MaterialLists.BlockOfRewrite | src/S2RM_backend.py:174 | text without `block_of_` is not rewritten |
| MaterialLists.ConvertedNameIsTagText | src/S2RM_backend.py:153-176 | apart from the special names, a converted name is a value of the item-tag table or made only of lower-case letters, `_`, `'` and `[`: no whitespace, digits or capitals survive |
| MaterialLists.CanonicalTagIsFixed | src/S2RM_backend.py:153-176 | a name that is already a canonical tag, needs no respelling and is not in the table converts to itself |
| MaterialLists.MusicDiscKept | src/S2RM_backend.py:156-159 | `music_disc_N` is returned with its digits |
| MaterialLists.DollarNeverSurvivesStage1 | src/S2RM_backend.py:154-180 | nothing the first stage leaves holds `$`, so the `\$.*` special case can never match |
| MaterialLists.DollarNameCollapses | src/S2RM_backend.py:153-176 | as written, every entity marker `$name` is cut to the empty name and converted to the table's entry for it |
| MaterialLists.EntityMarkerKept | src/S2RM_backend.py:156-159 | with the correction an entity marker `$name` passes through unchanged, as the comment says it should |
| MaterialLists.LegacyAgreesWithoutDigits | S2RM_backend.py:251-273 | on names with no digits (and no leading `$`) the one-stage cleaner of the older backend and the two-stage one give the same tag (also src/S2RM_backend.py:143-184) |
| MaterialLists.VerifyTxt | src/S2RM_backend.py:262-295 | passes exactly for a list with a `+-` rule first, a `Material List for`/`Area Analysis for` title second, an `| Item … Available` header second to last and a rule last; a single rule line is an IndexError; anything else a ValueError |
| MaterialLists.TxtBody | src/S2RM_backend.py:245-246 | `lines[5:-3]` keeps the lines between five header and three footer lines, and nothing when there are eight or fewer |
| MaterialLists.TxtRows | src/S2RM_backend.py:248-258 | the row loop only adds keys, and its one failure is the ValueError of a count `int()` rejects |
| MaterialLists.ProcessTxt | src/S2RM_backend.py:233-260 | a list the validator rejects fails with the validator's error; a list that is read looks like a Litematica `.txt` list |
| MaterialLists.LegacyProcessTxt | S2RM_backend.py:51-76 | the older backend turns a validation ValueError into `None` and lets the IndexError propagate |
| MaterialLists.TxtRowsAppend | src/S2RM_backend.py:248-258 | reading rows in two runs gives what one run over all of them gives |
| MaterialLists.RenderedTxtVerifies | src/S2RM_backend.py:262-295 | a list laid out as Litematica writes it passes the validator |
| MaterialLists.TxtRoundTrip | src/S2RM_backend.py:233-260 | a list laid out as Litematica writes it reads back as the tags of its entries with their counts, later rows overwriting earlier ones |
| CsvLists.CountFields | src/S2RM_backend.py:336 | `fields[1:4]` is the up to three fields after the name, in order |
| CsvLists.VerifyCsv | src/S2RM_backend.py:321-340 | passes exactly for the header `"Item","Total","Missing","Available"` followed by a row whose first field is a quoted `[\w ]+` name and whose count fields are all digits; an empty file or a header alone is an IndexError; anything else a ValueError |
| CsvLists.CsvRows | src/S2RM_backend.py:309-317 | the row loop only adds keys; a row with too few `"` or `,` is an IndexError and a count `int()` rejects a ValueError |
| CsvLists.ProcessCsv | src/S2RM_backend.py:297-319 | a list the validator rejects fails with its error; a list that is read looks like a Litematica `.csv` list |
| CsvLists.LegacyProcessCsv | S2RM_backend.py:77-96 | the older backend turns a validation ValueError into `None` and lets the IndexError propagate |
| CsvLists.HeaderOnlyIsIndexError | src/S2RM_backend.py:321-330 | a file holding just the right header fails with IndexError when the validator reads the missing first row |
| CsvLists.CountReads | src/S2RM_backend.py:313-317 | the decimal text of a count strips to itself and `int()` reads it back |
| CsvLists.RenderedCsvVerifies | src/S2RM_backend.py:321-340 | a non-empty list written in Litematica's layout passes the validator |
| CsvLists.CsvRoundTrip | src/S2RM_backend.py:297-319 | a non-empty list written in Litematica's layout reads back as the tags of its entries with their counts, later rows overwriting earlier ones |
| InputFiles.KindOf | src/S2RM_backend.py:32-45 | a path is a schematic, a `.txt` list or a `.csv` list exactly when it ends in that extension, and unsupported exactly when it ends in none of them |
| InputFiles.ExtensionsExclusive | src/S2RM_backend.py:38-45 | no path ends in two of the three extensions, so the dispatch order never matters |
| InputFiles.InputFileToMats | src/S2RM_backend.py:13-45 | a schematic goes to the schematic reader, a `.txt` or `.csv` list to its reader, anything else is a ValueError; a list path that was never read fails with UnboundLocalError |
| InputFiles.LegacyInputFileToMats | S2RM_backend.py:17-49 | the same dispatch over the older readers, which report an invalid list as `None` |
| InputFiles.ExportsReadBack | src/S2RM_backend.py:13-45 | a list exported by Litematica as `.txt` reads back as its entries' tags and counts, and the `.csv` export of the same entries reads back the same |
| Entities.AddAllCounts | src/entity_processing.py:26-29 | adding pairs one by one leaves each item at its old count plus the pairs' counts for it, and adds exactly the named items (also src/entity_processing.py:67-68) |
| Entities.AsItems | src/entity_processing.py:26-48 | iterating a list visits its elements; iterating anything else either visits nothing or fails with a TypeError |
| Entities.IdOf | src/entity_processing.py:27 | `item["id"]` succeeds exactly on a compound with a text id, and gives that id without its `minecraft:` prefix |
| Entities.IdOrEmpty | src/entity_processing.py:93-119 | `item.get("id", "")`: the empty name when the id is missing, the unprefixed id otherwise, an AttributeError on a non-compound |
| Entities.CountValue | src/entity_processing.py:28 | a count is read exactly when it is an integer or a boolean, as the integer, or as 1 for true and 0 for false; anything else is a TypeError |
| Entities.StrOf | src/entity_processing.py:46 | `str()` of a boat's Type: text as it is, an integer as decimal text that `int()` reads back, `True`, `False` and `None` for booleans and None |
| Entities.ReadAll | src/entity_processing.py:26-29 | when every stored item can be read, the pairs are the items' readings in order |
| Entities.InventoryList | src/entity_processing.py:20-24 | the stored items are the `Items` list, else the single `Item`, else none |
| Entities.InventoryEntry | src/entity_processing.py:27-28 | one stored item reads as its unprefixed id with its `count`, else its `Count`, else 0 |
| Entities.InventoryAddsCounts | src/entity_processing.py:17-29 | a block entity adds to each item exactly the counts its stored items carry under that id, and nothing else changes |
| Entities.EmptyInventoryAddsNothing | src/entity_processing.py:20-29 | a block entity with neither `Items` nor `Item` adds nothing |
| Entities.CarriedEntry | src/entity_processing.py:48-52 | a carried item reads as its id with its `count`, else its `Count`; with neither it is a KeyError |
| Entities.ExtractEntityMaterials | src/entity_processing.py:31-83 | a simple entity adds itself, a bucketable mob its bucket, a golem its recipe, the ender dragon four end crystals when it has a phase, an unlisted valid entity its `$`-marked name; an invalid one adds nothing. A boat's Type never makes it fail |
| Entities.OnePerItem | src/entity_processing.py:58-59 | each item of a falling block is counted once |
| Entities.ItemFrameAddsFrameAndItem | src/entity_processing.py:37-40 | an item frame adds one frame, and one of the item it holds when there is one |
| Entities.VehicleAddsItselfAndCargo | src/entity_processing.py:43-52 | a boat or minecart adds one of its kind, named `str(Type)` followed by `_boat` when typed, plus everything it carries |
| Entities.FallingBlockAddsItsItems | src/entity_processing.py:55-59 | a falling block of an invalid block adds nothing; otherwise one of each item its block converts to |
| Entities.GolemAddsRecipe | src/entity_processing.py:66-68 | a golem adds exactly its recipe's counts and touches no other item |
| Entities.DroppedItemAddsNothing | src/entity_processing.py:76-83 | a dropped item entity that is listed invalid adds nothing |
| Entities.Roman | src/entity_processing.py:131 | a level has a roman numeral exactly inside 1..3999 |
| Entities.SubCompound | src/entity_processing.py:124 | `d.get(key, {})` is the empty compound for a missing key and fails on a non-compound |
| Entities.IntOf | src/entity_processing.py:125 | `int()` of a level: an integer as it is, a boolean as 0 or 1, a float truncated toward zero, text as the decimal integer it spells (surrounding whitespace, an optional sign, digits that single underscores may group) or a ValueError; None, lists and compounds are a TypeError |
| Strings.ParseInt | src/entity_processing.py:125 | `int()` of text succeeds exactly when, once surrounding whitespace and one optional sign are stripped, what is left is decimal digits with single underscores only between two digits |
| Strings.ParseGroupedDigits | src/entity_processing.py:125 | `int("1_000")` is 1000: underscores between digits group them and do not change the value |
| Strings.ParseDoubleUnderscore | src/entity_processing.py:125 | `int("1__0")` is a ValueError: two underscores in a row are rejected |
| Strings.ParseLeadingUnderscore | src/entity_processing.py:125 | `int("_10")` is a ValueError: the digits cannot start with an underscore |
| Strings.ParseTrailingUnderscore | src/entity_processing.py:125 | `int("10_")` is a ValueError: the digits cannot end with an underscore |
| Strings.ParseIntToString | src/entity_processing.py:125 | `int(str(i)) == i` for every integer, negative ones included |
| Entities.LevelsCompound | src/entity_processing.py:124-125 | the levels compound is read from a compound item, is empty when the item has no components, and a non-compound on the way is an AttributeError |
| Entities.EnchantmentLevels | src/entity_processing.py:124-125 | the levels are read exactly when every stored level converts by `int()`; they keep the stored keys and take `int()`'s values; a failure is the failure of one of the stored levels |
| Entities.LevelOf | src/entity_processing.py:125-129 | an enchantment has a level exactly when it is listed under its namespaced or its bare name |
| Entities.ProcessEnchantedItem | src/entity_processing.py:117-121 | an item with no name, or whose name does not mention the gear, adds nothing; anything added comes from matching gear |
| Entities.AddBook | src/entity_processing.py:130-136 | the book is counted once more, the gear once only when it is not listed yet, and nothing else changes |
| Entities.NoBookBelowThreshold | src/entity_processing.py:128-129 | an enchantment that is absent or below the threshold adds nothing |
| Entities.EnchantedBookAdded | src/entity_processing.py:117-136 | an enchantment at or above the threshold on matching gear adds one `$<name>_<roman>_book` and the gear only when unlisted; a level without a numeral is a ValueError |
| Entities.AdditionalMaterials | src/entity_processing.py:85-115 | without armour or held items the extras are a lead for a leashed entity and nothing else |
| Entities.HeadgearAdded | src/entity_processing.py:91-104 | a piece of headgear without enchantments is added once |
| Entities.EntityMaterials | src/entity_processing.py:9-15 | an entity whose own materials fail fails; one without leash, armour or held items adds only its own materials |
| Entities.IronGolemRule | S2RM_backend.py:190-204 | the name `iron_golem` reaches the iron golem branch unless it is listed as simple |
| Entities.NamedByEquality | S2RM_backend.py:190-201 | a ten-letter name without `b`, `c` or `f` that is not listed simple takes none of the substring branches |
| Entities.LegacyCommonMaterials | S2RM_backend.py:187-217 | the older mapping: simple entities, vehicles and unlisted entities add themselves, falling blocks their items unless invalid, bucketable mobs a bucket, snow golems, withers and dragons their fixed materials |
| Entities.LegacyNameMaterialsAsWritten | S2RM_backend.py:204-206 | as written, an iron golem sets the iron block count to the iron INGOT count plus four, and adds a carved pumpkin |
| Entities.LegacyNameMaterials | S2RM_backend.py:204-206 | as intended, an iron golem adds four iron blocks and one carved pumpkin and changes nothing else |
| Entities.IronGolemsAsWrittenLoseBlocks | S2RM_backend.py:204-206 | two iron golems as written count four iron blocks, where the intended mapping counts eight |
| Entities.LegacyEntityMaterials | S2RM_backend.py:187-217 | as written, the older mapping agrees with the intended one on every entity but the iron golem, whose iron block count becomes the iron ingot count plus four |
| Entities.LegacyNamespaceIgnored | S2RM_backend.py:189-195 | a namespaced entity id and block state id give the same materials as the bare ids |
| Entities.LegacyInventoryEntry | S2RM_backend.py:227-228 | one stored item reads as its unprefixed id and its `Count`; without `Count` it is a KeyError |
| Entities.LegacyInventoryMaterials | S2RM_backend.py:219-223 | a block entity without `Items` adds nothing |
| Entities.LegacyInventoryAddsCounts | S2RM_backend.py:219-228 | the older reader adds to each item exactly the `Count`s stored under its id |
| Porting.GetErrorMessage | src/porting.py:21-38 | the incompatible-version code gets the message naming the expected and found versions, the corrupt-table code its fixed message, and every other code the unknown-error fallback (and only those codes get it) |
| Porting.FoundVersionReadsBack | src/porting.py:24-29 | the version quoted in the incompatible-version message reads back as the version found |
| Porting.SetDefault | src/porting.py:84-85 | `setdefault` adds the key only when it is missing, with the given value, and never changes a value that was there |
| Porting.ToV4 | src/porting.py:82-85 | the step to version 4 adds `output_type` `ingots` and `ice_type` `ice` when missing and keeps every other value |
| Porting.FillDefaultsFrame | src/porting.py:89-97 | filling in defaults adds exactly the missing default keys and never changes a value that was there |
| Porting.FillDefaultsMissing | src/porting.py:90-92 | with each key listed once, a key the table lacks receives the default listed for it |
| Porting.DefaultsDistinct | src/porting.py:8-19 | the default table names each column once |
| Porting.ToV5 | src/porting.py:87-97 | after the step to version 5 every default column is present, a column that was missing holds the value `OUTPUT_JSON_DEFAULT` gives it, and no value that was present has changed |
| Porting.ToV6AsWritten | src/porting.py:99-101 | as written, the old single path becomes the one entry of `material_list_paths`, and a table without one gets the list `[[]]` |
| Porting.ToV6 | porting.py:100-103 | as intended, a table without the old path gets no paths; the old key is gone and every other column is kept |
| Porting.MissingPathBecomesEmptyPath | src/porting.py:99-101 | a table without a path ends up, as written, with one path that is an empty list, so its path list is truthy; as intended it is empty (also porting.py:100-103) |
| Porting.ExcludeTexts | src/porting.py:113-114 | formatting the exclude column needs the input items (a KeyError otherwise) and two lists of one length (a TypeError otherwise); it then succeeds exactly when every cell does, gives each cell's text in order, and otherwise raises the error of the first failing cell, so the only errors are KeyError, TypeError and ValueError |
| Porting.ExcludeCell | src/helpers.py:141-156 | one exclude cell: for an item whose name contains `shulker_box` the text is the decimal of `int(count)`, so text counts are read as `int()` reads them and a rejected one is a ValueError; any other item succeeds exactly for an integer or boolean count and gives its shorthand breakdown; a name that is not text is a TypeError |
| Porting.ShulkerTextCell | src/helpers.py:142-143 | a shulker box's text count gives the decimal of what `int()` parses, or a ValueError when `int()` rejects it |
| Porting.ShulkerTextCount | src/helpers.py:142-143 | a shulker box with the text count `"12"` shows as `12` |
| Porting.ShulkerGroupedCount | src/helpers.py:142-143 | a shulker box with the text count `"1_2"` shows as `12`, digit groups being read as `int()` reads them |
| Porting.ShulkerBadCount | src/helpers.py:142-143 | a shulker box with the text count `"x"` is a ValueError |
| Porting.ShulkerCountStripped | src/helpers.py:142-143 | a shulker box's text count padded with a space on each side gives the same cell as the bare text, since `int()` strips whitespace |
| Porting.PlainTextCount | src/helpers.py:154 | for an item that is not a shulker box a text count is a TypeError, from the floor division |
| Porting.Collect | src/helpers.py:115-117 | the loop over the cells succeeds exactly when every cell does, keeps their order and texts, and otherwise raises the error of the first failing cell |
| Porting.FormatCells | src/helpers.py:115-117 | the exclude column's loop succeeds exactly when each of its cells does, gives each cell's text at its index, and otherwise raises the first failing cell's error |
| Porting.BoolCountFormats | src/porting.py:113-114 | a boolean count is formatted as Python's integer: `True` for stone shows as `1` (also src/helpers.py:172-175) |
| Porting.ToV7AsWritten | src/porting.py:103-114 | as written, `exclude_text` and `exclude_values` are one list object, so after the step they are equal and hold the formatted texts when there were counts; an empty exclude column is carried over as it is, the other columns are kept, and the step fails exactly when formatting does, with its error |
| Porting.ToV7 | src/porting.py:103-114 | as intended, the old counts move to `exclude_values` unchanged, `exclude_text` holds their texts, other columns are kept, and the step fails exactly when formatting does |
| Porting.ExcludeCountsOverwritten | src/porting.py:108-114 | with counts to move, the first of them not text, the step as written leaves texts where the counts were; the intended step keeps the counts |
| Porting.ExcludeTextsReadBack | src/porting.py:103-114 | after the intended step each exclude text, read by the exclude parser for its item, gives back the count the cell was formatted from, when no count is negative |
| Porting.LegacyToV7 | porting.py:105-114 | the root step moves the counts to `exclude_values`, fails with TypeError unless they are all integers, and writes the long form of each as `exclude_text` |
| Porting.ToV8AsWritten | src/porting.py:116-132 | as written the step to version 8 raises AttributeError whatever the table holds, because `tv.deepcopy()` names a method `TableCols` does not have |
| Porting.ToV8 | src/porting.py:116-132 | the step to version 8 as intended, with the record copied by `copy.deepcopy`: it fails, with KeyError, exactly when `exclude_text` is missing; each moved column leaves the table and sits in `tv` under its `TableCols` field name (`[]` when it was missing); `tt` is `tv` with `exclude` replaced by the popped text; the other columns are kept |
| Porting.ToV8RoundTrip | src/porting.py:116-132 | a table holding every moved column and `exclude_text` unpacks from the two records back to itself: the intended step loses nothing |
| Porting.StepToEight | src/porting.py:121-129 | as written the step to version 8 raises AttributeError on every table, because `TableCols` defines no `deepcopy` (src/helpers.py has only `reset`); as intended it is `ToV8`; in the root generation it does nothing |
| Porting.Step | src/porting.py:53-66 | the step to one target version: targets outside 4 to 8 leave the table as it is, only the steps to versions 7 and 8 can raise, and the as-written step to version 8 always raises AttributeError |
| Porting.Migrate | src/porting.py:53-66 | the steps to every version above the start up to the target, in order: nothing to do leaves the table as it is, a failure can only come when the range reaches version 7 or 8, and as written every range that reaches version 8 raises |
| Porting.MigrateLastStep | src/porting.py:62-66 | migrating from a version below 8 is migrating to version 7 and then taking the step to version 8 |
| Porting.MigrateSplit | src/porting.py:61-66 | migrating in one go is migrating to any intermediate version and on from there: each step runs once, in ascending order, stopping at the first exception |
| Porting.FromSevenOnlyLastStep | src/porting.py:53-66 | a version 7 table runs only the step to version 8, which in the root generation does nothing (also porting.py:116-117) |
| Porting.Get | src/porting.py:69-73 | reading a column is a KeyError exactly when the column is missing |
| Porting.Check | src/porting.py:68-78 | with every column present, the table passes exactly when the item, quantity and exclude columns are all empty or all filled and the two raw columns likewise, and then its version is set to 8; otherwise the corrupt-table code and the table unchanged |
| Porting.RouteOf | src/porting.py:50-62 | the version test: booleans, integers and floats are compared as numbers; at or below 2 or above 8 is the incompatible-version code; an integer from 3 to 8 starts the steps there; anything else raises TypeError |
| Porting.ForwardportFrom | src/porting.py:50-78 | an integer version from 3 to 8 runs the migrations and then the final check on what they leave |
| Porting.CurrentPortingRaises | src/porting.py:40-132 | as written, no table of version 3 to 7 is ported: the call always raises, and it raises AttributeError whenever the earlier steps succeed |
| Porting.MovedColumnsFailCheck | src/porting.py:68-74 | after the intended step to version 8 the final check raises KeyError, because `input_items` has moved into `tv` |
| Porting.IntendedStepsStillRaise | src/porting.py:62-74 | even with the copy fixed, no table of version 3 to 7 is ported, and a table that passes the earlier steps ends in KeyError |
| Porting.IntendedMigrateErrors | src/porting.py:82-114 | the intended steps up to version 7 raise only the exclude formatter's KeyError, TypeError or ValueError |
| Porting.ForwardportIntended | src/porting.py:40-78 | the port as intended: the version test as written, nothing to do for a table already at version 8, and otherwise only the codes 0, 1, 2 or a KeyError, TypeError or ValueError from the steps or a missing column |
| Porting.IntendedFrom | src/porting.py:62-78 | the intended port from versions 3 to 7 migrates to version 7, checks the columns while they are still columns, and then moves them into the records |
| Porting.IntendedPortOfSeven | src/porting.py:68-132 | the intended port of a complete version 7 table passes exactly when its columns agree about being empty; a failing table comes back unchanged with the corrupt-table code, and a passing one unpacks to itself at version 8 |
| Porting.ForwardportJson | src/porting.py:40-78 | a version that is not a number (the frontend passes "unspecified") or a float in range raises TypeError; a version at or below 2 or above 8 is the incompatible-version code with the table untouched; a success leaves consistent columns and version 8 |
| Porting.DefaultsCoverChecks | src/porting.py:8-19 | the default table holds every column the final check reads except `exclude_values` (also src/porting.py:68-74) |
| Porting.LegacyEarlyMigration | porting.py:54-67 | in the root generation a version 3 table goes through the steps to 4, 5, 6 and 7, a version 4 table through 5, 6 and 7 |
| Porting.ColumnsAfterSeven | porting.py:88-114 | after the steps to versions 5, 6 and 7 every column the final check reads is present |
| Porting.LegacyEarlyTablesReachCheck | porting.py:41-79 | in the root generation a version 3 or 4 table never fails with KeyError: it either has a non-integer exclude count or reaches the check, which passes exactly when the table is consistent |
| Recipes.DyedBedsIgnored | src/constants.py:27 | every re-dye recipe of a bed or carpet is skipped, whatever follows its name (also data/recipes_raw_mats_database_builder.py:35-36) |
| Recipes.IgnoredNamesAreDyed | src/constants.py:27 | the current builder skips only names that start `dye_` and mention a bed or carpet (also data/recipes_raw_mats_database_builder.py:35-36) |
| Recipes.Field | data/recipes_raw_mats_database_builder.py:34 | `j[key]` is the key's value on an object holding it, a KeyError on an object without it and a TypeError on anything else (also data/recipes_raw_mats_database_builder.py:97, data/recipes_raw_mats_database_builder.py:103) |
| Recipes.NameOf | data/recipes_raw_mats_database_builder.py:34 | `replace('minecraft:', '')` works only on text and removes the namespace (also data/recipes_raw_mats_database_builder.py:146) |
| Recipes.NamedField | data/recipes_raw_mats_database_builder.py:79-85 | a field is read as a name exactly when it is present and is text, and then without its namespace |
| Recipes.ShortestIndex | data/recipes_raw_mats_database_builder.py:146 | `min(options, key=len)` picks a shortest option, the first of them |
| Recipes.Shortest | data/recipes_raw_mats_database_builder.py:146 | no options is a ValueError, an option without a length a TypeError, otherwise a shortest option |
| Recipes.Bump | data/recipes_raw_mats_database_builder.py:147 | the name's amount goes up by one, from 0 when absent; no other amount changes |
| Recipes.AddIngredient | data/recipes_raw_mats_database_builder.py:144-147 | a plain name is counted once more under its unprefixed name |
| Recipes.AddItemsTallies | data/recipes_raw_mats_database_builder.py:106-109 | adding plain names one by one never fails, and each name's amount is the number of times it was listed |
| Recipes.JoinRows | data/recipes_raw_mats_database_builder.py:98 | `''.join(rows)` of a list of strings is their concatenation |
| Recipes.Lookups | data/recipes_raw_mats_database_builder.py:100-101 | each pattern symbol stands for its entry in the key table |
| Recipes.PatternAsItems | data/recipes_raw_mats_database_builder.py:100-102 | when every symbol has a key, the pattern adds the same as the list of looked-up items |
| Recipes.ShapedCounts | data/recipes_raw_mats_database_builder.py:95-104 | a shaped recipe contributes one of an ingredient per occurrence of its symbol, spaces ignored, and its `count` is the result count |
| Recipes.SmeltingIngredients | data/recipes_raw_mats_database_builder.py:114-120 | a smelting recipe always makes one item |
| Recipes.OnceEach | data/recipes_raw_mats_database_builder.py:82-91 | a dictionary display holds exactly the listed names, each once |
| Recipes.SmithingIngredients | data/recipes_raw_mats_database_builder.py:78-82 | a smithing recipe needs its addition, base and template once each, and fails exactly when one of them is missing or not text |
| Recipes.TransmuteIngredients | data/recipes_raw_mats_database_builder.py:84-86 | a transmute recipe needs a shulker box and the dye once each |
| Recipes.DyeWoolIngredients | data/recipes_raw_mats_database_builder.py:87-91 | a wool recipe needs white wool and, unless the dye is white, the dye, once each |
| Recipes.ItemsOf | data/recipes_raw_mats_database_builder.py:64-93 | a craft type neither builder reads gives `None` exactly when no branch matches; the older builder has no smithing branch (also recipes_raw_mats_database_builder.py:103-126) |
| Recipes.Undye | data/recipes_raw_mats_database_builder.py:44 | a leading `dye_` is dropped and nothing else |
| Recipes.Unsmith | data/recipes_raw_mats_database_builder.py:45 | the current builder drops a trailing `_smithing` and nothing else |
| Recipes.CutFromPrefix | data/recipes_raw_mats_database_builder.py:43 | `name.split('_from')[0]` is the name up to its first `_from` |
| Recipes.CleanNameParts | data/recipes_raw_mats_database_builder.py:42-45 | a cleaned name is the text before the first `_from` less `dye_` in front and, for the current builder, `_smithing` behind (also recipes_raw_mats_database_builder.py:82-84) |
| Recipes.RetagFailsOnUnknownTag | data/recipes_raw_mats_database_builder.py:48-54 | replacing tags fails, with a KeyError, exactly when some `#` tag has no base material |
| Recipes.RetagLeavesNoTags | data/recipes_raw_mats_database_builder.py:48-54 | after retagging no ingredient is a tag |
| Recipes.RetagWithoutTags | data/recipes_raw_mats_database_builder.py:48-54 | a recipe without tags keeps its ingredients, order included |
| Recipes.Parse | data/recipes_raw_mats_database_builder.py:33-54 | a skipped name or an unknown craft type contributes nothing; a contribution is filed under the cleaned name |
| Recipes.Choose | data/recipes_raw_mats_database_builder.py:56-60 | a new item takes its recipe; a known one is replaced only by a shaped or shapeless recipe for anything but `stick`; no other item changes |
| Recipes.ChosenNamed | data/recipes_raw_mats_database_builder.py:56-60 | the table has an item exactly when some counted recipe makes it |
| Recipes.ChosenRecipe | data/recipes_raw_mats_database_builder.py:30-62 | the table keeps, for each item, the last recipe that may override, or the first recipe when no later one may |
| Recipes.ChooseEachChooses | data/recipes_raw_mats_database_builder.py:33-60 | building the table recipe by recipe is choosing among the parsed entries, and it fails with the first failure |
| Recipes.CostTableChooses | data/recipes_raw_mats_database_builder.py:30-62 | `get_raw_materials_cost_dict` fails with the first recipe's failure; otherwise it is the choice among the entries of the recipes that count (also recipes_raw_mats_database_builder.py:70-101) |
| RecipeGraph.AddEdge | data/graph_recipes.py:22 | adding an edge makes both ends nodes, sets the weight of the edge into the item (keeping a repeated edge's place) and changes no other node's predecessors |
| RecipeGraph.Weight | data/graph_recipes.py:21 | `quantity / count` is defined exactly for numbers with a non-zero count, and times the count gives back the quantity |
| RecipeGraph.AddEdgesNodes | data/graph_recipes.py:19-22 | one item's edges add the item (when it has ingredients) and its ingredients as nodes, and no others |
| RecipeGraph.AddEdgesFrame | data/graph_recipes.py:19-22 | one item's edges change no other node's predecessors |
| RecipeGraph.AddEdgesWeight | data/graph_recipes.py:19-22 | each ingredient's edge into the item is weighted by its amount over the yield |
| RecipeGraph.CountIsNoIngredient | data/graph_recipes.py:19 | the popped `count` never becomes a node unless an item is itself named `count` |
| RecipeGraph.BuildGraphEdge | data/graph_recipes.py:15-24 | every ingredient of every recipe gives an edge into its item weighted by the ingredient's amount over the recipe's yield (also recipes_raw_mats_database_builder.py:164-173) |
| RecipeGraph.RawBlocksAreAxioms | src/constants.py:28-32 | as written, the look-ahead `(?!_block)` sits where nothing follows, so storage blocks of raw ores match the raw-material pattern; as meant they do not |
| RecipeGraph.AxiomAgrees | src/constants.py:28-32 | the written and the meant pattern agree on every name that is not a `raw_..._block` |
| RecipeGraph.NotOtherAxiom | src/constants.py:28-32 | a `raw_` name that ends in neither `t` nor `e` matches none of the other alternatives |
| RawMaterials.AddTo | data/recipes_raw_mats_database_builder.py:273-280 | `raw_materials[k] += q` on a `defaultdict(float)` adds `q` to `k`, from 0 when absent, and changes nothing else |
| RawMaterials.Special | data/recipes_raw_mats_database_builder.py:288-305 | the special cases (netherite, sugar, stripped and carved blocks) scale quantities by non-negative factors |
| RawMaterials.StepOf | data/recipes_raw_mats_database_builder.py:265-318 | a step is special case, raw material, leaf or walk over predecessors; it fails only on a graph lookup or a template missing from its own ingredients, and a leaf is a raw material or a node without predecessors (also recipes_raw_mats_database_builder.py:404-424) |
| RawMaterials.StepsAreSound | data/recipes_raw_mats_database_builder.py:265-318 | every leaf step is a real leaf, every failure a lookup failure, and with non-negative weights every factor is non-negative |
| RawMaterials.ResolveErrors | data/recipes_raw_mats_database_builder.py:265-318 | the walk fails only by exceeding the recursion limit or by a failed graph lookup |
| RawMaterials.ResolveKeys | data/recipes_raw_mats_database_builder.py:265-286 | the walk keeps every material already counted, and the only materials it adds are leaves |
| RawMaterials.ResolveGrows | data/recipes_raw_mats_database_builder.py:265-286 | with non-negative factors the walk never lowers a total |
| RawMaterials.ResolveValid | data/recipes_raw_mats_database_builder.py:256-263 | each material is listed once in the totals, however often the walk meets it |
| RawMaterials.ResolveFuel | data/recipes_raw_mats_database_builder.py:265-286 | a walk that finished within a recursion limit gives the same outcome under any larger limit |
| RawMaterials.AxiomIsLeaf | data/recipes_raw_mats_database_builder.py:271-276 | a raw material by name adds its own quantity and nothing else, even when recipes make it, which breaks cycles between semi-raw materials |
| RawMaterials.UnknownItemFails | data/recipes_raw_mats_database_builder.py:279 | asking for the predecessors of an item the graph does not hold fails |
| RawMaterials.LeafStops | data/recipes_raw_mats_database_builder.py:278-281 | a leaf that is neither a special case nor a smithing template stops the walk |
| RawMaterials.ResolveLeaf | data/recipes_raw_mats_database_builder.py:278-281 | reaching a leaf adds its quantity |
| RawMaterials.ResolveAllFirst | data/recipes_raw_mats_database_builder.py:284-286 | predecessors are resolved one after the other, each from the totals the one before left |
| RawMaterials.ResolveThroughOne | data/recipes_raw_mats_database_builder.py:284-286 | an item made of one leaf adds that leaf at the item's quantity times the edge weight |
| RawMaterials.ResolveThroughTwo | data/recipes_raw_mats_database_builder.py:284-286 | an item made of two leaves adds both, in predecessor order |
| RawMaterials.NetheriteIsNotALeaf | data/recipes_raw_mats_database_builder.py:289-293 | a netherite ingot is counted as four netherite scrap and four gold ingots by both builders (also recipes_raw_mats_database_builder.py:408-411) |
| RawMaterials.NetheriteMatchesThePattern | src/constants.py:28-32 | netherite and gold ingots match the raw-material pattern, so the special case must come first |
| RawMaterials.SugarIsCane | data/recipes_raw_mats_database_builder.py:295-298 | the current builder counts sugar as sugar cane, one for one |
| RawMaterials.StrippedIsPlain | data/recipes_raw_mats_database_builder.py:300-303 | a stripped or carved block is counted as the plain block it was made from |
| RawMaterials.RawBlockResolution | src/constants.py:28-32 | a storage block of raw ore made from the ore is itself a raw material as written, and is counted as the raw ore as meant (also data/recipes_raw_mats_database_builder.py:271-286) |
| ItemNames.Anvil | data/recipes_raw_mats_database_builder.py:246 | a chipped or damaged anvil is an anvil; every other name is unchanged |
| ItemNames.ConcreteIsTheSubstitution | data/recipes_raw_mats_database_builder.py:247 | concrete is renamed exactly when the pattern matches, and then it becomes the powder it hardens from |
| ItemNames.RemoveStages | data/recipes_raw_mats_database_builder.py:248 | removing the oxidation stages never lengthens a name |
| ItemNames.StageFreeUnchanged | data/recipes_raw_mats_database_builder.py:248 | a name without a stage is left alone |
| ItemNames.StagedShrinks | data/recipes_raw_mats_database_builder.py:248 | a name with a stage anywhere gets shorter |
| ItemNames.RemoveStagesUnchangedIff | data/recipes_raw_mats_database_builder.py:248 | the stage removal leaves a name alone exactly when it holds no stage |
| ItemNames.StagePrefixDropped | data/recipes_raw_mats_database_builder.py:248 | a stage in front of a name is dropped |
| ItemNames.Copper | data/recipes_raw_mats_database_builder.py:249-250 | only `copper` and `waxed_copper` change, and they gain `_block` |
| ItemNames.PlainNameKept | data/recipes_raw_mats_database_builder.py:245-250 | a name none of the four rules touches is looked up as it is (also recipes_raw_mats_database_builder.py:384-389) |
| ItemNames.AgedCopperIsCopperBlock | data/recipes_raw_mats_database_builder.py:248-250 | exposed, weathered and oxidized copper count as the copper block |
| IngredientLists.ByQuantity | data/recipes_raw_mats_database_builder.py:259-263 | the list is a permutation of the totals, sorted by quantity descending and then by name |
| IngredientLists.ByQuantityLookups | data/recipes_raw_mats_database_builder.py:259-263 | the sorted list holds each material once, with its total |
| IngredientLists.GetIngredients | data/recipes_raw_mats_database_builder.py:243-263 | an ingredient list is sorted by quantity descending, then by name |
| IngredientLists.IngredientsAreLeaves | data/recipes_raw_mats_database_builder.py:252-263 | an item the graph lacks stands for itself once; otherwise each material appears once and is a leaf of the walk |
| IngredientLists.IngredientsErrors | data/recipes_raw_mats_database_builder.py:243-263 | a list fails only with the resolver's errors |
| IngredientLists.IngredientsNonNegative | data/recipes_raw_mats_database_builder.py:243-263 | with non-negative edge weights no quantity in a list is negative |
| IngredientLists.ConcatIngredients | data/recipes_raw_mats_database_builder.py:218-219 | joining several items' lists fails only with the failure of one of them |
| IngredientLists.CombineHas | data/recipes_raw_mats_database_builder.py:222-225 | the combined dictionary holds a name exactly when it was there or the list names it |
| IngredientLists.CombineSums | data/recipes_raw_mats_database_builder.py:222-225 | the combined dictionary adds to each name the sum of its quantities in the list |
| IngredientLists.CombineValid | data/recipes_raw_mats_database_builder.py:222-225 | combining keeps each name once |
| IngredientLists.BlockIngredients | data/recipes_raw_mats_database_builder.py:227-231 | a block's list is sorted by quantity descending, then by name |
| IngredientLists.BlockSums | data/recipes_raw_mats_database_builder.py:213-231 | a block's list names each material of its items' lists once, with the sum of their quantities for it |
| IngredientLists.BlockErrors | data/recipes_raw_mats_database_builder.py:213-231 | a block's list fails only with a resolver error |
| IngredientLists.Rows | data/recipes_raw_mats_database_builder.py:194-231 | a pass fails only with the error of some row, and succeeds only when every row does |
| IngredientLists.RowsGet | data/recipes_raw_mats_database_builder.py:194-228 | after a pass each name holds its row and every other entry is as it was |
| IngredientLists.RowsValid | data/recipes_raw_mats_database_builder.py:194-195 | a pass keeps each name once |
| IngredientLists.BlocksOnly | data/recipes_raw_mats_database_builder.py:211 | the blocks left are exactly those that are not items |
| IngredientLists.Sorted | data/recipes_raw_mats_database_builder.py:191-208 | sorting keeps exactly the names it was given |
| IngredientLists.ChainAlias | data/recipes_raw_mats_database_builder.py:179-181 | `chain` gets a copy of `iron_chain`'s row only when it has none; nothing else changes |
| IngredientLists.BothPassesGet | data/recipes_raw_mats_database_builder.py:186-231 | after both passes every item holds its ingredient row and every block that is not an item its block row |
| IngredientLists.Assemble | data/recipes_raw_mats_database_builder.py:183-184 | the finished table is sorted by name |
| IngredientLists.AssembleRows | data/recipes_raw_mats_database_builder.py:166-184 | the table has a row exactly for each item, each block and, when `iron_chain` has one, `chain`; an item's row is its list, a block's is its combined list, and a missing `chain` copies `iron_chain` |
| IngredientLists.AssembleErrors | data/recipes_raw_mats_database_builder.py:166-184 | a table that cannot be built fails with the error of some item's or block's row |
| IngredientLists.RawMaterialsTable | data/recipes_raw_mats_database_builder.py:152-184 | the raw-materials table is sorted by name |
| IngredientLists.TableRows | data/recipes_raw_mats_database_builder.py:152-184 | the table holds a row for every item and block and the `chain` alias; an item's row is its ingredient list, a block's that is not an item its combined list |
| IngredientLists.TableErrors | data/recipes_raw_mats_database_builder.py:152-184 | a table that cannot be built fails with a resolver error |
| RecipeListing.ListFrom | recipes_raw_mats_database_builder.py:316-336 | the recursive listing fails only by exceeding the recursion limit, a failed predecessor lookup or a `set.remove` of a node no longer marked |
| RecipeListing.ListAll | recipes_raw_mats_database_builder.py:332-334 | the loop over predecessors fails only in those same three ways |
| RecipeListing.ListFromShape | recipes_raw_mats_database_builder.py:316-336 | the listing only adds to what was found, everything it adds is a raw material by name or a node without predecessors, and no node it marked stays marked |
| RecipeListing.ListCraftingRecipes | recipes_raw_mats_database_builder.py:296-303 | a name that is not a node has no listing |
| RecipeListing.ListCraftingRecipesShape | recipes_raw_mats_database_builder.py:296-336 | a finished listing leaves nothing marked, and everything it reports is a raw material or a node without predecessors |
| RecipeListing.SelfLoopNeverEnds | recipes_raw_mats_database_builder.py:324-334 | the marks are never consulted, so a node that is its own only ingredient recurses until the recursion limit |
| RecipeListing.GuardedFrom | recipes_raw_mats_database_builder.py:316-336 | the walk as its comments describe it, consulting the marks: it fails only by running out of fuel or on a predecessor that is not a node, and a node already being walked is skipped with nothing added |
| RecipeListing.GuardedAll | recipes_raw_mats_database_builder.py:332-334 | the loop over predecessors of that walk fails only in those two ways |
| RecipeListing.GuardedKeepsMarks | recipes_raw_mats_database_builder.py:323-336 | the guarded walk leaves the marks exactly as it found them, at every depth |
| RecipeListing.GuardedAllKeepsMarks | recipes_raw_mats_database_builder.py:332-335 | so does its loop over predecessors |
| RecipeListing.GuardedEnds | recipes_raw_mats_database_builder.py:296-336 | with more fuel than there are unmarked nodes the guarded walk never reaches the recursion limit, whatever cycles the graph holds; it can fail only on a predecessor that is not a node |
| RecipeListing.GuardedAllEnds | recipes_raw_mats_database_builder.py:332-334 | the same for the loop over predecessors |
| RecipeListing.GuardedSelfLoopEnds | recipes_raw_mats_database_builder.py:324-334 | with the marks consulted, a node that is its own only ingredient ends at once and finds nothing |
| McData.Collect | data/parse_mc_data.py:62-66 | the collected table holds each name once, and every size in it is 1 or 16 |
| McData.CollectLast | data/parse_mc_data.py:60-66 | the table names exactly the fields some kept declaration names, each with the size its last kept declaration gives |
| McData.ParseItemsStackSizes | data/parse_mc_data.py:68-69 | the stack-size table is sorted by name |
| McData.StackSizesTable | data/parse_mc_data.py:46-69 | the sorted table holds each name once, exactly the names of the kept declarations, each with its last declaration's size, 1 or 16 |
| McData.StemOfJsonName | data/parse_mc_data.py:34 | `os.path.splitext` of `x.json` gives back `x`, except for names made only of dots |
| McData.JsonStems | data/parse_mc_data.py:33-36 | the stems are exactly those of the listed `.json` files |
| McData.ParseItemsList | data/parse_mc_data.py:21-44 | the item list is sorted, is a permutation of the `.json` stems, and is empty when the listing fails |
| McData.ItemsListMembers | data/parse_mc_data.py:33-39 | a name is listed exactly when some `.json` file gives it |
| VersionTokens.FirstDigit | src/extractor_runner.py:28 | the first digit of the text, or its end when it has none |
| VersionTokens.Run | src/extractor_runner.py:28 | a greedy run takes every matching character up to the first that does not match |
| VersionTokens.MatchLen | src/extractor_runner.py:28 | a match at a digit is at least one character long |
| VersionTokens.Token | src/extractor_runner.py:27-31 | there is no version token exactly when the text has no digit (also extractor/src/main/groovy/com/github/winplay02/gitcraft/SimpleSourceExtractor.java:298-306) |
| VersionTokens.Dotted | src/extractor_runner.py:31 | replacing `_` by `.` keeps the length and leaves no `_` |
| VersionTokens.GroupsStop | src/extractor_runner.py:28 | where the repeated groups stop, no further group could start |
| VersionTokens.MatchIsToken | src/extractor_runner.py:28 | the match at a digit has the shape of a version token |
| VersionTokens.MatchIsLongest | src/extractor_runner.py:28 | no longer prefix is a version token: the match is the longest |
| VersionTokens.TokenIsFirstLongest | src/extractor_runner.py:28-31 | the token found starts at the first digit, is a version token, and no longer stretch from there is one |
| VersionTokens.TokenOfStrip | src/extractor_runner.py:28 | stripping white space before the search does not change what it finds (also extractor/src/main/groovy/com/github/winplay02/gitcraft/SimpleSourceExtractor.java:299) |
| VersionTokens.TokenMatchesInFull | src/extractor_runner.py:28 | a version token is matched in full by the pattern |
| VersionTokens.DottedToken | src/extractor_runner.py:31 | turning `_` into `.` keeps a token a token |
| VersionTokens.DottedTokenIsFixed | src/extractor_runner.py:27-31 | normalising a normalised version changes nothing |
| VersionTokens.Sanitise | src/extractor_runner.py:34-35 | each character is kept when it is a letter, a digit, `.`, `-` or `_`, and becomes `_` otherwise (also extractor/src/main/groovy/com/github/winplay02/gitcraft/SimpleSourceExtractor.java:244-255) |
| VersionTokens.SanitiseIdempotent | src/extractor_runner.py:34-35 | a sanitised segment holds only segment characters, so sanitising again changes nothing |
| VersionTokens.SanitiseFixedIff | src/extractor_runner.py:34-35 | sanitising leaves a text alone exactly when every character is a segment character |
| VersionTokens.DottedIsSegment | src/extractor_runner.py:60-62 | a normalised version is already a clean directory name |
| ExtractorRunner.NormaliseVersion | src/extractor_runner.py:27-31 | a version that cannot be parsed raises `ValueError` and nothing else |
| ExtractorRunner.NormaliseVersionUnstripped | src/extractor_runner.py:27-31 | the version is the first version token of the input with `_` turned into `.`, and parsing fails exactly when the input holds no digit |
| ExtractorRunner.NormaliseVersionIdempotent | src/extractor_runner.py:27-31 | a normalised version is one whole token without `_`, and normalising it again gives it back |
| ExtractorRunner.SanitiseSegment | src/extractor_runner.py:34-35 | the segment keeps its length and holds only letters, digits, `.`, `-` and `_` |
| ExtractorRunner.SanitiseSegmentIdempotent | src/extractor_runner.py:34-35 | sanitising twice is sanitising once, and a clean segment is left as it is |
| ExtractorRunner.SourcesRoot | src/extractor_runner.py:60-62 | the sources of a version live in one directory directly under the game data root, and there is none exactly when the version cannot be parsed |
| ExtractorRunner.LocateSourceFile | src/extractor_runner.py:65-75 | a file found exists; the nested path wins when it exists, the flattened name is the fallback, and nothing is found only when neither exists |
| ExtractorRunner.MissingAny | src/extractor_runner.py:105-106 | true exactly when one of the three target files cannot be located (also src/extractor_runner.py:10-14) |
| ExtractorRunner.EnsureExtractedSources | src/extractor_runner.py:78-84 | on success no target is missing and the version's root is returned; the extractor ran exactly when forced or when a target was missing, and a run that did not happen changed nothing |
| ExtractorRunner.EnsureDecisions | src/extractor_runner.py:78-84 | with nothing missing and no force the extractor is left alone; a run that still leaves a target missing raises `ExtractionError` |
| ExtractorRunner.CopyTargetsCopies | src/extractor_runner.py:91-101 | the copy loop succeeds exactly when every target is located; each copy goes from where a target was found to its name under the destination; without overwrite no existing destination is replaced, and every target allowed to be copied is copied |
| ExtractorRunner.CopySources | src/extractor_runner.py:87-102 | after copying, the directory removed is the version's own sources root |
| ExtractorRunner.CopySourcesSafe | src/extractor_runner.py:87-102 | once the sources are in place the copy cannot fail for a missing file, and without overwrite it never replaces a destination that existed |
| ReleaseWatcher.Accepted | extractor/scripts/check_and_extract_new_versions.py:76-88 | an entry contributes a release only if its type is `release`, it has a non-empty id and a non-empty release time (or, failing that, time) and that time parses; every such entry contributes one |
| ReleaseWatcher.Filter | extractor/scripts/check_and_extract_new_versions.py:75-88 | the loop keeps exactly the releases of the accepted entries |
| ReleaseWatcher.ReleaseManifest | extractor/scripts/check_and_extract_new_versions.py:75-91 | the manifest is a rearrangement of the accepted releases, ordered by release time |
| ReleaseWatcher.ManifestMembers | extractor/scripts/check_and_extract_new_versions.py:75-91 | a release is in the manifest exactly when some entry of type `release` with an id and a parsable time yields it |
| ReleaseWatcher.ArchivedIsComplete | extractor/scripts/check_and_extract_new_versions.py:104-117 | once the version's sources have been copied into its directory and the two shared tables exist, the version counts as complete (also check_and_extract_new_versions.py:152-154) |
| ReleaseWatcher.ReleaseOf | extractor/scripts/check_and_extract_new_versions.py:121 | the release recorded for a version is one of the manifest's releases of that version, and there is none exactly when the manifest has no release of it |
| ReleaseWatcher.Incomplete | extractor/scripts/check_and_extract_new_versions.py:122-123 | the incomplete list holds exactly the manifest releases of the seen versions that are not complete |
| ReleaseWatcher.LastCompleted | extractor/scripts/check_and_extract_new_versions.py:125 | the last completed time is absent exactly when no seen version of the manifest is complete; otherwise it is the release time of a completed version and no completed version is later |
| ReleaseWatcher.Newer | extractor/scripts/check_and_extract_new_versions.py:136-138 | the releases appended are exactly those strictly newer than the last completed time |
| ReleaseWatcher.Fresh | extractor/scripts/check_and_extract_new_versions.py:130-138 | whatever is appended after the incomplete versions is a release of the manifest |
| ReleaseWatcher.Pending | extractor/scripts/check_and_extract_new_versions.py:127-138 | every pending entry is a release of the manifest |
| ReleaseWatcher.Dedupe | extractor/scripts/check_and_extract_new_versions.py:140-142 | the dictionary keys each pending version once, and holds for it one of its pending releases |
| ReleaseWatcher.DedupeStep | extractor/scripts/check_and_extract_new_versions.py:141-142 | assigning one more release keeps each version keyed once with one of its own releases |
| ReleaseWatcher.SortedDedupe | extractor/scripts/check_and_extract_new_versions.py:140-144 | the deduplicated releases, ordered by release time, still key each version once |
| ReleaseWatcher.VersionsToProcess | extractor/scripts/check_and_extract_new_versions.py:120-145 | the queue is ordered by release time, holds each version once and holds only releases of the manifest |
| ReleaseWatcher.IncompleteVersions | extractor/scripts/check_and_extract_new_versions.py:122-123 | a seen version is queued as incomplete exactly when it is in the manifest and not complete |
| ReleaseWatcher.FreshVersions | extractor/scripts/check_and_extract_new_versions.py:130-138 | with nothing complete, the newest release is queued; otherwise exactly the versions with a release strictly newer than the newest completed release |
| ReleaseWatcher.PendingVersions | extractor/scripts/check_and_extract_new_versions.py:120-138 | a version is pending exactly when it is incomplete, or is the newest release with nothing complete, or is newer than the newest completed release |
| ReleaseWatcher.QueueMembers | extractor/scripts/check_and_extract_new_versions.py:120-145 | the queue holds a version exactly when it is pending for one of those three reasons; deduplication and sorting lose none |
| ReleaseWatcher.RunQueue | extractor/scripts/check_and_extract_new_versions.py:211-216 | the releases attempted are a prefix of the queue |
| ReleaseWatcher.RunQueueStopsAtFailure | extractor/scripts/check_and_extract_new_versions.py:211-216 | every attempted release but the last succeeded; the cycle stops early only after a failure, and with no failure the whole queue is processed |
| ReleaseWatcher.PerformCheckCycle | extractor/scripts/check_and_extract_new_versions.py:196-216 | a manifest that cannot be fetched processes nothing; otherwise the releases processed are a prefix of the queue for the seen versions |
| SourceExtractor.NormalizeVersionInput | extractor/src/main/groovy/com/github/winplay02/gitcraft/SimpleSourceExtractor.java:298-306 | input without a version token throws `IllegalArgumentException` and nothing else |
| SourceExtractor.NormalizationsAgree | extractor/src/main/groovy/com/github/winplay02/gitcraft/SimpleSourceExtractor.java:51 | the Java normalisation fails on exactly the inputs the Python driver's does, and otherwise returns the same version, although `String.trim` and `str.strip` remove different characters (also extractor/src/main/groovy/com/github/winplay02/gitcraft/SimpleSourceExtractor.java:298-306) |
| SourceExtractor.SanitizedVersionSegment | extractor/src/main/groovy/com/github/winplay02/gitcraft/SimpleSourceExtractor.java:244-255 | the segment keeps its length; each letter, digit, `.`, `-` or `_` stays in place and every other character becomes `_` |
| SourceExtractor.SegmentOfNormalizedVersion | extractor/src/main/groovy/com/github/winplay02/gitcraft/SimpleSourceExtractor.java:179 | a normalised version is already a clean segment, so the output directory is named after the version itself (also extractor/src/main/groovy/com/github/winplay02/gitcraft/SimpleSourceExtractor.java:244-255) |
| SourceExtractor.ParseIntSafely | extractor/src/main/groovy/com/github/winplay02/gitcraft/SimpleSourceExtractor.java:282-296 | the value read is between 0 and the largest `int`; text that does not start with a digit reads as 0; only a digit run beyond the `int` range throws `NumberFormatException` |
| SourceExtractor.ParseIntSafelyOfNumber | extractor/src/main/groovy/com/github/winplay02/gitcraft/SimpleSourceExtractor.java:282-296 | the decimal digits of a number followed by anything but a digit read back as that number |
| SourceExtractor.PartValue | extractor/src/main/groovy/com/github/winplay02/gitcraft/SimpleSourceExtractor.java:260-263 | a part read as a number is never negative, and a missing part counts as 0 |
| SourceExtractor.IsSupportedVersion | extractor/src/main/groovy/com/github/winplay02/gitcraft/SimpleSourceExtractor.java:257-280 | the check only throws for a part whose digits exceed the `int` range |
| SourceExtractor.SupportedNumbers | extractor/src/main/groovy/com/github/winplay02/gitcraft/SimpleSourceExtractor.java:257-280 | `major.minor.patch`, with or without a `-` suffix, is supported exactly when major > 1 or major = 1 and minor ≥ 21; the patch never matters |
| SourceExtractor.SupportedOfParts | extractor/src/main/groovy/com/github/winplay02/gitcraft/SimpleSourceExtractor.java:257-280 | a version whose part before the first `-` splits into three numbers is supported exactly when it is 1.21 or newer |
| SourceExtractor.ExtractRefusesFirst | extractor/src/main/groovy/com/github/winplay02/gitcraft/SimpleSourceExtractor.java:65-72 | input without a version and versions older than 1.21 are refused with `IllegalArgumentException` before any work, whatever the pipeline would do; a supported version reaches the pipeline normalised |
| SourceExtractor.ExtractFileName | extractor/src/main/groovy/com/github/winplay02/gitcraft/SimpleSourceExtractor.java:203-207 | the file name holds no `/` and is the end of the path right after its last `/`, or the whole path when there is none |
| SourceExtractor.FileNameAfterSlash | extractor/src/main/groovy/com/github/winplay02/gitcraft/SimpleSourceExtractor.java:203-207 | the file name of `dir/name` is `name` |
| SourceExtractor.FileNamesMatchDriver | extractor/src/main/groovy/com/github/winplay02/gitcraft/SimpleSourceExtractor.java:45-49 | the three sources are written under the file names the Python driver looks for in a flattened tree (also extractor/src/main/groovy/com/github/winplay02/gitcraft/SimpleSourceExtractor.java:181-184) |
| SourceExtractor.TryCopyFromJar | extractor/src/main/groovy/com/github/winplay02/gitcraft/SimpleSourceExtractor.java:230-242 | a missing jar or one without the source is skipped, a jar holding it yields the copy, and an unreadable jar throws |
| SourceExtractor.CopyTarget | extractor/src/main/groovy/com/github/winplay02/gitcraft/SimpleSourceExtractor.java:186-199 | the source is copied from the first jar that holds it, every jar before it was skipped, and `IOException` is thrown exactly when no jar yields it |
| SourceExtractor.ExtractSelectedSources | extractor/src/main/groovy/com/github/winplay02/gitcraft/SimpleSourceExtractor.java:186-199 | each target is copied from the jar that one turn of the loop picks, and the extraction fails exactly when some target is in no jar |
| SourceExtractor.FallbackOrder | extractor/src/main/groovy/com/github/winplay02/gitcraft/SimpleSourceExtractor.java:189-198 | the merged jar is used whenever it holds the source, the client jar only when the merged one is skipped, the server jar only when both are, and `IOException` when all three are |
| SourceExtractor.CleanupPathQuietly | extractor/src/main/groovy/com/github/winplay02/gitcraft/SimpleSourceExtractor.java:216-228 | a directory is deleted only when the path is set and lies inside the current working directory, and then it is that path |
| SourceExtractor.CleanupTemporaryArtifacts | extractor/src/main/groovy/com/github/winplay02/gitcraft/SimpleSourceExtractor.java:211-214 | nothing outside the working directory is deleted, only the artifact store and the temporary directory are, and each of them is when it lies inside |
| SourceExtractor.ClampThreads | extractor/src/main/groovy/com/github/winplay02/gitcraft/SimpleSourceExtractor.java:117-118 | the thread count is 1 or 2; a count already in range is kept, lower counts become 1 and higher ones 2 |
| SourceExtractor.ClampRequests | extractor/src/main/groovy/com/github/winplay02/gitcraft/SimpleSourceExtractor.java:122 | at most 16 requests per origin; a lower setting is kept |
| SourceExtractor.Initialize | extractor/src/main/groovy/com/github/winplay02/gitcraft/SimpleSourceExtractor.java:111-124 | remapping and decompiling get one or two threads and an origin at most 16 requests |
| SourceExtractor.InitializeIdempotent | extractor/src/main/groovy/com/github/winplay02/gitcraft/SimpleSourceExtractor.java:111-124 | applying the limits twice is applying them once, and they never invert the order of two settings |
| Decompiler.DecompileJar | extractor/src/main/groovy/com/github/winplay02/gitcraft/pipeline/workers/Decompiler.java:63-134 | no input key or path gives `NOT_RUN`; a non-empty output gives `UP_TO_DATE`; an empty output is deleted exactly when the input is there; no libraries gives `FAILED`; the step throws only when the engine fails; success means the jar was decompiled, and the only artifact ever reported is the output key |
| Decompiler.DecompileRerun | extractor/src/main/groovy/com/github/winplay02/gitcraft/pipeline/workers/Decompiler.java:74-133 | once the output jar is written, decompiling again reports `UP_TO_DATE` with the output key and touches nothing, whatever the libraries or the engine would do now |
| Decompiler.Run | extractor/src/main/groovy/com/github/winplay02/gitcraft/pipeline/workers/Decompiler.java:52-58 | the merged jar is always tried first and ends the step when its outcome is successful; otherwise the client and server jars are both tried, after a merged attempt that did not throw and was not successful |
| Decompiler.MergedUpToDateEndsRun | extractor/src/main/groovy/com/github/winplay02/gitcraft/pipeline/workers/Decompiler.java:52-76 | a merged jar already decompiled ends the step with `UP_TO_DATE`, whatever the client and server jars are like |
| Decompiler.NoMergedJarFallsBack | extractor/src/main/groovy/com/github/winplay02/gitcraft/pipeline/workers/Decompiler.java:56-67 | without a merged jar the step's outcome is the merge of the client's and the server's |
| Decompiler.SortKeyRemovesDashes | extractor/src/main/groovy/com/github/winplay02/gitcraft/pipeline/workers/Decompiler.java:128 | libraries are sorted by their name with every `-` taken out |
| Decompiler.LibraryDependencies | extractor/src/main/groovy/com/github/winplay02/gitcraft/pipeline/workers/Decompiler.java:128 | one non-virtual dependency per library, in order |
| Decompiler.Dependencies | extractor/src/main/groovy/com/github/winplay02/gitcraft/pipeline/workers/Decompiler.java:126-129 | the dependency list starts with the virtual `Java <version>` entry, followed by a rearrangement of the libraries sorted by name without dashes, none of them virtual |
| Decompiler.DependenciesMembers | extractor/src/main/groovy/com/github/winplay02/gitcraft/pipeline/workers/Decompiler.java:126-129 | a library appears after the Java entry exactly when it is one of the version's libraries |
| Launchable.EnsurePublic | extractor/src/main/groovy/com/github/winplay02/gitcraft/launcher/LaunchPrepareLaunchableFile.java:127-132 | the widened flags are always public or private |
| Launchable.EnsurePublicKeeps | extractor/src/main/groovy/com/github/winplay02/gitcraft/launcher/LaunchPrepareLaunchableFile.java:128-129 | flags with `ACC_PUBLIC` or `ACC_PRIVATE` set are returned unchanged |
| Launchable.EnsurePublicSets | extractor/src/main/groovy/com/github/winplay02/gitcraft/launcher/LaunchPrepareLaunchableFile.java:131 | any other flags become public, lose `ACC_PROTECTED`, stay non-private, and keep every other bit as it was |
| Launchable.EnsurePublicIdempotent | extractor/src/main/groovy/com/github/winplay02/gitcraft/launcher/LaunchPrepareLaunchableFile.java:127-132 | widening twice is widening once |
| Launchable.EnsurePublicWidens | extractor/src/main/groovy/com/github/winplay02/gitcraft/launcher/LaunchPrepareLaunchableFile.java:127-132 | widening never narrows visibility: every member ends up public except a private one, which stays exactly as it was |
| Launchable.EnsureAllPublic | extractor/src/main/groovy/com/github/winplay02/gitcraft/launcher/LaunchPrepareLaunchableFile.java:112-120 | every flag word of a list is widened, in place and in order |
| Launchable.TransformClassToPublicAccess | extractor/src/main/groovy/com/github/winplay02/gitcraft/launcher/LaunchPrepareLaunchableFile.java:106-125 | the class and all its fields, methods and inner classes end up public or private, and none is added or dropped |
| Launchable.TransformIdempotent | extractor/src/main/groovy/com/github/winplay02/gitcraft/launcher/LaunchPrepareLaunchableFile.java:106-125 | transforming a class a second time changes nothing |
| Launchable.ModifiedActions | extractor/src/main/groovy/com/github/winplay02/gitcraft/launcher/LaunchPrepareLaunchableFile.java:37-84 | the first loop handles every entry of the remapped jar except a `META-INF` directory holding a manifest; a file is transformed exactly when it is a class file and the flavour needs package fixing, and copied otherwise |
| Launchable.OriginalActions | extractor/src/main/groovy/com/github/winplay02/gitcraft/launcher/LaunchPrepareLaunchableFile.java:85-98 | the second loop writes the new manifest exactly when the original jar has `META-INF`, never copies a class file, and copies a directory only under a name the output does not hold yet |
| Launchable.Targets | extractor/src/main/groovy/com/github/winplay02/gitcraft/launcher/LaunchPrepareLaunchableFile.java:71-86 | every action's output name is among the names written |
| Launchable.FirstFailure | extractor/src/main/groovy/com/github/winplay02/gitcraft/launcher/LaunchPrepareLaunchableFile.java:63-102 | the position found is the first failing action; with none, every action succeeds |
| Launchable.Run | extractor/src/main/groovy/com/github/winplay02/gitcraft/launcher/LaunchPrepareLaunchableFile.java:49-104 | a non-empty output jar gives `UP_TO_DATE` and does nothing; otherwise the actions run in order, only successful ones are done, a failure deletes the output and rethrows, and `SUCCESS` is reported exactly when no action fails |
| Launchable.PlanContents | extractor/src/main/groovy/com/github/winplay02/gitcraft/launcher/LaunchPrepareLaunchableFile.java:70-98 | a complete run writes the new manifest exactly when the original has `META-INF`, transforms only class files and only under package fixing, and copies no class file of the original (also extractor/src/main/groovy/com/github/winplay02/gitcraft/launcher/LaunchPrepareLaunchableFile.java:37-40) |
| Launchable.PlanKeepsModified | extractor/src/main/groovy/com/github/winplay02/gitcraft/launcher/LaunchPrepareLaunchableFile.java:72-96 | nothing the remapped jar wrote is overwritten by a directory of the original, and the remapped `META-INF` reaches the output only when it holds no manifest |
| IdentityMappings.UsableImpliesExists | extractor/src/main/groovy/com/github/winplay02/gitcraft/mappings/IdentityMappings.java:36-49 | the flavour is usable on every variant of every version, and usable implies the mappings exist for the jar and the version |
| IdentityMappings.ProvideMappings | extractor/src/main/groovy/com/github/winplay02/gitcraft/mappings/IdentityMappings.java:51-54 | providing the mappings always succeeds with `SUCCESS` |
| IdentityMappings.MappingsPath | extractor/src/main/groovy/com/github/winplay02/gitcraft/mappings/IdentityMappings.java:56-59 | there is never a mappings file |
| IdentityMappings.Visit | extractor/src/main/groovy/com/github/winplay02/gitcraft/mappings/IdentityMappings.java:61-64 | the visitor is told only the source namespace, with no destination namespace |
| IdentityMappings.Remap | extractor/src/main/groovy/com/github/winplay02/gitcraft/mappings/IdentityMappings.java:66-69 | remapping hands back the file it was given |
| IdentityMappings.IdentityLaunchCopiesClasses | extractor/src/main/groovy/com/github/winplay02/gitcraft/mappings/IdentityMappings.java:26-29 | because the flavour needs no package fixing, preparing the launchable jar transforms nothing and copies every file of the remapped jar as it is |
| BuildMeta.CompareTo | extractor/src/main/groovy/com/github/winplay02/gitcraft/meta/GameVersionBuildMeta.java:4-7 | the comparison is -1, 0 or 1 and agrees with the order of the build numbers alone |
| BuildMeta.CompareToOrder | extractor/src/main/groovy/com/github/winplay02/gitcraft/meta/GameVersionBuildMeta.java:4-7 | swapping the operands negates the result, the order is transitive, and records with equal builds compare alike whatever their other fields |
| BuildMeta.MakeMavenUrl | extractor/src/main/groovy/com/github/winplay02/gitcraft/meta/GameVersionBuildMeta.java:10-12 | the URL exists exactly when the coordinate holds at least two `:`; otherwise a `substring` throws `IndexOutOfBoundsException` |
| BuildMeta.MavenUrlOfCoordinate | extractor/src/main/groovy/com/github/winplay02/gitcraft/meta/GameVersionBuildMeta.java:10-12 | for `g:a:v` the URL is the base, `g` with `/` for `.`, then `/a/v/`, `a-v` and the extension |
| BuildMeta.MavenUrlNeedsTwoColons | extractor/src/main/groovy/com/github/winplay02/gitcraft/meta/GameVersionBuildMeta.java:11 | a coordinate with no `:` or with a single one has no URL |
| BuildMeta.MavenUrlExample | extractor/src/main/groovy/com/github/winplay02/gitcraft/meta/GameVersionBuildMeta.java:10-12 | `com.foo:bar:1.0` under `https://repo/` with `.jar` gives `https://repo/com/foo/bar/1.0/bar-1.0.jar` |
| Sparrow.VersionKeysDistinct | extractor/src/main/groovy/com/github/winplay02/gitcraft/signatures/ornithe/SparrowSignatures.java:42-46 | the merged key is the bare version name, the others extend it, and the three variants are looked up under three different keys |
| Sparrow.DoSignaturesExist | extractor/src/main/groovy/com/github/winplay02/gitcraft/signatures/ornithe/SparrowSignatures.java:58-69 | signatures exist for a version exactly when they exist for the client, the server or the merged jar; a failed lookup counts as none |
| Sparrow.UsedJar | extractor/src/main/groovy/com/github/winplay02/gitcraft/signatures/ornithe/SparrowSignatures.java:72-76 | the merged variant replaces the one asked for exactly when the version lacks shared versioning or shares obfuscation (also SparrowSignatures.java:124-127) |
| Sparrow.CanSignaturesBeUsedOn | extractor/src/main/groovy/com/github/winplay02/gitcraft/signatures/ornithe/SparrowSignatures.java:72-76 | usable signatures exist for the version; the merged jar's are checked when the substitution applies, the requested jar's otherwise |
| Sparrow.SignaturesFileName | extractor/src/main/groovy/com/github/winplay02/gitcraft/signatures/ornithe/SparrowSignatures.java:98-121 | the file name starts with the version key and ends with the extension |
| Sparrow.SignaturesPath | extractor/src/main/groovy/com/github/winplay02/gitcraft/signatures/ornithe/SparrowSignatures.java:98-121 | there is a path exactly when a build exists; it is the file `<key>-ornithe-sparrow-build.<build><ext>` directly in the patch store |
| Sparrow.SigsAndJarDiffer | extractor/src/main/groovy/com/github/winplay02/gitcraft/signatures/ornithe/SparrowSignatures.java:98-121 | the signatures file and the jar they come from are different files |
| Sparrow.ProvideSignatures | extractor/src/main/groovy/com/github/winplay02/gitcraft/signatures/ornithe/SparrowSignatures.java:79-96 | a failed lookup throws; no build gives `NOT_RUN`; a file that exists and validates gives `UP_TO_DATE`; otherwise the file is deleted, the jar downloaded and the signatures copied out, and the result is the download's status merged with `SUCCESS` |
| Sparrow.ProvideTwice | extractor/src/main/groovy/com/github/winplay02/gitcraft/signatures/ornithe/SparrowSignatures.java:79-96 | once provided signatures are in place and validate, providing them again reports `UP_TO_DATE` and does nothing |
| Sparrow.Visit | extractor/src/main/groovy/com/github/winplay02/gitcraft/signatures/ornithe/SparrowSignatures.java:123-132 | the signatures read are the served variant's, and a missing build throws `NullPointerException` |
| Sparrow.VisitMatchesCheck | extractor/src/main/groovy/com/github/winplay02/gitcraft/signatures/ornithe/SparrowSignatures.java:123-132 | reading succeeds exactly for the requests `canSignaturesBeUsedOn` accepts (also SparrowSignatures.java:72-76) |

## Left out

- The Qt and tkinter GUIs: widgets, dialogs and styling. The material totals and the ice ratios that are computed inside the widget are left out too; compaction and formatting are modelled through the backend and the helpers.
- Network access: downloading game data, `download_file`, the version manifest request and the Sparrow Maven download. The manifest is a `Result` of entries, the latest-build lookup is a function that may fail, and the download is a `Result` status.
- The file system: reading and writing files, `mkdir`, `rmtree`, directory listings and `copyLargeDir`. Each step takes what it would have read as a parameter: existence predicates, lines read, directory entries. It returns what it decides to write, copy or delete.
- `versioned_game_data.py`, the configuration files, `main.py`, `resource_path.py`, `build_exe.py` and the one-shot release script: these only load and save files around the modelled functions.
- The external engines: the Gradle subprocess, the Vineflower/Fernflower decompiler (a success flag per jar variant), ASM `ClassReader`/`ClassWriter` (a class is its access flags and those of its members), jar file systems, litemapy's schematic loader (its result is a parameter), and networkx/matplotlib.
- The regular-expression engine, Unicode character categories and Unicode case mapping. Each pattern is written out as the character predicates it matches, ASCII only (control characters stand for Unicode category C). `$` matching before a final newline is not modelled, because the names read never end in one.
- Dates: `parse_release_time` is a parameter that yields an integer time or fails.
- Floating point: recipe weights and quantities are exact rationals (`real`), so rounding differences of Python floats do not show.
- Python's recursion limit: the resolver and the recipe listing take a `fuel` bound and fail with `RecursionError` when it runs out. How deep Python actually gets before it raises is not modelled.
- The `TableCols` records `tv` and `tt` of src/porting.py: they are modelled as JSON objects keyed by the dataclass field names, and `copy.deepcopy` of such a record is the record itself, since values are immutable here.
- The constant tables of src/constants.py and constants.py (the limited-stack table, `ITEM_TAGS`, `BLOCK_TAGS`, `GOLEM_RECIPES`, the entity lists, `TAGGED_MATERIALS_BASE`): they are data loaded at import time, so they are parameters.
- The condensing table: src/S2RM_backend.py:9 imports `CONDENSABLES` from src/constants.py, which does not define it (nor does constants.py), so importing src/S2RM_backend.py as written raises ImportError. The model takes the table read at src/S2RM_backend.py:118-119 as a parameter, as if it were defined.
- `StepStatus.merge`, `StepStatus.isSuccessful`, `StepOutput.merge`, `validateSignatures` and `makeJarMavenUrl`: their code is not part of this model, so they are parameters or predicates.
- The Java `int` width: the version parts read by `parseIntSafely` are bounded by the largest `int` and fail beyond it. Build numbers and the Java version are unbounded integers.
- Java's `createDirectories` calls and Python's `ensure_data_directory`: they create parent directories and decide nothing.
- The `visit` namespaces of the identity mappings: the source namespace comes from a base class that is not part of this model, so it is a parameter.
- Effects before an exception: when a step fails, only its `Err` result is modelled. What it wrote before failing is modelled only where the source cleans up, as the launchable step deleting its output.
- Sort stability: the sort is a stable insertion sort, but the contracts state only that the output is an ordered rearrangement of the input.
- Insertion order of the material accumulators: the entity and condensing accumulators are maps, so the order in which a Python `dict` would list their keys is not modelled. Key order of a saved table is not modelled either; the tables are maps.
- Directory entries other than regular files and directories (links, special files) in the launchable-jar step.
- `display_graph_sample` and the other print-only and plotting functions, and the duplicate or stub files: the copy of the builder under `scripts_to_generate_raw_mats_4_all_items/`, `get_116_stacks.py`, the root `parse_mc_data.py`, `raw_materials_calc.py` and `items_json_to_list.py`.
- `list_missing_sources` and `cleanup_extractor_runtime` of src/extractor_runner.py: the first repeats `_missing_any` as a generator, and the second only deletes fixed directories.
- RecipeListing.ListFromShape: it states only that a nested call leaves no more nodes marked than it found. A node already marked on entry can be unmarked by an inner `set.remove`, so "exactly as it found it" holds only for the outermost call; `ListCraftingRecipesShape` states that.
- Helpers.LegacyConvertBlockToItem: its own contract states only that the older conversion gives one or two items. Its agreement with the current rules is stated by `Helpers.LegacyConvertAgrees`, and only for names no special rule touches.
- VersionedJson.UpdateKeepsEarlier: stated only for a version above every stored one. Storing a version between two stored ones can change what the later one expands to, because the later one's diff was taken against the older baseline.
- VersionedJson.UpdateThenApply: the payload read back equals the stored one under Python's `==`, not value for value: an item stored as `1.0` over a baseline `1` reads back as `1`.
- Entities.CountValue: a float count is a TypeError in the model. Python would add it and turn the total into a float, but the material totals here are integers.
- Entities.StrOf: the text `str()` gives a float, list or compound is a parameter of the tables (`text`). Python's float and container formatting is not modelled.
- Entities.EnchantmentLevels: when several levels fail `int()` in different ways, Python raises the error of the first one in the compound's order. Compounds are unordered here, so the model reports a TypeError before a ValueError.
- Entities.LevelOf: when a compound holds both `minecraft:<name>` and `<name>`, Python's comprehension keeps the key that comes later. Compounds are unordered here, so the model takes the namespaced key. A key holding `minecraft:` elsewhere than at its start is looked up only as written.
- Entities.ArmorMaterials, Entities.HandMaterials: these carry no contract of their own. Their effect is stated through `HeadgearAdded` and the `ProcessEnchantedItem` lemmas.
- Porting.ExcludeTexts: a float count for an item that is not a shulker box is a TypeError in the model. Python formats it from the floored parts of its floor division (`2.5` shows as `2`), which needs float arithmetic, left out above; a shulker box's float count is truncated as `int()` truncates it. An item column that is text rather than a list, or an item name that is not text, is also a TypeError here; Python would iterate the characters of such text, and `in` on a list or object holding `shulker_box` would not raise.
- Porting.ToV7AsWritten: inherits the float count and non-text item cases of `Porting.ExcludeTexts`, which are a TypeError here.
- Porting.ExcludeCountsOverwritten: requires the first count not to be text, because a shulker box's text count such as `"12"` is formatted back to the same text and the overwrite then cannot be seen.
- Porting.ToV7: inherits the float count and non-text item cases of `Porting.ExcludeTexts`, which are a TypeError here.
- Strings.ParseInt: only ASCII digits and the ASCII whitespace of `IsSpace` are read. Python's `int()` also accepts other Unicode decimal digits and Unicode whitespace, which the texts read here do not hold.
- Entities.IntOf: a level given as text inherits the ASCII-only reading of `Strings.ParseInt`.
- Porting.LegacyToV7: the root generation's dictionary branch of `format_quantities` is modelled only for lists of integers; any other element gives `TypeError`.
- Recipes.JoinRows: a JSON object in place of the rows is a TypeError in the model. Python would join the object's keys in file order, which a map does not keep; recipe files hold a list of rows there.
- Recipes.ShapelessIngredients: a JSON object in place of the ingredient list is a TypeError in the model. Python would iterate the object's keys in file order, which a map does not keep; recipe files hold a list there.

## Findings

Nothing here was executed; each row is read off the code and shown by the lemma named in the as-written cell.

| source | as written | input that shows it | evidently intended | confidence | as-written member | corrected member |
|---|---|---|---|---|---|---|
| src/S2RM_backend.py:153-158 | the first cleaning stage removes `$` and everything after it before the `\$.*` special case is checked, so that case can never match | `$zombie` is looked up as the empty name (MaterialLists.DollarNameCollapses) | a `$name` marker keeps its `$`, and the rest is cleaned and lower-cased like any name, as the comment above the pattern says | high, not executed | MaterialLists.ConvertNameToTagAsWritten | MaterialLists.ConvertNameToTag |
| S2RM_backend.py:204-206 | `materials["iron_block"] = materials.get("iron_ingot", 0) + 4` reads the ingot count instead of the block count | two iron golems give 4 iron blocks, not 8 (Entities.IronGolemsAsWrittenLoseBlocks) | `materials.get("iron_block", 0) + 4` | high, not executed | Entities.LegacyNameMaterialsAsWritten | Entities.LegacyNameMaterials |
| helpers.py:78-89 | the shorthand of a zero count joins no parts and gives the empty text | a count of 0 shows as "", which the exclude parser rejects with -1 (Quantities.LegacyShorthandOfZero) | "0", as src/helpers.py later writes, which the parser reads back as every count (Quantities.ShorthandRoundTrip) | medium, not executed | Quantities.LegacyShorthand | Quantities.Shorthand |
| src/porting.py:99-101 | the popped default `[]` is wrapped in a list | a table without `litematica_mats_list_path` gets `material_list_paths == [[]]`, one path that is an empty list (Porting.MissingPathBecomesEmptyPath) | no paths, `[]`, as porting.py does | high, not executed | Porting.ToV6AsWritten | Porting.ToV6 |
| src/porting.py:103-114 | `exclude_text` is bound to the same list object as `exclude_values`, so formatting the text column overwrites the counts | a table with `exclude_input == [5]` ends with `exclude_values` holding the text "5" instead of the number 5 (Porting.ExcludeCountsOverwritten) | a separate text list, with the counts kept as numbers | high, not executed | Porting.ToV7AsWritten | Porting.ToV7 |
| src/constants.py:28-32 | in `raw_\w+(?!_block)` the look-ahead is checked after `\w+` has taken the whole rest of the name, where nothing follows, so it never rejects | `raw_iron_block` is taken as a raw material and never broken down into raw iron (RecipeGraph.RawBlocksAreAxioms, RawMaterials.RawBlockResolution) | storage blocks of raw ore are not raw materials | high, not executed | RecipeGraph.AxiomAsWritten | RecipeGraph.Axiom |
| src/porting.py:129 | `tt = tv.deepcopy()`, but the `TableCols` dataclass (src/helpers.py:14-29) has no `deepcopy` method | any table of version 3 to 7 whose earlier steps succeed raises AttributeError in the step to version 8 (Porting.CurrentPortingRaises) | `copy.deepcopy(tv)`, a copy whose `exclude` is then the popped text (Porting.ToV8RoundTrip) | high, not executed | Porting.ToV8AsWritten | Porting.ToV8 |
| src/porting.py:68-74 | the final check reads `input_items` and the other columns after the step to version 8 has popped them into `tv` | even with the copy fixed, a complete version 7 table raises KeyError (Porting.MovedColumnsFailCheck, Porting.IntendedStepsStillRaise) | the columns checked while they are still columns, then moved (Porting.IntendedPortOfSeven) | medium, not executed | Porting.ForwardportJson | Porting.ForwardportIntended |
| recipes_raw_mats_database_builder.py:316-336 | `visited` is added to and removed from but never consulted, although the comments say it tracks visited nodes to detect cycles | a node whose only ingredient is itself recurses until the recursion limit (RecipeListing.SelfLoopNeverEnds) | a node already being walked is skipped, so every walk ends (RecipeListing.GuardedSelfLoopEnds, RecipeListing.GuardedEnds) | medium, not executed | RecipeListing.ListFrom | RecipeListing.GuardedFrom |

=== FILE: build_meta.dfy ===
/**
 * The build metadata of a game version as the mapping and signature
 * providers list it (GameVersionBuildMeta.java): builds are ordered by
 * their build number alone, and the Maven coordinate `group:artifact:version`
 * is turned into the download URL of the artifact.
 */
module BuildMeta {
  import opened Results
  import opened Strings

  /** One published build of the metadata for a game version. */
  datatype GameVersionBuildMeta = GameVersionBuildMeta(
    gameVersion: string,
    separator: string,
    build: int,
    maven: string,
    version: string,
    stable: bool)

  /** `compareTo`: `Integer.compare` of the two build numbers, so -1, 0 or 1. */
  function CompareTo(a: GameVersionBuildMeta, b: GameVersionBuildMeta): (r: int)
    ensures r == -1 || r == 0 || r == 1
    ensures r == 0 <==> a.build == b.build
    ensures r < 0 <==> a.build < b.build
    ensures r > 0 <==> a.build > b.build
  {
    if a.build < b.build then -1 else if a.build == b.build then 0 else 1
  }

  /**
   * The order is a total preorder on builds: swapping the operands negates
   * the result, it is transitive, and records that differ only outside the
   * build number are equal to it.
   */
  lemma CompareToOrder(a: GameVersionBuildMeta, b: GameVersionBuildMeta, c: GameVersionBuildMeta)
    ensures CompareTo(a, b) == -CompareTo(b, a)
    ensures CompareTo(a, b) <= 0 && CompareTo(b, c) <= 0 ==> CompareTo(a, c) <= 0
    ensures a.build == b.build ==> CompareTo(a, c) == CompareTo(b, c)
  {
  }

  /** `String.indexOf(char)`: the first position of `c`, or -1. */
  function IndexOf(s: string, c: char): (r: int)
    ensures -1 <= r < |s|
    ensures r >= 0 ==> s[r] == c && c !in s[..r]
    ensures r < 0 <==> c !in s
  {
    if |s| == 0 then -1
    else if s[0] == c then 0
    else
      var k := IndexOf(s[1..], c);
      assert forall x :: x in s <==> x == s[0] || x in s[1..];
      if k < 0 then -1
      else
        assert s[..k + 1] == [s[0]] + s[1..][..k];
        k + 1
  }

  /** `String.lastIndexOf(char)`: the last position of `c`, or -1. */
  function LastIndexOf(s: string, c: char): (r: int)
    ensures -1 <= r < |s|
    ensures r >= 0 ==> s[r] == c && c !in s[r + 1..]
    ensures r < 0 <==> c !in s
  {
    if |s| == 0 then -1
    else if s[|s| - 1] == c then |s| - 1
    else
      var init := s[..|s| - 1];
      var k := LastIndexOf(init, c);
      assert forall x :: x in s <==> x in init || x == s[|s| - 1] by {
        assert s == init + [s[|s| - 1]];
      }
      if k < 0 then -1
      else
        assert s[k + 1..] == init[k + 1..] + [s[|s| - 1]];
        k
  }

  /** The coordinate holds at least two `:`. */
  predicate TwoColons(maven: string) {
    exists j, k :: 0 <= j < k < |maven| && maven[j] == ':' && maven[k] == ':'
  }

  /**
   * `makeMavenUrl`: the base URL, the group with its dots turned into
   * slashes, the artifact, the version, then the file name `artifact-version`
   * followed by the extension. The artifact lies between the first and the
   * last `:`; with fewer than two of them one of the `substring` calls has
   * its bounds the wrong way round and throws.
   */
  function MakeMavenUrl(baseUrl: string, maven: string, ext: string): (r: Result<string>)
    ensures r.Err? ==> r.error == IndexOutOfBounds
    ensures r.Ok? <==> TwoColons(maven)
  {
    var i := IndexOf(maven, ':');
    var l := LastIndexOf(maven, ':');
    if i < 0 then Err(IndexOutOfBounds)
    else if i + 1 > l then Err(IndexOutOfBounds)
    else Ok(UrlOf(baseUrl, maven, i, l, ext))
  }

  /** The URL assembled from the coordinate cut at its first `:` (index `i`) and its last (index `l`). */
  function UrlOf(baseUrl: string, maven: string, i: nat, l: nat, ext: string): string
    requires i < l < |maven|
  {
    baseUrl + ReplaceChar(maven[..i], '.', '/') + "/" + maven[i + 1..l] + "/" + maven[l + 1..] + "/"
      + ReplaceChar(maven[i + 1..], ':', '-') + ext
  }

  /** Replacing a character the text does not hold leaves it unchanged. */
  lemma ReplaceAbsent(s: string, a: char, b: char)
    requires a !in s
    ensures ReplaceChar(s, a, b) == s
  {
  }

  /** The coordinate `g:a:v`. */
  function Coordinate(g: string, a: string, v: string): string {
    g + ([':'] + (a + ([':'] + v)))
  }

  /** The first `c` of `x c y` is the one after `x` when `x` holds none. */
  lemma IndexOfAfter(x: string, c: char, y: string)
    requires c !in x
    ensures IndexOf(x + ([c] + y), c) == |x|
  {
    var s := x + ([c] + y);
    var r := IndexOf(s, c);
    assert s[|x|] == c;
  }

  /** The last `c` of `x c y` is the one before `y` when `y` holds none. */
  lemma LastIndexOfBefore(x: string, c: char, y: string)
    requires c !in y
    ensures LastIndexOf(x + ([c] + y), c) == |x|
  {
    var s := x + ([c] + y);
    var r := LastIndexOf(s, c);
    assert s[|x|] == c;
  }

  /** The first and last `:` of `g:a:v` when no part holds one. */
  lemma CoordinateColons(g: string, a: string, v: string)
    requires ':' !in g && ':' !in a && ':' !in v
    ensures IndexOf(Coordinate(g, a, v), ':') == |g|
    ensures LastIndexOf(Coordinate(g, a, v), ':') == |g| + 1 + |a|
  {
    IndexOfAfter(g, ':', a + ([':'] + v));
    assert Coordinate(g, a, v) == (g + ([':'] + a)) + ([':'] + v);
    LastIndexOfBefore(g + ([':'] + a), ':', v);
  }

  /** The pieces `makeMavenUrl` cuts out of `g:a:v`, `i` and `l` being the positions of its two `:`. */
  lemma CoordinateSlices(g: string, a: string, v: string, i: nat, l: nat)
    requires i == |g| && l == |g| + 1 + |a|
    ensures l < |Coordinate(g, a, v)|
    ensures Coordinate(g, a, v)[..i] == g
    ensures Coordinate(g, a, v)[i + 1..] == a + ([':'] + v)
    ensures Coordinate(g, a, v)[i + 1..l] == a
    ensures Coordinate(g, a, v)[l + 1..] == v
  {
    var m := Coordinate(g, a, v);
    var t := a + ([':'] + v);
    assert m[i + 1..] == t;
    assert m[i + 1..l] == t[..|a|];
    assert m[l + 1..] == t[|a| + 1..];
  }

  /** Replacing a character in two joined texts replaces it in each. */
  lemma ReplaceAppend(x: string, y: string, a: char, b: char)
    ensures ReplaceChar(x + y, a, b) == ReplaceChar(x, a, b) + ReplaceChar(y, a, b)
  {
    var l := ReplaceChar(x + y, a, b);
    var r := ReplaceChar(x, a, b) + ReplaceChar(y, a, b);
    assert forall i :: 0 <= i < |x| ==> l[i] == r[i];
    assert forall i :: |x| <= i < |l| ==> l[i] == r[i];
  }

  /** Turning the `:` of `a:v` into `-` when neither part holds one. */
  lemma ReplaceSeparator(a: string, v: string)
    requires ':' !in a && ':' !in v
    ensures ReplaceChar(a + ([':'] + v), ':', '-') == a + (['-'] + v)
  {
    ReplaceAppend(a, [':'] + v, ':', '-');
    ReplaceAppend([':'], v, ':', '-');
    ReplaceAbsent(a, ':', '-');
    ReplaceAbsent(v, ':', '-');
  }

  /**
   * For a coordinate `g:a:v` whose parts hold no `:`, the URL is the base,
   * `g` with `/` for `.`, then `/a/v/a-v` and the extension.
   */
  lemma MavenUrlOfCoordinate(baseUrl: string, g: string, a: string, v: string, ext: string)
    requires ':' !in g && ':' !in a && ':' !in v
    ensures MakeMavenUrl(baseUrl, Coordinate(g, a, v), ext)
      == Ok(baseUrl + ReplaceChar(g, '.', '/') + "/" + a + "/" + v + "/" + (a + (['-'] + v)) + ext)
  {
    var m := Coordinate(g, a, v);
    var i := |g|;
    var l := |g| + 1 + |a|;
    CoordinateColons(g, a, v);
    CoordinateSlices(g, a, v, i, l);
    MavenUrlAt(baseUrl, m, ext, i, l);
    ReplaceSeparator(a, v);
    UrlOfParts(baseUrl, m, i, l, ext, g, a, v);
  }

  /** `makeMavenUrl` once the first and last `:` are known and distinct. */
  lemma MavenUrlAt(baseUrl: string, m: string, ext: string, i: nat, l: nat)
    requires IndexOf(m, ':') == i && LastIndexOf(m, ':') == l && i < l < |m|
    ensures MakeMavenUrl(baseUrl, m, ext) == Ok(UrlOf(baseUrl, m, i, l, ext))
  {
  }

  /** The URL in terms of the pieces cut out of the coordinate. */
  lemma UrlOfParts(baseUrl: string, m: string, i: nat, l: nat, ext: string, g: string, a: string, v: string)
    requires i < l < |m|
    requires m[..i] == g && m[i + 1..l] == a && m[l + 1..] == v
    requires ReplaceChar(m[i + 1..], ':', '-') == a + (['-'] + v)
    ensures UrlOf(baseUrl, m, i, l, ext)
      == baseUrl + ReplaceChar(g, '.', '/') + "/" + a + "/" + v + "/" + (a + (['-'] + v)) + ext
  {
  }

  /**
   * A coordinate with no `:`, or with a single one, has no URL: the
   * `substring` bounds of the group or of the artifact are invalid.
   */
  lemma MavenUrlNeedsTwoColons(baseUrl: string, g: string, a: string, ext: string)
    requires ':' !in g && ':' !in a
    ensures MakeMavenUrl(baseUrl, g, ext) == Err(IndexOutOfBounds)
    ensures MakeMavenUrl(baseUrl, g + ([':'] + a), ext) == Err(IndexOutOfBounds)
  {
    IndexOfAfter(g, ':', a);
    LastIndexOfBefore(g, ':', a);
  }

  /** The URL of `com.foo:bar:1.0` under `https://repo/` for a `.jar`. */
  lemma MavenUrlExample()
    ensures MakeMavenUrl("https://repo/", "com.foo:bar:1.0", ".jar") == Ok("https://repo/com/foo/bar/1.0/bar-1.0.jar")
  {
    ExampleCoordinate();
    MavenUrlOfCoordinate("https://repo/", "com.foo", "bar", "1.0", ".jar");
    ExampleGroup();
    ExampleUrl();
  }

  lemma ExampleCoordinate()
    ensures "com.foo:bar:1.0" == Coordinate("com.foo", "bar", "1.0")
  {
  }

  lemma ExampleGroup()
    ensures ReplaceChar("com.foo", '.', '/') == "com/foo"
  {
  }

  lemma ExampleUrl()
    ensures "https://repo/" + "com/foo" + "/" + "bar" + "/" + "1.0" + "/" + ("bar" + (['-'] + "1.0")) + ".jar"
      == "https://repo/com/foo/bar/1.0/bar-1.0.jar"
  {
  }
}

=== FILE: condense.dfy ===
/**
 * Ingot-to-block compaction: a quantity of a compactable resource becomes
 * whole blocks plus the remainder. Quantities are exact rationals; Python's
 * floats are not modelled.
 *
 * Three generations: src/S2RM_backend.py (ingots plus a CONDENSABLES table,
 * passed in), the frontend's module-level copy (an explicit chain of names),
 * and the root S2RM_backend.py (the same chain plus honey).
 */
module Condense {
  import opened Results
  import opened Strings
  import H = Helpers

  /** Materials with fractional amounts, as the raw-material totals hold them. */
  type Amounts = map<string, real>

  /** A compaction rule: the block a resource packs into and how many make one block. */
  datatype Rule = Rule(block: string, factor: nat)

  /** `materials[k] = materials.get(k, 0) + x`. */
  function Credit(m: Amounts, k: string, x: real): (r: Amounts)
    ensures k in r && r[k] == H.MapGetOr(m, k, 0.0) + x
    ensures r.Keys == m.Keys + {k}
    ensures forall j :: j in m && j != k ==> r[j] == m[j]
  {
    m[k := H.MapGetOr(m, k, 0.0) + x]
  }

  /** `int(quantity // compact_num)`: floor division of the quantity. */
  function BlocksOf(q: real, factor: nat): (b: int)
    requires factor > 0
    ensures b as real * factor as real <= q < (b + 1) as real * factor as real
  {
    var b := (q / factor as real).Floor;
    FloorScale(q, factor as real, b);
    b
  }

  /** The floor of `q / f`, scaled back by `f`, brackets `q`. */
  lemma FloorScale(q: real, f: real, k: int)
    requires f > 0.0 && k == (q / f).Floor
    ensures k as real * f <= q < (k + 1) as real * f
  {
    var x := q / f;
    var hi := (k + 1) as real;
    assert q == x * f;
    assert q < hi * f by {
      assert x < hi;
      MulLess(x, hi, f);
    }
    assert k as real * f <= q by {
      assert k as real <= x;
      MulLe(k as real, x, f);
    }
  }

  lemma MulLess(a: real, b: real, f: real)
    requires f > 0.0 && a < b
    ensures a * f < b * f
  {}

  lemma MulLe(a: real, b: real, f: real)
    requires f > 0.0 && a <= b
    ensures a * f <= b * f
  {}

  /** `quantity - blocks_needed * compact_num`: what is left after packing. */
  function RemainderOf(q: real, factor: nat): (rest: real)
    requires factor > 0
    ensures 0.0 <= rest < factor as real
    ensures BlocksOf(q, factor) as real * factor as real + rest == q
  {
    q - BlocksOf(q, factor) as real * factor as real
  }

  /**
   * `add_resources`: credit the whole blocks to the block and the remainder
   * to the resource, each only when positive; a ValueError when more than a
   * block's worth is left, which cannot happen.
   */
  function AddResources(m: Amounts, material: string, rule: Rule, q: real): (r: Result<Amounts>)
    requires rule.factor > 0
    ensures r.Ok?
    ensures BlocksOf(q, rule.factor) <= 0 && rule.block != material ==>
      (rule.block in r.value <==> rule.block in m) && (rule.block in m ==> r.value[rule.block] == m[rule.block])
    ensures RemainderOf(q, rule.factor) == 0.0 && rule.block != material ==>
      (material in r.value <==> material in m) && (material in m ==> r.value[material] == m[material])
    ensures forall k :: k in m && k != material && k != rule.block ==> k in r.value && r.value[k] == m[k]
    ensures forall k :: k in r.value ==> k in m || k == material || k == rule.block
  {
    var blocks := BlocksOf(q, rule.factor);
    var rest := RemainderOf(q, rule.factor);
    var withBlocks := if blocks > 0 then Credit(m, rule.block, blocks as real) else m;
    var withRest := if rest > 0.0 then Credit(withBlocks, material, rest) else withBlocks;
    if rest > rule.factor as real then Err(ValueError) else Ok(withRest)
  }

  /**
   * For a non-negative quantity, packing conserves it: the blocks credited,
   * times the factor, plus the resource credited, is the quantity.
   */
  lemma AddResourcesConserves(m: Amounts, material: string, rule: Rule, q: real)
    requires rule.factor > 0 && rule.block != material && q >= 0.0
    ensures var r := AddResources(m, material, rule, q).value;
      (H.MapGetOr(r, rule.block, 0.0) - H.MapGetOr(m, rule.block, 0.0)) * rule.factor as real
      + (H.MapGetOr(r, material, 0.0) - H.MapGetOr(m, material, 0.0)) == q
  {
    var f := rule.factor as real;
    var blocks := BlocksOf(q, rule.factor);
    var rest := RemainderOf(q, rule.factor);
    var r := AddResources(m, material, rule, q).value;
    assert blocks >= 0 by {
      PositiveFactor(blocks, f);
    }
    assert H.MapGetOr(r, rule.block, 0.0) - H.MapGetOr(m, rule.block, 0.0) == blocks as real;
    assert H.MapGetOr(r, material, 0.0) - H.MapGetOr(m, material, 0.0) == rest;
  }

  lemma PositiveFactor(b: int, f: real)
    requires f > 0.0 && (b + 1) as real * f > 0.0
    ensures b >= 0
  {
    assert (b + 1) as real > 0.0;
  }

  /** Apply a rule, or store the quantity as it is when there is none. */
  function CondenseBy(m: Amounts, material: string, rule: Option<Rule>, q: real): (r: Result<Amounts>)
    requires rule.Some? ==> rule.value.factor > 0
    ensures rule.None? ==> r == Ok(m[material := q])
    ensures rule.Some? ==> r == AddResources(m, material, rule.value, q)
  {
    match rule
    case None => Ok(m[material := q])
    case Some(rl) => AddResources(m, material, rl, q)
  }

  // ---------------------------------------------------------------------
  // Which resources compact, by generation.
  // ---------------------------------------------------------------------

  /** `re.match(r'\w+_ingot$', s)`: word characters, then `_ingot` at the very end. */
  predicate IsIngotName(s: string) {
    |s| > 6 && EndsWith(s, "_ingot") && AllWordChars(s[..|s| - 6])
  }

  /** `material.replace("_ingot", "_block")`. */
  function IngotBlock(s: string): string {
    Replace(s, "_ingot", "_block")
  }

  /** src/S2RM_backend.py: ingots pack nine to a block; the CONDENSABLES table covers the rest. */
  function SrcRule(material: string, condensables: map<string, Rule>): (r: Option<Rule>)
    requires forall k :: k in condensables ==> condensables[k].factor > 0
    ensures r.Some? ==> r.value.factor > 0
    ensures r.None? <==> !IsIngotName(material) && material !in condensables
  {
    if IsIngotName(material) then Some(Rule(IngotBlock(material), 9))
    else if material in condensables then Some(condensables[material])
    else None
  }

  /** `condense_material` of src/S2RM_backend.py. */
  function CondenseMaterial(m: Amounts, material: string, q: real, condensables: map<string, Rule>): Result<Amounts>
    requires forall k :: k in condensables ==> condensables[k].factor > 0
  {
    CondenseBy(m, material, SrcRule(material, condensables), q)
  }

  /** The gems and dusts the frontend packs into `<name>_block`. */
  predicate IsGem(s: string) {
    s == "diamond" || s == "redstone" || s == "coal" || s == "lapis_lazuli" || s == "emerald"
  }

  /** The frontend's explicit chain. */
  function FrontendRule(material: string): (r: Option<Rule>)
    ensures r.Some? ==> r.value.factor > 0
  {
    if IsIngotName(material) then Some(Rule(IngotBlock(material), 9))
    else if IsGem(material) then Some(Rule(material + "_block", 9))
    else if material == "slime_ball" then Some(Rule("slime_block", 9))
    else if material == "wheat" then Some(Rule("hay_block", 9))
    else if material == "snowball" then Some(Rule("snow_block", 4))
    else if material == "bone_meal" then Some(Rule("bone_block", 9))
    else None
  }

  /** The frontend packs the gems and dusts nine to a `<name>_block`. */
  lemma FrontendGemRule(material: string)
    requires IsGem(material)
    ensures FrontendRule(material) == Some(Rule(material + "_block", 9))
  {
    if material == "diamond" { NotIngot(material); }
    else if material == "redstone" { NotIngot(material); }
    else if material == "lapis_lazuli" { NotIngot(material); }
    else if material == "emerald" { NotIngot(material); }
  }

  /** Slime balls, wheat and bone meal pack nine to their block, snowballs four. */
  lemma FrontendNamedRules()
    ensures FrontendRule("slime_ball") == Some(Rule("slime_block", 9))
    ensures FrontendRule("wheat") == Some(Rule("hay_block", 9))
    ensures FrontendRule("snowball") == Some(Rule("snow_block", 4))
    ensures FrontendRule("bone_meal") == Some(Rule("bone_block", 9))
  {
    NotIngot("slime_ball");
    NotIngot("snowball");
    NotIngot("bone_meal");
  }

  /** A name that is neither an ingot nor one the frontend names is stored as it is. */
  lemma FrontendOtherNames(material: string)
    requires !IsIngotName(material) && !IsGem(material)
    requires material != "slime_ball" && material != "wheat" && material != "snowball" && material != "bone_meal"
    ensures FrontendRule(material) == None
  {
  }

  /** A name whose last six characters are not `_ingot` is not an ingot. */
  lemma NotIngot(s: string)
    requires |s| > 6 && s[|s| - 6] != '_'
    ensures !IsIngotName(s)
  {
    assert s[|s| - 6..][0] == s[|s| - 6];
  }

  /** `condense_material` of S2RM_frontend.py. */
  function FrontendCondenseMaterial(m: Amounts, material: string, q: real): Result<Amounts> {
    CondenseBy(m, material, FrontendRule(material), q)
  }

  /** The root S2RM_backend.py chain: the frontend's, then honey bottles four to a block. */
  function LegacyRule(material: string): (r: Option<Rule>)
    ensures r.Some? ==> r.value.factor > 0
  {
    if FrontendRule(material).Some? then FrontendRule(material)
    else if material == "honey_bottle" then Some(Rule("honey_block", 4))
    else None
  }

  /** `condense_material` of the root S2RM_backend.py. */
  function LegacyCondenseMaterial(m: Amounts, material: string, q: real): Result<Amounts> {
    CondenseBy(m, material, LegacyRule(material), q)
  }

  /** The root backend differs from the frontend on honey bottles alone. */
  lemma LegacyAddsHoney(material: string)
    ensures material != "honey_bottle" ==> LegacyRule(material) == FrontendRule(material)
    ensures LegacyRule("honey_bottle") == Some(Rule("honey_block", 4))
    ensures FrontendRule("honey_bottle") == None
  {
    assert !IsIngotName("honey_bottle") by {
      assert "honey_bottle"[6..] != "_ingot";
    }
  }

  /** The pattern `_ingot` cannot start inside a name and run into a final `_ingot`. */
  lemma {:induction false} IngotBlockOfName(w: string)
    requires !Contains(w, "_ingot")
    ensures IngotBlock(w + "_ingot") == w + "_block"
    decreases |w|
  {
    if |w| == 0 {
      assert w + "_ingot" == "_ingot";
      assert "_ingot"[6..] == [];
    } else {
      IngotBlockStep(w);
      assert !Contains(w[1..], "_ingot");
      IngotBlockOfName(w[1..]);
      assert [w[0]] + (w[1..] + "_block") == w + "_block";
    }
  }

  /** Replacing in `w + "_ingot"` keeps the first character of `w` and moves on. */
  lemma IngotBlockStep(w: string)
    requires |w| > 0 && !Contains(w, "_ingot")
    ensures IngotBlock(w + "_ingot") == [w[0]] + IngotBlock(w[1..] + "_ingot")
  {
    var s := w + "_ingot";
    NoIngotAcross(w);
    assert s[1..] == w[1..] + "_ingot";
  }

  /** A non-empty name without `_ingot` does not start an `_ingot` ahead of the final one. */
  lemma NoIngotAcross(w: string)
    requires |w| > 0 && !Contains(w, "_ingot")
    ensures !StartsWith(w + "_ingot", "_ingot")
  {
    var s := w + "_ingot";
    if |w| >= 6 {
      assert s[..6] == w[..6];
      assert !StartsWith(w, "_ingot");
    } else {
      assert s[|w|] == '_';
      assert "_ingot"[|w|] != '_';
    }
  }

  /** An ingot such as `iron_ingot` packs into the matching block, `iron_block`. */
  lemma IngotPacksToBlock(w: string, condensables: map<string, Rule>)
    requires forall k :: k in condensables ==> condensables[k].factor > 0
    requires |w| > 0 && AllWordChars(w) && !Contains(w, "_ingot")
    ensures SrcRule(w + "_ingot", condensables) == Some(Rule(w + "_block", 9))
    ensures FrontendRule(w + "_ingot") == Some(Rule(w + "_block", 9))
  {
    var s := w + "_ingot";
    assert s[..|s| - 6] == w;
    assert s[|s| - 6..] == "_ingot";
    IngotBlockOfName(w);
  }
}

=== FILE: csv_lists.dfy ===
/**
 * Litematica `.csv` material lists: the validator, the row loop, and a
 * rendering of entries in Litematica's `.csv` layout that reads back as the
 * tags of the entries with their counts.
 *
 * Source: src/S2RM_backend.py (`process_csv_material_list`,
 * `verify_csv_material_list`) and the root S2RM_backend.py, whose reader
 * reports a failed validation as `None`.
 */
module CsvLists {
  import opened Results
  import opened Strings
  import ML = MaterialLists

  /** `['"Item"', '"Total"', '"Missing"', '"Available"']`: the header fields. */
  const CsvHeaders: seq<string> := ["\"Item\"", "\"Total\"", "\"Missing\"", "\"Available\""]

  /** A character `[\w ]` accepts. */
  predicate IsNameChar(c: char) { IsWordChar(c) || c == ' ' }

  /** `re.fullmatch(r'"[\w ]+"', field)`: a quoted, non-empty run of word characters and spaces. */
  predicate IsQuotedName(field: string) {
    |field| >= 3 && field[0] == '"' && field[|field| - 1] == '"'
    && AllChars(field[1..|field| - 1], IsNameChar)
  }

  /** `all(part.strip().isdigit() for part in fields)`. */
  predicate AllCounts(fields: seq<string>) {
    forall k :: 0 <= k < |fields| ==> IsDigitString(Strip(fields[k]))
  }

  /** `fields[1:4]`: at most the three count fields after the name. */
  function CountFields(fields: seq<string>): (r: seq<string>)
    requires |fields| >= 1
    ensures |r| == if |fields| >= 4 then 3 else |fields| - 1
    ensures forall k :: 0 <= k < |r| ==> r[k] == fields[k + 1]
  {
    if |fields| >= 4 then fields[1..4] else fields[1..]
  }

  /** A Litematica `.csv` list as the validator sees it: the header line and a plausible first row. */
  predicate LooksLikeCsvList(lines: seq<string>) {
    |lines| >= 2 && Split(Strip(lines[0]), ',') == CsvHeaders
    && IsQuotedName(Strip(Split(lines[1], ',')[0]))
    && AllCounts(CountFields(Split(lines[1], ',')))
  }

  /**
   * `verify_csv_material_list`: `Ok` exactly for a list that looks like a
   * Litematica `.csv` list. Both lines are read without a length check, so
   * an empty file, and a file holding only the right header, are an
   * IndexError; every other failure is a ValueError.
   */
  function VerifyCsv(lines: seq<string>): (r: Result<()>)
    ensures r.Ok? <==> LooksLikeCsvList(lines)
    ensures r.Err? ==> (r.error == IndexError <==>
      |lines| == 0 || (|lines| == 1 && Split(Strip(lines[0]), ',') == CsvHeaders))
    ensures r.Err? ==> r.error == IndexError || r.error == ValueError
  {
    if |lines| == 0 then Err(IndexError)
    else if Split(Strip(lines[0]), ',') != CsvHeaders then Err(ValueError)
    else if |lines| < 2 then Err(IndexError)
    else
      var fields := Split(lines[1], ',');
      if !IsQuotedName(Strip(fields[0])) then Err(ValueError)
      else if !AllCounts(CountFields(fields)) then Err(ValueError)
      else Ok(())
  }

  /**
   * The row loop over every line after the header: the text between the
   * first two `"` is the name, the second `,`-field after the closing `"`
   * is the count. Too few `"` or `,` is an IndexError, a count `int()`
   * rejects a ValueError; later rows overwrite earlier ones.
   */
  function CsvRows(m: map<string, int>, rows: seq<string>, tagOf: string -> string): (r: Result<map<string, int>>)
    ensures r.Ok? ==> m.Keys <= r.value.Keys
    ensures r.Err? ==> r.error == IndexError || r.error == ValueError
    decreases |rows|
  {
    if |rows| == 0 then Ok(m)
    else
      var parts := Split(Strip(rows[0]), '"');
      if |parts| < 3 then Err(IndexError)
      else
        var fields := Split(parts[2], ',');
        if |fields| < 2 then Err(IndexError)
        else
          match ParseInt(Strip(fields[1]))
          case Err(e) => Err(e)
          case Ok(n) => CsvRows(m[tagOf(Strip(parts[1])) := n], rows[1..], tagOf)
  }

  /** `process_csv_material_list` of src/S2RM_backend.py: verify, then read every row after the header. */
  function ProcessCsv(lines: seq<string>, itemTags: map<string, string>): (r: Result<map<string, int>>)
    ensures VerifyCsv(lines).Err? ==> r == Err(VerifyCsv(lines).error)
    ensures r.Ok? ==> LooksLikeCsvList(lines)
  {
    match VerifyCsv(lines)
    case Err(e) => Err(e)
    case Ok(_) => CsvRows(map[], lines[1..], ML.TagFunction(ML.Current(itemTags)))
  }

  /**
   * `process_csv_material_list` of the root S2RM_backend.py: a failed
   * validation is `None` instead of an exception; an IndexError still
   * propagates.
   */
  function LegacyProcessCsv(lines: seq<string>, itemTags: map<string, string>): (r: Result<Option<map<string, int>>>)
    ensures VerifyCsv(lines) == Err(ValueError) <==> r == Ok(None)
    ensures VerifyCsv(lines) == Err(IndexError) ==> r == Err(IndexError)
  {
    match VerifyCsv(lines)
    case Err(ValueError) => Ok(None)
    case Err(e) => Err(e)
    case Ok(_) => CsvRows(map[], lines[1..], ML.TagFunction(ML.Legacy(itemTags))).Map(m => Some(m))
  }

  /** A header line alone passes the header check and then fails for want of a first row. */
  lemma HeaderOnlyIsIndexError(itemTags: map<string, string>)
    ensures ProcessCsv([CsvHeader], itemTags) == Err(IndexError)
  {
    HeaderSplits();
  }

  // ---------------------------------------------------------------------
  // Rendering a `.csv` list and reading it back
  // ---------------------------------------------------------------------

  /** The header line Litematica writes. */
  const CsvHeader: string :=
    CsvHeaders[0] + ("," + (CsvHeaders[1] + ("," + (CsvHeaders[2] + ("," + CsvHeaders[3])))))

  /** A name that survives the round trip: `[\w ]+` with no space at either end. */
  predicate IsCsvName(x: string) {
    |x| > 0 && AllChars(x, IsNameChar) && x[0] != ' ' && x[|x| - 1] != ' '
  }

  function Quote(x: string): string { "\"" + (x + "\"") }

  /** What follows the name in a row: `,count,0,0`. */
  function CountsText(count: nat): string {
    "," + (NatToString(count) + ("," + ("0" + ("," + "0"))))
  }

  /** One row as Litematica writes it: `"name",count,0,0`. */
  function CsvLine(name: string, count: nat): string {
    Quote(name) + CountsText(count)
  }

  function CsvLines(entries: seq<(string, nat)>): (r: seq<string>)
    ensures |r| == |entries|
    ensures forall i :: 0 <= i < |entries| ==> r[i] == CsvLine(entries[i].0, entries[i].1)
  {
    if |entries| == 0 then [] else [CsvLine(entries[0].0, entries[0].1)] + CsvLines(entries[1..])
  }

  /** A whole `.csv` list: the header line and one row per entry. */
  function RenderCsv(entries: seq<(string, nat)>): seq<string> {
    [CsvHeader] + CsvLines(entries)
  }

  /** The header line splits into the expected header fields. */
  lemma HeaderSplits()
    ensures Split(Strip(CsvHeader), ',') == CsvHeaders
  {
    var h := CsvHeaders;
    assert Strip(CsvHeader) == CsvHeader by {
      assert CsvHeader[0] == h[0][0] == '"';
      assert CsvHeader[|CsvHeader| - 1] == h[3][|h[3]| - 1] == '"';
      StripNonSpaceEnds(CsvHeader);
    }
    assert ',' !in h[0] && ',' !in h[1] && ',' !in h[2] && ',' !in h[3];
    SplitFour(h[0], h[1], h[2], h[3], ',');
    assert [h[0], h[1], h[2], h[3]] == h;
  }

  /** The digits of a count hold neither a quote nor a comma. */
  lemma CountTextPlain(count: nat)
    ensures var c := NatToString(count); '"' !in c && ',' !in c && AllDigits(c)
  {
    var c := NatToString(count);
    assert forall i :: 0 <= i < |c| ==> IsDigit(c[i]);
  }

  /** A name of `[\w ]` characters holds neither a quote nor a comma. */
  lemma NamePlain(name: string)
    requires AllChars(name, IsNameChar)
    ensures '"' !in name && ',' !in name
  {
    assert forall i :: 0 <= i < |name| ==> IsNameChar(name[i]);
  }

  /** A row is its own strip: it opens with a quote and closes with a digit. */
  lemma CsvLineStrips(name: string, count: nat)
    ensures Strip(CsvLine(name, count)) == CsvLine(name, count)
  {
    var line := CsvLine(name, count);
    var t := CountsText(count);
    assert line[|line| - 1] == t[|t| - 1] == '0';
    StripNonSpaceEnds(line);
  }

  /** Split on quotes, a row gives a blank, the name, and the counts text. */
  lemma CsvLineQuoteSplit(name: string, count: nat)
    requires IsCsvName(name)
    ensures var parts := Split(Strip(CsvLine(name, count)), '"');
      |parts| >= 3 && parts[1] == name && parts[2] == CountsText(count)
  {
    CsvLineStrips(name, count);
    NamePlain(name);
    CountsTextPlain(count);
    QuoteSplit(name, CountsText(count));
  }

  /** A quoted text followed by more quote-free text splits on quotes into blank, text and the rest. */
  lemma QuoteSplit(x: string, tail: string)
    requires '"' !in x && '"' !in tail
    ensures Split(Quote(x) + tail, '"') == ["", x, tail]
  {
    assert Quote(x) + tail == "" + ("\"" + (x + ("\"" + tail)));
    SplitThree("", x, tail, '"');
  }

  /** The counts text holds no quote. */
  lemma CountsTextPlain(count: nat)
    ensures '"' !in CountsText(count)
  {
    CountTextPlain(count);
  }

  /** Split on commas, the counts text gives a blank, the count, and the two zero columns. */
  lemma CountsSplit(count: nat)
    ensures Split(CountsText(count), ',') == ["", NatToString(count), "0", "0"]
  {
    var c := NatToString(count);
    CountTextPlain(count);
    assert CountsText(count) == "" + ("," + (c + ("," + ("0" + ("," + "0")))));
    SplitFour("", c, "0", "0", ',');
  }

  /** A row with name `name` and a count that reads as `n`. */
  predicate CsvRowReads(row: string, name: string, n: int) {
    var parts := Split(Strip(row), '"');
    |parts| >= 3 && Strip(parts[1]) == name
    && var fields := Split(parts[2], ','); |fields| >= 2 && ParseInt(Strip(fields[1])) == Ok(n)
  }

  /** A round-trip name is its own strip. */
  lemma NameStrips(name: string)
    requires IsCsvName(name)
    ensures Strip(name) == name
  {
    assert IsNameChar(name[0]) && IsNameChar(name[|name| - 1]);
    StripNonSpaceEnds(name);
  }

  /** The decimal text of a count is its own strip and reads back as the count. */
  lemma CountReads(count: nat)
    ensures Strip(NatToString(count)) == NatToString(count)
    ensures ParseInt(Strip(NatToString(count))) == Ok(count)
  {
    var c := NatToString(count);
    assert IsDigit(c[0]) && IsDigit(c[|c| - 1]);
    StripNonSpaceEnds(c);
    ParseNatToString(count);
  }

  /** A rendered row reads back as its name and count. */
  lemma CsvLineReads(name: string, count: nat)
    requires IsCsvName(name)
    ensures CsvRowReads(CsvLine(name, count), name, count)
  {
    var c := NatToString(count);
    var parts := Split(Strip(CsvLine(name, count)), '"');
    assert |parts| >= 3 && parts[1] == name && parts[2] == CountsText(count) by {
      CsvLineQuoteSplit(name, count);
    }
    assert Strip(parts[1]) == name by {
      NameStrips(name);
    }
    var fields := Split(parts[2], ',');
    assert |fields| >= 2 && fields[1] == c by {
      CountsSplit(count);
    }
    assert ParseInt(Strip(fields[1])) == Ok(count) by {
      CountReads(count);
    }
  }

  /** One step of the row loop over a row that reads as a name and a count. */
  lemma CsvRowsStep(m: map<string, int>, rows: seq<string>, tagOf: string -> string, name: string, n: int)
    requires |rows| > 0 && CsvRowReads(rows[0], name, n)
    ensures CsvRows(m, rows, tagOf) == CsvRows(m[tagOf(name) := n], rows[1..], tagOf)
  {
  }

  /** Rows that each read as an entry give the tally of the entries. */
  lemma {:induction false} CsvRowsOfReadable(m: map<string, int>, rows: seq<string>, entries: seq<(string, nat)>, tagOf: string -> string)
    requires |rows| == |entries|
    requires forall i :: 0 <= i < |rows| ==> CsvRowReads(rows[i], entries[i].0, entries[i].1)
    ensures CsvRows(m, rows, tagOf) == Ok(ML.Tally(m, entries, tagOf))
    decreases |rows|
  {
    if |rows| > 0 {
      var m1 := m[tagOf(entries[0].0) := entries[0].1];
      var rest := rows[1..];
      var later := entries[1..];
      assert CsvRows(m, rows, tagOf) == CsvRows(m1, rest, tagOf) by {
        assert CsvRowReads(rows[0], entries[0].0, entries[0].1);
        CsvRowsStep(m, rows, tagOf, entries[0].0, entries[0].1);
      }
      assert ML.Tally(m, entries, tagOf) == ML.Tally(m1, later, tagOf) by {
        ML.TallyStep(m, entries, tagOf);
      }
      assert CsvRows(m1, rest, tagOf) == Ok(ML.Tally(m1, later, tagOf)) by {
        forall i | 0 <= i < |rest| ensures CsvRowReads(rest[i], later[i].0, later[i].1) {
          assert rest[i] == rows[i + 1] && later[i] == entries[i + 1];
        }
        CsvRowsOfReadable(m1, rest, later, tagOf);
      }
    }
  }

  /** Split on commas, a row gives the quoted name, the count and the two zero columns. */
  lemma CsvLineCommaSplit(name: string, count: nat)
    requires IsCsvName(name)
    ensures Split(CsvLine(name, count), ',') == [Quote(name), NatToString(count), "0", "0"]
  {
    var c := NatToString(count);
    var q := Quote(name);
    NamePlain(name);
    assert ',' !in q;
    CountTextPlain(count);
    assert CsvLine(name, count) == q + ("," + (c + ("," + ("0" + ("," + "0")))));
    SplitFour(q, c, "0", "0", ',');
  }

  /** A quoted round-trip name is what `"[\w ]+"` accepts. */
  lemma QuotedNamePasses(name: string)
    requires IsCsvName(name)
    ensures IsQuotedName(Strip(Quote(name)))
  {
    var q := Quote(name);
    StripNonSpaceEnds(q);
    assert q[1..|q| - 1] == name;
  }

  /** The count columns of a rendered row are all digits. */
  lemma CountColumnsPass(count: nat)
    ensures AllCounts([NatToString(count), "0", "0"])
  {
    var columns := [NatToString(count), "0", "0"];
    forall k | 0 <= k < 3 ensures IsDigitString(Strip(columns[k])) {
      if k == 0 {
        CountReads(count);
        CountTextPlain(count);
      } else {
        assert columns[k] == NatToString(0);
        CountReads(0);
      }
    }
  }

  /** The first row of a rendered list passes the first-row checks. */
  lemma FirstRowPasses(name: string, count: nat)
    requires IsCsvName(name)
    ensures var fields := Split(CsvLine(name, count), ',');
      IsQuotedName(Strip(fields[0])) && AllCounts(CountFields(fields))
  {
    var fields := Split(CsvLine(name, count), ',');
    CsvLineCommaSplit(name, count);
    QuotedNamePasses(name);
    assert CountFields(fields) == [NatToString(count), "0", "0"];
    CountColumnsPass(count);
  }

  /** A rendered list with at least one entry passes the validator. */
  lemma RenderedCsvVerifies(entries: seq<(string, nat)>)
    requires |entries| >= 1 && IsCsvName(entries[0].0)
    ensures VerifyCsv(RenderCsv(entries)) == Ok(())
  {
    var lines := RenderCsv(entries);
    HeaderSplits();
    assert lines[0] == CsvHeader;
    assert lines[1] == CsvLine(entries[0].0, entries[0].1);
    FirstRowPasses(entries[0].0, entries[0].1);
  }

  /**
   * Round trip: a non-empty list rendered in Litematica's `.csv` layout
   * passes the validator and reads back as the tags of its entries with
   * their counts.
   */
  lemma CsvRoundTrip(entries: seq<(string, nat)>, itemTags: map<string, string>)
    requires |entries| >= 1
    requires forall i :: 0 <= i < |entries| ==> IsCsvName(entries[i].0)
    ensures ProcessCsv(RenderCsv(entries), itemTags) == Ok(ML.Tally(map[], entries, ML.TagFunction(ML.Current(itemTags))))
  {
    var tagOf := ML.TagFunction(ML.Current(itemTags));
    RenderedCsvVerifies(entries);
    var rows := CsvLines(entries);
    assert RenderCsv(entries)[1..] == rows;
    forall i | 0 <= i < |rows| ensures CsvRowReads(rows[i], entries[i].0, entries[i].1) {
      CsvLineReads(entries[i].0, entries[i].1);
    }
    CsvRowsOfReadable(map[], rows, entries, tagOf);
  }
}

=== FILE: decompiler.dfy ===
/**
 * The decompile step of the extractor pipeline (Decompiler.java): which
 * jar variants are decompiled, what each attempt reports, and the
 * `dependencies.json` list written next to the decompiled sources. The
 * storage lookups and the jar on disk are inputs; Vineflower is a
 * success flag per variant.
 */
module Decompiler {
  import opened Results
  import opened Strings
  import opened Steps
  import opened Ordering

  /** The decompiled jar as `decompileJar` finds it. */
  datatype OutputJar = Missing | EmptyJar | NonEmptyJar

  /**
   * One `decompileJar` call's inputs: whether the pipeline handed it an
   * input key, whether that key resolves to a path, and the output jar.
   */
  datatype JarInput = JarInput(hasInputKey: bool, hasInputPath: bool, output: OutputJar)

  /** What a `decompileJar` call reports and does. */
  datatype Decompiled = Decompiled(
    result: StepOutput,
    deletedEmpty: bool,  // an empty output jar was deleted
    decompiled: bool)    // Vineflower ran and the dependencies file was written

  /**
   * `decompileJar`. No input key or no input path: `NOT_RUN` with no
   * artifacts. A non-empty output jar: `UP_TO_DATE` with the output key.
   * Otherwise an empty output is deleted first; no libraries directory
   * gives `FAILED`; a run that completes gives `SUCCESS` with the output
   * key, and a run that throws propagates the failure.
   */
  function DecompileJar(j: JarInput, outputKey: StorageKey, libraries: bool, engineSucceeds: bool): (r: Result<Decompiled>)
    ensures r.Err? <==> j.hasInputKey && j.hasInputPath && j.output != NonEmptyJar && libraries && !engineSucceeds
    ensures r.Ok? && r.value.decompiled ==> r.value.result == OfSingle(Success, outputKey)
    ensures r.Ok? && r.value.result.status == Success ==> r.value.decompiled
    ensures r.Ok? ==> (r.value.deletedEmpty <==> j.hasInputKey && j.hasInputPath && j.output == EmptyJar)
    ensures r.Ok? ==> r.value.result.keys <= {outputKey}
    ensures r.Ok? ==> (r.value.result.status == NotRun <==> !j.hasInputKey || !j.hasInputPath)
    ensures r.Ok? ==> (r.value.result.status == Failed <==> j.hasInputKey && j.hasInputPath && j.output != NonEmptyJar && !libraries)
  {
    if !j.hasInputKey || !j.hasInputPath then Ok(Decompiled(OfEmptyResultSet(NotRun), false, false))
    else if j.output == NonEmptyJar then Ok(Decompiled(OfSingle(UpToDate, outputKey), false, false))
    else
      var deleted := j.output == EmptyJar;
      if !libraries then Ok(Decompiled(OfEmptyResultSet(Failed), deleted, false))
      else if !engineSucceeds then Err(ExternalFailure)
      else Ok(Decompiled(OfSingle(Success, outputKey), deleted, true))
  }

  /**
   * Decompiling is idempotent: with the output already written (a
   * non-empty jar), another call reports `UP_TO_DATE` with the output key
   * and touches nothing, whatever the libraries or Vineflower would do.
   * So a call that succeeded and left a non-empty jar is up to date the
   * next time.
   */
  lemma DecompileRerun(j: JarInput, outputKey: StorageKey, libraries: bool, engineSucceeds: bool, libraries': bool, engine': bool)
    requires j.hasInputKey && j.hasInputPath
    ensures DecompileJar(j.(output := NonEmptyJar), outputKey, libraries, engineSucceeds)
      == Ok(Decompiled(OfSingle(UpToDate, outputKey), false, false))
    ensures DecompileJar(j, outputKey, libraries, engineSucceeds) == Ok(Decompiled(OfSingle(Success, outputKey), j.output == EmptyJar, true))
      ==> DecompileJar(j.(output := NonEmptyJar), outputKey, libraries', engine').value.result.status == UpToDate
  {
  }

  /** The outcome of the step and the variants it tried, in order. */
  datatype Ran = Ran(output: StepOutput, tried: seq<MinecraftJar>)

  /**
   * `run`: the merged jar first; a successful result is the step's. Only
   * otherwise are the client and then the server jar decompiled, and the
   * step's result is the merge of theirs. `isSuccessful` and the merge of
   * outputs are parameters; a failure of any call propagates.
   */
  function Run(
    merged: JarInput, client: JarInput, server: JarInput,
    libraries: bool, engine: MinecraftJar -> bool,
    isSuccessful: StepStatus -> bool, mergeOutputs: (StepOutput, StepOutput) -> StepOutput): (r: Result<Ran>)
    ensures r.Ok? ==> |r.value.tried| >= 1 && r.value.tried[0] == Merged
    ensures r.Ok? && r.value.tried == [Merged] ==>
      isSuccessful(r.value.output.status) && r.value.output.keys <= {DecompiledMergedJar}
    ensures r.Ok? && r.value.tried != [Merged] ==>
      r.value.tried == [Merged, Client, Server]
      && DecompileJar(merged, DecompiledMergedJar, libraries, engine(Merged)).Ok?
      && !isSuccessful(DecompileJar(merged, DecompiledMergedJar, libraries, engine(Merged)).value.result.status)
  {
    match DecompileJar(merged, DecompiledMergedJar, libraries, engine(Merged))
    case Err(e) => Err(e)
    case Ok(m) =>
      if isSuccessful(m.result.status) then Ok(Ran(m.result, [Merged]))
      else
        match DecompileJar(client, DecompiledClientJar, libraries, engine(Client))
        case Err(e) => Err(e)
        case Ok(c) =>
          match DecompileJar(server, DecompiledServerJar, libraries, engine(Server))
          case Err(e) => Err(e)
          case Ok(s) => Ok(Ran(mergeOutputs(c.result, s.result), [Merged, Client, Server]))
  }

  /**
   * A merged jar whose output is already there ends the step: the client
   * and server jars are neither looked at nor decompiled, whatever their
   * state, as long as `UP_TO_DATE` counts as successful.
   */
  lemma MergedUpToDateEndsRun(
    merged: JarInput, client: JarInput, server: JarInput, client': JarInput, server': JarInput,
    libraries: bool, engine: MinecraftJar -> bool,
    isSuccessful: StepStatus -> bool, mergeOutputs: (StepOutput, StepOutput) -> StepOutput)
    requires merged.hasInputKey && merged.hasInputPath && merged.output == NonEmptyJar
    requires isSuccessful(UpToDate)
    ensures Run(merged, client, server, libraries, engine, isSuccessful, mergeOutputs)
      == Ok(Ran(OfSingle(UpToDate, DecompiledMergedJar), [Merged]))
    ensures Run(merged, client, server, libraries, engine, isSuccessful, mergeOutputs)
      == Run(merged, client', server', libraries, engine, isSuccessful, mergeOutputs)
  {
  }

  /**
   * Without a merged jar the step is the merge of the client's and the
   * server's outcome, as long as `NOT_RUN` is not successful.
   */
  lemma NoMergedJarFallsBack(
    merged: JarInput, client: JarInput, server: JarInput,
    libraries: bool, engine: MinecraftJar -> bool,
    isSuccessful: StepStatus -> bool, mergeOutputs: (StepOutput, StepOutput) -> StepOutput)
    requires !merged.hasInputKey
    requires !isSuccessful(NotRun)
    ensures var r := Run(merged, client, server, libraries, engine, isSuccessful, mergeOutputs);
      var c := DecompileJar(client, DecompiledClientJar, libraries, engine(Client));
      var s := DecompileJar(server, DecompiledServerJar, libraries, engine(Server));
      c.Ok? && s.Ok? ==> r == Ok(Ran(mergeOutputs(c.value.result, s.value.result), [Merged, Client, Server]))
  {
  }

  // ---------------------------------------------------------------------
  // dependencies.json
  // ---------------------------------------------------------------------

  /** `Artifact.DependencyArtifact`: a name, and whether it stands for the Java runtime. */
  datatype Dependency = Dependency(name: string, isVirtual: bool)

  /** Drop the empty strings at the end of a list of parts. */
  function DropTrailingEmpty(parts: seq<string>): (r: seq<string>)
    ensures |r| <= |parts| && r == parts[..|r|]
    ensures |r| > 0 ==> r[|r| - 1] != ""
  {
    if |parts| > 0 && parts[|parts| - 1] == "" then DropTrailingEmpty(parts[..|parts| - 1]) else parts
  }

  /**
   * `String.split` with a one-character pattern: the parts between the
   * separators, without the empty ones at the end; the whole text when
   * the separator does not occur.
   */
  function JavaSplit(s: string, sep: char): seq<string> {
    if sep !in s then [s] else DropTrailingEmpty(Split(s, sep))
  }

  /** `String.join("", name.split("-"))`: the key libraries are sorted by. */
  function SortKey(name: string): string {
    Join(JavaSplit(name, '-'), "")
  }

  /** Joining with nothing in between: one more part in front. */
  lemma JoinNothingCons(a: string, rest: seq<string>)
    ensures Join([a] + rest, "") == a + Join(rest, "")
  {
    if |rest| == 0 {
      assert [a] + rest == [a];
    } else {
      JoinCons(a, rest, "");
    }
  }

  /** Joining with nothing in between: one more part at the end. */
  lemma {:induction false} JoinNothingSnoc(parts: seq<string>, x: string)
    ensures Join(parts + [x], "") == Join(parts, "") + x
    decreases |parts|
  {
    if |parts| == 0 {
      assert parts + [x] == [x];
    } else {
      assert parts + [x] == [parts[0]] + (parts[1..] + [x]);
      JoinNothingCons(parts[0], parts[1..] + [x]);
      JoinNothingSnoc(parts[1..], x);
      JoinNothingCons(parts[0], parts[1..]);
      assert parts == [parts[0]] + parts[1..];
    }
  }

  /** Dropping empty parts at the end does not change what they join to. */
  lemma {:induction false} JoinDropTrailing(parts: seq<string>)
    ensures Join(DropTrailingEmpty(parts), "") == Join(parts, "")
    decreases |parts|
  {
    if |parts| > 0 && parts[|parts| - 1] == "" {
      var init := parts[..|parts| - 1];
      JoinDropTrailing(init);
      JoinNothingSnoc(init, "");
      assert init + [""] == parts;
    }
  }

  /** The parts of a split, joined with nothing in between, are the text without its separators. */
  lemma {:induction false} JoinSplit(s: string, sep: char)
    ensures Join(Split(s, sep), "") == RemoveChar(s, sep)
    decreases |s|
  {
    if |s| > 0 {
      var rest := Split(s[1..], sep);
      JoinSplit(s[1..], sep);
      if s[0] == sep {
        JoinNothingCons("", rest);
      } else {
        JoinNothingCons([s[0]] + rest[0], rest[1..]);
        JoinNothingCons(rest[0], rest[1..]);
        assert rest == [rest[0]] + rest[1..];
      }
    }
  }

  /** The sort key of a library is its name without the dashes. */
  lemma SortKeyRemovesDashes(name: string)
    ensures SortKey(name) == RemoveChar(name, '-')
  {
    if '-' !in name {
      RemoveCharAbsent(name, '-');
    } else {
      JoinDropTrailing(Split(name, '-'));
      JoinSplit(name, '-');
    }
  }

  /** `Comparator.comparing` on the sort key, with `String.compareTo`. */
  predicate ByKey(a: Dependency, b: Dependency) {
    StrLe(SortKey(a.name), SortKey(b.name))
  }

  lemma ByKeyTotalPreorder()
    ensures TotalPreorder(ByKey)
  {
    StrLeTotalPreorder();
  }

  /** `new DependencyArtifact(library)` for each library, in order. */
  function LibraryDependencies(libraries: seq<string>): (r: seq<Dependency>)
    ensures |r| == |libraries|
    ensures forall i :: 0 <= i < |r| ==> r[i] == Dependency(libraries[i], false)
  {
    if |libraries| == 0 then [] else [Dependency(libraries[0], false)] + LibraryDependencies(libraries[1..])
  }

  /**
   * The list written to `dependencies.json`: the virtual `Java <version>`
   * entry, then one entry per library, sorted by name with the dashes
   * taken out.
   */
  function Dependencies(javaVersion: int, libraries: seq<string>): (r: seq<Dependency>)
    ensures |r| == |libraries| + 1
    ensures r[0] == Dependency("Java " + IntToString(javaVersion), true)
    ensures multiset(r[1..]) == multiset(LibraryDependencies(libraries))
    ensures SortedBy(r[1..], ByKey)
    ensures forall i :: 1 <= i < |r| ==> !r[i].isVirtual
  {
    ByKeyTotalPreorder();
    var libs := SortBy(LibraryDependencies(libraries), ByKey);
    var r := [Dependency("Java " + IntToString(javaVersion), true)] + libs;
    assert r[1..] == libs;
    assert forall i :: 1 <= i < |r| ==> r[i] in multiset(libs);
    r
  }

  /** Every library appears in the list, and nothing else after the Java entry. */
  lemma DependenciesMembers(javaVersion: int, libraries: seq<string>, name: string)
    ensures Dependency(name, false) in Dependencies(javaVersion, libraries)[1..] <==> name in libraries
  {
    var d := Dependency(name, false);
    var libs := LibraryDependencies(libraries);
    var r := Dependencies(javaVersion, libraries)[1..];
    assert d in r <==> d in multiset(libs);
    if name in libraries {
      var i :| 0 <= i < |libraries| && libraries[i] == name;
      assert libs[i] == d;
    }
  }
}

=== FILE: entities.dfy ===
/**
 * What entities and block entities (chests, item frames, boats, mobs)
 * contribute to a schematic's material list, read from their NBT.
 *
 * NBT compounds are JSON objects; the tables of src/constants.py
 * (SIMPLE_ENTITIES, INVALID_ENTITIES, INVALID_BLOCKS, GOLEM_RECIPES,
 * HEADGEAR_KWS, BLOCK_TAGS) are parameters, and so is the text Python's
 * `str()` gives a float, list or compound. Accumulators are plain maps.
 *
 * Sources: src/entity_processing.py, and the older mapping of the root
 * S2RM_backend.py.
 */
module Entities {
  import opened Results
  import opened Strings
  import opened JsonValues
  import H = Helpers

  type Materials = map<string, int>

  /** The tables the mapping consults. */
  datatype Tables = Tables(
    simple: set<string>,
    invalidEntities: set<string>,
    invalidBlocks: set<string>,
    golems: map<string, seq<(string, int)>>,
    headgear: seq<string>,
    blockTags: map<string, string>,
    text: Json -> string)

  // ---------------------------------------------------------------------
  // Adding several items at once
  // ---------------------------------------------------------------------

  /** `add_material` for each pair in turn. */
  function AddAll(m: Materials, pairs: seq<(string, int)>): Materials
    decreases |pairs|
  {
    if |pairs| == 0 then m else AddAll(H.AddMaterial(m, pairs[0].0, pairs[0].1), pairs[1..])
  }

  /** How much the pairs add to one item. */
  function SumFor(pairs: seq<(string, int)>, k: string): int
    decreases |pairs|
  {
    if |pairs| == 0 then 0 else (if pairs[0].0 == k then pairs[0].1 else 0) + SumFor(pairs[1..], k)
  }

  /** The items the pairs name. */
  function Names(pairs: seq<(string, int)>): set<string>
    decreases |pairs|
  {
    if |pairs| == 0 then {} else {pairs[0].0} + Names(pairs[1..])
  }

  /**
   * Adding pairs one by one leaves every item at its old count plus what
   * the pairs add to it, and adds exactly the named items.
   */
  lemma {:induction false} AddAllCounts(m: Materials, pairs: seq<(string, int)>)
    ensures forall k :: H.MapGetOr(AddAll(m, pairs), k, 0) == H.MapGetOr(m, k, 0) + SumFor(pairs, k)
    ensures AddAll(m, pairs).Keys == m.Keys + Names(pairs)
    decreases |pairs|
  {
    if |pairs| > 0 {
      var m1 := H.AddMaterial(m, pairs[0].0, pairs[0].1);
      AddAllCounts(m1, pairs[1..]);
      forall k ensures H.MapGetOr(AddAll(m, pairs), k, 0) == H.MapGetOr(m, k, 0) + SumFor(pairs, k) {
        assert H.MapGetOr(m1, k, 0) == H.MapGetOr(m, k, 0) + (if pairs[0].0 == k then pairs[0].1 else 0);
      }
    }
  }

  // ---------------------------------------------------------------------
  // Reading NBT
  // ---------------------------------------------------------------------

  /**
   * What a `for` loop over an NBT value visits: a list's elements; an empty
   * compound or empty string visits nothing; a non-empty compound or string
   * yields keys or characters whose `["id"]` is a TypeError, and anything
   * else is not iterable, also a TypeError.
   */
  function AsItems(j: Json): (r: Result<seq<Json>>)
    ensures r.Err? ==> r.error == TypeError
    ensures j.JList? ==> r == Ok(j.items)
  {
    match j
    case JList(xs) => Ok(xs)
    case JObj(f) => if |f| == 0 then Ok([]) else Err(TypeError)
    case JStr(s) => if |s| == 0 then Ok([]) else Err(TypeError)
    case _ => Err(TypeError)
  }

  /**
   * `item["id"].replace("minecraft:", "")`: a KeyError without an id, a
   * TypeError on something that is not a compound, an AttributeError when
   * the id is not text.
   */
  function IdOf(item: Json): (r: Result<string>)
    ensures r.Ok? <==> item.JObj? && "id" in item.fields && item.fields["id"].JStr?
    ensures r.Ok? ==> r.value == Unprefixed(item.fields["id"].s)
  {
    match item
    case JObj(f) =>
      if "id" !in f then Err(KeyError)
      else (match f["id"] case JStr(s) => Ok(Unprefixed(s)) case _ => Err(AttributeError))
    case _ => Err(TypeError)
  }

  /** `item.get("id", "").replace("minecraft:", "")`. */
  function IdOrEmpty(item: Json): (r: Result<string>)
    ensures item.JObj? && "id" !in item.fields ==> r == Ok("")
    ensures item.JObj? && "id" in item.fields && item.fields["id"].JStr? ==> r == IdOf(item)
    ensures !item.JObj? ==> r == Err(AttributeError)
  {
    match item
    case JObj(f) =>
      if "id" !in f then Ok("")
      else (match f["id"] case JStr(s) => Ok(Unprefixed(s)) case _ => Err(AttributeError))
    case _ => Err(AttributeError)
  }

  /**
   * A count as `add_material` adds it to an integer: an integer as it is, a
   * boolean as 0 or 1; text, None, lists and compounds are a TypeError.
   */
  function CountValue(j: Json): (r: Result<int>)
    ensures r.Ok? <==> j.JInt? || j.JBool?
    ensures j.JInt? ==> r.value == j.i
    ensures j.JBool? ==> r.value == (if j.b then 1 else 0)
    ensures r.Err? ==> r.error == TypeError
  {
    match j
    case JInt(i) => Ok(i)
    case JBool(b) => Ok(if b then 1 else 0)
    case _ => Err(TypeError)
  }

  /**
   * Python `str()` of an NBT value: text as it is, an integer in decimal
   * (which `int()` reads back), `True`, `False` and `None`; the text of a
   * float, list or compound is the table's `text`.
   */
  function StrOf(j: Json, t: Tables): (r: string)
    ensures j.JStr? ==> r == j.s
    ensures j.JInt? ==> ParseInt(r) == Ok(j.i)
    ensures j.JBool? ==> r == (if j.b then "True" else "False")
    ensures j.JNull? ==> r == "None"
  {
    match j
    case JStr(s) => s
    case JInt(i) => ParseIntToString(i); IntToString(i)
    case JBool(b) => if b then "True" else "False"
    case JNull => "None"
    case _ => t.text(j)
  }

  /** Every item of a list read into an (id, count) pair, failing at the first that cannot be. */
  function ReadAll(items: seq<Json>, entry: Json -> Result<(string, int)>): (r: Result<seq<(string, int)>>)
    ensures r.Ok? ==> |r.value| == |items|
    ensures r.Ok? ==> forall i :: 0 <= i < |items| ==> entry(items[i]) == Ok(r.value[i])
    decreases |items|
  {
    if |items| == 0 then Ok([])
    else
      match entry(items[0])
      case Err(e) => Err(e)
      case Ok(p) =>
        match ReadAll(items[1..], entry)
        case Err(e) => Err(e)
        case Ok(ps) => Ok([p] + ps)
  }

  // ---------------------------------------------------------------------
  // get_materials_from_inventories
  // ---------------------------------------------------------------------

  /** The stored items: the `Items` list, else the single `Item`, else none. */
  function InventoryList(data: map<string, Json>): (r: Result<seq<Json>>)
    ensures "Items" in data ==> r == AsItems(data["Items"])
    ensures "Items" !in data && "Item" in data ==> r == Ok([data["Item"]])
    ensures "Items" !in data && "Item" !in data ==> r == Ok([])
  {
    if "Items" in data then AsItems(data["Items"])
    else if "Item" in data then Ok([data["Item"]])
    else Ok([])
  }

  /** One stored item: its id, and its `count`, else its `Count`, else 0. */
  function InventoryEntry(item: Json): (r: Result<(string, int)>)
    ensures r.Ok? ==> IdOf(item) == Ok(r.value.0)
    ensures IdOf(item).Ok? && "count" in item.fields ==>
      r.Ok? == (item.fields["count"].JInt? || item.fields["count"].JBool?)
    ensures r.Ok? && "count" in item.fields ==> CountValue(item.fields["count"]) == Ok(r.value.1)
    ensures r.Ok? && "count" !in item.fields && "Count" in item.fields ==>
      CountValue(item.fields["Count"]) == Ok(r.value.1)
    ensures IdOf(item).Ok? && "count" !in item.fields && "Count" !in item.fields ==> r == Ok((IdOf(item).value, 0))
  {
    match IdOf(item)
    case Err(e) => Err(e)
    case Ok(name) =>
      var f := item.fields;
      var count := if "count" in f then CountValue(f["count"])
                   else if "Count" in f then CountValue(f["Count"])
                   else Ok(0);
      count.Map(n => (name, n))
  }

  /** `get_materials_from_inventories` of src/entity_processing.py. */
  function InventoryMaterials(m: Materials, data: map<string, Json>): (r: Result<Materials>)
  {
    match InventoryList(data)
    case Err(e) => Err(e)
    case Ok(items) => ReadAll(items, InventoryEntry).Map(pairs => AddAll(m, pairs))
  }

  /**
   * A block entity adds to each item exactly the counts its stored items
   * carry under that id, and nothing else changes.
   */
  lemma InventoryAddsCounts(m: Materials, data: map<string, Json>)
    requires InventoryMaterials(m, data).Ok?
    ensures var items := InventoryList(data).value;
      var pairs := ReadAll(items, InventoryEntry).value;
      var r := InventoryMaterials(m, data).value;
      (forall k :: H.MapGetOr(r, k, 0) == H.MapGetOr(m, k, 0) + SumFor(pairs, k))
      && r.Keys == m.Keys + Names(pairs)
  {
    var pairs := ReadAll(InventoryList(data).value, InventoryEntry).value;
    AddAllCounts(m, pairs);
  }

  /** A block entity without `Items` or `Item` adds nothing. */
  lemma EmptyInventoryAddsNothing(m: Materials, data: map<string, Json>)
    requires "Items" !in data && "Item" !in data
    ensures InventoryMaterials(m, data) == Ok(m)
  {
  }

  // ---------------------------------------------------------------------
  // extract_entity_materials
  // ---------------------------------------------------------------------

  /** One carried item of a boat or minecart: its `count`, else its `Count`, which must be there. */
  function CarriedEntry(item: Json): (r: Result<(string, int)>)
    ensures r.Ok? ==> IdOf(item) == Ok(r.value.0)
    ensures IdOf(item).Ok? && "count" !in item.fields && "Count" !in item.fields ==> r == Err(KeyError)
  {
    match IdOf(item)
    case Err(e) => Err(e)
    case Ok(name) =>
      var f := item.fields;
      var count := if "count" in f then CountValue(f["count"])
                   else if "Count" in f then CountValue(f["Count"])
                   else Err(KeyError);
      count.Map(n => (name, n))
  }

  /** `data['BlockState']['Name'].replace("minecraft:", "")`. */
  function FallingBlockName(data: map<string, Json>): (r: Result<string>) {
    if "BlockState" !in data then Err(KeyError)
    else
      match data["BlockState"]
      case JObj(f) =>
        if "Name" !in f then Err(KeyError)
        else (match f["Name"] case JStr(s) => Ok(Unprefixed(s)) case _ => Err(AttributeError))
      case _ => Err(TypeError)
  }

  /** The fish and amphibians caught in a bucket. */
  predicate IsBucketable(name: string) {
    name in {"salmon", "cod", "axolotl", "tadpole"} || Contains(name, "fish")
  }

  /** Which rule of `extract_entity_materials` an entity name falls under, tried in order. */
  datatype EntityRule = Simple | ItemFrame | Vehicle | FallingBlock | Bucket | Golem | Dragon | Unfiltered | Skipped

  function RuleOf(name: string, t: Tables): EntityRule {
    if name in t.simple then Simple
    else if Contains(name, "item_frame") then ItemFrame
    else if Contains(name, "boat") || Contains(name, "minecart") then Vehicle
    else if name == "falling_block" then FallingBlock
    else if IsBucketable(name) then Bucket
    else if name in t.golems then Golem
    else if name == "ender_dragon" then Dragon
    else if name !in t.invalidEntities then Unfiltered
    else Skipped
  }

  /**
   * `extract_entity_materials`: what one entity stands for.
   *  - a simple entity is its own item;
   *  - an item frame is the frame and the item it holds;
   *  - a boat or minecart is `<str(Type)>_boat` when typed, else itself, plus what it carries;
   *  - a falling block is the items of its block, unless the block is invalid;
   *  - a bucketable mob is `<name>_bucket`;
   *  - a golem is its recipe;
   *  - the ender dragon is four end crystals, when it has a phase;
   *  - any other valid entity is `$<name>`, marked as known despite having no table entry;
   *  - an invalid entity adds nothing.
   */
  function ExtractEntityMaterials(m: Materials, name: string, data: map<string, Json>, t: Tables): (r: Result<Materials>)
    ensures RuleOf(name, t) == Simple ==> r == Ok(H.AddMaterial(m, name, 1))
    ensures RuleOf(name, t) == Bucket ==> r == Ok(H.AddMaterial(m, name + "_bucket", 1))
    ensures RuleOf(name, t) == Golem ==> r == Ok(AddAll(m, t.golems[name]))
    ensures RuleOf(name, t) == Dragon ==>
      r == Ok(if "DragonPhase" in data then H.AddMaterial(m, "end_crystal", 4) else m)
    ensures RuleOf(name, t) == Unfiltered ==> r == Ok(H.AddMaterial(m, "$" + name, 1))
    ensures RuleOf(name, t) == Skipped ==> r == Ok(m)
  {
    match RuleOf(name, t)
    case Simple => Ok(H.AddMaterial(m, name, 1))
    case ItemFrame =>
      var framed := H.AddMaterial(m, name, 1);
      if "Item" in data then IdOf(data["Item"]).Map(held => H.AddMaterial(framed, held, 1))
      else Ok(framed)
    case Vehicle =>
      var vehicle := if "Type" in data then StrOf(data["Type"], t) + "_boat" else name;
      var carried := if "Items" in data then AsItems(data["Items"]) else Ok([]);
      (match carried
       case Err(e) => Err(e)
       case Ok(items) => ReadAll(items, CarriedEntry).Map(pairs => AddAll(H.AddMaterial(m, vehicle, 1), pairs)))
    case FallingBlock =>
      FallingBlockName(data).Map(block =>
        if block in t.invalidBlocks then m
        else AddAll(m, OnePerItem(H.ConvertBlockToItem(block, t.blockTags))))
    case Bucket => Ok(H.AddMaterial(m, name + "_bucket", 1))
    case Golem => Ok(AddAll(m, t.golems[name]))
    case Dragon => Ok(if "DragonPhase" in data then H.AddMaterial(m, "end_crystal", 4) else m)
    case Unfiltered => Ok(H.AddMaterial(m, "$" + name, 1))
    case Skipped => Ok(m)
  }

  /** One of each name. */
  function OnePerItem(names: seq<string>): (r: seq<(string, int)>)
    ensures |r| == |names|
    ensures forall i :: 0 <= i < |names| ==> r[i] == (names[i], 1)
  {
    if |names| == 0 then [] else [(names[0], 1)] + OnePerItem(names[1..])
  }

  /** An item frame adds one frame, and one of the held item when there is one. */
  lemma ItemFrameAddsFrameAndItem(m: Materials, name: string, data: map<string, Json>, t: Tables)
    requires RuleOf(name, t) == ItemFrame
    ensures "Item" !in data ==> ExtractEntityMaterials(m, name, data, t) == Ok(H.AddMaterial(m, name, 1))
    ensures "Item" in data && IdOf(data["Item"]).Ok? ==>
      ExtractEntityMaterials(m, name, data, t)
        == Ok(H.AddMaterial(H.AddMaterial(m, name, 1), IdOf(data["Item"]).value, 1))
  {
  }

  /** A boat or minecart adds one of its kind, named by `Type` when present, and everything it carries. */
  lemma VehicleAddsItselfAndCargo(m: Materials, name: string, data: map<string, Json>, t: Tables)
    requires RuleOf(name, t) == Vehicle
    requires ExtractEntityMaterials(m, name, data, t).Ok?
    ensures var vehicle := if "Type" in data then StrOf(data["Type"], t) + "_boat" else name;
      var pairs := ReadAll(if "Items" in data then AsItems(data["Items"]).value else [], CarriedEntry).value;
      var r := ExtractEntityMaterials(m, name, data, t).value;
      forall k :: H.MapGetOr(r, k, 0) == H.MapGetOr(m, k, 0) + (if k == vehicle then 1 else 0) + SumFor(pairs, k)
  {
    var vehicle := if "Type" in data then StrOf(data["Type"], t) + "_boat" else name;
    var pairs := ReadAll(if "Items" in data then AsItems(data["Items"]).value else [], CarriedEntry).value;
    var m1 := H.AddMaterial(m, vehicle, 1);
    assert ExtractEntityMaterials(m, name, data, t).value == AddAll(m1, pairs);
    AddAllCounts(m1, pairs);
  }

  /** A falling block of an invalid block adds nothing; otherwise one of each item of the block. */
  lemma FallingBlockAddsItsItems(m: Materials, data: map<string, Json>, t: Tables)
    requires RuleOf("falling_block", t) == FallingBlock && FallingBlockName(data).Ok?
    ensures var block := FallingBlockName(data).value;
      ExtractEntityMaterials(m, "falling_block", data, t)
        == Ok(if block in t.invalidBlocks then m else AddAll(m, OnePerItem(H.ConvertBlockToItem(block, t.blockTags))))
  {
  }

  /** A golem adds exactly its recipe's counts and touches nothing else. */
  lemma GolemAddsRecipe(m: Materials, name: string, data: map<string, Json>, t: Tables)
    requires RuleOf(name, t) == Golem
    ensures var r := ExtractEntityMaterials(m, name, data, t).value;
      (forall k :: H.MapGetOr(r, k, 0) == H.MapGetOr(m, k, 0) + SumFor(t.golems[name], k))
      && r.Keys == m.Keys + Names(t.golems[name])
  {
    AddAllCounts(m, t.golems[name]);
  }

  /** The entity name `item` (a dropped item), when listed invalid and matched by no earlier rule, adds nothing. */
  lemma DroppedItemAddsNothing(m: Materials, data: map<string, Json>, t: Tables)
    requires "item" in t.invalidEntities && "item" !in t.simple && "item" !in t.golems
    ensures ExtractEntityMaterials(m, "item", data, t) == Ok(m)
  {
    LongerNotContained("item", "item_frame");
    LongerNotContained("item", "minecart");
    SameLengthContains("item", "boat");
    SameLengthContains("item", "fish");
  }

  /** A pattern longer than the text is not in it. */
  lemma {:induction false} LongerNotContained(s: string, p: string)
    requires |p| > |s|
    ensures !Contains(s, p)
    decreases |s|
  {
    if |s| > 0 {
      LongerNotContained(s[1..], p);
    }
  }

  /** A pattern as long as the text is in it only when it is the text. */
  lemma SameLengthContains(s: string, p: string)
    requires |p| == |s| > 0
    ensures Contains(s, p) <==> s == p
  {
    LongerNotContained(s[1..], p);
    assert s[..|p|] == s;
  }

  // ---------------------------------------------------------------------
  // Gear: leashes, headgear and useful enchantments
  // ---------------------------------------------------------------------

  /** `int_to_roman` as a value: a ValueError outside 1..3999. */
  function Roman(n: int): (r: Result<string>)
    ensures r.Ok? <==> 1 <= n <= 3999
  {
    if 1 <= n <= 3999 then Ok(H.Spell(H.Greedy(n, 0))) else Err(ValueError)
  }

  /** `d.get(key, {})` where `d` must itself be a compound. */
  function SubCompound(j: Json, key: string): (r: Result<map<string, Json>>)
    ensures r.Ok? ==> j.JObj?
    ensures j.JObj? && key !in j.fields ==> r == Ok(map[])
  {
    match j
    case JObj(f) =>
      if key !in f then Ok(map[])
      else (match f[key] case JObj(g) => Ok(g) case _ => Err(AttributeError))
    case _ => Err(AttributeError)
  }

  /**
   * Python `int()` of an NBT value: an integer as it is, a boolean as 0 or
   * 1, a float truncated toward zero, text parsed as a decimal integer (a
   * ValueError when it is not one); None, lists and compounds are a TypeError.
   */
  function IntOf(j: Json): (r: Result<int>)
    ensures r.Ok? <==> !(j.JNull? || j.JList? || j.JObj?) && (j.JStr? ==> ParseInt(j.s).Ok?)
    ensures j.JInt? ==> r == Ok(j.i)
    ensures j.JBool? ==> r == Ok(if j.b then 1 else 0)
    ensures j.JReal? && j.x >= 0.0 ==> r.Ok? && r.value as real <= j.x < r.value as real + 1.0
    ensures j.JReal? && j.x < 0.0 ==> r.Ok? && r.value as real - 1.0 < j.x <= r.value as real
    ensures j.JStr? ==> r == ParseInt(j.s)
    ensures r.Err? ==> r.error == (if j.JStr? then ValueError else TypeError)
  {
    match j
    case JInt(i) => Ok(i)
    case JBool(b) => Ok(if b then 1 else 0)
    case JReal(x) => Ok(if x >= 0.0 then x.Floor else -((-x).Floor))
    case JStr(s) => ParseInt(s)
    case _ => Err(TypeError)
  }

  /** `item.get("components", {}).get("minecraft:enchantments", {}).get("levels", {})`. */
  function LevelsCompound(item: Json): (r: Result<map<string, Json>>)
    ensures r.Ok? ==> item.JObj?
    ensures r.Err? ==> r.error == AttributeError
    ensures item.JObj? && "components" !in item.fields ==> r == Ok(map[])
  {
    match SubCompound(item, "components")
    case Err(e) => Err(e)
    case Ok(components) =>
      match SubCompound(JObj(components), "minecraft:enchantments")
      case Err(e) => Err(e)
      case Ok(enchantments) => SubCompound(JObj(enchantments), "levels")
  }

  /**
   * The enchantment levels of an item, every level read by `int()`: the
   * levels exist exactly when every one of them converts, each is what
   * `int()` makes of it, and a failure is the failure of one of them.
   */
  function EnchantmentLevels(item: Json): (r: Result<map<string, int>>)
    ensures r.Ok? ==> item.JObj?
    ensures LevelsCompound(item).Err? ==> r == Err(AttributeError)
    ensures LevelsCompound(item).Ok? ==>
      (r.Ok? <==> forall k :: k in LevelsCompound(item).value ==> IntOf(LevelsCompound(item).value[k]).Ok?)
    ensures r.Ok? ==> r.value.Keys == LevelsCompound(item).value.Keys
    ensures r.Ok? ==> forall k :: k in r.value ==> IntOf(LevelsCompound(item).value[k]) == Ok(r.value[k])
    ensures r.Err? && LevelsCompound(item).Ok? ==>
      exists k :: k in LevelsCompound(item).value && IntOf(LevelsCompound(item).value[k]) == Err(r.error)
  {
    match LevelsCompound(item)
    case Err(e) => Err(e)
    case Ok(levels) =>
      if forall k :: k in levels ==> IntOf(levels[k]).Ok? then Ok(map k | k in levels :: IntOf(levels[k]).value)
      else if exists k :: k in levels && IntOf(levels[k]) == Err(TypeError) then Err(TypeError)
      else Err(ValueError)
  }

  /** The level of one enchantment, under its namespaced key or its bare name. */
  function LevelOf(levels: map<string, int>, enchantment: string): (r: Option<int>)
    ensures r.None? <==> ("minecraft:" + enchantment) !in levels && enchantment !in levels
  {
    if ("minecraft:" + enchantment) in levels then Some(levels["minecraft:" + enchantment])
    else if enchantment in levels then Some(levels[enchantment])
    else None
  }

  /** The marked book name `$<enchantment>_<roman level>_book`. */
  function BookName(enchantment: string, roman: string): string {
    "$" + enchantment + "_" + roman + "_book"
  }

  /**
   * `process_enchanted_item` for one enchantment: nothing unless the item's
   * id names the gear; at or above the threshold level, the enchanted book
   * is added, and the gear itself when it is not listed yet.
   */
  function ProcessEnchantedItem(m: Materials, item: Json, gear: string, enchantment: string, threshold: int)
    : (r: Result<Materials>)
    ensures IdOrEmpty(item).Ok? && (IdOrEmpty(item).value == "" || !Contains(IdOrEmpty(item).value, gear)) ==> r == Ok(m)
    ensures r.Ok? && r.value != m ==> IdOrEmpty(item).Ok? && Contains(IdOrEmpty(item).value, gear)
  {
    match IdOrEmpty(item)
    case Err(e) => Err(e)
    case Ok(name) =>
      if name == "" || !Contains(name, gear) then Ok(m)
      else
        match EnchantmentLevels(item)
        case Err(e) => Err(e)
        case Ok(levels) =>
          match LevelOf(levels, enchantment)
          case None => Ok(m)
          case Some(level) =>
            if level < threshold then Ok(m)
            else if !(1 <= level <= 3999) then Err(ValueError)
            else Ok(AddBook(m, name, BookName(enchantment, Roman(level).value)))
  }

  /**
   * The book is counted once more; the gear is counted once only when it is
   * not listed yet; nothing else changes.
   */
  function AddBook(m: Materials, name: string, book: string): (r: Materials)
    ensures H.MapGetOr(r, book, 0) == H.MapGetOr(m, book, 0) + 1
    ensures name != book ==> H.MapGetOr(r, name, 0) == H.MapGetOr(m, name, 0) + (if name in m then 0 else 1)
    ensures forall k :: k != book && k != name ==> H.MapGetOr(r, k, 0) == H.MapGetOr(m, k, 0)
    ensures r.Keys == m.Keys + {book, name}
  {
    var withBook := H.AddMaterial(m, book, 1);
    if name in withBook then withBook else H.AddMaterial(withBook, name, 1)
  }

  /** An enchantment that is absent, or below the threshold, adds nothing. */
  lemma NoBookBelowThreshold(m: Materials, item: Json, gear: string, enchantment: string, threshold: int)
    requires IdOrEmpty(item).Ok? && EnchantmentLevels(item).Ok?
    requires var level := LevelOf(EnchantmentLevels(item).value, enchantment); level.None? || level.value < threshold
    ensures ProcessEnchantedItem(m, item, gear, enchantment, threshold) == Ok(m)
  {
  }

  /**
   * An enchantment at or above the threshold on matching gear adds exactly
   * one book, and one of the gear only when the gear was not listed before;
   * nothing else changes.
   */
  lemma EnchantedBookAdded(m: Materials, item: Json, gear: string, enchantment: string, threshold: int, level: int)
    requires IdOrEmpty(item).Ok? && IdOrEmpty(item).value != "" && Contains(IdOrEmpty(item).value, gear)
    requires EnchantmentLevels(item).Ok? && LevelOf(EnchantmentLevels(item).value, enchantment) == Some(level)
    requires threshold <= level
    ensures 1 <= level <= 3999 ==>
      ProcessEnchantedItem(m, item, gear, enchantment, threshold)
        == Ok(AddBook(m, IdOrEmpty(item).value, BookName(enchantment, H.Spell(H.Greedy(level, 0)))))
    ensures !(1 <= level <= 3999) ==> ProcessEnchantedItem(m, item, gear, enchantment, threshold) == Err(ValueError)
  {
  }

  /** `any(keyword in item_name for keyword in HEADGEAR_KWS)`. */
  predicate IsHeadgear(name: string, keywords: seq<string>) {
    exists i :: 0 <= i < |keywords| && Contains(name, keywords[i])
  }

  /** The armour loop: headgear is added as it is; boots with frost walker II or depth strider III add their books. */
  function ArmorMaterials(m: Materials, items: seq<Json>, t: Tables): (r: Result<Materials>)
    decreases |items|
  {
    if |items| == 0 then Ok(m)
    else
      match IdOrEmpty(items[0])
      case Err(e) => Err(e)
      case Ok(name) =>
        var m1 := if IsHeadgear(name, t.headgear) then H.AddMaterial(m, name, 1) else m;
        match ProcessEnchantedItem(m1, items[0], "boots", "frost_walker", 2)
        case Err(e) => Err(e)
        case Ok(m2) =>
          match ProcessEnchantedItem(m2, items[0], "boots", "depth_strider", 3)
          case Err(e) => Err(e)
          case Ok(m3) => ArmorMaterials(m3, items[1..], t)
  }

  /** The hand loop: swords with looting III or sharpness V, and axes with sharpness V, add their books. */
  function HandMaterials(m: Materials, items: seq<Json>): (r: Result<Materials>)
    decreases |items|
  {
    if |items| == 0 then Ok(m)
    else
      match IdOrEmpty(items[0])
      case Err(e) => Err(e)
      case Ok(_) =>
        match ProcessEnchantedItem(m, items[0], "sword", "looting", 3)
        case Err(e) => Err(e)
        case Ok(m1) =>
          match ProcessEnchantedItem(m1, items[0], "sword", "sharpness", 5)
          case Err(e) => Err(e)
          case Ok(m2) =>
            match ProcessEnchantedItem(m2, items[0], "axe", "sharpness", 5)
            case Err(e) => Err(e)
            case Ok(m3) => HandMaterials(m3, items[1..])
  }

  /** `handle_additional_entity_materials`: a leash is a lead; then the armour and the held items. */
  function AdditionalMaterials(m: Materials, data: map<string, Json>, t: Tables): (r: Result<Materials>)
    ensures "ArmorItems" !in data && "HandItems" !in data ==>
      r == Ok(if "leash" in data then H.AddMaterial(m, "lead", 1) else m)
  {
    var leashed := if "leash" in data then H.AddMaterial(m, "lead", 1) else m;
    var armored :=
      if "ArmorItems" !in data then Ok(leashed)
      else (match AsItems(data["ArmorItems"]) case Err(e) => Err(e) case Ok(items) => ArmorMaterials(leashed, items, t));
    match armored
    case Err(e) => Err(e)
    case Ok(m1) =>
      if "HandItems" !in data then Ok(m1)
      else (match AsItems(data["HandItems"]) case Err(e) => Err(e) case Ok(items) => HandMaterials(m1, items))
  }

  /** A piece of headgear without enchantments is added once, whatever else is listed. */
  lemma HeadgearAdded(m: Materials, id: string, t: Tables)
    requires IsHeadgear(Unprefixed(id), t.headgear) && !Contains(Unprefixed(id), "boots")
    ensures ArmorMaterials(m, [JObj(map["id" := JStr(id)])], t) == Ok(H.AddMaterial(m, Unprefixed(id), 1))
  {
    var item := JObj(map["id" := JStr(id)]);
    var name := Unprefixed(id);
    assert IdOrEmpty(item) == Ok(name);
    var m1 := H.AddMaterial(m, name, 1);
    assert ProcessEnchantedItem(m1, item, "boots", "frost_walker", 2) == Ok(m1);
    assert ProcessEnchantedItem(m1, item, "boots", "depth_strider", 3) == Ok(m1);
    assert [item][1..] == [];
  }

  /** `get_materials_from_entity`: the entity's own materials, then its gear. */
  function EntityMaterials(m: Materials, id: string, data: map<string, Json>, t: Tables): (r: Result<Materials>)
    ensures ExtractEntityMaterials(m, Unprefixed(id), data, t).Err? ==> r == Err(ExtractEntityMaterials(m, Unprefixed(id), data, t).error)
    ensures "leash" !in data && "ArmorItems" !in data && "HandItems" !in data ==>
      r == ExtractEntityMaterials(m, Unprefixed(id), data, t)
  {
    match ExtractEntityMaterials(m, Unprefixed(id), data, t)
    case Err(e) => Err(e)
    case Ok(m1) => AdditionalMaterials(m1, data, t)
  }

  // ---------------------------------------------------------------------
  // The older mapping of the root S2RM_backend.py
  // ---------------------------------------------------------------------

  /** A pattern holding a character the text lacks is not in the text. */
  lemma {:induction false} MissingCharNotContained(s: string, p: string, c: char)
    requires c in p && c !in s
    ensures !Contains(s, p)
    decreases |s|
  {
    var i :| 0 <= i < |p| && p[i] == c;
    if i < |s| {
      assert s[i] != p[i];
    }
    if |s| > 0 {
      MissingCharNotContained(s[1..], p, c);
    }
  }

  /** Which branch of the older `get_materials_from_entity` an entity name takes, tried in order. */
  datatype LegacyRule =
    | LegacySimple | LegacyVehicle | LegacyFallingBlock | LegacyBucket
    | IronGolem | SnowGolem | Wither | EnderDragon | LegacyUnfiltered

  function LegacyRuleOf(name: string, simple: set<string>): LegacyRule {
    if name in simple then LegacySimple
    else if Contains(name, "boat") || Contains(name, "minecart") then LegacyVehicle
    else if name == "falling_block" then LegacyFallingBlock
    else if IsBucketable(name) then LegacyBucket
    else if name == "iron_golem" then IronGolem
    else if name == "snow_golem" then SnowGolem
    else if name == "wither" then Wither
    else if name == "ender_dragon" then EnderDragon
    else LegacyUnfiltered
  }

  /**
   * A ten-letter name without `b`, `c` or `f` that is not listed as simple
   * is no vehicle, falling block or bucketable mob.
   */
  lemma {:induction false} NamedByEquality(name: string, simple: set<string>)
    requires name !in simple && |name| == 10 && 'b' !in name && 'c' !in name && 'f' !in name
    ensures LegacyRuleOf(name, simple) !in {LegacySimple, LegacyVehicle, LegacyFallingBlock, LegacyBucket}
  {
    MissingCharNotContained(name, "boat", 'b');
    MissingCharNotContained(name, "minecart", 'c');
    MissingCharNotContained(name, "fish", 'f');
    assert !IsBucketable(name);
  }

  /** The name `iron_golem` takes the iron golem branch unless it is listed as simple. */
  lemma IronGolemRule(simple: set<string>)
    requires "iron_golem" !in simple
    ensures LegacyRuleOf("iron_golem", simple) == IronGolem
  {
    var name := "iron_golem";
    assert |name| == 10 && 'b' !in name && 'c' !in name && 'f' !in name;
    NamedByEquality(name, simple);
  }

  /**
   * The branches every version of the older mapping shares: an entity that
   * is its own item (simple, boat, minecart, or unfiltered) adds one of
   * itself; a falling block adds the items of its block unless the block is
   * invalid; a bucketable mob is its bucket; a snow golem is a snow block
   * and a carved pumpkin; a wither is three soul sand and three wither
   * skeleton skulls; the ender dragon is one end crystal.
   */
  function LegacyCommonMaterials(m: Materials, name: string, block: string, t: Tables): (r: Materials)
    requires LegacyRuleOf(name, t.simple) != IronGolem
    ensures LegacyRuleOf(name, t.simple) in {LegacySimple, LegacyVehicle, LegacyUnfiltered} ==>
      r == H.AddMaterial(m, name, 1)
    ensures LegacyRuleOf(name, t.simple) == LegacyFallingBlock ==>
      r == (if block in t.invalidBlocks then m else AddAll(m, OnePerItem(H.LegacyConvertBlockToItem(block, t.blockTags))))
    ensures LegacyRuleOf(name, t.simple) == LegacyBucket ==> r == H.AddMaterial(m, name + "_bucket", 1)
    ensures LegacyRuleOf(name, t.simple) == SnowGolem ==>
      r == AddAll(m, [("snow_block", 1), ("carved_pumpkin", 1)])
    ensures LegacyRuleOf(name, t.simple) == Wither ==>
      r == AddAll(m, [("soul_sand", 3), ("wither_skeleton_skull", 3)])
    ensures LegacyRuleOf(name, t.simple) == EnderDragon ==> r == H.AddMaterial(m, "end_crystal", 1)
  {
    match LegacyRuleOf(name, t.simple)
    case LegacyFallingBlock =>
      if block in t.invalidBlocks then m else AddAll(m, OnePerItem(H.LegacyConvertBlockToItem(block, t.blockTags)))
    case LegacyBucket => H.AddMaterial(m, name + "_bucket", 1)
    case SnowGolem => AddAll(m, [("snow_block", 1), ("carved_pumpkin", 1)])
    case Wither => AddAll(m, [("soul_sand", 3), ("wither_skeleton_skull", 3)])
    case EnderDragon => H.AddMaterial(m, "end_crystal", 1)
    case _ => H.AddMaterial(m, name, 1)
  }

  /**
   * The older `get_materials_from_entity` as written, for an entity name
   * and the name of the block a falling block carries: the iron golem
   * branch sets the iron block count from the iron INGOT count plus four.
   */
  function LegacyNameMaterialsAsWritten(m: Materials, name: string, block: string, t: Tables): (r: Materials)
    ensures LegacyRuleOf(name, t.simple) == IronGolem ==>
      "iron_block" in r && r["iron_block"] == H.MapGetOr(m, "iron_ingot", 0) + 4
      && H.MapGetOr(r, "carved_pumpkin", 0) == H.MapGetOr(m, "carved_pumpkin", 0) + 1
    ensures LegacyRuleOf(name, t.simple) != IronGolem ==> r == LegacyCommonMaterials(m, name, block, t)
  {
    if LegacyRuleOf(name, t.simple) == IronGolem then
      var withBlocks := m["iron_block" := H.MapGetOr(m, "iron_ingot", 0) + 4];
      H.AddMaterial(withBlocks, "carved_pumpkin", 1)
    else LegacyCommonMaterials(m, name, block, t)
  }

  /**
   * The older mapping as intended: an iron golem adds four iron blocks
   * and one carved pumpkin to what is already counted.
   */
  function LegacyNameMaterials(m: Materials, name: string, block: string, t: Tables): (r: Materials)
    ensures LegacyRuleOf(name, t.simple) == IronGolem ==>
      (forall k :: H.MapGetOr(r, k, 0)
        == H.MapGetOr(m, k, 0) + (if k == "iron_block" then 4 else if k == "carved_pumpkin" then 1 else 0))
    ensures LegacyRuleOf(name, t.simple) != IronGolem ==> r == LegacyCommonMaterials(m, name, block, t)
  {
    if LegacyRuleOf(name, t.simple) == IronGolem then
      var pairs := [("iron_block", 4), ("carved_pumpkin", 1)];
      AddAllCounts(m, pairs);
      AddAll(m, pairs)
    else LegacyCommonMaterials(m, name, block, t)
  }

  /**
   * Two iron golems as written count four iron blocks, not eight: the
   * second golem overwrites the first one's blocks. The intended mapping
   * counts eight.
   */
  lemma IronGolemsAsWrittenLoseBlocks(t: Tables)
    requires "iron_golem" !in t.simple
    ensures var once := LegacyNameMaterialsAsWritten(map[], "iron_golem", "", t);
      H.MapGetOr(LegacyNameMaterialsAsWritten(once, "iron_golem", "", t), "iron_block", 0) == 4
    ensures var once := LegacyNameMaterials(map[], "iron_golem", "", t);
      H.MapGetOr(LegacyNameMaterials(once, "iron_golem", "", t), "iron_block", 0) == 8
  {
    IronGolemRule(t.simple);
    var once := LegacyNameMaterialsAsWritten(map[], "iron_golem", "", t);
    assert "iron_ingot" !in once by {
      assert once.Keys == {"iron_block", "carved_pumpkin"};
    }
  }

  /**
   * The older `get_materials_from_entity` as written, on the entity's id
   * and its block state's id, both unprefixed: it agrees with the intended
   * mapping on every entity but the iron golem, which sets the iron block
   * count from the iron ingot count.
   */
  function LegacyEntityMaterials(m: Materials, id: string, blockStateId: string, t: Tables): (r: Materials)
    ensures LegacyRuleOf(Unprefixed(id), t.simple) != IronGolem ==>
      r == LegacyNameMaterials(m, Unprefixed(id), Unprefixed(blockStateId), t)
    ensures LegacyRuleOf(Unprefixed(id), t.simple) == IronGolem ==>
      H.MapGetOr(r, "iron_block", 0) == H.MapGetOr(m, "iron_ingot", 0) + 4
  {
    LegacyNameMaterialsAsWritten(m, Unprefixed(id), Unprefixed(blockStateId), t)
  }

  /** A namespaced id and the bare id stand for the same entity and block. */
  lemma LegacyNamespaceIgnored(m: Materials, id: string, blockStateId: string, t: Tables)
    ensures LegacyEntityMaterials(m, "minecraft:" + id, "minecraft:" + blockStateId, t)
      == LegacyEntityMaterials(m, id, blockStateId, t)
  {
    UnprefixedNamespaced(id);
    UnprefixedNamespaced(blockStateId);
  }

  /** One stored item of the older reader: its id and its `Count`, both of which must be there. */
  function LegacyInventoryEntry(item: Json): (r: Result<(string, int)>)
    ensures r.Ok? <==> IdOf(item).Ok? && "Count" in item.fields && CountValue(item.fields["Count"]).Ok?
    ensures r.Ok? ==> r.value == (IdOf(item).value, CountValue(item.fields["Count"]).value)
    ensures IdOf(item).Ok? && "Count" !in item.fields ==> r == Err(KeyError)
  {
    match IdOf(item)
    case Err(e) => Err(e)
    case Ok(name) =>
      if "Count" !in item.fields then Err(KeyError)
      else CountValue(item.fields["Count"]).Map(n => (name, n))
  }

  /** The older `get_materials_from_inventories`: only the `Items` list is read. */
  function LegacyInventoryMaterials(m: Materials, data: map<string, Json>): (r: Result<Materials>)
    ensures "Items" !in data ==> r == Ok(m)
  {
    if "Items" !in data then Ok(m)
    else
      match AsItems(data["Items"])
      case Err(e) => Err(e)
      case Ok(items) => ReadAll(items, LegacyInventoryEntry).Map(pairs => AddAll(m, pairs))
  }

  /** The older reader adds to each item exactly the `Count`s stored under its id. */
  lemma LegacyInventoryAddsCounts(m: Materials, data: map<string, Json>)
    requires LegacyInventoryMaterials(m, data).Ok? && "Items" in data
    ensures var pairs := ReadAll(AsItems(data["Items"]).value, LegacyInventoryEntry).value;
      var r := LegacyInventoryMaterials(m, data).value;
      (forall k :: H.MapGetOr(r, k, 0) == H.MapGetOr(m, k, 0) + SumFor(pairs, k))
      && r.Keys == m.Keys + Names(pairs)
  {
    var pairs := ReadAll(AsItems(data["Items"]).value, LegacyInventoryEntry).value;
    AddAllCounts(m, pairs);
  }
}

=== FILE: exclude_parser.dfy ===
/**
 * The exclude-string parser: text such as "2sb 3s 5" read as an item count,
 * where a number followed by `s` counts stacks and by `sb` shulker boxes
 * (27 stacks), case-insensitively, and -1 signals malformed input.
 *
 * Two generations exist. The current backend (src/S2RM_backend.py, and the
 * root S2RM_backend.py) reads whole digit runs and takes the stack size of
 * the excluded material; the prototype of regex_test.py and the old
 * frontend read one digit at a time with a fixed stack of 64.
 */
module ExcludeParser {
  import opened Strings

  const DefaultStack: int := 64
  const ShulkerBoxSize: int := 27

  /** A stack size as the limited-stack table and the default provide it. */
  type StackSize = n: int | n >= 1 witness 1

  /** `LIMITED_STACK_ITEMS.get(material, DF_STACK_SIZE)`. */
  function StackSizeOf(limits: map<string, StackSize>, material: string): (r: StackSize)
    ensures material !in limits ==> r == DefaultStack
    ensures material in limits ==> r == limits[material]
  {
    if material in limits then limits[material] else DefaultStack
  }

  predicate IsS(c: char) { c == 's' || c == 'S' }
  predicate IsB(c: char) { c == 'b' || c == 'B' }

  // ---------------------------------------------------------------------
  // Validity: `re.fullmatch(r'(\d|\s|s|sb)+', text, re.IGNORECASE)` and no
  // lower-case "ss".
  // ---------------------------------------------------------------------

  /**
   * The input splits into tokens digit, whitespace, `s` or `sb` (any case).
   * Where `sb` can be read it must be, as no token starts with `b`.
   */
  predicate Tokens(s: string)
    decreases |s|
  {
    if |s| == 0 then true
    else if |s| >= 2 && IsS(s[0]) && IsB(s[1]) then Tokens(s[2..])
    else (IsDigit(s[0]) || IsSpace(s[0]) || IsS(s[0])) && Tokens(s[1..])
  }

  /** The character at `i` may appear: a `b` only straight after an `s`. */
  predicate AllowedAt(s: string, i: int)
    requires 0 <= i < |s|
  {
    IsDigit(s[i]) || IsSpace(s[i]) || IsS(s[i]) || (IsB(s[i]) && i > 0 && IsS(s[i - 1]))
  }

  predicate AllAllowed(s: string) {
    forall i :: 0 <= i < |s| ==> AllowedAt(s, i)
  }

  /** The three rejections: empty input, a token mismatch, or a lower-case "ss". */
  predicate ValidExclude(s: string) {
    |s| > 0 && Tokens(s) && !Contains(s, "ss")
  }

  lemma AllowedShift(s: string, k: nat)
    requires k <= |s|
    requires AllAllowed(s)
    requires k < |s| ==> !IsB(s[k])
    ensures AllAllowed(s[k..])
  {
    var t := s[k..];
    forall i | 0 <= i < |t| ensures AllowedAt(t, i) {
      assert t[i] == s[k + i];
      assert AllowedAt(s, k + i);
      if i > 0 { assert t[i - 1] == s[k + i - 1]; }
    }
  }

  /**
   * The token grammar accepts exactly the strings in which every character
   * is a digit, whitespace or `s`, or a `b` directly after an `s`.
   */
  lemma {:induction false} TokensIffAllowed(s: string)
    ensures Tokens(s) <==> AllAllowed(s)
    decreases |s|
  {
    if |s| > 0 {
      if AllAllowed(s) {
        assert AllowedAt(s, 0);
        if |s| >= 2 && IsS(s[0]) && IsB(s[1]) {
          assert |s| > 2 ==> AllowedAt(s, 2);
          AllowedShift(s, 2);
          TokensIffAllowed(s[2..]);
        } else {
          assert |s| > 1 ==> AllowedAt(s, 1);
          AllowedShift(s, 1);
          TokensIffAllowed(s[1..]);
        }
      }
      if Tokens(s) {
        if |s| >= 2 && IsS(s[0]) && IsB(s[1]) {
          TokensIffAllowed(s[2..]);
          forall i | 0 <= i < |s| ensures AllowedAt(s, i) {
            if i >= 2 {
              assert AllowedAt(s[2..], i - 2);
              if i >= 3 { assert s[2..][i - 3] == s[i - 1]; }
            }
          }
        } else {
          TokensIffAllowed(s[1..]);
          forall i | 0 <= i < |s| ensures AllowedAt(s, i) {
            if i >= 1 {
              assert AllowedAt(s[1..], i - 1);
              if i >= 2 { assert s[1..][i - 2] == s[i - 1]; }
            }
          }
        }
      }
    }
  }

  /** Python `x + y in s` for a two-character pattern, by position. */
  lemma {:induction false} ContainsPair(s: string, x: char, y: char)
    ensures Contains(s, [x, y]) <==> exists i :: 0 <= i < |s| - 1 && s[i] == x && s[i + 1] == y
    decreases |s|
  {
    assert StartsWith(s, [x, y]) <==> |s| >= 2 && s[0] == x && s[1] == y by {
      if |s| >= 2 { assert s[..2] == [s[0], s[1]]; }
    }
    if |s| > 0 {
      ContainsPair(s[1..], x, y);
      if exists i :: 0 <= i < |s| - 1 && s[i] == x && s[i + 1] == y {
        var i :| 0 <= i < |s| - 1 && s[i] == x && s[i + 1] == y;
        if i > 0 { assert s[1..][i - 1] == x && s[1..][i] == y; }
      }
      if Contains(s[1..], [x, y]) {
        var i :| 0 <= i < |s[1..]| - 1 && s[1..][i] == x && s[1..][i + 1] == y;
        assert s[i + 1] == x && s[i + 2] == y;
      }
    }
  }

  /** Two valid inputs joined by a whitespace character make a valid input. */
  lemma ValidJoin(a: string, c: char, b: string)
    requires ValidExclude(a) && ValidExclude(b) && IsSpace(c)
    ensures ValidExclude(a + [c] + b)
  {
    var s := a + [c] + b;
    TokensIffAllowed(a);
    TokensIffAllowed(b);
    TokensIffAllowed(s);
    forall i | 0 <= i < |s| ensures AllowedAt(s, i) {
      if i < |a| {
        assert AllowedAt(a, i);
        if i > 0 { assert s[i - 1] == a[i - 1]; }
      } else if i > |a| {
        var j := i - |a| - 1;
        assert s[i] == b[j];
        assert AllowedAt(b, j);
        if j > 0 { assert s[i - 1] == b[j - 1]; }
      }
    }
    ContainsPair(a, 's', 's');
    ContainsPair(b, 's', 's');
    ContainsPair(s, 's', 's');
    assert "ss" == ['s', 's'];
    forall i | 0 <= i < |s| - 1 ensures !(s[i] == 's' && s[i + 1] == 's') {
      if i < |a| - 1 {
        assert s[i] == a[i] && s[i + 1] == a[i + 1];
      } else if i > |a| {
        assert s[i] == b[i - |a| - 1] && s[i + 1] == b[i - |a|];
      }
    }
  }

  // ---------------------------------------------------------------------
  // Scanning: `re.finditer(r"(\d+)(sb|s)?", text, re.IGNORECASE)` and the
  // single-digit `(\d)(sb|s)?`.
  // ---------------------------------------------------------------------

  /** The unit a number is counted in. */
  datatype Unit = Items | Stacks | Boxes

  /** The optional suffix after a number: `sb` is tried before `s`. */
  function UnitAt(rest: string): (u: Unit)
    ensures u == Boxes <==> |rest| >= 2 && IsS(rest[0]) && IsB(rest[1])
    ensures u == Stacks <==> |rest| >= 1 && IsS(rest[0]) && !(|rest| >= 2 && IsB(rest[1]))
  {
    if |rest| >= 2 && IsS(rest[0]) && IsB(rest[1]) then Boxes
    else if |rest| >= 1 && IsS(rest[0]) then Stacks
    else Items
  }

  /** The number of characters the suffix takes. */
  function UnitLength(u: Unit): nat {
    match u
    case Items => 0
    case Stacks => 1
    case Boxes => 2
  }

  /** Items per unit: one, a stack, or a shulker box of 27 stacks. */
  function UnitSize(u: Unit, stack: int): int {
    match u
    case Items => 1
    case Stacks => stack
    case Boxes => stack * ShulkerBoxSize
  }

  /** The sum over every maximal digit run times the size of the unit after it. */
  function ScanRuns(s: string, stack: int): int
    decreases |s|
  {
    if |s| == 0 then 0
    else if !IsDigit(s[0]) then ScanRuns(s[1..], stack)
    else
      var p := DigitPrefix(s);
      var rest := s[|p|..];
      var u := UnitAt(rest);
      DigitsValue(p) * UnitSize(u, stack) + ScanRuns(rest[UnitLength(u)..], stack)
  }

  /** The sum over every single digit times the size of the unit after it. */
  function ScanDigits(s: string, stack: int): int
    decreases |s|
  {
    if |s| == 0 then 0
    else if !IsDigit(s[0]) then ScanDigits(s[1..], stack)
    else
      var rest := s[1..];
      var u := UnitAt(rest);
      DigitValue(s[0]) * UnitSize(u, stack) + ScanDigits(rest[UnitLength(u)..], stack)
  }

  /**
   * `process_exclude_string` of the current backend: -1 for invalid input,
   * otherwise the scanned total with the material's stack size.
   */
  function ProcessExclude(input: string, stack: StackSize): (r: int)
    ensures r == -1 <==> !ValidExclude(input)
    ensures r >= -1
  {
    if !ValidExclude(input) then -1
    else
      ScanRunsNonNegative(input, stack);
      ScanRuns(input, stack)
  }

  /** `process_exclude_string` of the backend for a named material. */
  function ProcessExcludeFor(input: string, material: string, limits: map<string, StackSize>): (r: int)
    ensures r == -1 <==> !ValidExclude(input)
    ensures material !in limits ==> r == ProcessExclude(input, DefaultStack)
  {
    ProcessExclude(input, StackSizeOf(limits, material))
  }

  /**
   * `process_string` of the prototype in regex_test.py and `process_exclude_string` of
   * the old frontend: one digit at a time, 64 to a stack.
   */
  function ProcessExcludeDigits(input: string): (r: int)
    ensures r == -1 <==> !ValidExclude(input)
    ensures r >= -1
  {
    if !ValidExclude(input) then -1
    else
      ScanDigitsNonNegative(input, DefaultStack);
      ScanDigits(input, DefaultStack)
  }

  lemma {:induction false} ScanRunsNonNegative(s: string, stack: int)
    requires stack >= 0
    ensures ScanRuns(s, stack) >= 0
    decreases |s|
  {
    if |s| > 0 {
      if !IsDigit(s[0]) {
        ScanRunsNonNegative(s[1..], stack);
      } else {
        var p := DigitPrefix(s);
        var rest := s[|p|..];
        ScanRunsNonNegative(rest[UnitLength(UnitAt(rest))..], stack);
      }
    }
  }

  lemma {:induction false} ScanDigitsNonNegative(s: string, stack: int)
    requires stack >= 0
    ensures ScanDigits(s, stack) >= 0
    decreases |s|
  {
    if |s| > 0 {
      if !IsDigit(s[0]) {
        ScanDigitsNonNegative(s[1..], stack);
      } else {
        var rest := s[1..];
        ScanDigitsNonNegative(rest[UnitLength(UnitAt(rest))..], stack);
      }
    }
  }

  // ---------------------------------------------------------------------
  // Whitespace separates terms: the total is the sum of the terms.
  // ---------------------------------------------------------------------

  /** Text after a number's digits keeps its suffix when more text follows a whitespace. */
  lemma UnitAtExtend(rest: string, c: char, b: string)
    requires IsSpace(c)
    ensures UnitAt(rest + [c] + b) == UnitAt(rest)
    ensures UnitLength(UnitAt(rest)) <= |rest|
  {
    var r := rest + [c] + b;
    if |rest| >= 2 {
      assert r[0] == rest[0] && r[1] == rest[1];
    } else if |rest| == 1 {
      assert r[0] == rest[0] && r[1] == c;
    } else {
      assert r[0] == c;
    }
  }

  /** The digit run at the front of `a` is not lengthened by appending whitespace and more text. */
  lemma DigitPrefixExtend(a: string, c: char, b: string)
    requires IsSpace(c)
    ensures DigitPrefix(a + [c] + b) == DigitPrefix(a)
  {
    var p := DigitPrefix(a);
    var t := a[|p|..] + [c] + b;
    assert a + [c] + b == p + t by {
      assert a == p + a[|p|..];
    }
    if |p| < |a| {
      assert t[0] == a[|p|];
    } else {
      assert t[0] == c;
    }
    DigitPrefixOfDigits(p, t);
  }

  /** Joining two inputs with a whitespace character adds their totals. */
  lemma {:induction false} ScanRunsSplit(a: string, c: char, b: string, stack: int)
    requires IsSpace(c)
    ensures ScanRuns(a + [c] + b, stack) == ScanRuns(a, stack) + ScanRuns(b, stack)
    decreases |a|
  {
    var s := a + [c] + b;
    if |a| == 0 {
      assert s == [c] + b;
      assert s[1..] == b;
    } else if !IsDigit(a[0]) {
      assert s[1..] == a[1..] + [c] + b;
      ScanRunsSplit(a[1..], c, b, stack);
    } else {
      var p := DigitPrefix(a);
      DigitPrefixExtend(a, c, b);
      var rest := a[|p|..];
      assert s[|p|..] == rest + [c] + b;
      UnitAtExtend(rest, c, b);
      var n := UnitLength(UnitAt(rest));
      assert (rest + [c] + b)[n..] == rest[n..] + [c] + b;
      ScanRunsSplit(rest[n..], c, b, stack);
    }
  }

  /** The same holds for the one-digit-at-a-time scanner. */
  lemma {:induction false} ScanDigitsSplit(a: string, c: char, b: string, stack: int)
    requires IsSpace(c)
    ensures ScanDigits(a + [c] + b, stack) == ScanDigits(a, stack) + ScanDigits(b, stack)
    decreases |a|
  {
    var s := a + [c] + b;
    if |a| == 0 {
      assert s == [c] + b;
      assert s[1..] == b;
    } else if !IsDigit(a[0]) {
      assert s[1..] == a[1..] + [c] + b;
      ScanDigitsSplit(a[1..], c, b, stack);
    } else {
      var rest := a[1..];
      assert s[1..] == rest + [c] + b;
      UnitAtExtend(rest, c, b);
      var n := UnitLength(UnitAt(rest));
      assert (rest + [c] + b)[n..] == rest[n..] + [c] + b;
      ScanDigitsSplit(rest[n..], c, b, stack);
    }
  }

  /** A term `N`, `Ns` or `Nsb` counts N items, N stacks or N shulker boxes. */
  lemma ScanTerm(n: nat, u: Unit, stack: int)
    ensures ScanRuns(NatToString(n) + UnitText(u), stack) == n * UnitSize(u, stack)
  {
    var d := NatToString(n);
    var t := UnitText(u);
    var s := d + t;
    DigitPrefixOfDigits(d, t);
    assert s[|d|..] == t;
    assert t[UnitLength(u)..] == [];
  }

  /** The suffix text written for a unit. */
  function UnitText(u: Unit): (t: string)
    ensures UnitAt(t) == u && |t| == UnitLength(u)
  {
    match u
    case Items => ""
    case Stacks => "s"
    case Boxes => "sb"
  }

  // ---------------------------------------------------------------------
  // The two generations agree when no two digits are adjacent.
  // ---------------------------------------------------------------------

  predicate SingleDigitNumbers(s: string) {
    forall i :: 0 <= i < |s| - 1 ==> !(IsDigit(s[i]) && IsDigit(s[i + 1]))
  }

  lemma {:induction false} ScanDigitsIsScanRuns(s: string, stack: int)
    requires SingleDigitNumbers(s)
    ensures ScanDigits(s, stack) == ScanRuns(s, stack)
    decreases |s|
  {
    if |s| > 0 {
      if !IsDigit(s[0]) {
        assert SingleDigitNumbers(s[1..]);
        ScanDigitsIsScanRuns(s[1..], stack);
      } else {
        assert |s| == 1 || !IsDigit(s[1]);
        assert DigitPrefix(s) == [s[0]] by {
          DigitPrefixOfDigits([s[0]], s[1..]);
          assert [s[0]] + s[1..] == s;
        }
        assert DigitsValue([s[0]]) == DigitValue(s[0]) by {
          assert [s[0]][..0] == [];
        }
        var rest := s[1..];
        var n := UnitLength(UnitAt(rest));
        assert n <= |rest|;
        assert SingleDigitNumbers(rest[n..]) by {
          forall i | 0 <= i < |rest[n..]| - 1
            ensures !(IsDigit(rest[n..][i]) && IsDigit(rest[n..][i + 1]))
          {
            assert rest[n..][i] == s[1 + n + i] && rest[n..][i + 1] == s[1 + n + i + 1];
          }
        }
        ScanDigitsIsScanRuns(rest[n..], stack);
      }
    }
  }

  /** On input without multi-digit numbers the prototype and the current backend agree. */
  lemma PrototypeAgreesWithBackend(input: string)
    requires SingleDigitNumbers(input)
    ensures ProcessExcludeDigits(input) == ProcessExclude(input, DefaultStack)
  {
    if ValidExclude(input) {
      ScanDigitsIsScanRuns(input, DefaultStack);
    }
  }

  /** Multi-digit numbers are where they differ: "12s" is 12 stacks, or 1 item and 2 stacks. */
  lemma MultiDigitDiffers()
    ensures ProcessExclude("12s", DefaultStack) == 768
    ensures ProcessExcludeDigits("12s") == 129
  {
    TwelveStacksValid();
    TwelveStacksRuns();
    TwelveStacksDigits();
  }

  lemma TwelveStacksValid()
    ensures ValidExclude("12s")
  {
    ContainsPair("12s", 's', 's');
  }

  lemma TwelveStacksRuns()
    ensures ScanRuns("12s", DefaultStack) == 768
  {
    assert "12s" == "12" + "s";
    DigitPrefixOfDigits("12", "s");
    assert DigitsValue("12") == 12 by {
      assert "12"[..1] == "1";
    }
    assert "12s"[2..] == "s";
    assert "s"[1..] == [];
  }

  lemma TwelveStacksDigits()
    ensures ScanDigits("12s", DefaultStack) == 129
  {
    assert "12s"[1..] == "2s";
    assert "2s"[1..] == "s";
    assert "s"[1..] == [];
  }
}

/**
 * The test table of the prototype parser (regex_test.py), one lemma per row
 * in the table's order.
 */
module ExcludeParserTable {
  import opened Strings
  import opened ExcludeParser

  /** A whitespace-joined input is valid and adds up its parts. */
  lemma SpaceJoin(s: string, a: string, b: string)
    requires s == a + " " + b
    requires ValidExclude(a) && ValidExclude(b)
    ensures ValidExclude(s)
    ensures ScanDigits(s, DefaultStack) == ScanDigits(a, DefaultStack) + ScanDigits(b, DefaultStack)
  {
    ValidJoin(a, ' ', b);
    ScanDigitsSplit(a, ' ', b, DefaultStack);
  }

  lemma ItemTerm(d: char)
    requires IsDigit(d)
    ensures ValidExclude([d]) && ScanDigits([d], DefaultStack) == DigitValue(d)
  {
    assert [d][1..] == [];
  }

  lemma StackTerm(d: char, c: char)
    requires IsDigit(d) && IsS(c)
    ensures ValidExclude([d, c]) && ScanDigits([d, c], DefaultStack) == 64 * DigitValue(d)
  {
    assert [d, c][1..] == [c];
    assert [c][1..] == [];
    ContainsPair([d, c], 's', 's');
  }

  lemma BoxTerm(d: char, c: char, e: char)
    requires IsDigit(d) && IsS(c) && IsB(e)
    ensures ValidExclude([d, c, e]) && ScanDigits([d, c, e], DefaultStack) == 1728 * DigitValue(d)
  {
    assert [d, c, e][1..] == [c, e];
    assert [c, e][2..] == [];
    ContainsPair([d, c, e], 's', 's');
  }

  lemma Split01()
    ensures "1s 2Sb 3 4S 5sb" == "1s" + " " + "2Sb 3 4S 5sb"
    ensures "2Sb 3 4S 5sb" == "2Sb" + " " + "3 4S 5sb"
    ensures "3 4S 5sb" == "3" + " " + "4S 5sb"
    ensures "4S 5sb" == "4S" + " " + "5sb"
  {
  }

  lemma Row01()
    ensures ProcessExcludeDigits("1s 2Sb 3 4S 5sb") == 12419
  {
    StackTerm('1', 's');
    BoxTerm('2', 'S', 'b');
    ItemTerm('3');
    StackTerm('4', 'S');
    BoxTerm('5', 's', 'b');
    Split01();
    SpaceJoin("4S 5sb", "4S", "5sb");
    SpaceJoin("3 4S 5sb", "3", "4S 5sb");
    SpaceJoin("2Sb 3 4S 5sb", "2Sb", "3 4S 5sb");
    SpaceJoin("1s 2Sb 3 4S 5sb", "1s", "2Sb 3 4S 5sb");
  }

  lemma Row02()
    ensures ProcessExcludeDigits("1 ") == 1
  {
  }

  lemma Row03()
    ensures ProcessExcludeDigits("2s") == 128
  {
  }

  lemma Row04()
    ensures ProcessExcludeDigits("3sb ") == 5184
  {
  }

  lemma Row05()
    ensures ProcessExcludeDigits("1s1s1s") == 192
  {
  }

  lemma Row06Valid()
    ensures ValidExclude("1sb1sb1sb")
  {
    Row06Tokens();
    ContainsPair("1sb1sb1sb", 's', 's');
  }

  lemma Row06Tokens()
    ensures Tokens("1sb1sb1sb")
  {
    TokensIffAllowed("1sb1sb1sb");
  }

  lemma OneBox()
    ensures ScanDigits("1sb", DefaultStack) == 1728
  {
    assert "1sb"[1..][2..] == "";
  }

  lemma TwoBoxes()
    ensures ScanDigits("1sb1sb", DefaultStack) == 3456
  {
    OneBox();
    var rest := "1sb1sb"[1..];
    assert rest == "sb1sb";
    assert UnitAt(rest) == Boxes;
    assert rest[2..] == "1sb";
  }

  lemma Row06Value()
    ensures ScanDigits("1sb1sb1sb", DefaultStack) == 5184
  {
    TwoBoxes();
    var rest := "1sb1sb1sb"[1..];
    assert rest == "sb1sb1sb";
    assert UnitAt(rest) == Boxes;
    assert rest[2..] == "1sb1sb";
  }

  lemma Row06()
    ensures ProcessExcludeDigits("1sb1sb1sb") == 5184
  {
    Row06Valid();
    Row06Value();
  }

  lemma Row07()
    ensures ProcessExcludeDigits("1 2 3") == 6
  {
    ItemTerm('1');
    ItemTerm('2');
    ItemTerm('3');
    assert "1 2 3" == "1" + " " + "2 3";
    assert "2 3" == "2" + " " + "3";
    SpaceJoin("2 3", "2", "3");
    SpaceJoin("1 2 3", "1", "2 3");
  }

  lemma Row08()
    ensures ProcessExcludeDigits("1S 2sb 3") == 3523
  {
    StackTerm('1', 'S');
    BoxTerm('2', 's', 'b');
    ItemTerm('3');
    assert "1S 2sb 3" == "1S" + " " + "2sb 3";
    assert "2sb 3" == "2sb" + " " + "3";
    SpaceJoin("2sb 3", "2sb", "3");
    SpaceJoin("1S 2sb 3", "1S", "2sb 3");
  }

  lemma Row09()
    ensures ProcessExcludeDigits("1 2s 3sb") == 5313
  {
    ItemTerm('1');
    StackTerm('2', 's');
    BoxTerm('3', 's', 'b');
    assert "1 2s 3sb" == "1" + " " + "2s 3sb";
    assert "2s 3sb" == "2s" + " " + "3sb";
    SpaceJoin("2s 3sb", "2s", "3sb");
    SpaceJoin("1 2s 3sb", "1", "2s 3sb");
  }

  lemma Row10()
    ensures ProcessExcludeDigits("") == -1
  {
  }

  lemma Row11()
    ensures ProcessExcludeDigits("0s") == 0
  {
  }

  lemma Row12()
    ensures ProcessExcludeDigits("0sb") == 0
  {
  }

  lemma Row13()
    ensures ProcessExcludeDigits("0") == 0
  {
  }

  lemma Row14()
    ensures ProcessExcludeDigits("1a") == -1
  {
  }

  lemma Row15()
    ensures ProcessExcludeDigits("1-") == -1
  {
  }

  lemma Row16()
    ensures ProcessExcludeDigits("1#") == -1
  {
  }

  lemma Row17()
    ensures ProcessExcludeDigits("1 s b") == -1
  {
    TokensIffAllowed("1 s b");
    assert !AllowedAt("1 s b", 4);
  }

  lemma Row18()
    ensures ProcessExcludeDigits("1 ss") == -1
  {
  }

  lemma Row19()
    ensures ProcessExcludeDigits("1 sss") == -1
  {
  }

  lemma Row20()
    ensures ProcessExcludeDigits("1s 2b") == -1
  {
    TokensIffAllowed("1s 2b");
    assert !AllowedAt("1s 2b", 4);
  }

  lemma Row21()
    ensures ProcessExcludeDigits("1s 2s 3x") == -1
  {
    TokensIffAllowed("1s 2s 3x");
    assert !AllowedAt("1s 2s 3x", 7);
  }

  lemma Row22()
    ensures ProcessExcludeDigits("1s 2s 3-") == -1
  {
    TokensIffAllowed("1s 2s 3-");
    assert !AllowedAt("1s 2s 3-", 7);
  }

  lemma Row23()
    ensures ProcessExcludeDigits("a1s") == -1
  {
  }

  lemma Row24()
    ensures ProcessExcludeDigits("1s a") == -1
  {
    TokensIffAllowed("1s a");
    assert !AllowedAt("1s a", 3);
  }
}

=== FILE: extractor_runner.dfy ===
/**
 * The Python driver of the source extractor (src/extractor_runner.py): it
 * turns what the user typed into a version and a directory name, decides
 * whether the extractor has to run, and copies the three extracted Java
 * files. The file system is a predicate telling which paths exist; the
 * extractor run (a Gradle subprocess) is a function from the version to
 * the file system it leaves behind, or to its failure.
 */
module ExtractorRunner {
  import opened Results
  import opened Strings
  import opened VersionTokens

  /** A path as its list of components. */
  type Path = seq<string>

  /** Which paths exist. */
  type FileSystem = Path -> bool

  /** `TARGET_FILES`: the three sources the calculator reads, relative to a version's directory. */
  const TargetFiles: seq<Path> := [
    ["net", "minecraft", "world", "entity", "EntityType.java"],
    ["net", "minecraft", "world", "level", "block", "Blocks.java"],
    ["net", "minecraft", "world", "item", "Items.java"]
  ]

  /** `Path.name`: the last component. */
  function Name(p: Path): string {
    if |p| == 0 then "" else p[|p| - 1]
  }

  /**
   * `normalise_version`: the first version token of the stripped input,
   * with `_` turned into `.`; `ValueError` when the input holds no digit.
   */
  function NormaliseVersion(raw: string): (r: Result<string>)
    ensures r.Err? ==> r.error == ValueError
  {
    match Token(Strip(raw))
    case None => Err(ValueError)
    case Some(t) => Ok(Dotted(t))
  }

  /**
   * Stripping the input first makes no difference: the version is the
   * first token of the raw input, and normalising fails exactly when the
   * input holds no digit.
   */
  lemma NormaliseVersionUnstripped(raw: string)
    ensures NormaliseVersion(raw) == match Token(raw) case None => Err(ValueError) case Some(t) => Ok(Dotted(t))
    ensures NormaliseVersion(raw).Err? <==> forall j :: 0 <= j < |raw| ==> !IsDigit(raw[j])
  {
    TokenOfStrip(raw);
  }

  /**
   * A normalised version is a whole token without `_`, found in the input
   * from its first digit on, and normalising it again gives it back.
   */
  lemma NormaliseVersionIdempotent(raw: string)
    requires NormaliseVersion(raw).Ok?
    ensures IsToken(NormaliseVersion(raw).value) && '_' !in NormaliseVersion(raw).value
    ensures NormaliseVersion(NormaliseVersion(raw).value) == NormaliseVersion(raw)
  {
    var s := Strip(raw);
    var t := Token(s).value;
    TokenIsFirstLongest(s, FirstDigit(s), t, 0);
    var r := Dotted(t);
    assert NormaliseVersion(raw) == Ok(r);
    DottedToken(t);
    DottedTokenIsFixed(t);
    TokenNotStripped(r);
    assert Token(Strip(r)) == Some(r);
  }

  /** A token holds no white space, so stripping leaves it as it is. */
  lemma TokenNotStripped(r: string)
    requires IsToken(r)
    ensures Strip(r) == r
  {
    assert forall j :: 0 <= j < |r| ==> IsTokenChar(r[j]);
    assert forall j :: 0 <= j < |r| ==> !IsSpace(r[j]);
  }

  /** `sanitise_segment`: letters, digits, `.`, `-` and `_` are kept, anything else becomes `_`. */
  function SanitiseSegment(text: string): (r: string)
    ensures |r| == |text|
    ensures forall i :: 0 <= i < |r| ==> IsSegmentChar(r[i])
  {
    SanitiseIdempotent(text);
    Sanitise(text)
  }

  /** Sanitising twice is sanitising once, and a clean segment is left as it is. */
  lemma SanitiseSegmentIdempotent(text: string)
    ensures SanitiseSegment(SanitiseSegment(text)) == SanitiseSegment(text)
    ensures (forall i :: 0 <= i < |text| ==> IsSegmentChar(text[i])) ==> SanitiseSegment(text) == text
  {
    SanitiseIdempotent(text);
    SanitiseFixedIff(text);
  }

  /** `_sources_root`: the version's directory under the game data root. */
  function SourcesRoot(gameData: Path, version: string): (r: Result<Path>)
    ensures r.Ok? ==> |r.value| == |gameData| + 1 && r.value[..|gameData|] == gameData
    ensures r.Err? <==> NormaliseVersion(version).Err?
  {
    match NormaliseVersion(version)
    case Err(e) => Err(e)
    case Ok(v) => Ok(gameData + [SanitiseSegment(v)])
  }

  /**
   * `_locate_source_file`: the file at its nested path when it is there,
   * else directly under the root by its name, else nothing.
   */
  function LocateSourceFile(fs: FileSystem, root: Path, rel: Path): (r: Option<Path>)
    ensures r.Some? ==> fs(r.value)
    ensures r.Some? ==> r.value == root + rel || r.value == root + [Name(rel)]
    ensures fs(root + rel) ==> r == Some(root + rel)
    ensures r.None? <==> !fs(root + rel) && !fs(root + [Name(rel)])
  {
    if fs(root + rel) then Some(root + rel)
    else if fs(root + [Name(rel)]) then Some(root + [Name(rel)])
    else None
  }

  /** `_missing_any`: some target file cannot be located under the root. */
  function MissingAny(fs: FileSystem, root: Path): (r: bool)
    ensures r <==> exists j :: 0 <= j < |TargetFiles| && LocateSourceFile(fs, root, TargetFiles[j]).None?
  {
    LocateSourceFile(fs, root, TargetFiles[0]).None?
    || LocateSourceFile(fs, root, TargetFiles[1]).None?
    || LocateSourceFile(fs, root, TargetFiles[2]).None?
  }

  /** The outcome of `ensure_extracted_sources`: the root, whether the extractor ran, and the files after. */
  datatype Extracted = Extracted(root: Path, ran: bool, fs: FileSystem)

  /**
   * `ensure_extracted_sources`: run the extractor on the normalised version
   * when forced or when a file is missing; fail with `ExtractionError` if a
   * file is still missing afterwards.
   */
  function EnsureExtractedSources(gameData: Path, version: string, force: bool, fs: FileSystem,
                                  runExtractor: string -> Result<FileSystem>): (r: Result<Extracted>)
    ensures r.Ok? ==> !MissingAny(r.value.fs, r.value.root)
    ensures r.Ok? ==> SourcesRoot(gameData, version) == Ok(r.value.root)
    ensures r.Ok? ==> (r.value.ran <==> force || MissingAny(fs, r.value.root))
    ensures r.Ok? && !r.value.ran ==> r.value.fs == fs
  {
    match SourcesRoot(gameData, version)
    case Err(e) => Err(e)
    case Ok(root) =>
      var ran := force || MissingAny(fs, root);
      var after := if ran then runExtractor(NormaliseVersion(version).value) else Ok(fs);
      match after
      case Err(e) => Err(e)
      case Ok(fs') => if MissingAny(fs', root) then Err(ExtractionError) else Ok(Extracted(root, ran, fs'))
  }

  /**
   * When nothing is missing and the run is not forced, the extractor is
   * left alone and the root is returned; when the extractor leaves a file
   * missing, the call fails with `ExtractionError`.
   */
  lemma EnsureDecisions(gameData: Path, version: string, force: bool, fs: FileSystem,
                        runExtractor: string -> Result<FileSystem>)
    requires SourcesRoot(gameData, version).Ok?
    ensures var root := SourcesRoot(gameData, version).value;
      !force && !MissingAny(fs, root) ==>
        EnsureExtractedSources(gameData, version, force, fs, runExtractor) == Ok(Extracted(root, false, fs))
    ensures var root := SourcesRoot(gameData, version).value;
      (force || MissingAny(fs, root)) && runExtractor(NormaliseVersion(version).value).Ok?
      && MissingAny(runExtractor(NormaliseVersion(version).value).value, root) ==>
        EnsureExtractedSources(gameData, version, force, fs, runExtractor) == Err(ExtractionError)
  {
  }

  /** One file copied by `copy_sources`: from where it was found to the destination directory. */
  datatype Copy = Copy(from: Path, to: Path)

  /**
   * The loop of `copy_sources` over the targets: each one is located, and
   * copied to `destination/<name>` unless that file exists and overwriting
   * is off; a target that cannot be located raises `ExtractionError`.
   */
  function CopyTargets(fs: FileSystem, root: Path, destination: Path, overwrite: bool, targets: seq<Path>)
    : (r: Result<seq<Copy>>)
    decreases |targets|
  {
    if |targets| == 0 then Ok([])
    else
      match LocateSourceFile(fs, root, targets[0])
      case None => Err(ExtractionError)
      case Some(source) =>
        var to := destination + [Name(targets[0])];
        match CopyTargets(fs, root, destination, overwrite, targets[1..])
        case Err(e) => Err(e)
        case Ok(rest) => Ok(if fs(to) && !overwrite then rest else [Copy(source, to)] + rest)
  }

  /**
   * What the loop copies: with every target located it succeeds; each copy
   * goes to a target's name under the destination from where that target
   * was found; without overwriting no existing destination is touched; and
   * every target whose destination is new, or all of them when
   * overwriting, is copied.
   */
  lemma {:induction false} CopyTargetsCopies(fs: FileSystem, root: Path, destination: Path, overwrite: bool,
                                             targets: seq<Path>)
    ensures (forall j :: 0 <= j < |targets| ==> LocateSourceFile(fs, root, targets[j]).Some?) <==>
      CopyTargets(fs, root, destination, overwrite, targets).Ok?
    ensures CopyTargets(fs, root, destination, overwrite, targets).Ok? ==>
      forall c :: c in CopyTargets(fs, root, destination, overwrite, targets).value ==>
        (!overwrite ==> !fs(c.to))
        && exists j :: 0 <= j < |targets| && c == Copy(LocateSourceFile(fs, root, targets[j]).value,
                                                        destination + [Name(targets[j])])
    ensures CopyTargets(fs, root, destination, overwrite, targets).Ok? ==>
      forall j :: 0 <= j < |targets| && (overwrite || !fs(destination + [Name(targets[j])])) ==>
        Copy(LocateSourceFile(fs, root, targets[j]).value, destination + [Name(targets[j])])
          in CopyTargets(fs, root, destination, overwrite, targets).value
    decreases |targets|
  {
    if |targets| > 0 {
      var tail := targets[1..];
      CopyTargetsCopies(fs, root, destination, overwrite, tail);
      assert forall j :: 0 < j < |targets| ==> targets[j] == tail[j - 1];
      var r := CopyTargets(fs, root, destination, overwrite, targets);
      if r.Ok? {
        forall c | c in r.value
          ensures exists j :: 0 <= j < |targets| && c == Copy(LocateSourceFile(fs, root, targets[j]).value,
                                                               destination + [Name(targets[j])])
        {
          if c !in CopyTargets(fs, root, destination, overwrite, tail).value {
            assert c == Copy(LocateSourceFile(fs, root, targets[0]).value, destination + [Name(targets[0])]);
          } else {
            var j :| 0 <= j < |tail| && c == Copy(LocateSourceFile(fs, root, tail[j]).value,
                                                  destination + [Name(tail[j])]);
            assert targets[j + 1] == tail[j];
          }
        }
      }
    }
  }

  /** The outcome of `copy_sources`: the files copied and the version directory removed afterwards. */
  datatype Copied = Copied(copies: seq<Copy>, removed: Path)

  /**
   * `copy_sources`: make sure the sources are there, copy the targets into
   * the destination, then remove the version's directory.
   */
  function CopySources(gameData: Path, version: string, destination: Path, overwrite: bool, fs: FileSystem,
                       runExtractor: string -> Result<FileSystem>): (r: Result<Copied>)
    ensures r.Ok? ==> SourcesRoot(gameData, version) == Ok(r.value.removed)
  {
    match EnsureExtractedSources(gameData, version, false, fs, runExtractor)
    case Err(e) => Err(e)
    case Ok(x) =>
      match CopyTargets(x.fs, x.root, destination, overwrite, TargetFiles)
      case Err(e) => Err(e)
      case Ok(copies) => Ok(Copied(copies, x.root))
  }

  /**
   * Once the sources are there the copy cannot fail for a missing file:
   * all three targets are located. Without overwriting, an existing
   * destination file is never replaced.
   */
  lemma CopySourcesSafe(gameData: Path, version: string, destination: Path, overwrite: bool, fs: FileSystem,
                        runExtractor: string -> Result<FileSystem>)
    ensures EnsureExtractedSources(gameData, version, false, fs, runExtractor).Ok? ==>
      CopySources(gameData, version, destination, overwrite, fs, runExtractor).Ok?
    ensures CopySources(gameData, version, destination, overwrite, fs, runExtractor).Ok? && !overwrite ==>
      forall c :: c in CopySources(gameData, version, destination, overwrite, fs, runExtractor).value.copies ==>
        !EnsureExtractedSources(gameData, version, false, fs, runExtractor).value.fs(c.to)
  {
    var e := EnsureExtractedSources(gameData, version, false, fs, runExtractor);
    if e.Ok? {
      var x := e.value;
      CopyTargetsCopies(x.fs, x.root, destination, overwrite, TargetFiles);
    }
  }
}

=== FILE: helpers.dfy ===
/**
 * The small helpers of src/helpers.py: the table-column record, `clamp`,
 * `add_material`, Roman numerals, and the block-to-item name rules. The
 * older block-to-item rule of the root S2RM_backend.py sits beside its
 * successor.
 */
module Helpers {
  import opened Results
  import opened Strings
  import opened JsonValues

  // ---------------------------------------------------------------------
  // TableCols
  // ---------------------------------------------------------------------

  /** The six columns of the main table, each a list of cell values. */
  datatype TableCols = TableCols(
    inputItems: seq<Json>,
    inputQuantities: seq<Json>,
    exclude: seq<Json>,
    rawMaterials: seq<Json>,
    rawQuantities: seq<Json>,
    collectedData: seq<Json>)

  predicate AllEmpty(t: TableCols) {
    t.inputItems == [] && t.inputQuantities == [] && t.exclude == []
    && t.rawMaterials == [] && t.rawQuantities == [] && t.collectedData == []
  }

  /** `TableCols.reset`: every column emptied, whatever it held. */
  function Reset(t: TableCols): (r: TableCols)
    ensures AllEmpty(r)
  {
    TableCols([], [], [], [], [], [])
  }

  /** A reset table is the same whatever it held before, and resetting it again changes nothing. */
  lemma ResetForgets(a: TableCols, b: TableCols)
    ensures Reset(a) == Reset(b)
    ensures Reset(Reset(a)) == Reset(a)
  {
    assert AllEmpty(Reset(a)) && AllEmpty(Reset(b));
  }

  // ---------------------------------------------------------------------
  // clamp
  // ---------------------------------------------------------------------

  /**
   * `clamp(n, smallest, largest)` = `max(smallest, min(n, largest))`. With
   * the bounds crossed, `smallest` wins.
   */
  function Clamp(n: int, smallest: int, largest: int): (r: int)
    ensures r >= smallest
    ensures smallest <= largest ==> r <= largest
    ensures smallest <= n <= largest ==> r == n
    ensures n < smallest ==> r == smallest
    ensures n > largest ==> r == (if smallest <= largest then largest else smallest)
  {
    var m := if n < largest then n else largest;
    if smallest > m then smallest else m
  }

  /** Clamping a clamped value again changes nothing. */
  lemma ClampIdempotent(n: int, smallest: int, largest: int)
    ensures Clamp(Clamp(n, smallest, largest), smallest, largest) == Clamp(n, smallest, largest)
  {
    var r := Clamp(n, smallest, largest);
    if smallest <= largest {
      assert smallest <= r <= largest;
    } else {
      assert r == smallest;
    }
  }

  // ---------------------------------------------------------------------
  // add_material
  // ---------------------------------------------------------------------

  /** `d.get(k, default)` on a map. */
  function MapGetOr<V>(d: map<string, V>, k: string, default: V): V {
    if k in d then d[k] else default
  }

  /**
   * `materials[item] = materials.get(item, 0) + count`: the item's count
   * grows by `count` (from 0 when absent) and every other entry stays.
   */
  function AddMaterial(materials: map<string, int>, item: string, count: int): (r: map<string, int>)
    ensures item in r && r[item] == MapGetOr(materials, item, 0) + count
    ensures r.Keys == materials.Keys + {item}
    ensures forall k :: k in materials && k != item ==> r[k] == materials[k]
  {
    materials[item := MapGetOr(materials, item, 0) + count]
  }

  /** Two additions to one item are one addition of the sum. */
  lemma AddMaterialTwice(materials: map<string, int>, item: string, a: int, b: int)
    ensures AddMaterial(AddMaterial(materials, item, a), item, b) == AddMaterial(materials, item, a + b)
  {
    var once := AddMaterial(materials, item, a);
    assert MapGetOr(once, item, 0) == MapGetOr(materials, item, 0) + a;
  }

  /** Additions to two different items can happen in either order. */
  lemma AddMaterialCommutes(materials: map<string, int>, x: string, a: int, y: string, b: int)
    requires x != y
    ensures AddMaterial(AddMaterial(materials, x, a), y, b) == AddMaterial(AddMaterial(materials, y, b), x, a)
  {
    assert MapGetOr(AddMaterial(materials, x, a), y, 0) == MapGetOr(materials, y, 0);
    assert MapGetOr(AddMaterial(materials, y, b), x, 0) == MapGetOr(materials, x, 0);
  }

  // ---------------------------------------------------------------------
  // int_to_roman
  // ---------------------------------------------------------------------

  /** The numeral table, largest value first. */
  const RomanTable: seq<(nat, string)> := [
    (1000, "M"), (900, "CM"), (500, "D"), (400, "CD"),
    (100, "C"), (90, "XC"), (50, "L"), (40, "XL"),
    (10, "X"), (9, "IX"), (5, "V"), (4, "IV"),
    (1, "I")]

  lemma RomanValuesPositive()
    ensures |RomanTable| == 13
    ensures forall i :: 0 <= i < |RomanTable| ==> RomanTable[i].0 >= 1
    ensures RomanTable[12].0 == 1
  {}

  /**
   * The table entries the greedy conversion picks for `n`, starting at entry
   * `i`: as many of each entry as fit, then the next. Entries come out in
   * table order, so values never increase.
   */
  function Greedy(n: nat, i: nat): (picks: seq<nat>)
    requires i <= |RomanTable|
    ensures forall k :: 0 <= k < |picks| ==> i <= picks[k] < |RomanTable|
    decreases |RomanTable| - i, n
  {
    RomanValuesPositive();
    if i == |RomanTable| then []
    else if n >= RomanTable[i].0 then
      var rest := Greedy(n - RomanTable[i].0, i);
      [i] + rest
    else Greedy(n, i + 1)
  }

  /** The picks come in table order, so their values never increase. */
  lemma {:induction false} GreedyOrdered(n: nat, i: nat)
    requires i <= |RomanTable|
    ensures forall j, k :: 0 <= j < k < |Greedy(n, i)| ==> Greedy(n, i)[j] <= Greedy(n, i)[k]
    decreases |RomanTable| - i, n
  {
    if i < |RomanTable| {
      var v := RomanTable[i].0;
      assert v >= 1 by {
        RomanValuesPositive();
      }
      if n >= v {
        var rest := Greedy(n - v, i);
        assert Greedy(n, i) == [i] + rest;
        GreedyOrdered(n - v, i);
      } else {
        GreedyOrdered(n, i + 1);
      }
    }
  }

  /** The numerals of the picked entries, concatenated. */
  function Spell(picks: seq<nat>): string
    requires forall k :: 0 <= k < |picks| ==> picks[k] < |RomanTable|
  {
    if |picks| == 0 then "" else RomanTable[picks[0]].1 + Spell(picks[1..])
  }

  /** The values of the picked entries, summed. */
  function ValueSum(picks: seq<nat>): int
    requires forall k :: 0 <= k < |picks| ==> picks[k] < |RomanTable|
  {
    if |picks| == 0 then 0 else RomanTable[picks[0]].0 + ValueSum(picks[1..])
  }

  /** The picks for `n` are worth exactly `n`. */
  lemma {:induction false} GreedySum(n: nat, i: nat)
    requires i < |RomanTable|
    ensures ValueSum(Greedy(n, i)) == n
    decreases |RomanTable| - i, n
  {
    var v := RomanTable[i].0;
    assert v >= 1 && (i == |RomanTable| - 1 ==> v == 1) by {
      RomanValuesPositive();
    }
    if n >= v {
      var rest := Greedy(n - v, i);
      assert ValueSum(Greedy(n, i)) == v + ValueSum(rest) by {
        assert Greedy(n, i) == [i] + rest;
        assert ([i] + rest)[1..] == rest;
      }
      GreedySum(n - v, i);
    } else if i + 1 < |RomanTable| {
      assert Greedy(n, i) == Greedy(n, i + 1);
      GreedySum(n, i + 1);
    } else {
      assert Greedy(n, i) == [];
    }
  }

  /**
   * `int_to_roman(n)`: ValueError outside 1..3999, otherwise the numerals of
   * the greedy picks, largest first.
   */
  method IntToRoman(n: int) returns (r: Result<string>)
    ensures r.Err? <==> !(1 <= n <= 3999)
    ensures r.Err? ==> r.error == ValueError
    ensures r.Ok? ==> r.value == Spell(Greedy(n, 0))
  {
    if !(1 <= n <= 3999) {
      return Err(ValueError);
    }
    RomanValuesPositive();
    var result := "";
    var m: nat := n;
    var i := 0;
    while i < |RomanTable|
      invariant 0 <= i <= |RomanTable|
      invariant Spell(Greedy(n, 0)) == result + Spell(Greedy(m, i))
    {
      var value := RomanTable[i].0;
      var numeral := RomanTable[i].1;
      while m >= value
        invariant Spell(Greedy(n, 0)) == result + Spell(Greedy(m, i))
        decreases m
      {
        var rest := Greedy(m - value, i);
        assert Greedy(m, i) == [i] + rest;
        assert Spell(Greedy(m, i)) == numeral + Spell(rest) by {
          assert ([i] + rest)[1..] == rest;
        }
        result := result + numeral;
        m := m - value;
      }
      i := i + 1;
    }
    return Ok(result);
  }

  /** Every numeral `int_to_roman` writes stands for its argument: the values sum to `n`. */
  lemma RomanValue(n: int)
    requires 1 <= n <= 3999
    ensures ValueSum(Greedy(n, 0)) == n
  {
    GreedySum(n, 0);
  }

  // ---------------------------------------------------------------------
  // Block names to item names
  // ---------------------------------------------------------------------

  /** `re.sub` of each placement prefix: `wall_`, `attached_`, `potted_`, in that order. */
  function StripPlacement(s: string): string {
    Replace(Replace(Replace(s, "wall_", ""), "attached_", ""), "potted_", "")
  }

  /** `re.match(r'(weeping|twisting)_vines_plant', s)`: the vine plant block, matched at the start. */
  function VinesPlant(s: string): Option<string> {
    if StartsWith(s, "weeping_vines_plant") then Some("weeping")
    else if StartsWith(s, "twisting_vines_plant") then Some("twisting")
    else None
  }

  /** `re.match(r'(lava|water|powder_snow)_cauldron', s)`: a filled cauldron, matched at the start. */
  function FilledCauldron(s: string): Option<string> {
    if StartsWith(s, "lava_cauldron") then Some("lava")
    else if StartsWith(s, "water_cauldron") then Some("water")
    else if StartsWith(s, "powder_snow_cauldron") then Some("powder_snow")
    else None
  }

  /** The bare name: lowered, unquoted, placement prefixes removed, block tag applied, vines mapped. */
  function BareItemName(blockName: string, blockTags: map<string, string>): string {
    var data := StripPlacement(RemoveChar(Lower(blockName), '"'));
    var tagged := if data in blockTags then blockTags[data] else data;
    match VinesPlant(tagged)
    case Some(kind) => kind + "_vines"
    case None => tagged
  }

  /**
   * `block_to_item_name`: the bare name, wrapped in quotes again when the
   * block name started with one.
   */
  function BlockToItemName(blockName: string, blockTags: map<string, string>): (r: string)
    ensures StartsWith(blockName, "\"") ==> |r| >= 2 && r[0] == '"' && r[|r| - 1] == '"'
    ensures !StartsWith(blockName, "\"") ==> r == BareItemName(blockName, blockTags)
  {
    var name := BareItemName(blockName, blockTags);
    if StartsWith(blockName, "\"") then "\"" + name + "\"" else name
  }

  /** Lowering and unquoting a quoted name gives its lowered contents. */
  lemma UnquoteLower(inner: string)
    requires '"' !in inner
    ensures RemoveChar(Lower("\"" + inner + "\""), '"') == Lower(inner)
  {
    var low := Lower(inner);
    assert Lower("\"" + inner + "\"") == "\"" + low + "\"" by {
      LowerAppend("\"" + inner, "\"");
      LowerAppend("\"", inner);
    }
    assert '"' !in low by {
      forall k | 0 <= k < |inner| ensures low[k] != '"' {
        assert inner[k] in inner;
      }
    }
    assert RemoveChar("\"" + low + "\"", '"') == low by {
      RemoveCharAppend("\"" + low, "\"", '"');
      RemoveCharAppend("\"", low, '"');
      RemoveCharAbsent(low, '"');
    }
  }

  /** A quoted block name maps to the quoted item name of its contents. */
  lemma QuotedBlockName(inner: string, blockTags: map<string, string>)
    requires '"' !in inner
    ensures BlockToItemName("\"" + inner + "\"", blockTags) == "\"" + BlockToItemName(inner, blockTags) + "\""
  {
    var q := "\"" + inner + "\"";
    assert StartsWith(q, "\"");
    assert !StartsWith(inner, "\"") by {
      if |inner| > 0 { assert inner[0] in inner; }
    }
    UnquoteLower(inner);
    assert RemoveChar(Lower(inner), '"') == Lower(inner) by {
      assert '"' !in Lower(inner) by {
        forall k | 0 <= k < |inner| ensures Lower(inner)[k] != '"' {
          assert inner[k] in inner;
        }
      }
      RemoveCharAbsent(Lower(inner), '"');
    }
  }

  /** A name in plain form: no capitals, no quote, no placement prefix anywhere. */
  predicate PlainName(s: string) {
    (forall i :: 0 <= i < |s| ==> !IsUpper(s[i]))
    && '"' !in s
    && !Contains(s, "wall_") && !Contains(s, "attached_") && !Contains(s, "potted_")
  }

  /** A plain name no rule touches is its own item name. */
  lemma PlainNameUnchanged(s: string, blockTags: map<string, string>)
    requires PlainName(s) && s !in blockTags && VinesPlant(s).None?
    ensures BlockToItemName(s, blockTags) == s
  {
    assert Lower(s) == s;
    RemoveCharAbsent(s, '"');
    assert !StartsWith(s, "\"") by {
      if |s| > 0 { assert s[0] in s; }
    }
  }

  /**
   * `convert_block_to_item` of src/helpers.py: a candle cake gives a candle
   * and a cake, a filled cauldron gives the cauldron and the bucket, any
   * other block its item name.
   */
  function ConvertBlockToItem(blockName: string, blockTags: map<string, string>): (r: seq<string>)
    ensures 1 <= |r| <= 2
    ensures |r| == 1 ==> r[0] == BlockToItemName(blockName, blockTags)
    ensures |r| == 2 ==> r == ["candle", "cake"] || r[0] == "cauldron"
    ensures var liquid := FilledCauldron(BlockToItemName(blockName, blockTags));
      |r| == 2 && r[0] == "cauldron" ==> liquid.Some? && r[1] == liquid.value + "_bucket"
  {
    var name := BlockToItemName(blockName, blockTags);
    if Contains(name, "candle") && Contains(name, "cake") then ["candle", "cake"]
    else match FilledCauldron(name)
      case Some(liquid) => ["cauldron", liquid + "_bucket"]
      case None => [name]
  }

  /** A plain block name no rule touches converts to itself alone. */
  lemma PlainBlockConverts(s: string, blockTags: map<string, string>)
    requires PlainName(s) && s !in blockTags && VinesPlant(s).None? && FilledCauldron(s).None?
    requires !(Contains(s, "candle") && Contains(s, "cake"))
    ensures ConvertBlockToItem(s, blockTags) == [s]
  {
    PlainNameUnchanged(s, blockTags);
  }

  /**
   * `convert_block_to_item` of the root S2RM_backend.py: no lowering or
   * quote handling, `wall_hanging_` removed before `wall_`, and the vine
   * rule applied after the two-item rules.
   */
  function LegacyConvertBlockToItem(blockName: string, blockTags: map<string, string>): (r: seq<string>)
    ensures 1 <= |r| <= 2
  {
    var data := StripPlacement(Replace(blockName, "wall_hanging_", ""));
    var name := if data in blockTags then blockTags[data] else data;
    if Contains(name, "candle") && Contains(name, "cake") then ["candle", "cake"]
    else match FilledCauldron(name)
      case Some(liquid) => ["cauldron", liquid + "_bucket"]
      case None =>
        match VinesPlant(name)
        case Some(kind) => [kind + "_vines"]
        case None => [name]
  }

  /** On a plain name no rule touches, the two generations agree. */
  lemma LegacyConvertAgrees(s: string, blockTags: map<string, string>)
    requires PlainName(s) && s !in blockTags && VinesPlant(s).None? && FilledCauldron(s).None?
    requires !(Contains(s, "candle") && Contains(s, "cake"))
    ensures LegacyConvertBlockToItem(s, blockTags) == ConvertBlockToItem(s, blockTags)
  {
    PlainBlockConverts(s, blockTags);
    NotContainsLonger(s, "wall_hanging_", "wall_");
    assert Replace(s, "wall_hanging_", "") == s;
  }

  /** A text without a pattern holds no longer pattern starting with it. */
  lemma {:induction false} NotContainsLonger(s: string, p: string, q: string)
    requires !Contains(s, q) && StartsWith(p, q)
    ensures !Contains(s, p)
    decreases |s|
  {
    assert !StartsWith(s, p) by {
      if |p| <= |s| {
        assert s[..|q|] != q;
        assert s[..|p|][..|q|] == s[..|q|];
      }
    }
    if |s| > 0 {
      NotContainsLonger(s[1..], p, q);
    }
  }
}

=== FILE: identity_mappings.dfy ===
/**
 * The identity mapping flavour (IdentityMappings.java): the game's jars
 * are used as they are. It needs no mapping file and no package fixing,
 * is available for every version and jar variant, provides nothing, and
 * its remapping hands back the file it was given. The namespace the
 * visitor is told about is the flavour's source namespace, which the
 * shared base class defines; it is a parameter here.
 */
module IdentityMappings {
  import opened Results
  import opened Steps
  import ER = ExtractorRunner
  import Sparrow
  import Launchable

  /** `getName`. */
  const Name: string := "Identity (unmapped)"

  /** `getDestinationNS`: the `named` namespace. */
  const DestinationNamespace: string := "named"

  /** `isMappingFileRequired`. */
  const MappingFileRequired: bool := false

  /** `needsPackageFixingForLaunch`. */
  const NeedsPackageFixingForLaunch: bool := false

  /** `doMappingsExist(version)`. */
  predicate DoMappingsExist(v: Sparrow.OrderedVersion) {
    true
  }

  /** `doMappingsExist(version, jar)`. */
  predicate DoMappingsExistFor(v: Sparrow.OrderedVersion, jar: MinecraftJar) {
    true
  }

  /** `canMappingsBeUsedOn`. */
  predicate CanMappingsBeUsedOn(v: Sparrow.OrderedVersion, jar: MinecraftJar) {
    true
  }

  /**
   * The provider's contract, as the signatures provider also keeps it: a
   * flavour usable on a jar has mappings for that jar and for the version.
   * The identity flavour is usable on every variant of every version.
   */
  lemma UsableImpliesExists(v: Sparrow.OrderedVersion, jar: MinecraftJar)
    ensures CanMappingsBeUsedOn(v, jar) ==> DoMappingsExistFor(v, jar) && DoMappingsExist(v)
    ensures CanMappingsBeUsedOn(v, Client) && CanMappingsBeUsedOn(v, Server) && CanMappingsBeUsedOn(v, Merged)
  {
  }

  /** `provideMappings`: `SUCCESS`, with nothing fetched or written. */
  function ProvideMappings(v: Sparrow.OrderedVersion, jar: MinecraftJar): (r: Result<StepStatus>)
    ensures r.Ok? && r.value == Success
  {
    Ok(Success)
  }

  /** `getMappingsPathInternal`: there is no mapping file (`null`). */
  function MappingsPath(v: Sparrow.OrderedVersion, jar: MinecraftJar): (r: Option<ER.Path>)
    ensures r.None?
  {
    None
  }

  /** What `visit` tells the visitor: the source namespace and the destination namespaces. */
  datatype Namespaces = Namespaces(source: string, destinations: seq<string>)

  /** `visit`: only the source namespace, with no destination namespace and no names. */
  function Visit(sourceNamespace: string, v: Sparrow.OrderedVersion, jar: MinecraftJar): (r: Namespaces)
    ensures r.source == sourceNamespace && |r.destinations| == 0
  {
    Namespaces(sourceNamespace, [])
  }

  /** `executeCustomRemappingLogic`: the file it was given. */
  function Remap(previous: ER.Path, v: Sparrow.OrderedVersion, jar: MinecraftJar): (r: ER.Path)
    ensures r == previous
  {
    previous
  }

  /**
   * Preparing the launchable jar under the identity flavour transforms
   * nothing: every file of the remapped jar, class files included, is
   * copied as it is, and no action rewrites a class.
   */
  lemma IdentityLaunchCopiesClasses(modified: seq<Launchable.Entry>, original: seq<Launchable.Entry>)
    ensures var plan := Launchable.Plan(modified, original, NeedsPackageFixingForLaunch);
      forall a :: a in plan ==> !a.Transform?
    ensures var plan := Launchable.Plan(modified, original, NeedsPackageFixingForLaunch);
      forall e :: e in modified && e.isFile ==> Launchable.CopyModified(e.name) in plan
  {
    Launchable.PlanContents(modified, original, NeedsPackageFixingForLaunch);
    var first := Launchable.ModifiedActions(modified, NeedsPackageFixingForLaunch);
    var plan := Launchable.Plan(modified, original, NeedsPackageFixingForLaunch);
    assert forall a :: a in first ==> a in plan;
  }
}

=== FILE: ingredients.dfy ===
/**
 * The raw-materials table of the current builder
 * (data/recipes_raw_mats_database_builder.py): for every item, and every
 * block that is not also an item, the raw materials it costs, largest
 * quantity first. The older builder's `get_ingredients` is the same
 * function run with the `Legacy` steps.
 */
module IngredientLists {
  import opened Results
  import opened Strings
  import OD = OrderedDict
  import opened Ordering
  import opened Recipes
  import opened RecipeGraph
  import opened RawMaterials
  import opened ItemNames
  import Helpers

  /** One line of an ingredient list: `{"item": name, "quantity": q}`. */
  type Entry = (string, real)

  /** The sort key `(-quantity, item)`: larger quantities first, then names in order. */
  predicate QtyFirst(a: Entry, b: Entry) {
    a.1 > b.1 || (a.1 == b.1 && StrLe(a.0, b.0))
  }

  lemma QtyFirstTotalPreorder()
    ensures TotalPreorder(QtyFirst)
  {
    StrLeTotalPreorder();
  }

  /** The entries of a totals dictionary, sorted by `(-quantity, item)`. */
  function ByQuantity(d: Totals): (r: seq<Entry>)
    ensures multiset(r) == multiset(d) && SortedBy(r, QtyFirst)
  {
    QtyFirstTotalPreorder();
    SortBy(d, QtyFirst)
  }

  /**
   * A sorted totals list holds each material once, with its total: the
   * entries are exactly the lookups of the dictionary.
   */
  lemma ByQuantityLookups(d: Totals)
    requires OD.Valid(d)
    ensures OD.Valid(ByQuantity(d))
    ensures forall k :: OD.Get(ByQuantity(d), k) == OD.Get(d, k)
  {
    OD.PermutedDict(d, ByQuantity(d));
  }

  /**
   * `get_ingredients`: the raw materials of one item, after renaming it.
   * An item that is not a node of the graph stands for itself, once.
   */
  function GetIngredients(b: Builder, g: Graph, t: string, fuel: nat, axiom: string -> bool): (r: Result<seq<Entry>>)
    ensures r.Ok? ==> SortedBy(r.value, QtyFirst)
  {
    var n := Normalize(t);
    if n !in g then Ok([(n, 1.0)])
    else
      match Resolve(Steps(b, g, axiom), n, [], 1.0, fuel)
      case Err(e) => Err(e)
      case Ok(totals) => Ok(ByQuantity(totals))
  }

  /**
   * What the list holds: an unknown item stands for itself once; otherwise
   * each raw material the walk reached appears once, with its total, and
   * every one of them is a leaf of the walk.
   */
  lemma IngredientsAreLeaves(b: Builder, g: Graph, t: string, fuel: nat, axiom: string -> bool)
    requires GetIngredients(b, g, t, fuel, axiom).Ok?
    ensures Normalize(t) !in g ==> GetIngredients(b, g, t, fuel, axiom).value == [(Normalize(t), 1.0)]
    ensures Normalize(t) in g ==> OD.Valid(GetIngredients(b, g, t, fuel, axiom).value)
    ensures Normalize(t) in g ==> forall e :: e in GetIngredients(b, g, t, fuel, axiom).value ==> IsLeaf(g, e.0, axiom)
  {
    var n := Normalize(t);
    if n in g {
      var step := Steps(b, g, axiom);
      var totals := Resolve(step, n, [], 1.0, fuel).value;
      StepsAreSound(b, g, axiom);
      ResolveKeys(step, g, axiom, n, [], 1.0, fuel);
      ResolveValid(step, n, [], 1.0, fuel);
      ByQuantityLookups(totals);
      var r := ByQuantity(totals);
      forall e | e in r ensures IsLeaf(g, e.0, axiom) {
        OD.GetIn(r, e.0, e.1);
        assert OD.Has(totals, e.0);
      }
    }
  }

  /** A failing list fails with the resolver's errors only. */
  lemma IngredientsErrors(b: Builder, g: Graph, t: string, fuel: nat, axiom: string -> bool)
    requires GetIngredients(b, g, t, fuel, axiom).Err?
    ensures ResolverError(GetIngredients(b, g, t, fuel, axiom).error)
  {
    StepsAreSound(b, g, axiom);
    ResolveErrors(Steps(b, g, axiom), Normalize(t), [], 1.0, fuel);
  }

  /** With no negative edge weights, no quantity in a list is negative. */
  lemma IngredientsNonNegative(b: Builder, g: Graph, t: string, fuel: nat, axiom: string -> bool)
    requires NonNegative(g) && GetIngredients(b, g, t, fuel, axiom).Ok?
    ensures forall e :: e in GetIngredients(b, g, t, fuel, axiom).value ==> e.1 >= 0.0
  {
    var n := Normalize(t);
    if n in g {
      var step := Steps(b, g, axiom);
      var totals := Resolve(step, n, [], 1.0, fuel).value;
      StepsAreSound(b, g, axiom);
      ResolveGrows(step, n, [], 1.0, fuel);
      ResolveValid(step, n, [], 1.0, fuel);
      ByQuantityLookups(totals);
      var r := ByQuantity(totals);
      forall e | e in r ensures e.1 >= 0.0 {
        OD.GetIn(r, e.0, e.1);
        assert OD.GetOr(totals, e.0, 0.0) >= OD.GetOr([], e.0, 0.0);
      }
    }
  }

  /** The ingredient lists of several items, one after the other. */
  function ConcatIngredients(b: Builder, g: Graph, items: seq<string>, fuel: nat, axiom: string -> bool)
    : (r: Result<seq<Entry>>)
    ensures r.Err? ==> exists i :: 0 <= i < |items| && GetIngredients(b, g, items[i], fuel, axiom) == Err(r.error)
  {
    if |items| == 0 then Ok([])
    else
      match GetIngredients(b, g, items[0], fuel, axiom)
      case Err(e) => Err(e)
      case Ok(first) =>
        match ConcatIngredients(b, g, items[1..], fuel, axiom)
        case Err(e) => assert items[1..][0] in items; Err(e)
        case Ok(rest) => Ok(first + rest)
  }

  /** `d[item] = d.get(item, 0) + quantity` for each entry of a list, in order. */
  function Combine(l: seq<Entry>, acc: Totals): Totals {
    if |l| == 0 then acc else Combine(l[1..], AddTo(acc, l[0].0, l[0].1))
  }

  /** The total of the quantities listed for `k`. */
  function SumFor(l: seq<Entry>, k: string): real {
    if |l| == 0 then 0.0 else (if l[0].0 == k then l[0].1 else 0.0) + SumFor(l[1..], k)
  }

  /** Some entry of the list is for `k`. */
  predicate Lists(l: seq<Entry>, k: string) {
    exists i :: 0 <= i < |l| && l[i].0 == k
  }

  lemma ListsCons(l: seq<Entry>, k: string)
    requires |l| > 0
    ensures Lists(l, k) <==> l[0].0 == k || Lists(l[1..], k)
  {
    if Lists(l[1..], k) {
      var i :| 0 <= i < |l| - 1 && l[1..][i].0 == k;
      assert l[i + 1].0 == k;
    }
    if Lists(l, k) && l[0].0 != k {
      var i :| 0 <= i < |l| && l[i].0 == k;
      assert l[1..][i - 1].0 == k;
    }
  }

  /** The combined dictionary holds a name exactly when it was there or the list names it. */
  lemma {:induction false} CombineHas(l: seq<Entry>, acc: Totals, k: string)
    ensures OD.Has(Combine(l, acc), k) <==> OD.Has(acc, k) || Lists(l, k)
    decreases |l|
  {
    if |l| > 0 {
      CombineHas(l[1..], AddTo(acc, l[0].0, l[0].1), k);
      ListsCons(l, k);
    }
  }

  /** The combined dictionary adds to each name the sum of its quantities in the list. */
  lemma {:induction false} CombineSums(l: seq<Entry>, acc: Totals, k: string)
    ensures OD.GetOr(Combine(l, acc), k, 0.0) == OD.GetOr(acc, k, 0.0) + SumFor(l, k)
    decreases |l|
  {
    if |l| > 0 {
      CombineSums(l[1..], AddTo(acc, l[0].0, l[0].1), k);
    }
  }

  /** Combining keeps each name once. */
  lemma {:induction false} CombineValid(l: seq<Entry>, acc: Totals)
    requires OD.Valid(acc)
    ensures OD.Valid(Combine(l, acc))
    decreases |l|
  {
    if |l| > 0 {
      CombineValid(l[1..], AddTo(acc, l[0].0, l[0].1));
    }
  }

  /**
   * `calculate_block_ingredients` for one block: the block becomes one or
   * two items, their lists are put together, each material's quantities
   * are added up, and the result is sorted like an item's list.
   */
  function BlockIngredients(b: Builder, g: Graph, block: string, fuel: nat, axiom: string -> bool,
                            blockTags: map<string, string>): (r: Result<seq<Entry>>)
    ensures r.Ok? ==> SortedBy(r.value, QtyFirst)
  {
    match ConcatIngredients(b, g, Helpers.ConvertBlockToItem(block, blockTags), fuel, axiom)
    case Err(e) => Err(e)
    case Ok(l) => Ok(ByQuantity(Combine(l, [])))
  }

  /**
   * A block's list names every material of its items' lists once, with
   * the sum of the quantities those lists give it.
   */
  lemma BlockSums(b: Builder, g: Graph, block: string, fuel: nat, axiom: string -> bool,
                  blockTags: map<string, string>, k: string, x: real)
    requires BlockIngredients(b, g, block, fuel, axiom, blockTags).Ok?
    ensures OD.Valid(BlockIngredients(b, g, block, fuel, axiom, blockTags).value)
    ensures (k, x) in BlockIngredients(b, g, block, fuel, axiom, blockTags).value <==>
      Lists(ConcatIngredients(b, g, Helpers.ConvertBlockToItem(block, blockTags), fuel, axiom).value, k) && x == SumFor(ConcatIngredients(b, g, Helpers.ConvertBlockToItem(block, blockTags), fuel, axiom).value, k)
  {
    var l := ConcatIngredients(b, g, Helpers.ConvertBlockToItem(block, blockTags), fuel, axiom).value;
    var d := Combine(l, []);
    CombineHas(l, [], k);
    CombineSums(l, [], k);
    CombineValid(l, []);
    ByQuantityLookups(d);
    OD.GetIn(ByQuantity(d), k, x);
  }

  /** The whole table: one ingredient list per name. */
  type Table = OD.Dict<seq<Entry>>

  /**
   * One pass of the builder over a list of names: `table[name] = row(name)`
   * for each name in order; the first failing row stops the pass.
   */
  function Rows(names: seq<string>, row: string -> Result<seq<Entry>>, acc: Table): (r: Result<Table>)
    ensures r.Err? ==> exists i :: 0 <= i < |names| && row(names[i]) == Err(r.error)
    ensures r.Ok? ==> forall i :: 0 <= i < |names| ==> row(names[i]).Ok?
  {
    if |names| == 0 then Ok(acc)
    else
      match row(names[0])
      case Err(e) => Err(e)
      case Ok(v) =>
        var r := Rows(names[1..], row, OD.Set(acc, names[0], v));
        assert forall i :: 1 <= i < |names| ==> names[i] == names[1..][i - 1];
        r
  }

  /** After a pass, each name holds its row and every other entry is as it was. */
  lemma {:induction false} RowsGet(names: seq<string>, row: string -> Result<seq<Entry>>, acc: Table, k: string)
    requires Rows(names, row, acc).Ok?
    ensures k in names ==> OD.Get(Rows(names, row, acc).value, k) == Some(row(k).value)
    ensures k !in names ==> OD.Get(Rows(names, row, acc).value, k) == OD.Get(acc, k)
    decreases |names|
  {
    if |names| > 0 {
      var v := row(names[0]).value;
      RowsGet(names[1..], row, OD.Set(acc, names[0], v), k);
      assert names == [names[0]] + names[1..];
    }
  }

  /** A pass keeps every name once. */
  lemma {:induction false} RowsValid(names: seq<string>, row: string -> Result<seq<Entry>>, acc: Table)
    requires OD.Valid(acc) && Rows(names, row, acc).Ok?
    ensures OD.Valid(Rows(names, row, acc).value)
    decreases |names|
  {
    if |names| > 0 {
      var v := row(names[0]).value;
      OD.SetKeepsValid(acc, names[0], v);
      RowsValid(names[1..], row, OD.Set(acc, names[0], v));
    }
  }

  /** `[block for block in sorted(blocks) if block not in items]`. */
  function BlocksOnly(blocks: seq<string>, items: seq<string>): (r: seq<string>)
    ensures forall x :: x in r <==> x in blocks && x !in items
  {
    if |blocks| == 0 then []
    else
      var rest := BlocksOnly(blocks[1..], items);
      assert forall x :: x in blocks <==> x == blocks[0] || x in blocks[1..] by {
        assert blocks == [blocks[0]] + blocks[1..];
      }
      if blocks[0] in items then rest else [blocks[0]] + rest
  }

  /** `dict(sorted(table.items()))`: the keys are distinct, so entries compare by key. */
  predicate KeyFirst(a: (string, seq<Entry>), b: (string, seq<Entry>)) { StrLe(a.0, b.0) }

  lemma KeyFirstTotalPreorder()
    ensures TotalPreorder(KeyFirst)
  {
    StrLeTotalPreorder();
  }

  /** The names in the order the builder visits them. */
  function Sorted(names: seq<string>): (r: seq<string>)
    ensures forall x :: x in r <==> x in names
  {
    StrLeTotalPreorder();
    SortByMembers(names, StrLe);
    SortBy(names, StrLe)
  }

  /** The row of an item: its ingredient list. */
  function ItemRow(b: Builder, g: Graph, fuel: nat, axiom: string -> bool): string -> Result<seq<Entry>> {
    u => GetIngredients(b, g, u, fuel, axiom)
  }

  /** The row of a block: its combined ingredient list. */
  function BlockRow(b: Builder, g: Graph, fuel: nat, axiom: string -> bool, blockTags: map<string, string>)
    : string -> Result<seq<Entry>>
  {
    u => BlockIngredients(b, g, u, fuel, axiom, blockTags)
  }

  /**
   * Keep the old name `chain` for `iron_chain`: when the table has an
   * `iron_chain` row and no `chain` row, `chain` gets a copy of it.
   */
  function ChainAlias(t: Table): (r: Table)
    ensures forall u :: u != "chain" ==> OD.Get(r, u) == OD.Get(t, u)
    ensures OD.Get(r, "chain") == if OD.Has(t, "chain") then OD.Get(t, "chain") else OD.Get(t, "iron_chain")
    ensures OD.Valid(t) ==> OD.Valid(r)
  {
    if OD.Has(t, "iron_chain") && !OD.Has(t, "chain") then
      var v := OD.GetOr(t, "iron_chain", []);
      OD.SetKeepsValid(t, "chain", v);
      OD.Set(t, "chain", v)
    else t
  }

  /** The items pass followed by the blocks pass. */
  function BothPasses(itemRow: string -> Result<seq<Entry>>, blockRow: string -> Result<seq<Entry>>,
                      items: seq<string>, blocks: seq<string>): Result<Table>
  {
    match Rows(Sorted(items), itemRow, [])
    case Err(e) => Err(e)
    case Ok(t1) => Rows(BlocksOnly(Sorted(blocks), items), blockRow, t1)
  }

  /** After both passes every item holds its row, and every block that is not an item holds its row. */
  lemma BothPassesGet(itemRow: string -> Result<seq<Entry>>, blockRow: string -> Result<seq<Entry>>,
                      items: seq<string>, blocks: seq<string>, u: string)
    requires BothPasses(itemRow, blockRow, items, blocks).Ok?
    ensures OD.Valid(BothPasses(itemRow, blockRow, items, blocks).value)
    ensures OD.Get(BothPasses(itemRow, blockRow, items, blocks).value, u) ==
      if u in items then Some(itemRow(u).value)
      else if u in blocks then Some(blockRow(u).value)
      else None
    ensures u in items ==> itemRow(u).Ok?
    ensures u in blocks && u !in items ==> blockRow(u).Ok?
  {
    var names1 := Sorted(items);
    var names2 := BlocksOnly(Sorted(blocks), items);
    var t1 := Rows(names1, itemRow, []).value;
    RowsValid(names1, itemRow, []);
    RowsValid(names2, blockRow, t1);
    RowsGet(names1, itemRow, [], u);
    RowsGet(names2, blockRow, t1, u);
    if u in items {
      var i :| 0 <= i < |names1| && names1[i] == u;
    }
    if u in blocks && u !in items {
      var i :| 0 <= i < |names2| && names2[i] == u;
    }
  }

  /**
   * The table built from the rows of items and blocks: every item's row,
   * then every block that is not an item, then the old name `chain` for
   * `iron_chain` when the table lacks it, sorted by name.
   */
  function Assemble(itemRow: string -> Result<seq<Entry>>, blockRow: string -> Result<seq<Entry>>,
                    items: seq<string>, blocks: seq<string>): (r: Result<Table>)
    ensures r.Ok? ==> SortedBy(r.value, KeyFirst)
  {
    match BothPasses(itemRow, blockRow, items, blocks)
    case Err(e) => Err(e)
    case Ok(t) =>
      KeyFirstTotalPreorder();
      Ok(SortBy(ChainAlias(t), KeyFirst))
  }

  /** What an assembled table holds, row by row. */
  lemma AssembleRows(itemRow: string -> Result<seq<Entry>>, blockRow: string -> Result<seq<Entry>>,
                     items: seq<string>, blocks: seq<string>, k: string)
    requires Assemble(itemRow, blockRow, items, blocks).Ok?
    ensures OD.Valid(Assemble(itemRow, blockRow, items, blocks).value)
    ensures OD.Has(Assemble(itemRow, blockRow, items, blocks).value, k) <==>
      k in items || k in blocks || (k == "chain" && ("iron_chain" in items || "iron_chain" in blocks))
    ensures k in items ==>
      itemRow(k).Ok? && OD.Get(Assemble(itemRow, blockRow, items, blocks).value, k) == Some(itemRow(k).value)
    ensures k in blocks && k !in items ==>
      blockRow(k).Ok? && OD.Get(Assemble(itemRow, blockRow, items, blocks).value, k) == Some(blockRow(k).value)
    ensures "chain" !in items && "chain" !in blocks && ("iron_chain" in items || "iron_chain" in blocks) ==>
      OD.Get(Assemble(itemRow, blockRow, items, blocks).value, "chain")
        == OD.Get(Assemble(itemRow, blockRow, items, blocks).value, "iron_chain")
  {
    var t := BothPasses(itemRow, blockRow, items, blocks).value;
    BothPassesGet(itemRow, blockRow, items, blocks, k);
    BothPassesGet(itemRow, blockRow, items, blocks, "chain");
    BothPassesGet(itemRow, blockRow, items, blocks, "iron_chain");
    KeyFirstTotalPreorder();
    OD.PermutedDict(ChainAlias(t), SortBy(ChainAlias(t), KeyFirst));
  }

  /** An assembled table fails with the error of a row that fails. */
  lemma AssembleErrors(itemRow: string -> Result<seq<Entry>>, blockRow: string -> Result<seq<Entry>>,
                       items: seq<string>, blocks: seq<string>)
    requires Assemble(itemRow, blockRow, items, blocks).Err?
    ensures exists k :: (k in items && itemRow(k) == Err(Assemble(itemRow, blockRow, items, blocks).error))
                     || (k in blocks && blockRow(k) == Err(Assemble(itemRow, blockRow, items, blocks).error))
  {
    var e := Assemble(itemRow, blockRow, items, blocks).error;
    var names1 := Sorted(items);
    if Rows(names1, itemRow, []).Err? {
      var i :| 0 <= i < |names1| && itemRow(names1[i]) == Err(e);
      assert names1[i] in items;
    } else {
      var names2 := BlocksOnly(Sorted(blocks), items);
      var i :| 0 <= i < |names2| && blockRow(names2[i]) == Err(e);
      assert names2[i] in blocks;
    }
  }

  /** `generate_raw_materials_table_dict` once the recipe graph is built. */
  function RawMaterialsTable(b: Builder, g: Graph, fuel: nat, axiom: string -> bool,
                             items: seq<string>, blocks: seq<string>, blockTags: map<string, string>)
    : (r: Result<Table>)
    ensures r.Ok? ==> SortedBy(r.value, KeyFirst)
  {
    Assemble(ItemRow(b, g, fuel, axiom), BlockRow(b, g, fuel, axiom, blockTags), items, blocks)
  }

  /**
   * What the table holds: a row for every item and every block and, when
   * `iron_chain` has one and `chain` has none, a `chain` row copying it;
   * an item's row is its ingredient list, a block's that is not an item
   * is its combined list, and no name appears twice.
   */
  lemma TableRows(b: Builder, g: Graph, fuel: nat, axiom: string -> bool,
                  items: seq<string>, blocks: seq<string>, blockTags: map<string, string>, k: string)
    requires RawMaterialsTable(b, g, fuel, axiom, items, blocks, blockTags).Ok?
    ensures OD.Valid(RawMaterialsTable(b, g, fuel, axiom, items, blocks, blockTags).value)
    ensures OD.Has(RawMaterialsTable(b, g, fuel, axiom, items, blocks, blockTags).value, k) <==>
      k in items || k in blocks || (k == "chain" && ("iron_chain" in items || "iron_chain" in blocks))
    ensures k in items ==>
      GetIngredients(b, g, k, fuel, axiom).Ok? &&
      OD.Get(RawMaterialsTable(b, g, fuel, axiom, items, blocks, blockTags).value, k)
        == Some(GetIngredients(b, g, k, fuel, axiom).value)
    ensures k in blocks && k !in items ==>
      BlockIngredients(b, g, k, fuel, axiom, blockTags).Ok? &&
      OD.Get(RawMaterialsTable(b, g, fuel, axiom, items, blocks, blockTags).value, k)
        == Some(BlockIngredients(b, g, k, fuel, axiom, blockTags).value)
    ensures "chain" !in items && "chain" !in blocks && ("iron_chain" in items || "iron_chain" in blocks) ==>
      OD.Get(RawMaterialsTable(b, g, fuel, axiom, items, blocks, blockTags).value, "chain")
        == OD.Get(RawMaterialsTable(b, g, fuel, axiom, items, blocks, blockTags).value, "iron_chain")
  {
    AssembleRows(ItemRow(b, g, fuel, axiom), BlockRow(b, g, fuel, axiom, blockTags), items, blocks, k);
  }

  /** A block's list fails with a resolver error only. */
  lemma BlockErrors(b: Builder, g: Graph, block: string, fuel: nat, axiom: string -> bool,
                    blockTags: map<string, string>)
    requires BlockIngredients(b, g, block, fuel, axiom, blockTags).Err?
    ensures ResolverError(BlockIngredients(b, g, block, fuel, axiom, blockTags).error)
  {
    var parts := Helpers.ConvertBlockToItem(block, blockTags);
    var e := BlockIngredients(b, g, block, fuel, axiom, blockTags).error;
    var j :| 0 <= j < |parts| && GetIngredients(b, g, parts[j], fuel, axiom) == Err(e);
    IngredientsErrors(b, g, parts[j], fuel, axiom);
  }

  /** A table that cannot be built fails with a resolver error. */
  lemma TableErrors(b: Builder, g: Graph, fuel: nat, axiom: string -> bool,
                    items: seq<string>, blocks: seq<string>, blockTags: map<string, string>)
    requires RawMaterialsTable(b, g, fuel, axiom, items, blocks, blockTags).Err?
    ensures ResolverError(RawMaterialsTable(b, g, fuel, axiom, items, blocks, blockTags).error)
  {
    var e := RawMaterialsTable(b, g, fuel, axiom, items, blocks, blockTags).error;
    AssembleErrors(ItemRow(b, g, fuel, axiom), BlockRow(b, g, fuel, axiom, blockTags), items, blocks);
    var k :| (k in items && GetIngredients(b, g, k, fuel, axiom) == Err(e))
          || (k in blocks && BlockIngredients(b, g, k, fuel, axiom, blockTags) == Err(e));
    if GetIngredients(b, g, k, fuel, axiom) == Err(e) {
      IngredientsErrors(b, g, k, fuel, axiom);
    } else {
      BlockErrors(b, g, k, fuel, axiom, blockTags);
    }
  }
}

=== FILE: input_files.dfy ===
/**
 * `input_file_to_mats_dict`: the choice of reader by the file's ending.
 *
 * Reading the file and loading a schematic are effects: the lines read
 * (`None` when the file does not exist and so was never read) and the
 * schematic reader's result are parameters.
 */
module InputFiles {
  import opened Results
  import opened Strings
  import ML = MaterialLists
  import CL = CsvLists

  /** What the dispatcher makes of a path. */
  datatype Kind = Schematic | TxtList | CsvList | Unsupported

  function KindOf(path: string): (k: Kind)
    ensures k == Schematic <==> EndsWith(path, ".litematic")
    ensures k == TxtList <==> EndsWith(path, ".txt")
    ensures k == CsvList <==> EndsWith(path, ".csv")
    ensures k == Unsupported <==>
      !EndsWith(path, ".litematic") && !EndsWith(path, ".txt") && !EndsWith(path, ".csv")
  {
    ExtensionsExclusive(path);
    if EndsWith(path, ".litematic") then Schematic
    else if EndsWith(path, ".txt") then TxtList
    else if EndsWith(path, ".csv") then CsvList
    else Unsupported
  }

  /** A path ends in at most one of the three extensions: their last letters differ. */
  lemma ExtensionsExclusive(path: string)
    ensures !(EndsWith(path, ".litematic") && EndsWith(path, ".txt"))
    ensures !(EndsWith(path, ".litematic") && EndsWith(path, ".csv"))
    ensures !(EndsWith(path, ".txt") && EndsWith(path, ".csv"))
  {
    if |path| > 0 {
      var last := path[|path| - 1];
      assert EndsWith(path, ".litematic") ==> last == 'c';
      assert EndsWith(path, ".txt") ==> last == 't';
      assert EndsWith(path, ".csv") ==> last == 'v';
    }
  }

  /**
   * `input_file_to_mats_dict` of src/S2RM_backend.py. A schematic goes to
   * the schematic reader whatever the file system holds; a `.txt` or
   * `.csv` path whose file was never read reaches the reader with `lines`
   * unbound, an UnboundLocalError; any other ending is a ValueError, even
   * for a missing file.
   */
  function InputFileToMats(path: string, contents: Option<seq<string>>, schematic: Result<map<string, int>>,
                           itemTags: map<string, string>): (r: Result<map<string, int>>)
    ensures KindOf(path) == Schematic ==> r == schematic
    ensures KindOf(path) == Unsupported ==> r == Err(ValueError)
    ensures (KindOf(path) == TxtList || KindOf(path) == CsvList) && contents.None? ==> r == Err(UnboundLocalError)
    ensures KindOf(path) == TxtList && contents.Some? ==> r == ML.ProcessTxt(contents.value, itemTags)
    ensures KindOf(path) == CsvList && contents.Some? ==> r == CL.ProcessCsv(contents.value, itemTags)
  {
    match KindOf(path)
    case Schematic => schematic
    case TxtList => if contents.None? then Err(UnboundLocalError) else ML.ProcessTxt(contents.value, itemTags)
    case CsvList => if contents.None? then Err(UnboundLocalError) else CL.ProcessCsv(contents.value, itemTags)
    case Unsupported => Err(ValueError)
  }

  /**
   * `input_file_to_mats_dict` of the root S2RM_backend.py: the same
   * dispatch over the older readers, which report an invalid list as `None`.
   */
  function LegacyInputFileToMats(path: string, contents: Option<seq<string>>, schematic: Result<map<string, int>>,
                                 itemTags: map<string, string>): (r: Result<Option<map<string, int>>>)
    ensures KindOf(path) == Schematic ==> r == schematic.Map(m => Some(m))
    ensures KindOf(path) == Unsupported ==> r == Err(ValueError)
    ensures (KindOf(path) == TxtList || KindOf(path) == CsvList) && contents.None? ==> r == Err(UnboundLocalError)
    ensures KindOf(path) == TxtList && contents.Some? ==> r == ML.LegacyProcessTxt(contents.value, itemTags)
    ensures KindOf(path) == CsvList && contents.Some? ==> r == CL.LegacyProcessCsv(contents.value, itemTags)
  {
    match KindOf(path)
    case Schematic => schematic.Map(m => Some(m))
    case TxtList => if contents.None? then Err(UnboundLocalError) else ML.LegacyProcessTxt(contents.value, itemTags)
    case CsvList => if contents.None? then Err(UnboundLocalError) else CL.LegacyProcessCsv(contents.value, itemTags)
    case Unsupported => Err(ValueError)
  }

  /**
   * A `.txt` export read from disk comes back as the tags of its entries
   * with their counts; the same entries exported as `.csv` read back the
   * same.
   */
  lemma ExportsReadBack(txtPath: string, csvPath: string, entries: seq<(string, nat)>,
                        schematic: Result<map<string, int>>, itemTags: map<string, string>)
    requires EndsWith(txtPath, ".txt") && EndsWith(csvPath, ".csv")
    requires |entries| >= 1
    requires forall i :: 0 <= i < |entries| ==> CL.IsCsvName(entries[i].0)
    ensures InputFileToMats(txtPath, Some(ML.RenderTxt(entries)), schematic, itemTags)
      == Ok(ML.Tally(map[], entries, ML.TagFunction(ML.Current(itemTags))))
    ensures InputFileToMats(txtPath, Some(ML.RenderTxt(entries)), schematic, itemTags)
      == InputFileToMats(csvPath, Some(CL.RenderCsv(entries)), schematic, itemTags)
  {
    var tally := ML.Tally(map[], entries, ML.TagFunction(ML.Current(itemTags)));
    assert InputFileToMats(txtPath, Some(ML.RenderTxt(entries)), schematic, itemTags) == Ok(tally) by {
      assert KindOf(txtPath) == TxtList;
      forall i | 0 <= i < |entries| ensures ML.IsCellText(entries[i].0) {
        CsvNameIsCellText(entries[i].0);
      }
      ML.TxtRoundTrip(entries, itemTags);
    }
    assert InputFileToMats(csvPath, Some(CL.RenderCsv(entries)), schematic, itemTags) == Ok(tally) by {
      assert KindOf(csvPath) == CsvList;
      CL.CsvRoundTrip(entries, itemTags);
    }
  }

  /** A name that survives the `.csv` round trip also fits a `.txt` table cell. */
  lemma CsvNameIsCellText(x: string)
    requires CL.IsCsvName(x)
    ensures ML.IsCellText(x)
  {
    assert CL.IsNameChar(x[0]) && CL.IsNameChar(x[|x| - 1]);
    forall i | 0 <= i < |x| ensures x[i] != '|' {
      assert CL.IsNameChar(x[i]);
    }
  }
}

=== FILE: item_names.dfy ===
/**
 * The renaming `get_ingredients` applies before looking an item up
 * (data/recipes_raw_mats_database_builder.py, and the same four steps in
 * the older builder): blocks made outside a crafting grid are counted as
 * the item they come from.
 */
module ItemNames {
  import opened Strings

  /** `re.sub(r'^(chipped|damaged)_anvil$', 'anvil', t)`: a worn anvil is an anvil. */
  function Anvil(t: string): (r: string)
    ensures r == "anvil" <==> t == "anvil" || t == "chipped_anvil" || t == "damaged_anvil"
    ensures r != "anvil" ==> r == t
  {
    if t == "chipped_anvil" || t == "damaged_anvil" then "anvil" else t
  }

  /**
   * The pattern `(\w+)_concrete$` matches `t` starting at `i`: one or more
   * word characters from `i`, then `_concrete` up to the end.
   */
  predicate ConcreteMatchAt(t: string, i: int) {
    0 <= i < |t| - 9 && EndsWith(t, "_concrete") && AllWordChars(t[i..|t| - 9])
  }

  /**
   * `re.sub(r'(\w+)_concrete$', r'\1_concrete_powder', t)`: concrete is
   * counted as the powder it hardens from. The replacement keeps what the
   * group matched, so it only appends `_powder`.
   */
  function Concrete(t: string): string {
    if |t| >= 10 && EndsWith(t, "_concrete") && IsWordChar(t[|t| - 10]) then t + "_powder" else t
  }

  /**
   * `re.sub` replaces the leftmost match and goes on after it; a match runs
   * to the end of the name, so there is at most one replacement. The name
   * changes exactly when the pattern matches somewhere, and replacing any
   * match gives the same name.
   */
  lemma ConcreteIsTheSubstitution(t: string)
    ensures Concrete(t) != t <==> exists i :: ConcreteMatchAt(t, i)
    ensures forall i :: ConcreteMatchAt(t, i) ==> Concrete(t) == t[..i] + t[i..|t| - 9] + "_concrete_powder"
  {
    if |t| >= 10 && EndsWith(t, "_concrete") && IsWordChar(t[|t| - 10]) {
      assert ConcreteMatchAt(t, |t| - 10);
    }
    forall i | ConcreteMatchAt(t, i)
      ensures Concrete(t) == t[..i] + t[i..|t| - 9] + "_concrete_powder"
    {
      assert IsWordChar(t[i..|t| - 9][|t| - 10 - i]);
      assert t[..|t| - 9] + "_concrete" == t;
      calc {
        t[..i] + t[i..|t| - 9] + "_concrete_powder";
        t[..|t| - 9] + ("_concrete" + "_powder");
        t[..|t| - 9] + "_concrete" + "_powder";
      }
    }
  }

  /** One of the oxidation stages `(exposed|weathered|oxidized)_` starts at `i`. */
  predicate StageAt(s: string, i: int)
    requires 0 <= i <= |s|
  {
    StartsWith(s[i..], "exposed_") || StartsWith(s[i..], "weathered_") || StartsWith(s[i..], "oxidized_")
  }

  /** No oxidation stage starts anywhere in `s`. */
  predicate StageFree(s: string) {
    forall i :: 0 <= i < |s| ==> !StageAt(s, i)
  }

  /**
   * `re.sub(r'(exposed|weathered|oxidized)_', '', s)`: the scan from the
   * left deletes each stage it finds and resumes after it; elsewhere it
   * keeps one character and moves on. The three words start with
   * different letters, so at most one of them matches at a place.
   */
  function RemoveStages(s: string): (r: string)
    ensures |r| <= |s|
  {
    if |s| == 0 then ""
    else if StartsWith(s, "exposed_") then RemoveStages(s[8..])
    else if StartsWith(s, "weathered_") then RemoveStages(s[10..])
    else if StartsWith(s, "oxidized_") then RemoveStages(s[9..])
    else [s[0]] + RemoveStages(s[1..])
  }

  lemma StageFreeTail(s: string)
    requires |s| > 0 && StageFree(s)
    ensures StageFree(s[1..]) && !StageAt(s, 0)
  {
    forall i | 0 <= i < |s| - 1 ensures !StageAt(s[1..], i) {
      assert s[1..][i..] == s[i + 1..];
      assert !StageAt(s, i + 1);
    }
  }

  /** A name without oxidation stages is left as it is. */
  lemma {:induction false} StageFreeUnchanged(s: string)
    requires StageFree(s)
    ensures RemoveStages(s) == s
    decreases |s|
  {
    if |s| > 0 {
      StageFreeTail(s);
      assert s[0..] == s;
      StageFreeUnchanged(s[1..]);
      assert [s[0]] + s[1..] == s;
    }
  }

  /** A name with an oxidation stage somewhere gets shorter. */
  lemma {:induction false} StagedShrinks(s: string)
    requires !StageFree(s)
    ensures |RemoveStages(s)| < |s|
    decreases |s|
  {
    var i :| 0 <= i < |s| && StageAt(s, i);
    if i == 0 {
      assert s[0..] == s;
    } else {
      assert s[1..][i - 1..] == s[i..];
      assert StageAt(s[1..], i - 1);
      if !StartsWith(s, "exposed_") && !StartsWith(s, "weathered_") && !StartsWith(s, "oxidized_") {
        StagedShrinks(s[1..]);
      }
    }
  }

  /** The stage removal leaves a name alone exactly when it holds no stage. */
  lemma RemoveStagesUnchangedIff(s: string)
    ensures RemoveStages(s) == s <==> StageFree(s)
  {
    if StageFree(s) {
      StageFreeUnchanged(s);
    } else {
      StagedShrinks(s);
    }
  }

  /** A stage in front of a name is dropped. */
  lemma StagePrefixDropped(stage: string, s: string)
    requires stage == "exposed_" || stage == "weathered_" || stage == "oxidized_"
    ensures RemoveStages(stage + s) == RemoveStages(s)
  {
    var t := stage + s;
    assert t[..|stage|] == stage && t[|stage|..] == s;
    if stage == "weathered_" {
      assert !StartsWith(t, "exposed_") by { assert t[0] == 'w'; }
    } else if stage == "oxidized_" {
      assert !StartsWith(t, "exposed_") && !StartsWith(t, "weathered_") by { assert t[0] == 'o'; }
    }
  }

  /** `if t in ['waxed_copper', 'copper']: t += '_block'`. */
  function Copper(t: string): (r: string)
    ensures r != t <==> t == "waxed_copper" || t == "copper"
    ensures r != t ==> r == t + "_block"
  {
    if t == "waxed_copper" || t == "copper" then t + "_block" else t
  }

  /** The name `get_ingredients` looks up for an item. */
  function Normalize(t: string): string {
    Copper(RemoveStages(Concrete(Anvil(t))))
  }

  /**
   * A name none of the four rules applies to is looked up as it is: not a
   * worn anvil, not ending in concrete, without oxidation stages and not
   * plain copper.
   */
  lemma PlainNameKept(t: string)
    requires t != "chipped_anvil" && t != "damaged_anvil" && !EndsWith(t, "_concrete")
    requires StageFree(t) && t != "waxed_copper" && t != "copper"
    ensures Normalize(t) == t
  {
    StageFreeUnchanged(t);
  }

  /** A name that is not a worn anvil and does not end in concrete reaches the stage removal unchanged. */
  lemma NotAnvilNorConcrete(t: string)
    requires |t| > 0 && t[|t| - 1] != 'l' && t[|t| - 1] != 'e'
    ensures Concrete(Anvil(t)) == t
  {
    assert t != "chipped_anvil" && t != "damaged_anvil" by {
      assert "chipped_anvil"[12] == 'l' && "damaged_anvil"[12] == 'l';
    }
    assert !EndsWith(t, "_concrete") by { assert "_concrete"[8] == 'e'; }
  }

  /** Weathered, exposed and oxidized copper blocks count as the copper block. */
  lemma AgedCopperIsCopperBlock(stage: string)
    requires stage == "exposed_" || stage == "weathered_" || stage == "oxidized_"
    ensures Normalize(stage + "copper") == "copper_block"
  {
    var t := stage + "copper";
    assert t[|t| - 1] == 'r';
    NotAnvilNorConcrete(t);
    StagePrefixDropped(stage, "copper");
    CopperIsStageFree();
  }

  lemma CopperIsStageFree()
    ensures RemoveStages("copper") == "copper"
  {
    forall i | 0 <= i < 6 ensures !StageAt("copper", i) {
      assert |"copper"[i..]| < 8;
    }
    StageFreeUnchanged("copper");
  }
}

=== FILE: json.dfy ===
/**
 * JSON values as Python's `json` module produces them, and Python's
 * truthiness on them.
 */
module JsonValues {

  datatype Json =
    | JNull
    | JBool(b: bool)
    | JInt(i: int)
    | JReal(x: real)
    | JStr(s: string)
    | JList(items: seq<Json>)
    | JObj(fields: map<string, Json>)

  /** Python `bool(value)`. */
  predicate Truthy(j: Json) {
    match j
    case JNull => false
    case JBool(b) => b
    case JInt(i) => i != 0
    case JReal(x) => x != 0.0
    case JStr(s) => |s| > 0
    case JList(items) => |items| > 0
    case JObj(fields) => |fields| > 0
  }

  /** The values Python compares as numbers: booleans, integers and floats. */
  predicate IsNumber(j: Json) { j.JBool? || j.JInt? || j.JReal? }

  /** A number's value, with `True` and `False` as 1 and 0. */
  function NumValue(j: Json): real
    requires IsNumber(j)
  {
    match j
    case JBool(b) => if b then 1.0 else 0.0
    case JInt(i) => i as real
    case JReal(x) => x
  }

  /**
   * Python `a == b` on JSON values: numbers by value whatever their kind
   * (`1 == 1.0 == True`), lists item by item, objects key by key, and
   * values of different kinds never equal.
   */
  predicate PyEq(a: Json, b: Json)
    ensures PyEq(a, b) ==>
      (a.JNull? <==> b.JNull?) && (a.JStr? <==> b.JStr?) && (a.JList? <==> b.JList?) && (a.JObj? <==> b.JObj?)
    ensures a.JStr? ==> (PyEq(a, b) <==> a == b)
    decreases a
  {
    if IsNumber(a) || IsNumber(b) then IsNumber(a) && IsNumber(b) && NumValue(a) == NumValue(b)
    else
      match a
      case JStr(s) => b.JStr? && b.s == s
      case JList(xs) => b.JList? && |xs| == |b.items| && forall i :: 0 <= i < |xs| ==> PyEq(xs[i], b.items[i])
      case JObj(f) => b.JObj? && f.Keys == b.fields.Keys && forall k :: k in f ==> PyEq(f[k], b.fields[k])
      case _ => b.JNull?
  }

  /** Every value equals itself. */
  lemma {:induction false} PyEqReflexive(a: Json)
    ensures PyEq(a, a)
    decreases a
  {
    match a
    case JList(xs) =>
      forall i | 0 <= i < |xs| ensures PyEq(xs[i], xs[i]) { PyEqReflexive(xs[i]); }
    case JObj(f) =>
      forall k | k in f ensures PyEq(f[k], f[k]) { PyEqReflexive(f[k]); }
    case _ =>
  }

  /** Equality is symmetric. */
  lemma {:induction false} PyEqSymmetric(a: Json, b: Json)
    requires PyEq(a, b)
    ensures PyEq(b, a)
    decreases a
  {
    if !IsNumber(a) && !IsNumber(b) {
      match a
      case JList(xs) =>
        forall i | 0 <= i < |xs| ensures PyEq(b.items[i], xs[i]) { PyEqSymmetric(xs[i], b.items[i]); }
      case JObj(f) =>
        forall k | k in b.fields ensures PyEq(b.fields[k], f[k]) { PyEqSymmetric(f[k], b.fields[k]); }
      case _ =>
    }
  }

  /** Distinct values can be equal to Python: an integer, the same float and a boolean. */
  lemma NumbersOfEveryKindEqual()
    ensures PyEq(JInt(1), JReal(1.0)) && PyEq(JReal(1.0), JBool(true)) && PyEq(JList([JInt(0)]), JList([JBool(false)]))
    ensures JInt(1) != JReal(1.0) && JList([JInt(0)]) != JList([JBool(false)])
  {
  }
}

=== FILE: launchable.dfy ===
/**
 * The step that turns the remapped client jar into one the game launcher
 * accepts (LaunchPrepareLaunchableFile.java): every class, field, method
 * and inner class that is neither public nor private is made public, and
 * the output jar is assembled from the remapped jar and the original one
 * with a fresh manifest. Access flags are those of sections 4.1, 4.5, 4.6
 * and 4.7.6 of The Java Virtual Machine Specification. The jars are given
 * as the entries of their root directories; each file operation may fail.
 */
module Launchable {
  import opened Results
  import opened Strings
  import opened Steps

  // ---------------------------------------------------------------------
  // Access widening
  // ---------------------------------------------------------------------

  /** `ACC_PUBLIC`, `ACC_PRIVATE` and `ACC_PROTECTED`. */
  const AccPublic: bv32 := 0x0001
  const AccPrivate: bv32 := 0x0002
  const AccProtected: bv32 := 0x0004

  predicate IsPublic(access: bv32) { access & AccPublic != 0 }
  predicate IsPrivate(access: bv32) { access & AccPrivate != 0 }
  predicate IsProtected(access: bv32) { access & AccProtected != 0 }

  /**
   * `ensurePublic`: flags that are already public or private are kept;
   * otherwise `ACC_PROTECTED` is cleared and `ACC_PUBLIC` set.
   */
  function EnsurePublic(access: bv32): (r: bv32)
    ensures IsPublic(r) || IsPrivate(r)
  {
    if access & AccPublic != 0 || access & AccPrivate != 0 then access
    else (access & !AccProtected) | AccPublic
  }

  /** Public or private flags are returned as they are. */
  lemma EnsurePublicKeeps(access: bv32)
    requires IsPublic(access) || IsPrivate(access)
    ensures EnsurePublic(access) == access
  {
  }

  /**
   * Any other flags become public and lose `ACC_PROTECTED`; every other
   * bit is left as it was.
   */
  lemma EnsurePublicSets(access: bv32)
    requires !IsPublic(access) && !IsPrivate(access)
    ensures IsPublic(EnsurePublic(access)) && !IsProtected(EnsurePublic(access)) && !IsPrivate(EnsurePublic(access))
    ensures EnsurePublic(access) & !(AccPublic | AccProtected) == access & !(AccPublic | AccProtected)
  {
  }

  /** Widening twice is widening once. */
  lemma EnsurePublicIdempotent(access: bv32)
    ensures EnsurePublic(EnsurePublic(access)) == EnsurePublic(access)
  {
  }

  /**
   * Java's visibility levels, from private (0) through package access (1)
   * and protected (2) to public (3), read off the flags in that order.
   */
  function Visibility(access: bv32): nat {
    if IsPublic(access) then 3
    else if IsPrivate(access) then 0
    else if IsProtected(access) then 2
    else 1
  }

  /**
   * Widening never narrows: every member ends up public except a private
   * one, which stays exactly as it was.
   */
  lemma EnsurePublicWidens(access: bv32)
    ensures Visibility(EnsurePublic(access)) >= Visibility(access)
    ensures Visibility(EnsurePublic(access)) == 3 || EnsurePublic(access) == access
    ensures Visibility(EnsurePublic(access)) < 3 <==> Visibility(access) == 0
  {
  }

  /** `ensurePublic` applied to every flag word of a list. */
  function EnsureAllPublic(flags: seq<bv32>): (r: seq<bv32>)
    ensures |r| == |flags|
    ensures forall i :: 0 <= i < |r| ==> r[i] == EnsurePublic(flags[i])
  {
    if |flags| == 0 then [] else [EnsurePublic(flags[0])] + EnsureAllPublic(flags[1..])
  }

  /** The access flags of a parsed class file. */
  datatype ClassNode = ClassNode(access: bv32, fields: seq<bv32>, methods: seq<bv32>, innerClasses: seq<bv32>)

  predicate AllPublicOrPrivate(flags: seq<bv32>) {
    forall i :: 0 <= i < |flags| ==> IsPublic(flags[i]) || IsPrivate(flags[i])
  }

  /** `transformClassToPublicAccess`: the class, its fields, methods and inner classes widened. */
  function TransformClassToPublicAccess(c: ClassNode): (r: ClassNode)
    ensures IsPublic(r.access) || IsPrivate(r.access)
    ensures AllPublicOrPrivate(r.fields) && AllPublicOrPrivate(r.methods) && AllPublicOrPrivate(r.innerClasses)
    ensures |r.fields| == |c.fields| && |r.methods| == |c.methods| && |r.innerClasses| == |c.innerClasses|
  {
    ClassNode(EnsurePublic(c.access), EnsureAllPublic(c.fields), EnsureAllPublic(c.methods), EnsureAllPublic(c.innerClasses))
  }

  /** Transforming a class a second time changes nothing. */
  lemma TransformIdempotent(c: ClassNode)
    ensures TransformClassToPublicAccess(TransformClassToPublicAccess(c)) == TransformClassToPublicAccess(c)
  {
    var r := TransformClassToPublicAccess(c);
    forall flags: seq<bv32> ensures EnsureAllPublic(EnsureAllPublic(flags)) == EnsureAllPublic(flags) {
      var once := EnsureAllPublic(flags);
      var twice := EnsureAllPublic(once);
      assert forall i :: 0 <= i < |twice| ==> twice[i] == once[i] by {
        forall i | 0 <= i < |twice| ensures twice[i] == once[i] {
          EnsurePublicIdempotent(flags[i]);
        }
      }
    }
  }

  // ---------------------------------------------------------------------
  // Assembling the launchable jar
  // ---------------------------------------------------------------------

  /** `shouldTransform`: class files, and only when the mapping flavour needs package fixing. */
  predicate ShouldTransform(fileName: string, needsPackageFixing: bool) {
    EndsWith(fileName, ".class") && needsPackageFixing
  }

  /** The manifest written into the output jar. */
  const ManifestText: string := "Manifest-Version: 1.0\r\n"

  /** An entry of a jar's root directory: a regular file or a directory, and for a directory whether it holds `MANIFEST.MF`. */
  datatype Entry = Entry(name: string, isFile: bool, hasManifest: bool)

  /** What assembling the output jar does, one top-level entry at a time. */
  datatype Action =
    | Transform(name: string)          // a remapped class file written with widened access
    | CopyModified(name: string)       // a remapped file copied as it is
    | CopyModifiedDir(name: string)    // a remapped directory copied, its class files transformed
    | WriteManifest                    // `META-INF/MANIFEST.MF` written with `ManifestText`
    | CopyOriginal(name: string)       // a file of the original jar that is not a class file
    | CopyOriginalDir(name: string)    // a directory of the original jar, without class files

  /** The top-level output entry an action writes. */
  function Target(a: Action): string {
    if a.WriteManifest? then "META-INF" else a.name
  }

  predicate FromModified(a: Action) { a.Transform? || a.CopyModified? || a.CopyModifiedDir? }
  predicate FromOriginal(a: Action) { a.WriteManifest? || a.CopyOriginal? || a.CopyOriginalDir? }

  /**
   * The first loop's handling of one entry of the remapped jar: a
   * `META-INF` directory holding `MANIFEST.MF` is skipped, a file is transformed
   * or copied, anything else copied as a directory.
   */
  function ModifiedAction(e: Entry, needsPackageFixing: bool): Option<Action> {
    if e.name == "META-INF" && !e.isFile && e.hasManifest then None
    else if e.isFile then
      Some(if ShouldTransform(e.name, needsPackageFixing) then Transform(e.name) else CopyModified(e.name))
    else Some(CopyModifiedDir(e.name))
  }

  /** The first loop over the remapped jar's entries. */
  function ModifiedActions(entries: seq<Entry>, needsPackageFixing: bool): (r: seq<Action>)
    ensures forall a :: a in r ==> FromModified(a)
    ensures forall a :: a in r ==> a.Transform? ==> EndsWith(a.name, ".class") && needsPackageFixing
    ensures forall a :: a in r ==> exists e :: e in entries && ModifiedAction(e, needsPackageFixing) == Some(a)
    ensures forall e :: e in entries && ModifiedAction(e, needsPackageFixing).Some? ==> ModifiedAction(e, needsPackageFixing).value in r
    ensures forall e :: e in entries && e.isFile && ShouldTransform(e.name, needsPackageFixing) ==> Transform(e.name) in r
    ensures forall e :: e in entries && e.isFile && !ShouldTransform(e.name, needsPackageFixing) ==> CopyModified(e.name) in r
    decreases |entries|
  {
    if |entries| == 0 then []
    else
      var a := ModifiedAction(entries[0], needsPackageFixing);
      var rest := ModifiedActions(entries[1..], needsPackageFixing);
      var r := (if a.Some? then [a.value] else []) + rest;
      assert forall e :: e in entries <==> e == entries[0] || e in entries[1..];
      assert forall x :: x in r ==> exists e :: e in entries && ModifiedAction(e, needsPackageFixing) == Some(x) by {
        forall x | x in r ensures exists e :: e in entries && ModifiedAction(e, needsPackageFixing) == Some(x) {
          if x !in rest {
            assert ModifiedAction(entries[0], needsPackageFixing) == Some(x);
          }
        }
      }
      r
  }

  /**
   * The second loop's handling of one entry of the original jar, given the
   * top-level names the output already holds: `META-INF` gets the new
   * manifest; a file that is not a class file is copied; a directory is
   * copied without its class files unless the output already has it.
   */
  function OriginalAction(e: Entry, written: set<string>): Option<Action> {
    if e.name == "META-INF" then Some(WriteManifest)
    else if e.isFile && !EndsWith(e.name, ".class") then Some(CopyOriginal(e.name))
    else if !e.isFile && e.name !in written then Some(CopyOriginalDir(e.name))
    else None
  }

  /** The second loop over the original jar's entries. */
  function OriginalActions(entries: seq<Entry>, written: set<string>): (r: seq<Action>)
    ensures forall a :: a in r ==> FromOriginal(a)
    ensures forall a :: a in r ==> a.CopyOriginal? ==> !EndsWith(a.name, ".class")
    ensures forall a :: a in r ==> a.CopyOriginalDir? ==> a.name !in written
    ensures WriteManifest in r <==> exists e :: e in entries && e.name == "META-INF"
    decreases |entries|
  {
    if |entries| == 0 then []
    else
      var a := OriginalAction(entries[0], written);
      var rest := OriginalActions(entries[1..], if a.Some? then written + {entries[0].name} else written);
      assert forall e :: e in entries <==> e == entries[0] || e in entries[1..];
      (if a.Some? then [a.value] else []) + rest
  }

  /** The names the first loop writes. */
  function Targets(actions: seq<Action>): (r: set<string>)
    ensures forall a :: a in actions ==> Target(a) in r
  {
    if |actions| == 0 then {} else {Target(actions[0])} + Targets(actions[1..])
  }

  /** Every action, in order, that assembling the output jar performs. */
  function Plan(modified: seq<Entry>, original: seq<Entry>, needsPackageFixing: bool): seq<Action> {
    var first := ModifiedActions(modified, needsPackageFixing);
    first + OriginalActions(original, Targets(first))
  }

  /** The position of the first action that fails, if any. */
  function FirstFailure(actions: seq<Action>, fails: Action -> bool): (r: Option<nat>)
    ensures r.Some? ==> r.value < |actions| && fails(actions[r.value])
    ensures r.Some? ==> forall i :: 0 <= i < r.value ==> !fails(actions[i])
    ensures r.None? ==> forall i :: 0 <= i < |actions| ==> !fails(actions[i])
  {
    if |actions| == 0 then None
    else if fails(actions[0]) then Some(0)
    else
      match FirstFailure(actions[1..], fails)
      case None => None
      case Some(k) => Some(k + 1)
  }

  /** The outcome of the step: its result, the actions completed, and whether the output jar was deleted. */
  datatype Launch = Launch(result: Result<StepStatus>, done: seq<Action>, deletedOutput: bool)

  /**
   * `run`: a non-empty output jar is `UP_TO_DATE` and nothing is done.
   * Otherwise the actions run in order; the first that fails makes the
   * step delete the output jar and rethrow; when all complete the step
   * reports `SUCCESS`.
   */
  function Run(outputNonEmpty: bool, modified: seq<Entry>, original: seq<Entry>, needsPackageFixing: bool, fails: Action -> bool): (r: Launch)
    ensures outputNonEmpty ==> r == Launch(Ok(UpToDate), [], false)
    ensures r.deletedOutput <==> r.result.Err?
    ensures r.result.Err? ==> r.result.error == IOFailure
    ensures r.done <= Plan(modified, original, needsPackageFixing)
    ensures forall a :: a in r.done ==> !fails(a)
    ensures !outputNonEmpty ==>
      (r.result == Ok(Success) <==> forall a :: a in Plan(modified, original, needsPackageFixing) ==> !fails(a))
  {
    if outputNonEmpty then Launch(Ok(UpToDate), [], false)
    else
      var plan := Plan(modified, original, needsPackageFixing);
      match FirstFailure(plan, fails)
      case Some(k) => Launch(Err(IOFailure), plan[..k], true)
      case None => Launch(Ok(Success), plan, false)
  }

  /**
   * What a complete run writes: the new manifest exactly when the original
   * jar has `META-INF`; remapped class files transformed exactly when the
   * flavour needs package fixing; no class file of the original copied at
   * top level.
   */
  lemma PlanContents(modified: seq<Entry>, original: seq<Entry>, needsPackageFixing: bool)
    ensures var plan := Plan(modified, original, needsPackageFixing);
      WriteManifest in plan <==> exists e :: e in original && e.name == "META-INF"
    ensures var plan := Plan(modified, original, needsPackageFixing);
      forall a :: a in plan ==> a.Transform? ==> EndsWith(a.name, ".class") && needsPackageFixing
    ensures var plan := Plan(modified, original, needsPackageFixing);
      forall a :: a in plan ==> a.CopyOriginal? ==> !EndsWith(a.name, ".class")
  {
    var first := ModifiedActions(modified, needsPackageFixing);
    var second := OriginalActions(original, Targets(first));
    assert forall a :: a in first + second <==> a in first || a in second;
    assert forall a :: a in first ==> !FromOriginal(a);
  }

  /**
   * Nothing the remapped jar provides is overwritten: no directory of the
   * original is copied over a name the first loop wrote, and the remapped
   * jar's `META-INF` reaches the output only when it holds no manifest.
   */
  lemma PlanKeepsModified(modified: seq<Entry>, original: seq<Entry>, needsPackageFixing: bool)
    ensures var plan := Plan(modified, original, needsPackageFixing);
      forall a, b :: a in plan && b in plan && FromModified(a) && b.CopyOriginalDir? ==> Target(a) != b.name
    ensures var plan := Plan(modified, original, needsPackageFixing);
      forall a :: a in plan && FromModified(a) && Target(a) == "META-INF" ==>
        exists e :: e in modified && e.name == "META-INF" && (e.isFile || !e.hasManifest)
  {
    var first := ModifiedActions(modified, needsPackageFixing);
    var second := OriginalActions(original, Targets(first));
    assert forall a :: a in first + second <==> a in first || a in second;
    assert forall a :: a in second ==> !FromModified(a);
  }
}

=== FILE: material_lists.dfy ===
/**
 * Litematica material lists: the display-name-to-tag cleaner and the `.txt`
 * and `.csv` list validators and parsers of src/S2RM_backend.py, their older
 * copies in the root S2RM_backend.py, and the extension dispatch.
 *
 * Item-tag tables are parameters. Unicode category C is approximated by the
 * ASCII and Latin-1 control characters, and lower-casing is ASCII only.
 */
module MaterialLists {
  import opened Results
  import opened Strings
  import H = Helpers

  // ---------------------------------------------------------------------
  // Name cleaning
  // ---------------------------------------------------------------------

  /** Characters that survive the control-character filter. */
  predicate NotControl(c: char) { !IsControl(c) }

  /** Characters that survive the second-stage filter: no controls and no digits. */
  predicate NotControlOrDigit(c: char) { !IsControl(c) && !IsDigit(c) }

  /** The first-stage class `[[a-zA-Z0-9_\s']`. */
  predicate KeptWithDigits(c: char) { c == '[' || IsAlnum(c) || c == '_' || IsSpace(c) || c == '\'' }

  /** The second-stage class `[[a-zA-Z_\s']`. */
  predicate KeptNoDigits(c: char) { c == '[' || IsLetter(c) || c == '_' || IsSpace(c) || c == '\'' }

  /** `''.join(c for c in s if keep(c))`. */
  function Keep(s: string, keep: char -> bool): (r: string)
    ensures |r| <= |s|
    ensures AllChars(r, keep)
    ensures AllChars(s, keep) ==> r == s
  {
    if |s| == 0 then [] else (if keep(s[0]) then [s[0]] else []) + Keep(s[1..], keep)
  }

  /** Where the next line starts: the index of the first newline, or the length. */
  function NextLine(s: string): (k: nat)
    ensures k <= |s|
    ensures k < |s| ==> s[k] == '\n'
    ensures forall i :: 0 <= i < k ==> s[i] != '\n'
  {
    if |s| == 0 || s[0] == '\n' then 0 else 1 + NextLine(s[1..])
  }

  /**
   * `re.sub(r'[^<class>].*', '', s)`: a character outside the class removes
   * itself and the rest of its line; scanning resumes at the next line.
   */
  function CutAtBad(s: string, kept: char -> bool): (r: string)
    ensures AllChars(r, kept)
    ensures AllChars(s, kept) ==> r == s
    decreases |s|
  {
    if |s| == 0 then []
    else if kept(s[0]) then [s[0]] + CutAtBad(s[1..], kept)
    else CutAtBad(s[1 + NextLine(s[1..])..], kept)
  }

  /** `clean_string_stage1`: drop control characters, then cut at the first symbol; digits stay. */
  function Stage1(s: string): string {
    CutAtBad(Keep(s, NotControl), KeptWithDigits)
  }

  /** `clean_string_stage2`: drop control characters and digits, then cut at the first symbol. */
  function Stage2(s: string): string {
    CutAtBad(Keep(s, NotControlOrDigit), KeptNoDigits)
  }

  /** Names returned straight after the first stage: `music_disc_N`, `disc_fragment_N`, `block36`, `$…`. */
  predicate IsSpecialName(n: string) {
    n == "block36"
    || (StartsWith(n, "music_disc_") && IsDigitString(n[11..]))
    || (StartsWith(n, "disc_fragment_") && IsDigitString(n[14..]))
    || (|n| > 0 && n[0] == '$')
  }

  /** `re.sub(r'\s+', '_', s)`: every run of whitespace becomes one underscore. */
  function CollapseSpace(s: string): string
    decreases |s|
  {
    if |s| == 0 then []
    else if IsSpace(s[0]) then
      assert |LStrip(s)| < |s| by { LStripShrinks(s); }
      "_" + CollapseSpace(LStrip(s))
    else [s[0]] + CollapseSpace(s[1..])
  }

  /** Text that starts with whitespace gets shorter when stripped on the left. */
  lemma LStripShrinks(s: string)
    requires |s| > 0 && IsSpace(s[0])
    ensures |LStrip(s)| < |s|
  {
    assert LStrip(s) == LStrip(s[1..]);
  }

  /** `re.sub(r'_+$', '', s)`. */
  function DropTrailingUnderscores(s: string): (r: string)
    ensures |r| <= |s| && r == s[..|r|]
    ensures |r| > 0 ==> r[|r| - 1] != '_'
    ensures forall i :: |r| <= i < |s| ==> s[i] == '_'
  {
    if |s| > 0 && s[|s| - 1] == '_' then DropTrailingUnderscores(s[..|s| - 1]) else s
  }

  /** The longest prefix of word characters. */
  function WordPrefix(s: string): (r: string)
    ensures |r| <= |s| && r == s[..|r|] && AllWordChars(r)
    ensures |r| < |s| ==> !IsWordChar(s[|r|])
  {
    if |s| > 0 && IsWordChar(s[0]) then [s[0]] + WordPrefix(s[1..]) else ""
  }

  /** `re.sub(r'block_of_(\w+)', r'\1_block', s)`: `block_of_X` becomes `X_block`. */
  function BlockOfRewrite(s: string): (r: string)
    ensures !Contains(s, "block_of_") ==> r == s
    decreases |s|
  {
    if |s| == 0 then []
    else if StartsWith(s, "block_of_") && |s| > 9 && IsWordChar(s[9]) then
      var w := WordPrefix(s[9..]);
      w + "_block" + BlockOfRewrite(s[9 + |w|..])
    else [s[0]] + BlockOfRewrite(s[1..])
  }

  /** What follows the special-name check: underscores for spaces, spelling, `block_of_`. */
  function Normalise(n: string): string {
    var spaced := DropTrailingUnderscores(CollapseSpace(n));
    var spelled := Replace(Replace(Replace(spaced, "chiselled_", "chiseled_"), "grey", "gray"), "dised", "dized");
    BlockOfRewrite(spelled)
  }

  /**
   * `convert_name_to_tag` of src/S2RM_backend.py as written. The `$…`
   * special case can never fire: the first stage already cuts at `$`.
   */
  function ConvertNameToTagAsWritten(name: string, itemTags: map<string, string>): string {
    var n := Lower(Stage1(name));
    if IsSpecialName(n) then n
    else
      var t := Normalise(Stage2(n));
      H.MapGetOr(itemTags, t, t)
  }

  /** `convert_name_to_tag` with entity markers `$…` passed through, as its comment intends. */
  function ConvertNameToTag(name: string, itemTags: map<string, string>): string {
    if |name| > 0 && name[0] == '$' then "$" + Lower(Stage1(name[1..]))
    else ConvertNameToTagAsWritten(name, itemTags)
  }

  /** `convert_name_to_tag` of the root S2RM_backend.py: one cleaning stage, digits cut. */
  function LegacyConvertNameToTag(name: string, itemTags: map<string, string>): string {
    if name == "block36" then name
    else
      var t := Normalise(Lower(CutAtBad(Keep(name, NotControl), KeptNoDigits)));
      H.MapGetOr(itemTags, t, t)
  }

  // ---------------------------------------------------------------------
  // What cleaning guarantees
  // ---------------------------------------------------------------------

  /** Characters a cleaned tag is made of: lower-case letters, `_`, `'` and `[`. */
  predicate IsTagChar(c: char) { c == '[' || IsLower(c) || c == '_' || c == '\'' }

  /** A tag character or a space: what the second stage leaves in lower-cased text. */
  predicate IsSpacedTagChar(c: char) { IsTagChar(c) || c == ' ' }

  /** No capital, no control character, no digit. */
  predicate IsLoweredClean(c: char) { !IsUpper(c) && !IsControl(c) && !IsDigit(c) }

  predicate NotUpper(c: char) { !IsUpper(c) }

  /** Filtering keeps any class the text already keeps to. */
  lemma {:induction false} KeepSubclass(s: string, keep: char -> bool, p: char -> bool)
    requires AllChars(s, p)
    ensures AllChars(Keep(s, keep), p)
    decreases |s|
  {
    if |s| > 0 {
      KeepSubclass(s[1..], keep, p);
    }
  }

  /** Cutting keeps any class the text already keeps to. */
  lemma {:induction false} CutSubclass(s: string, kept: char -> bool, p: char -> bool)
    requires AllChars(s, p)
    ensures AllChars(CutAtBad(s, kept), p)
    decreases |s|
  {
    if |s| > 0 {
      if kept(s[0]) {
        CutSubclass(s[1..], kept, p);
      } else {
        var t := s[1 + NextLine(s[1..])..];
        assert AllChars(t, p);
        CutSubclass(t, kept, p);
      }
    }
  }

  /** Lower-casing text without capitals changes nothing. */
  lemma LowerOfLowered(s: string)
    requires AllChars(s, NotUpper)
    ensures Lower(s) == s
  {
    assert forall i :: 0 <= i < |s| ==> Lower(s)[i] == s[i] by {
      forall i | 0 <= i < |s| ensures Lower(s)[i] == s[i] {
        assert NotUpper(s[i]);
      }
    }
  }

  /** Lower-cased text has no capitals. */
  lemma LoweredHasNoCapitals(s: string)
    ensures AllChars(Lower(s), NotUpper)
  {
    var l := Lower(s);
    forall i | 0 <= i < |l| ensures NotUpper(l[i]) {
      assert l[i] == LowerChar(s[i]);
    }
  }

  /** Whitespace runs become underscores, so spaced tag text becomes tag text. */
  lemma {:induction false} CollapseSpaceTagChars(s: string)
    requires AllChars(s, IsSpacedTagChar)
    ensures AllChars(CollapseSpace(s), IsTagChar)
    decreases |s|
  {
    if |s| > 0 {
      if IsSpace(s[0]) {
        var t := LStrip(s);
        assert |t| < |s| by { LStripShrinks(s); }
        assert AllChars(t, IsSpacedTagChar) by {
          assert t == s[|s| - |t|..];
        }
        CollapseSpaceTagChars(t);
      } else {
        assert IsTagChar(s[0]);
        CollapseSpaceTagChars(s[1..]);
      }
    }
  }

  /** Text without whitespace is left alone by the whitespace collapse. */
  lemma {:induction false} CollapseSpaceWithoutSpace(s: string)
    requires forall i :: 0 <= i < |s| ==> !IsSpace(s[i])
    ensures CollapseSpace(s) == s
    decreases |s|
  {
    if |s| > 0 {
      CollapseSpaceWithoutSpace(s[1..]);
      assert s == [s[0]] + s[1..];
    }
  }

  /** Rewriting `block_of_X` keeps any class that holds `_block` and the text. */
  lemma {:induction false} BlockOfKeepsClass(s: string, p: char -> bool)
    requires AllChars(s, p) && AllChars("_block", p)
    ensures AllChars(BlockOfRewrite(s), p)
    decreases |s|
  {
    if |s| > 0 {
      if StartsWith(s, "block_of_") && |s| > 9 && IsWordChar(s[9]) {
        var w := WordPrefix(s[9..]);
        assert AllChars(w, p) by {
          assert w == s[9..][..|w|];
        }
        BlockOfKeepsClass(s[9 + |w|..], p);
      } else {
        BlockOfKeepsClass(s[1..], p);
      }
    }
  }

  /** The replacement texts are tag text. */
  lemma ReplacementsAreTagText()
    ensures AllChars("chiseled_", IsTagChar) && AllChars("gray", IsTagChar)
    ensures AllChars("dized", IsTagChar) && AllChars("_block", IsTagChar)
  {
  }

  /** Normalising spaced tag text gives tag text. */
  lemma NormaliseTagChars(n: string)
    requires AllChars(n, IsSpacedTagChar)
    ensures AllChars(Normalise(n), IsTagChar)
  {
    var collapsed := CollapseSpace(n);
    CollapseSpaceTagChars(n);
    var spaced := DropTrailingUnderscores(collapsed);
    assert AllChars(spaced, IsTagChar) by {
      assert spaced == collapsed[..|spaced|];
    }
    ReplacementsAreTagText();
    var a := Replace(spaced, "chiselled_", "chiseled_");
    ReplaceKeepsClass(spaced, "chiselled_", "chiseled_", IsTagChar);
    var b := Replace(a, "grey", "gray");
    ReplaceKeepsClass(a, "grey", "gray", IsTagChar);
    var c := Replace(b, "dised", "dized");
    ReplaceKeepsClass(b, "dised", "dized", IsTagChar);
    BlockOfKeepsClass(c, IsTagChar);
  }

  /** The second stage, on lower-cased text, leaves spaced tag text. */
  lemma Stage2TagChars(n: string)
    requires AllChars(n, NotUpper)
    ensures AllChars(Stage2(n), IsSpacedTagChar)
  {
    var k := Keep(n, NotControlOrDigit);
    KeepSubclass(n, NotControlOrDigit, NotUpper);
    assert AllChars(k, IsLoweredClean) by {
      forall i | 0 <= i < |k| ensures IsLoweredClean(k[i]) {
        assert NotControlOrDigit(k[i]) && NotUpper(k[i]);
      }
    }
    var r := CutAtBad(k, KeptNoDigits);
    CutSubclass(k, KeptNoDigits, IsLoweredClean);
    forall i | 0 <= i < |r| ensures IsSpacedTagChar(r[i]) {
      assert KeptNoDigits(r[i]) && IsLoweredClean(r[i]);
    }
  }

  /**
   * Outside the special names, a converted name is either a value of the
   * item-tag table or made only of lower-case letters, `_`, `'` and `[`: no
   * whitespace, no digits, no capitals.
   */
  lemma ConvertedNameIsTagText(name: string, itemTags: map<string, string>)
    requires !IsSpecialName(Lower(Stage1(name)))
    ensures var r := ConvertNameToTagAsWritten(name, itemTags);
      r in itemTags.Values || AllChars(r, IsTagChar)
  {
    var n := Lower(Stage1(name));
    LoweredHasNoCapitals(Stage1(name));
    Stage2TagChars(n);
    NormaliseTagChars(Stage2(n));
  }

  /** Characters of a canonical tag: lower-case letters and underscores. */
  predicate IsPlainTagChar(c: char) { IsLower(c) || c == '_' }

  /** Lower-case letters, digits and underscores: the characters of special names. */
  predicate IsLowerWordChar(c: char) { IsLower(c) || IsDigit(c) || c == '_' }

  lemma AllCharsAppend(a: string, b: string, p: char -> bool)
    requires AllChars(a, p) && AllChars(b, p)
    ensures AllChars(a + b, p)
  {
    forall i | 0 <= i < |a + b| ensures p((a + b)[i]) {
      if i >= |a| { assert (a + b)[i] == b[i - |a|]; }
    }
  }

  /** Text of lower-case word characters passes the first stage and lower-casing unchanged. */
  lemma LowerWordTextSurvivesStage1(n: string)
    requires AllChars(n, IsLowerWordChar)
    ensures Lower(Stage1(n)) == n
  {
    assert AllChars(n, NotControl) by {
      forall i | 0 <= i < |n| ensures NotControl(n[i]) { assert IsLowerWordChar(n[i]); }
    }
    assert AllChars(n, KeptWithDigits) by {
      forall i | 0 <= i < |n| ensures KeptWithDigits(n[i]) { assert IsLowerWordChar(n[i]); }
    }
    assert AllChars(n, NotUpper) by {
      forall i | 0 <= i < |n| ensures NotUpper(n[i]) { assert IsLowerWordChar(n[i]); }
    }
    LowerOfLowered(n);
  }

  /** Spaced tag text is no special name. */
  lemma SpacedTagTextNotSpecial(n: string)
    requires AllChars(n, IsSpacedTagChar)
    ensures !IsSpecialName(n)
  {
    assert n != "block36" by {
      assert |n| > 5 ==> IsSpacedTagChar(n[5]);
      assert "block36"[5] == '3';
    }
    assert !(StartsWith(n, "music_disc_") && IsDigitString(n[11..])) by {
      if |n| > 11 { assert n[11..][0] == n[11]; }
    }
    assert !(StartsWith(n, "disc_fragment_") && IsDigitString(n[14..])) by {
      if |n| > 14 { assert n[14..][0] == n[14]; }
    }
    assert |n| > 0 ==> IsSpacedTagChar(n[0]);
  }

  /** Spaced tag text passes the second stage unchanged. */
  lemma SpacedTagTextStage2(n: string)
    requires AllChars(n, IsSpacedTagChar)
    ensures Stage2(n) == n
  {
    assert AllChars(n, NotControlOrDigit) by {
      forall i | 0 <= i < |n| ensures NotControlOrDigit(n[i]) { assert IsSpacedTagChar(n[i]); }
    }
    assert AllChars(n, KeptNoDigits) by {
      forall i | 0 <= i < |n| ensures KeptNoDigits(n[i]) { assert IsSpacedTagChar(n[i]); }
    }
  }

  /** A canonical tag survives both stages and the whitespace collapse, and is no special name. */
  lemma PlainTagStages(n: string)
    requires AllChars(n, IsPlainTagChar)
    ensures Lower(Stage1(n)) == n && !IsSpecialName(n) && Stage2(n) == n && CollapseSpace(n) == n
  {
    assert AllChars(n, IsLowerWordChar) by {
      forall i | 0 <= i < |n| ensures IsLowerWordChar(n[i]) { assert IsPlainTagChar(n[i]); }
    }
    LowerWordTextSurvivesStage1(n);
    assert AllChars(n, IsSpacedTagChar) by {
      forall i | 0 <= i < |n| ensures IsSpacedTagChar(n[i]) { assert IsPlainTagChar(n[i]); }
    }
    SpacedTagTextNotSpecial(n);
    SpacedTagTextStage2(n);
    forall i | 0 <= i < |n| ensures !IsSpace(n[i]) { assert IsPlainTagChar(n[i]); }
    CollapseSpaceWithoutSpace(n);
  }

  /**
   * A name that is already a canonical tag (lower-case letters and
   * underscores, no trailing underscore, nothing to respell, not in the
   * table) converts to itself.
   */
  lemma CanonicalTagIsFixed(n: string, itemTags: map<string, string>)
    requires AllChars(n, IsPlainTagChar)
    requires |n| == 0 || n[|n| - 1] != '_'
    requires !Contains(n, "chiselled_") && !Contains(n, "grey") && !Contains(n, "dised")
    requires !Contains(n, "block_of_")
    requires n !in itemTags
    ensures ConvertNameToTag(n, itemTags) == n
  {
    PlainTagStages(n);
    assert Normalise(n) == n by {
      assert DropTrailingUnderscores(n) == n;
    }
    assert |n| == 0 || n[0] != '$' by {
      assert |n| > 0 ==> IsPlainTagChar(n[0]);
    }
  }

  /** `music_disc_N` is returned as it is, digits and all. */
  lemma MusicDiscKept(d: string, itemTags: map<string, string>)
    requires IsDigitString(d)
    ensures ConvertNameToTag("music_disc_" + d, itemTags) == "music_disc_" + d
  {
    var n := "music_disc_" + d;
    assert AllChars("music_disc_", IsLowerWordChar);
    assert AllChars(d, IsLowerWordChar) by {
      forall i | 0 <= i < |d| ensures IsLowerWordChar(d[i]) { assert IsDigit(d[i]); }
    }
    AllCharsAppend("music_disc_", d, IsLowerWordChar);
    LowerWordTextSurvivesStage1(n);
    assert n[..11] == "music_disc_" && n[11..] == d;
  }

  // ---------------------------------------------------------------------
  // The dead `$…` case
  // ---------------------------------------------------------------------

  /** Nothing the first stage leaves contains `$`, so the `$…` special case never matches. */
  lemma DollarNeverSurvivesStage1(name: string)
    ensures '$' !in Lower(Stage1(name))
  {
    var c := Stage1(name);
    var l := Lower(c);
    forall i | 0 <= i < |l| ensures l[i] != '$' {
      assert KeptWithDigits(c[i]);
      assert l[i] == LowerChar(c[i]);
    }
  }

  /** Text with its control characters removed holds no newline. */
  lemma NoNewlineAfterKeep(s: string)
    ensures '\n' !in Keep(s, NotControl)
  {
    var k := Keep(s, NotControl);
    forall i | 0 <= i < |k| ensures k[i] != '\n' {
      assert NotControl(k[i]);
    }
  }

  /** The empty name normalises to itself. */
  lemma NormaliseEmpty()
    ensures Normalise("") == ""
  {
    assert CollapseSpace("") == "";
    assert !Contains("", "chiselled_") && !Contains("", "grey") && !Contains("", "dised");
    assert !Contains("", "block_of_");
  }

  /**
   * As written, every entity marker `$name` loses its whole text in the first
   * stage and comes out as the table's entry for the empty name.
   */
  lemma DollarNameCollapses(w: string, itemTags: map<string, string>)
    ensures ConvertNameToTagAsWritten("$" + w, itemTags) == H.MapGetOr(itemTags, "", "")
  {
    var s := "$" + w;
    assert s[1..] == w;
    var k := Keep(s, NotControl);
    assert k == "$" + Keep(w, NotControl);
    assert k[1..] == Keep(w, NotControl);
    NoNewlineAfterKeep(w);
    assert Stage1(s) == "";
    assert Lower("") == "";
    assert !IsSpecialName("");
    assert Stage2("") == "";
    NormaliseEmpty();
  }

  /** With the correction, an entity marker `$name` passes through unchanged. */
  lemma EntityMarkerKept(w: string, itemTags: map<string, string>)
    requires AllChars(w, IsPlainTagChar)
    ensures ConvertNameToTag("$" + w, itemTags) == "$" + w
  {
    var s := "$" + w;
    assert s[1..] == w;
    assert AllChars(w, IsLowerWordChar) by {
      forall i | 0 <= i < |w| ensures IsLowerWordChar(w[i]) { assert IsPlainTagChar(w[i]); }
    }
    LowerWordTextSurvivesStage1(w);
  }

  // ---------------------------------------------------------------------
  // The older one-stage cleaner
  // ---------------------------------------------------------------------

  predicate NotDigit(c: char) { !IsDigit(c) }

  /** Two classes that agree on every character of the text cut it the same way. */
  lemma {:induction false} CutSame(s: string, p: char -> bool, q: char -> bool)
    requires forall i :: 0 <= i < |s| ==> (p(s[i]) <==> q(s[i]))
    ensures CutAtBad(s, p) == CutAtBad(s, q)
    decreases |s|
  {
    if |s| > 0 {
      assert p(s[0]) <==> q(s[0]);
      if p(s[0]) {
        assert CutAtBad(s[1..], p) == CutAtBad(s[1..], q) by {
          forall i | 0 <= i < |s[1..]| ensures p(s[1..][i]) <==> q(s[1..][i]) {
            assert s[1..][i] == s[i + 1];
          }
          CutSame(s[1..], p, q);
        }
      } else {
        var j := 1 + NextLine(s[1..]);
        assert CutAtBad(s[j..], p) == CutAtBad(s[j..], q) by {
          forall i | 0 <= i < |s[j..]| ensures p(s[j..][i]) <==> q(s[j..][i]) {
            assert s[j..][i] == s[j + i];
          }
          CutSame(s[j..], p, q);
        }
      }
    }
  }

  /** Without digits, the first stage cuts exactly where the one-stage cleaner does. */
  lemma Stage1WithoutDigits(name: string)
    requires AllChars(name, NotDigit)
    ensures Stage1(name) == CutAtBad(Keep(name, NotControl), KeptNoDigits)
  {
    var k := Keep(name, NotControl);
    KeepSubclass(name, NotControl, NotDigit);
    forall i | 0 <= i < |k| ensures KeptWithDigits(k[i]) <==> KeptNoDigits(k[i]) {
      assert NotDigit(k[i]);
    }
    CutSame(k, KeptWithDigits, KeptNoDigits);
  }

  /** Digit-free kept characters that are no control characters. */
  predicate IsCleanKept(c: char) { KeptNoDigits(c) && !IsControl(c) }

  /** Lower-casing clean digit-free text gives spaced tag text. */
  lemma LoweredSpacedTagText(c: string)
    requires AllChars(c, IsCleanKept)
    ensures AllChars(Lower(c), IsSpacedTagChar)
  {
    var n := Lower(c);
    forall i | 0 <= i < |n| ensures IsSpacedTagChar(n[i]) {
      assert IsCleanKept(c[i]);
      assert n[i] == LowerChar(c[i]);
    }
  }

  /** The one-stage cleaner leaves clean digit-free text. */
  lemma LegacyCleanChars(name: string)
    ensures AllChars(CutAtBad(Keep(name, NotControl), KeptNoDigits), IsCleanKept)
  {
    var k := Keep(name, NotControl);
    var c := CutAtBad(k, KeptNoDigits);
    CutSubclass(k, KeptNoDigits, NotControl);
    forall i | 0 <= i < |c| ensures IsCleanKept(c[i]) {
      assert KeptNoDigits(c[i]) && NotControl(c[i]);
    }
  }

  /**
   * On names without digits (and not entity markers) the older one-stage
   * cleaner and the current two-stage one give the same tag.
   */
  lemma LegacyAgreesWithoutDigits(name: string, itemTags: map<string, string>)
    requires AllChars(name, NotDigit)
    requires |name| == 0 || name[0] != '$'
    ensures ConvertNameToTag(name, itemTags) == LegacyConvertNameToTag(name, itemTags)
  {
    var c := CutAtBad(Keep(name, NotControl), KeptNoDigits);
    Stage1WithoutDigits(name);
    LegacyCleanChars(name);
    LoweredSpacedTagText(c);
    SpacedTagTextNotSpecial(Lower(c));
    SpacedTagTextStage2(Lower(c));
    assert name != "block36" by {
      assert |name| > 5 ==> NotDigit(name[5]);
      assert "block36"[5] == '3';
    }
  }

  // ---------------------------------------------------------------------
  // `.txt` lists
  // ---------------------------------------------------------------------

  /** Which generation's cleaner turns display names into tags, with its item-tag table. */
  datatype Cleaner = Current(tags: map<string, string>) | Legacy(legacyTags: map<string, string>)

  function TagOf(cleaner: Cleaner, name: string): string {
    match cleaner
    case Current(tags) => ConvertNameToTag(name, tags)
    case Legacy(tags) => LegacyConvertNameToTag(name, tags)
  }

  /** The cleaner as a function the row loops apply. */
  function TagFunction(cleaner: Cleaner): string -> string {
    name => TagOf(cleaner, name)
  }

  /** `line[:2] == '+-'`: a table rule. */
  predicate IsRule(line: string) { StartsWith(line, "+-") }

  /** The title row naming what the list is for. */
  predicate IsTitle(line: string) {
    StartsWith(line, "| Material List for ") || StartsWith(line, "| Area Analysis for ")
  }

  /** The column-header row. */
  predicate IsColumnHeader(line: string) { StartsWith(line, "| Item ") && Contains(line, "Available") }

  /** A Litematica `.txt` list at its edges: rule, title, ..., column header, rule. */
  predicate LooksLikeTxtList(lines: seq<string>) {
    |lines| >= 2 && IsRule(lines[0]) && IsTitle(lines[1])
    && IsColumnHeader(lines[|lines| - 2]) && IsRule(lines[|lines| - 1])
  }

  /** A rule line is not blank. */
  lemma RuleNotBlank(line: string)
    requires IsRule(line)
    ensures Strip(line) != ""
  {
    assert line[0] == '+';
    StripKeepsFirst(line);
  }

  /**
   * `verify_txt_material_list`: `Ok` exactly for a list that looks like a
   * Litematica `.txt` list; an IndexError when a single rule line is all
   * there is (the title line is read without a length check); otherwise a
   * ValueError.
   */
  function VerifyTxt(lines: seq<string>): (r: Result<()>)
    ensures r.Ok? <==> LooksLikeTxtList(lines)
    ensures r.Err? ==> (r.error == IndexError <==> |lines| == 1 && IsRule(lines[0]))
    ensures r.Err? ==> r.error == IndexError || r.error == ValueError
  {
    if |lines| == 0 || Strip(lines[0]) == "" then Err(ValueError)
    else if !IsRule(lines[0]) then Err(ValueError)
    else if |lines| < 2 then Err(IndexError)
    else if !IsTitle(lines[1]) then Err(ValueError)
    else if !StartsWith(lines[|lines| - 2], "| Item ") then Err(ValueError)
    else if !Contains(lines[|lines| - 2], "Available") then Err(ValueError)
    else if !IsRule(lines[|lines| - 1]) then Err(ValueError)
    else Ok(())
  }

  /** `lines[5:-3]`: what lies between the five header lines and the three footer lines. */
  function TxtBody(lines: seq<string>): (r: seq<string>)
    ensures |r| == if |lines| > 8 then |lines| - 8 else 0
    ensures forall i :: 0 <= i < |r| ==> r[i] == lines[i + 5]
  {
    if |lines| > 8 then lines[5..|lines| - 3] else []
  }

  /**
   * The row loop: a line with more than two `|`-fields maps the tag of its
   * first field to the integer in its second, later rows overwriting
   * earlier ones; other lines are skipped; a count `int()` rejects is a
   * ValueError.
   */
  function TxtRows(m: map<string, int>, rows: seq<string>, tagOf: string -> string): (r: Result<map<string, int>>)
    ensures r.Ok? ==> m.Keys <= r.value.Keys
    ensures r.Err? ==> r.error == ValueError
    decreases |rows|
  {
    if |rows| == 0 then Ok(m)
    else
      var parts := Split(Strip(rows[0]), '|');
      if |parts| <= 2 then TxtRows(m, rows[1..], tagOf)
      else
        match ParseInt(Strip(parts[2]))
        case Err(e) => Err(e)
        case Ok(n) => TxtRows(m[tagOf(Strip(parts[1])) := n], rows[1..], tagOf)
  }

  /** `process_txt_material_list` of src/S2RM_backend.py: verify, then read the rows. */
  function ProcessTxt(lines: seq<string>, itemTags: map<string, string>): (r: Result<map<string, int>>)
    ensures VerifyTxt(lines).Err? ==> r == Err(VerifyTxt(lines).error)
    ensures r.Ok? ==> LooksLikeTxtList(lines)
  {
    match VerifyTxt(lines)
    case Err(e) => Err(e)
    case Ok(_) => TxtRows(map[], TxtBody(lines), TagFunction(Current(itemTags)))
  }

  /**
   * `process_txt_material_list` of the root S2RM_backend.py: a failed
   * verification is reported as `None` instead of raised; an IndexError
   * still propagates.
   */
  function LegacyProcessTxt(lines: seq<string>, itemTags: map<string, string>): (r: Result<Option<map<string, int>>>)
    ensures VerifyTxt(lines) == Err(ValueError) <==> r == Ok(None)
    ensures VerifyTxt(lines) == Err(IndexError) ==> r == Err(IndexError)
  {
    match VerifyTxt(lines)
    case Err(ValueError) => Ok(None)
    case Err(e) => Err(e)
    case Ok(_) => TxtRows(map[], TxtBody(lines), TagFunction(Legacy(itemTags))).Map(m => Some(m))
  }

  /** Rows processed in two runs give what one run over both gives. */
  lemma {:induction false} TxtRowsAppend(m: map<string, int>, a: seq<string>, b: seq<string>, tagOf: string -> string)
    ensures TxtRows(m, a + b, tagOf)
      == match TxtRows(m, a, tagOf) { case Ok(m1) => TxtRows(m1, b, tagOf) case Err(e) => Err(e) }
    decreases |a|
  {
    if |a| > 0 {
      assert (a + b)[0] == a[0] && (a + b)[1..] == a[1..] + b;
      var parts := Split(Strip(a[0]), '|');
      if |parts| <= 2 {
        TxtRowsAppend(m, a[1..], b, tagOf);
      } else if ParseInt(Strip(parts[2])).Ok? {
        TxtRowsAppend(m[tagOf(Strip(parts[1])) := ParseInt(Strip(parts[2])).value], a[1..], b, tagOf);
      }
    } else {
      assert a + b == b;
    }
  }

  // ---------------------------------------------------------------------
  // Rendering a `.txt` list and reading it back
  // ---------------------------------------------------------------------

  const TxtRule: string := "+------+"
  const TxtTitle: string := "| Material List for schematic |"
  const TxtColumns: string := "| Item | Total | Missing | Available |"

  /** Text that can sit in a table cell: non-empty, no `|`, no whitespace at either end. */
  predicate IsCellText(x: string) {
    |x| > 0 && '|' !in x && !IsSpace(x[0]) && !IsSpace(x[|x| - 1])
  }

  /** A cell's text with one space of padding on each side. */
  function Pad(x: string): string { " " + x + " " }

  /** One table row as Litematica lays it out: `| name | count | 0 | 0 |`. */
  function TxtLine(name: string, count: nat): string {
    "|" + (Pad(name) + ("|" + (Pad(NatToString(count)) + ("|" + " 0 | 0 |"))))
  }

  function TxtLines(entries: seq<(string, nat)>): (r: seq<string>)
    ensures |r| == |entries|
    ensures forall i :: 0 <= i < |entries| ==> r[i] == TxtLine(entries[i].0, entries[i].1)
  {
    if |entries| == 0 then [] else [TxtLine(entries[0].0, entries[0].1)] + TxtLines(entries[1..])
  }

  /** A whole `.txt` list: five header lines, one row per entry, three footer lines. */
  function RenderTxt(entries: seq<(string, nat)>): seq<string> {
    [TxtRule, TxtTitle, TxtRule, TxtColumns, TxtRule] + TxtLines(entries) + [TxtRule, TxtColumns, TxtRule]
  }

  /** The expected reading: each entry's tag gets its count, later entries overwriting earlier ones. */
  function Tally(m: map<string, int>, entries: seq<(string, nat)>, tagOf: string -> string): map<string, int>
    decreases |entries|
  {
    if |entries| == 0 then m
    else Tally(m[tagOf(entries[0].0) := entries[0].1], entries[1..], tagOf)
  }

  /** The literal lines of the rendering have the shapes the validator looks for. */
  lemma TxtFrameShapes()
    ensures IsRule(TxtRule) && IsTitle(TxtTitle) && IsColumnHeader(TxtColumns)
  {
    assert TxtRule[..2] == "+-";
    assert TxtTitle[..20] == "| Material List for ";
    assert TxtColumns[..7] == "| Item ";
    assert TxtColumns[27..][..9] == "Available";
    ContainsAt(TxtColumns, "Available", 27);
  }

  /** `|a|b|…` splits on bars into a blank, `a`, `b` and the rest. */
  lemma BarredSplit(a: string, b: string, tail: string)
    requires '|' !in a && '|' !in b
    ensures var parts := Split("|" + (a + ("|" + (b + ("|" + tail)))), '|');
      |parts| > 2 && parts[1] == a && parts[2] == b
  {
    var rest2 := b + ("|" + tail);
    var rest1 := a + ("|" + rest2);
    SplitConsRight("", '|', rest1);
    assert "" + ("|" + rest1) == "|" + rest1;
    SplitConsRight(a, '|', rest2);
    SplitConsRight(b, '|', tail);
  }

  /** A row splits into the blank before the first bar, the name, the count and the rest. */
  lemma TxtLineSplits(name: string, count: nat)
    requires IsCellText(name)
    ensures var parts := Split(Strip(TxtLine(name, count)), '|');
      |parts| > 2 && parts[1] == Pad(name) && parts[2] == Pad(NatToString(count))
  {
    var c := NatToString(count);
    var line := TxtLine(name, count);
    assert Strip(line) == line by {
      assert line[0] == '|' && line[|line| - 1] == '|';
      StripNonSpaceEnds(line);
    }
    assert '|' !in Pad(c) by {
      assert forall i :: 0 <= i < |c| ==> IsDigit(c[i]);
    }
    BarredSplit(Pad(name), Pad(c), " 0 | 0 |");
  }

  /** A padded count cell reads back as the count. */
  lemma CountCellReads(count: nat)
    ensures ParseInt(Strip(Pad(NatToString(count)))) == Ok(count as int)
  {
    var c := NatToString(count);
    assert Strip(Pad(c)) == c by {
      assert IsDigit(c[0]) && IsDigit(c[|c| - 1]);
      StripPadded(c);
    }
    ParseNatToString(count);
  }

  /** A rendered row reads back as its name and count. */
  lemma TxtLineReads(name: string, count: nat)
    requires IsCellText(name)
    ensures var parts := Split(Strip(TxtLine(name, count)), '|');
      |parts| > 2 && Strip(parts[1]) == name && ParseInt(Strip(parts[2])) == Ok(count as int)
  {
    TxtLineSplits(name, count);
    assert Strip(Pad(name)) == name by {
      StripPadded(name);
    }
    CountCellReads(count);
  }

  /** A row whose second field is `name` and whose third reads as `n`. */
  predicate TxtRowReads(row: string, name: string, n: int) {
    var parts := Split(Strip(row), '|');
    |parts| > 2 && Strip(parts[1]) == name && ParseInt(Strip(parts[2])) == Ok(n)
  }

  /** One step of the row loop over a row that holds a name and a readable count. */
  lemma TxtRowsStep(m: map<string, int>, rows: seq<string>, tagOf: string -> string, name: string, n: int)
    requires |rows| > 0 && TxtRowReads(rows[0], name, n)
    ensures TxtRows(m, rows, tagOf) == TxtRows(m[tagOf(name) := n], rows[1..], tagOf)
  {
  }

  /** One step of the tally. */
  lemma TallyStep(m: map<string, int>, entries: seq<(string, nat)>, tagOf: string -> string)
    requires |entries| > 0
    ensures Tally(m, entries, tagOf) == Tally(m[tagOf(entries[0].0) := entries[0].1], entries[1..], tagOf)
  {
  }

  /** Rows that each read as an entry give the tally of the entries. */
  lemma {:induction false} TxtRowsOfReadable(m: map<string, int>, rows: seq<string>, entries: seq<(string, nat)>, tagOf: string -> string)
    requires |rows| == |entries|
    requires forall i :: 0 <= i < |rows| ==> TxtRowReads(rows[i], entries[i].0, entries[i].1)
    ensures TxtRows(m, rows, tagOf) == Ok(Tally(m, entries, tagOf))
    decreases |rows|
  {
    if |rows| > 0 {
      var m1 := m[tagOf(entries[0].0) := entries[0].1];
      var rest := rows[1..];
      var later := entries[1..];
      assert TxtRows(m, rows, tagOf) == TxtRows(m1, rest, tagOf) by {
        assert TxtRowReads(rows[0], entries[0].0, entries[0].1);
        TxtRowsStep(m, rows, tagOf, entries[0].0, entries[0].1);
      }
      assert Tally(m, entries, tagOf) == Tally(m1, later, tagOf) by {
        TallyStep(m, entries, tagOf);
      }
      assert TxtRows(m1, rest, tagOf) == Ok(Tally(m1, later, tagOf)) by {
        forall i | 0 <= i < |rest| ensures TxtRowReads(rest[i], later[i].0, later[i].1) {
          assert rest[i] == rows[i + 1] && later[i] == entries[i + 1];
        }
        TxtRowsOfReadable(m1, rest, later, tagOf);
      }
    }
  }

  /** Rendered rows read back as the tally of their entries. */
  lemma TxtRowsOfRendered(m: map<string, int>, entries: seq<(string, nat)>, tagOf: string -> string)
    requires forall i :: 0 <= i < |entries| ==> IsCellText(entries[i].0)
    ensures TxtRows(m, TxtLines(entries), tagOf) == Ok(Tally(m, entries, tagOf))
  {
    var rows := TxtLines(entries);
    forall i | 0 <= i < |rows| ensures TxtRowReads(rows[i], entries[i].0, entries[i].1) {
      TxtLineReads(entries[i].0, entries[i].1);
    }
    TxtRowsOfReadable(m, rows, entries, tagOf);
  }

  /** A rendered `.txt` list passes the validator. */
  lemma RenderedTxtVerifies(entries: seq<(string, nat)>)
    ensures VerifyTxt(RenderTxt(entries)) == Ok(())
  {
    var lines := RenderTxt(entries);
    var n := |lines|;
    TxtFrameShapes();
    assert lines[0] == TxtRule && lines[1] == TxtTitle;
    assert lines[n - 2] == TxtColumns && lines[n - 1] == TxtRule;
    assert LooksLikeTxtList(lines);
  }

  /** The body of a rendered `.txt` list is its rows. */
  lemma RenderedTxtBody(entries: seq<(string, nat)>)
    ensures TxtBody(RenderTxt(entries)) == TxtLines(entries)
  {
    var lines := RenderTxt(entries);
    var body := TxtBody(lines);
    var rows := TxtLines(entries);
    assert |body| == |rows|;
    forall i | 0 <= i < |rows| ensures body[i] == rows[i] {
      assert body[i] == lines[i + 5];
    }
  }

  /**
   * Round trip: a list rendered in Litematica's `.txt` layout passes the
   * validator and reads back as the tags of its entries with their counts.
   */
  lemma TxtRoundTrip(entries: seq<(string, nat)>, itemTags: map<string, string>)
    requires forall i :: 0 <= i < |entries| ==> IsCellText(entries[i].0)
    ensures ProcessTxt(RenderTxt(entries), itemTags) == Ok(Tally(map[], entries, TagFunction(Current(itemTags))))
  {
    RenderedTxtVerifies(entries);
    RenderedTxtBody(entries);
    TxtRowsOfRendered(map[], entries, TagFunction(Current(itemTags)));
  }
}

=== FILE: mc_data.dfy ===
/**
 * The two parsers of the downloaded game data (data/parse_mc_data.py): the
 * stack sizes of the items that do not stack to 64, read from the text of
 * the decompiled `Items.java`, and the item names, read from the names of
 * the item model files. The directory listing and the file's text are
 * parameters.
 */
module McData {
  import opened Results
  import opened Strings
  import opened Ordering
  import OD = OrderedDict

  // ---------------------------------------------------------------------
  // Limited stack sizes
  // ---------------------------------------------------------------------

  /** The prefix of every item field declaration in `Items.java`. */
  const ItemMarker: string := "public static final Item "

  /**
   * The file's lines joined without their line breaks, then cut at every
   * item declaration: the text after each marker, up to the next one.
   */
  function Declarations(text: string): seq<string> {
    Split(Replace(RemoveChar(text, '\n'), ItemMarker, "\n"), '\n')
  }

  /** The pattern `\.stacksTo\((16|1)\)|ToolMaterial|ArmorMaterial|durability`, searched anywhere. */
  predicate Limited(d: string) {
    Contains(d, ".stacksTo(16)") || Contains(d, ".stacksTo(1)") || Contains(d, "ToolMaterial")
    || Contains(d, "ArmorMaterial") || Contains(d, "durability")
  }

  /** `line.split(" ")[0].lower()`: the field name, lower-cased. */
  function FieldName(d: string): string {
    Lower(Split(d, ' ')[0])
  }

  /** `16 if "16" in line else 1`. */
  function StackSize(d: string): nat {
    if Contains(d, "16") then 16 else 1
  }

  type Sizes = OD.Dict<nat>

  /** A size the table may hold for a name: none, or one of the two limited sizes. */
  predicate SizeOrNone(o: Option<nat>) {
    o == None || o == Some(1) || o == Some(16)
  }

  /**
   * The loop over the kept declarations in file order: each one assigns
   * its field's size, so a later declaration of a name overwrites an
   * earlier one.
   */
  function Collect(decls: seq<string>): (r: Sizes)
    ensures OD.Valid(r)
    ensures forall k :: SizeOrNone(OD.Get(r, k))
  {
    if |decls| == 0 then []
    else
      var d := decls[|decls| - 1];
      var acc := Collect(decls[..|decls| - 1]);
      if Limited(d) then
        OD.SetValid(acc, FieldName(d), StackSize(d));
        OD.Set(acc, FieldName(d), StackSize(d))
      else acc
  }

  /** Declaration `i` is the last kept declaration of the name `k`. */
  predicate LastDeclares(decls: seq<string>, i: int, k: string) {
    0 <= i < |decls| && Limited(decls[i]) && FieldName(decls[i]) == k
    && forall j :: i < j < |decls| ==> !(Limited(decls[j]) && FieldName(decls[j]) == k)
  }

  /** Some kept declaration names `k`. */
  predicate Declared(decls: seq<string>, k: string) {
    exists i :: 0 <= i < |decls| && Limited(decls[i]) && FieldName(decls[i]) == k
  }

  /** A name's last declaration in the prefix is still its last one when a declaration of another name follows. */
  lemma LastDeclaresInit(decls: seq<string>, i: int, k: string)
    requires |decls| > 0 && LastDeclares(decls, i, k) && i < |decls| - 1
    ensures LastDeclares(decls[..|decls| - 1], i, k)
  {
    var init := decls[..|decls| - 1];
    forall j | i < j < |init| ensures !(Limited(init[j]) && FieldName(init[j]) == k) {
      assert init[j] == decls[j];
    }
  }

  /** A name declared somewhere in the prefix is declared in the whole list. */
  lemma DeclaredSnoc(decls: seq<string>, k: string)
    requires |decls| > 0
    ensures Declared(decls, k) <==>
      Declared(decls[..|decls| - 1], k) || (Limited(decls[|decls| - 1]) && FieldName(decls[|decls| - 1]) == k)
  {
    var init := decls[..|decls| - 1];
    if Declared(decls, k) {
      var i :| 0 <= i < |decls| && Limited(decls[i]) && FieldName(decls[i]) == k;
      if i < |init| {
        assert init[i] == decls[i];
      }
    }
    if Declared(init, k) {
      var i :| 0 <= i < |init| && Limited(init[i]) && FieldName(init[i]) == k;
      assert decls[i] == init[i];
    }
    if Limited(decls[|decls| - 1]) && FieldName(decls[|decls| - 1]) == k {
      assert 0 <= |decls| - 1 < |decls|;
    }
  }

  /**
   * The table names exactly the fields some kept declaration names, and a
   * name's size is the one its last kept declaration gives.
   */
  lemma {:induction false} CollectLast(decls: seq<string>, k: string)
    ensures OD.Has(Collect(decls), k) <==> Declared(decls, k)
    ensures forall i :: LastDeclares(decls, i, k) ==> OD.Get(Collect(decls), k) == Some(StackSize(decls[i]))
    decreases |decls|
  {
    if |decls| > 0 {
      var init := decls[..|decls| - 1];
      var d := decls[|decls| - 1];
      CollectLast(init, k);
      DeclaredSnoc(decls, k);
      forall i | LastDeclares(decls, i, k) ensures OD.Get(Collect(decls), k) == Some(StackSize(decls[i])) {
        if i < |decls| - 1 {
          LastDeclaresInit(decls, i, k);
        }
      }
    }
  }

  /** Python string order on the names of a size table. */
  predicate ByName(a: (string, nat), b: (string, nat)) { StrLe(a.0, b.0) }

  lemma ByNameTotalPreorder()
    ensures TotalPreorder(ByName)
  {
    StrLeTotalPreorder();
  }

  /** `parse_items_stack_sizes`: the collected sizes, sorted by name. */
  function ParseItemsStackSizes(text: string): (r: Sizes)
    ensures SortedBy(r, ByName)
  {
    ByNameTotalPreorder();
    SortBy(Collect(Declarations(text)), ByName)
  }

  /**
   * The sorted table holds each name once, exactly the names of the kept
   * declarations, each with the size of its last kept declaration, and
   * every size is 1 or 16.
   */
  lemma StackSizesTable(text: string, k: string)
    ensures OD.Valid(ParseItemsStackSizes(text))
    ensures OD.Has(ParseItemsStackSizes(text), k) <==> Declared(Declarations(text), k)
    ensures forall i :: LastDeclares(Declarations(text), i, k) ==>
      OD.Get(ParseItemsStackSizes(text), k) == Some(StackSize(Declarations(text)[i]))
    ensures SizeOrNone(OD.Get(ParseItemsStackSizes(text), k))
  {
    var c := Collect(Declarations(text));
    ByNameTotalPreorder();
    OD.PermutedDict(c, SortBy(c, ByName));
    CollectLast(Declarations(text), k);
  }

  // ---------------------------------------------------------------------
  // Item names
  // ---------------------------------------------------------------------

  predicate AllDots(s: string) { forall i :: 0 <= i < |s| ==> s[i] == '.' }

  /**
   * `os.path.splitext(name)[0]` for a name ending in `.json`: the
   * extension starts at the last dot unless only dots precede it, as in
   * `.json` or `..json`, which have no extension.
   */
  function Stem(name: string): string
    requires EndsWith(name, ".json")
  {
    var base := name[..|name| - 5];
    if AllDots(base) then name else base
  }

  /** Splitting the extension off a `.json` name gives back the name it was made from. */
  lemma StemOfJsonName(x: string)
    ensures EndsWith(x + ".json", ".json")
    ensures Stem(x + ".json") == (if AllDots(x) then x + ".json" else x)
  {
    assert (x + ".json")[..|x|] == x;
    assert (x + ".json")[|x|..] == ".json";
  }

  /** The names of the `.json` files, without their extension, in listing order. */
  function JsonStems(files: seq<string>): (r: seq<string>)
    ensures forall x :: x in r <==> exists f :: f in files && EndsWith(f, ".json") && Stem(f) == x
  {
    if |files| == 0 then []
    else
      var f := files[|files| - 1];
      var init := files[..|files| - 1];
      var rest := JsonStems(init);
      assert forall g :: g in files <==> g in init || g == f;
      if EndsWith(f, ".json") then rest + [Stem(f)] else rest
  }

  /**
   * `parse_items_list`: the stems of the `.json` files of the item
   * directory, sorted; a listing that fails gives the empty list.
   */
  function ParseItemsList(listing: Result<seq<string>>): (r: seq<string>)
    ensures SortedBy(r, StrLe)
    ensures listing.Err? ==> r == []
    ensures listing.Ok? ==> multiset(r) == multiset(JsonStems(listing.value))
  {
    StrLeTotalPreorder();
    match listing
    case Err(_) => []
    case Ok(files) => SortBy(JsonStems(files), StrLe)
  }

  /** Every item listed comes from a `.json` file, and every `.json` file gives one. */
  lemma ItemsListMembers(files: seq<string>, x: string)
    ensures x in ParseItemsList(Ok(files)) <==> exists f :: f in files && EndsWith(f, ".json") && Stem(f) == x
  {
    StrLeTotalPreorder();
    SortByMembers(JsonStems(files), StrLe);
  }
}

=== FILE: ordered_dict.dfy ===
/**
 * Python's insertion-ordered `dict` with string keys, as a list of entries.
 * Assigning to an existing key keeps its position; a new key is appended;
 * `pop` removes the entry.
 */
module OrderedDict {
  import opened Results

  type Dict<V> = seq<(string, V)>

  ghost predicate Valid<V>(d: Dict<V>) {
    forall i, j :: 0 <= i < j < |d| ==> d[i].0 != d[j].0
  }

  function Keys<V>(d: Dict<V>): (r: seq<string>)
    ensures |r| == |d|
    ensures forall i :: 0 <= i < |d| ==> r[i] == d[i].0
  {
    if |d| == 0 then [] else [d[0].0] + Keys(d[1..])
  }

  function Get<V>(d: Dict<V>, k: string): (r: Option<V>)
    ensures r.Some? <==> k in Keys(d)
  {
    if |d| == 0 then None
    else if d[0].0 == k then Some(d[0].1)
    else Get(d[1..], k)
  }

  predicate Has<V>(d: Dict<V>, k: string) { Get(d, k).Some? }

  /** `d.get(k, default)`. */
  function GetOr<V>(d: Dict<V>, k: string, default: V): V {
    Get(d, k).GetOr(default)
  }

  /** Looking up in a list with one more entry at the front. */
  lemma GetCons<V>(e: (string, V), t: Dict<V>)
    ensures forall k :: Get([e] + t, k) == if e.0 == k then Some(e.1) else Get(t, k)
    ensures Keys([e] + t) == [e.0] + Keys(t)
  {
    assert ([e] + t)[1..] == t;
  }

  /** `d[k] = v`. */
  function Set<V>(d: Dict<V>, k: string, v: V): (r: Dict<V>)
    ensures Get(r, k) == Some(v)
    ensures forall k' :: k' != k ==> Get(r, k') == Get(d, k')
  {
    if |d| == 0 then
      GetCons((k, v), []);
      [(k, v)]
    else
      assert d == [d[0]] + d[1..];
      GetCons(d[0], d[1..]);
      if d[0].0 == k then
        GetCons((k, v), d[1..]);
        [(k, v)] + d[1..]
      else
        var tail := Set(d[1..], k, v);
        GetCons(d[0], tail);
        [d[0]] + tail
  }

  /** Assigning adds the new entry and otherwise keeps entries of the old dictionary. */
  lemma {:induction false} SetEntries<V>(d: Dict<V>, k: string, v: V)
    ensures forall e :: e in Set(d, k, v) ==> e in d || e == (k, v)
    decreases |d|
  {
    if |d| > 0 && d[0].0 != k {
      SetEntries(d[1..], k, v);
      assert forall e :: e in d[1..] ==> e in d;
    }
  }

  /** Assigning to a key not yet present appends the entry. */
  lemma {:induction false} SetAppends<V>(d: Dict<V>, k: string, v: V)
    requires forall j :: 0 <= j < |d| ==> d[j].0 != k
    ensures Set(d, k, v) == d + [(k, v)]
    decreases |d|
  {
    if |d| > 0 {
      SetAppends(d[1..], k, v);
      assert d == [d[0]] + d[1..];
    }
  }

  /** Assigning to a key keeps the order of the keys, appending a new one. */
  lemma {:induction false} SetKeys<V>(d: Dict<V>, k: string, v: V)
    ensures Has(d, k) ==> Keys(Set(d, k, v)) == Keys(d)
    ensures !Has(d, k) ==> Keys(Set(d, k, v)) == Keys(d) + [k]
    decreases |d|
  {
    if |d| > 0 {
      assert d == [d[0]] + d[1..];
      GetCons(d[0], d[1..]);
      if d[0].0 == k {
        GetCons((k, v), d[1..]);
      } else {
        SetKeys(d[1..], k, v);
        GetCons(d[0], Set(d[1..], k, v));
        if !Has(d, k) {
          assert [d[0].0] + (Keys(d[1..]) + [k]) == ([d[0].0] + Keys(d[1..])) + [k];
        }
      }
    }
  }

  /** A key missing from the lookup is at no position. */
  lemma NotAKey<V>(d: Dict<V>, k: string)
    requires Get(d, k) == None
    ensures forall j :: 0 <= j < |d| ==> d[j].0 != k
  {
    forall j | 0 <= j < |d| ensures d[j].0 != k {
      assert Keys(d)[j] == d[j].0;
    }
  }

  /** In a valid dictionary the first key does not occur again. */
  lemma HeadNotInTail<V>(d: Dict<V>)
    requires Valid(d) && |d| > 0
    ensures Get(d[1..], d[0].0) == None
  {
    var t := d[1..];
    forall j | 0 <= j < |t| ensures Keys(t)[j] != d[0].0 {
      assert Keys(t)[j] == t[j].0 == d[j + 1].0;
    }
    assert d[0].0 !in Keys(t);
  }

  /** An entry whose key is new may go in front of a valid dictionary. */
  lemma ConsValid<V>(e: (string, V), t: Dict<V>)
    requires Valid(t)
    requires forall j :: 0 <= j < |t| ==> t[j].0 != e.0
    ensures Valid([e] + t)
  {
    var r := [e] + t;
    forall i, j | 0 <= i < j < |r| ensures r[i].0 != r[j].0 {
      if i > 0 {
        assert r[i] == t[i - 1] && r[j] == t[j - 1];
      }
    }
  }

  lemma {:induction false} SetValid<V>(d: Dict<V>, k: string, v: V)
    requires Valid(d)
    ensures Valid(Set(d, k, v))
    decreases |d|
  {
    if |d| > 0 && d[0].0 != k {
      var tail := Set(d[1..], k, v);
      SetValid(d[1..], k, v);
      HeadNotInTail(d);
      NotAKey(tail, d[0].0);
      ConsValid(d[0], tail);
      assert Set(d, k, v) == [d[0]] + tail;
    }
  }

  lemma SetKeepsValid<V>(d: Dict<V>, k: string, v: V)
    ensures Valid(d) ==> Valid(Set(d, k, v))
  {
    if Valid(d) {
      SetValid(d, k, v);
    }
  }

  lemma TailValid<V>(d: Dict<V>)
    requires Valid(d) && |d| > 0
    ensures Valid(d[1..])
  {
    forall i, j | 0 <= i < j < |d| - 1 ensures d[1..][i].0 != d[1..][j].0 {
      assert d[1..][i] == d[i + 1] && d[1..][j] == d[j + 1];
    }
  }

  /** Without its last entry a dictionary keeps each key once, and the last key is not among the rest. */
  lemma InitValid<V>(d: Dict<V>)
    requires Valid(d) && |d| > 0
    ensures Valid(d[..|d| - 1])
    ensures forall j :: 0 <= j < |d| - 1 ==> d[j].0 != d[|d| - 1].0
  {
    var init := d[..|d| - 1];
    forall i, j | 0 <= i < j < |init| ensures init[i].0 != init[j].0 {
      assert init[i] == d[i] && init[j] == d[j];
    }
  }

  /** `d.pop(k, None)`: drop the entry for `k` if there is one. */
  function Pop<V>(d: Dict<V>, k: string): (r: Dict<V>)
    requires Valid(d)
    ensures Get(r, k) == None
    ensures forall k' :: k' != k ==> Get(r, k') == Get(d, k')
    ensures Valid(r)
    ensures forall e :: e in r ==> e in d
  {
    if |d| == 0 then []
    else
      assert d == [d[0]] + d[1..];
      GetCons(d[0], d[1..]);
      TailValid(d);
      HeadNotInTail(d);
      if d[0].0 == k then d[1..]
      else
        var t := Pop(d[1..], k);
        NotAKey(t, d[0].0);
        ConsValid(d[0], t);
        GetCons(d[0], t);
        [d[0]] + t
  }

  /** Popping a key the dictionary does not hold leaves it as it is. */
  lemma {:induction false} PopAbsent<V>(d: Dict<V>, k: string)
    requires Valid(d) && Get(d, k) == None
    ensures Pop(d, k) == d
  {
    if |d| > 0 {
      assert d[0].0 != k by { assert Keys(d)[0] == d[0].0; }
      TailValid(d);
      assert Get(d[1..], k) == None;
      PopAbsent(d[1..], k);
    }
  }

  function ToMap<V>(d: Dict<V>): (m: map<string, V>)
    ensures forall k :: k in m <==> Has(d, k)
    ensures forall k :: k in m ==> Get(d, k) == Some(m[k])
  {
    if |d| == 0 then map[]
    else ToMap(d[1..])[d[0].0 := d[0].1]
  }

  /** A key is listed exactly when some entry has it. */
  lemma KeysMembership<V>(d: Dict<V>, k: string)
    ensures k in Keys(d) <==> exists i :: 0 <= i < |d| && d[i].0 == k
  {
  }

  /** The entries whose key is not `k`, in order: `d.pop(k)` on a dictionary whose keys are distinct. */
  function Without<V(!new)>(d: Dict<V>, k: string): (r: Dict<V>)
    ensures |r| <= |d|
    ensures forall e :: e in r <==> e in d && e.0 != k
    ensures Get(r, k) == None
  {
    if |d| == 0 then []
    else
      var t := Without(d[1..], k);
      assert forall e :: e in d <==> e == d[0] || e in d[1..];
      if d[0].0 == k then t
      else
        GetCons(d[0], t);
        [d[0]] + t
  }

  lemma {:induction false} WithoutValid<V(!new)>(d: Dict<V>, k: string)
    requires Valid(d)
    ensures Valid(Without(d, k))
    decreases |d|
  {
    if |d| > 0 {
      TailValid(d);
      WithoutValid(d[1..], k);
      if d[0].0 != k {
        var t := Without(d[1..], k);
        HeadNotInTail(d);
        NotAKey(d[1..], d[0].0);
        forall j | 0 <= j < |t| ensures t[j].0 != d[0].0 {
          assert t[j] in d[1..];
        }
        ConsValid(d[0], t);
      }
    }
  }

  /** In a dictionary whose keys are distinct, the lookup finds exactly the listed entries. */
  lemma {:induction false} GetIn<V>(d: Dict<V>, k: string, v: V)
    requires Valid(d)
    ensures Get(d, k) == Some(v) <==> (k, v) in d
    decreases |d|
  {
    if |d| > 0 {
      assert d == [d[0]] + d[1..];
      GetCons(d[0], d[1..]);
      TailValid(d);
      GetIn(d[1..], k, v);
      if d[0].0 == k {
        HeadNotInTail(d);
        NotAKey(d[1..], k);
      }
    }
  }

  /** An entry occurs at most once in a dictionary whose keys are distinct. */
  lemma {:induction false} CountAtMostOne<V>(d: Dict<V>, e: (string, V))
    requires Valid(d)
    ensures multiset(d)[e] <= 1
    decreases |d|
  {
    if |d| > 0 {
      assert d == [d[0]] + d[1..];
      TailValid(d);
      CountAtMostOne(d[1..], e);
      if d[0] == e {
        HeadNotInTail(d);
        NotAKey(d[1..], e.0);
        assert e !in d[1..];
      }
    }
  }

  /** An entry counted once in a list is not repeated at a later place. */
  lemma DistinctPlaces<V>(r: seq<(string, V)>, i: nat, j: nat)
    requires i < j < |r| && multiset(r)[r[i]] <= 1
    ensures r[i] != r[j]
  {
    assert r == r[..j] + r[j..];
    assert r[i] in r[..j] && r[j] in r[j..];
  }

  /** Different entries of a dictionary whose keys are distinct have different keys. */
  lemma DifferentEntries<V>(d: Dict<V>, x: (string, V), y: (string, V))
    requires Valid(d) && x in d && y in d && x != y
    ensures x.0 != y.0
  {
    var p :| 0 <= p < |d| && d[p] == x;
    var p' :| 0 <= p' < |d| && d[p'] == y;
    assert p != p';
  }

  /**
   * Reordering the entries of a dictionary whose keys are distinct gives a
   * dictionary with the same lookups.
   */
  lemma PermutedDict<V>(d: Dict<V>, r: Dict<V>)
    requires Valid(d) && multiset(r) == multiset(d)
    ensures Valid(r)
    ensures forall k :: Get(r, k) == Get(d, k)
  {
    forall i, j | 0 <= i < j < |r| ensures r[i].0 != r[j].0 {
      CountAtMostOne(d, r[i]);
      DistinctPlaces(r, i, j);
      assert r[i] in multiset(d) && r[j] in multiset(d);
      DifferentEntries(d, r[i], r[j]);
    }
    forall k ensures Get(r, k) == Get(d, k) {
      if Get(r, k).Some? {
        GetIn(r, k, Get(r, k).value);
        assert (k, Get(r, k).value) in multiset(d);
        GetIn(d, k, Get(r, k).value);
      }
      if Get(d, k).Some? {
        GetIn(d, k, Get(d, k).value);
        assert (k, Get(d, k).value) in multiset(r);
        GetIn(r, k, Get(d, k).value);
      }
    }
  }
}

=== FILE: ordering.dfy ===
/**
 * Orders used by the modelled code: Python's comparison of tuples of
 * integers and of strings (lexicographic, a proper prefix sorts first), and
 * one stable insertion sort standing for Python's `sorted` / `list.sort` and
 * Java's stable `Stream.sorted`.
 */
module Ordering {

  /** Python tuple comparison `a < b` on tuples of integers. */
  predicate IntSeqLess(a: seq<int>, b: seq<int>)
    decreases |a|
  {
    if |a| == 0 then |b| > 0
    else if |b| == 0 then false
    else if a[0] != b[0] then a[0] < b[0]
    else IntSeqLess(a[1..], b[1..])
  }

  /** Python string comparison `a < b` (by code point). */
  predicate StrLess(a: string, b: string)
    decreases |a|
  {
    if |a| == 0 then |b| > 0
    else if |b| == 0 then false
    else if a[0] != b[0] then a[0] < b[0]
    else StrLess(a[1..], b[1..])
  }

  lemma {:induction false} IntSeqLessIrreflexive(a: seq<int>)
    ensures !IntSeqLess(a, a)
    decreases |a|
  {
    if |a| > 0 { IntSeqLessIrreflexive(a[1..]); }
  }

  lemma {:induction false} IntSeqLessTransitive(a: seq<int>, b: seq<int>, c: seq<int>)
    requires IntSeqLess(a, b) && IntSeqLess(b, c)
    ensures IntSeqLess(a, c)
    decreases |a|
  {
    if |a| > 0 && |b| > 0 && |c| > 0 && a[0] == b[0] && b[0] == c[0] {
      IntSeqLessTransitive(a[1..], b[1..], c[1..]);
    }
  }

  /** Two different tuples are always comparable: the order is total. */
  lemma {:induction false} IntSeqLessTotal(a: seq<int>, b: seq<int>)
    ensures a == b || IntSeqLess(a, b) || IntSeqLess(b, a)
    decreases |a|
  {
    if |a| > 0 && |b| > 0 && a[0] == b[0] {
      IntSeqLessTotal(a[1..], b[1..]);
      if a[1..] == b[1..] {
        assert a == [a[0]] + a[1..] && b == [b[0]] + b[1..];
      }
    }
  }

  lemma {:induction false} IntSeqLessAsymmetric(a: seq<int>, b: seq<int>)
    requires IntSeqLess(a, b)
    ensures !IntSeqLess(b, a)
    decreases |a|
  {
    if |a| > 0 && |b| > 0 && a[0] == b[0] {
      IntSeqLessAsymmetric(a[1..], b[1..]);
    }
  }

  lemma {:induction false} StrLessIrreflexive(a: string)
    ensures !StrLess(a, a)
    decreases |a|
  {
    if |a| > 0 { StrLessIrreflexive(a[1..]); }
  }

  lemma {:induction false} StrLessTransitive(a: string, b: string, c: string)
    requires StrLess(a, b) && StrLess(b, c)
    ensures StrLess(a, c)
    decreases |a|
  {
    if |a| > 0 && |b| > 0 && |c| > 0 && a[0] == b[0] && b[0] == c[0] {
      StrLessTransitive(a[1..], b[1..], c[1..]);
    }
  }

  lemma {:induction false} StrLessTotal(a: string, b: string)
    ensures a == b || StrLess(a, b) || StrLess(b, a)
    decreases |a|
  {
    if |a| > 0 && |b| > 0 && a[0] == b[0] {
      StrLessTotal(a[1..], b[1..]);
      if a[1..] == b[1..] {
        assert a == [a[0]] + a[1..] && b == [b[0]] + b[1..];
      }
    }
  }

  lemma {:induction false} StrLessAsymmetric(a: string, b: string)
    requires StrLess(a, b)
    ensures !StrLess(b, a)
    decreases |a|
  {
    if |a| > 0 && |b| > 0 && a[0] == b[0] {
      StrLessAsymmetric(a[1..], b[1..]);
    }
  }

  /** Python string comparison `a <= b`. */
  predicate StrLe(a: string, b: string) { !StrLess(b, a) }

  lemma StrLeTotalPreorder()
    ensures TotalPreorder(StrLe)
  {
    forall a: string, b: string ensures StrLe(a, b) || StrLe(b, a) {
      if StrLess(b, a) { StrLessAsymmetric(b, a); }
    }
    forall a: string, b: string, c: string | StrLe(a, b) && StrLe(b, c) ensures StrLe(a, c) {
      StrLessTotal(a, b);
      StrLessTotal(b, c);
      if StrLess(c, a) {
        if a == b {
        } else {
          StrLessTransitive(c, a, b);
        }
      }
    }
  }

  /** `le` is a total preorder: every pair is comparable and it chains. */
  ghost predicate TotalPreorder<T(!new)>(le: (T, T) -> bool) {
    (forall a, b :: le(a, b) || le(b, a))
    && (forall a, b, c :: le(a, b) && le(b, c) ==> le(a, c))
  }

  ghost predicate SortedBy<T>(s: seq<T>, le: (T, T) -> bool) {
    forall i, j :: 0 <= i < j < |s| ==> le(s[i], s[j])
  }

  /** An element below every element of a sorted list may go in front of it. */
  lemma SortedCons<T>(x: T, s: seq<T>, le: (T, T) -> bool)
    requires SortedBy(s, le)
    requires forall k :: 0 <= k < |s| ==> le(x, s[k])
    ensures SortedBy([x] + s, le)
  {
    var r := [x] + s;
    forall i, j | 0 <= i < j < |r| ensures le(r[i], r[j]) {
      assert r[j] == s[j - 1];
      if i > 0 { assert r[i] == s[i - 1]; }
    }
  }

  /** A bound on every element of a list carries over to a list with the same elements. */
  lemma BoundByMultiset<T(!new)>(a: T, t: seq<T>, u: seq<T>, le: (T, T) -> bool)
    requires multiset(t) == multiset(u)
    requires forall k :: 0 <= k < |u| ==> le(a, u[k])
    ensures forall k :: 0 <= k < |t| ==> le(a, t[k])
  {
    forall k | 0 <= k < |t| ensures le(a, t[k]) {
      assert t[k] in multiset(u);
      var j :| 0 <= j < |u| && u[j] == t[k];
    }
  }

  /**
   * Insert `x` into a sorted list after every element that may precede it,
   * so that among equivalent elements the later one is placed last.
   */
  function Insert<T(==,!new)>(x: T, s: seq<T>, le: (T, T) -> bool): (r: seq<T>)
    requires TotalPreorder(le) && SortedBy(s, le)
    ensures multiset(r) == multiset(s) + multiset{x}
    ensures SortedBy(r, le)
  {
    if |s| == 0 then [x]
    else
      assert s == [s[0]] + s[1..];
      assert SortedBy(s[1..], le) by {
        forall i, j | 0 <= i < j < |s| - 1 ensures le(s[1..][i], s[1..][j]) {
          assert s[1..][i] == s[i + 1] && s[1..][j] == s[j + 1];
        }
      }
      if le(s[0], x) then
        var tail := Insert(x, s[1..], le);
        assert forall k :: 0 <= k < |s| - 1 ==> le(s[0], s[1..][k]) by {
          forall k | 0 <= k < |s| - 1 ensures le(s[0], s[1..][k]) { assert s[1..][k] == s[k + 1]; }
        }
        BoundByMultiset(s[0], tail, s[1..] + [x], le);
        SortedCons(s[0], tail, le);
        [s[0]] + tail
      else
        assert forall k :: 0 <= k < |s| ==> le(x, s[k]) by {
          forall k | 0 <= k < |s| ensures le(x, s[k]) {
            assert le(x, s[0]);
            if k > 0 { assert le(s[0], s[k]); }
          }
        }
        SortedCons(x, s, le);
        [x] + s
  }

  /** A stable sort of `s` by the total preorder `le`. */
  function SortBy<T(==,!new)>(s: seq<T>, le: (T, T) -> bool): (r: seq<T>)
    requires TotalPreorder(le)
    ensures multiset(r) == multiset(s)
    ensures |r| == |s|
    ensures SortedBy(r, le)
  {
    if |s| == 0 then []
    else
      var r := Insert(s[|s| - 1], SortBy(s[..|s| - 1], le), le);
      assert multiset(s) == multiset(s[..|s| - 1]) + multiset{s[|s| - 1]} by {
        assert s == s[..|s| - 1] + [s[|s| - 1]];
      }
      assert |r| == |s| by {
        assert |multiset(r)| == |multiset(s)|;
      }
      r
  }

  /** Sorting keeps exactly the elements it was given. */
  lemma SortByMembers<T(!new)>(s: seq<T>, le: (T, T) -> bool)
    requires TotalPreorder(le)
    ensures forall x :: x in SortBy(s, le) <==> x in s
  {
    var r := SortBy(s, le);
    forall x ensures x in r <==> x in s {
      assert x in r <==> x in multiset(r);
      assert x in s <==> x in multiset(s);
    }
  }
}

=== FILE: porting.dfy ===
/**
 * Forward porting of saved materials tables (src/porting.py and the older
 * root porting.py): a table written by schema version 3 to 7 is migrated
 * step by step to version 8, then checked for columns that disagree about
 * being empty.
 *
 * A table is the JSON object read from disk. Python mutates it in place;
 * here every step returns the new table. Each step comes in the
 * generation of src/porting.py as written, as intended, and that of the
 * root porting.py; the `TableCols` records of version 8 are JSON objects
 * keyed by their field names.
 */
module Porting {
  import opened Results
  import opened Strings
  import opened JsonValues
  import EP = ExcludeParser
  import Q = Quantities
  import E = Entities

  type Table = map<string, Json>

  /** The error codes of `forwardportJson`. */
  const NoErr: int := 0
  const IvErr: int := 1
  const CjErr: int := 2

  /** `OUTPUT_JSON_VERSION`, the schema version the program writes. */
  const OutputVersion: int := 8

  // ---------------------------------------------------------------------
  // get_error_message
  // ---------------------------------------------------------------------

  const IvHead: string :=
    "Warning: The materials table you are trying to open is uses an incompatible format.\n\n"
    + "Expected version: '8'.\nFound Version: '"
  const IvTail: string :=
    "'.\n\nPorting is not supported between these versions.\n"
    + "Therefore, the selected materials table cannot be opened."
  const CjMessage: string :=
    "Warning: The materials table you are trying to open is corrupted.\n\n"
    + "Regardless of its version, it contained a mix of complete and incomplete fields which "
    + "conflicted with each other.\n\n"
    + "Therefore, the selected materials table cannot be opened."
  const UnknownMessage: string := "An unknown error occurred."

  /** `get_error_message(ec, version)`: a message per known code, a fallback for any other. */
  function GetErrorMessage(ec: int, version: int): (r: string)
    ensures ec != IvErr && ec != CjErr <==> r == UnknownMessage
    ensures ec == IvErr ==> StartsWith(r, IvHead) && EndsWith(r, IvTail)
    ensures ec == CjErr ==> r == CjMessage
  {
    assert |UnknownMessage| < |IvHead| && |UnknownMessage| < |CjMessage|;
    if ec == IvErr then IvHead + IntToString(version) + IvTail
    else if ec == CjErr then CjMessage
    else UnknownMessage
  }

  /** The incompatible-version message names the version found, which reads back as that number. */
  lemma FoundVersionReadsBack(version: int)
    ensures var r := GetErrorMessage(IvErr, version);
      |IvHead| + |IvTail| <= |r| && ParseInt(r[|IvHead|..|r| - |IvTail|]) == Ok(version)
  {
    var r := GetErrorMessage(IvErr, version);
    assert r[|IvHead|..|r| - |IvTail|] == IntToString(version);
    ParseIntToString(version);
  }

  // ---------------------------------------------------------------------
  // Steps that fill in missing keys
  // ---------------------------------------------------------------------

  /** `table.setdefault(key, value)`. */
  function SetDefault(t: Table, key: string, value: Json): (r: Table)
    ensures r.Keys == t.Keys + {key}
    ensures key in t ==> r == t
    ensures key !in t ==> r[key] == value
    ensures forall k :: k in t ==> r[k] == t[k]
  {
    if key in t then t else t[key := value]
  }

  /** `forwardporttoV4`: an output type of ingots and an ice type of ice, unless already chosen. */
  function ToV4(t: Table): (r: Table)
    ensures r.Keys == t.Keys + {"output_type", "ice_type"}
    ensures forall k :: k in t ==> r[k] == t[k]
    ensures "output_type" !in t ==> r["output_type"] == JStr("ingots")
    ensures "ice_type" !in t ==> r["ice_type"] == JStr("ice")
  {
    SetDefault(SetDefault(t, "output_type", JStr("ingots")), "ice_type", JStr("ice"))
  }

  /** `OUTPUT_JSON_DEFAULT`, in its order. */
  const Defaults: seq<(string, Json)> := [
    ("version", JInt(OutputVersion)),
    ("material_list_paths", JList([])),
    ("output_type", JStr("")),
    ("ice_type", JStr("")),
    ("input_items", JList([])),
    ("input_quantities", JList([])),
    ("exclude_text", JList([])),
    ("raw_materials", JList([])),
    ("raw_quantities", JList([])),
    ("collected", JObj(map[]))]

  /** The keys of a list of defaults. */
  function KeysOf(defaults: seq<(string, Json)>): set<string>
    decreases |defaults|
  {
    if |defaults| == 0 then {} else {defaults[0].0} + KeysOf(defaults[1..])
  }

  /** Every default whose key is missing, added in turn. */
  function FillDefaults(t: Table, defaults: seq<(string, Json)>): (r: Table)
    decreases |defaults|
  {
    if |defaults| == 0 then t else FillDefaults(SetDefault(t, defaults[0].0, defaults[0].1), defaults[1..])
  }

  /**
   * Filling in defaults adds exactly the missing default keys, never
   * changes a value that was there, and gives a missing key the first
   * default listed for it.
   */
  lemma {:induction false} FillDefaultsFrame(t: Table, defaults: seq<(string, Json)>)
    ensures FillDefaults(t, defaults).Keys == t.Keys + KeysOf(defaults)
    ensures forall k :: k in t ==> FillDefaults(t, defaults)[k] == t[k]
    ensures |defaults| > 0 && defaults[0].0 !in t ==> FillDefaults(t, defaults)[defaults[0].0] == defaults[0].1
    decreases |defaults|
  {
    if |defaults| > 0 {
      var t1 := SetDefault(t, defaults[0].0, defaults[0].1);
      FillDefaultsFrame(t1, defaults[1..]);
    }
  }

  /** No key is listed twice. */
  predicate DistinctKeys(defaults: seq<(string, Json)>) {
    forall i, j :: 0 <= i < j < |defaults| ==> defaults[i].0 != defaults[j].0
  }

  /** With distinct keys, a missing key receives the default listed for it. */
  lemma {:induction false} FillDefaultsMissing(t: Table, defaults: seq<(string, Json)>, i: int)
    requires DistinctKeys(defaults) && 0 <= i < |defaults| && defaults[i].0 !in t
    ensures defaults[i].0 in FillDefaults(t, defaults)
    ensures FillDefaults(t, defaults)[defaults[i].0] == defaults[i].1
    decreases |defaults|
  {
    FillDefaultsFrame(t, defaults);
    KeysOfMembers(defaults);
    if i > 0 {
      var t1 := SetDefault(t, defaults[0].0, defaults[0].1);
      assert defaults[i].0 != defaults[0].0;
      assert defaults[i] == defaults[1..][i - 1];
      assert DistinctKeys(defaults[1..]) by {
        forall a, b | 0 <= a < b < |defaults| - 1 ensures defaults[1..][a].0 != defaults[1..][b].0 {
          assert defaults[1..][a] == defaults[a + 1] && defaults[1..][b] == defaults[b + 1];
        }
      }
      FillDefaultsMissing(t1, defaults[1..], i - 1);
    }
  }

  /** The keys of `OUTPUT_JSON_DEFAULT` are distinct, as a dict literal's are. */
  lemma DefaultsDistinct()
    ensures DistinctKeys(Defaults)
  {
    var d := Defaults;
    var lengths := [7, 19, 11, 8, 11, 16, 12, 13, 14, 9];
    assert forall i :: 0 <= i < |d| ==> |d[i].0| == lengths[i];
    assert d[2].0[0] != d[4].0[0];
  }

  /**
   * `forwardporttoV5`: every key of the default table is present
   * afterwards, a key that was missing holds its default, and no value
   * that was present changes.
   */
  function ToV5(t: Table): (r: Table)
    ensures r.Keys == t.Keys + KeysOf(Defaults)
    ensures forall k :: k in t ==> r[k] == t[k]
    ensures forall i :: 0 <= i < |Defaults| ==> Defaults[i].0 in r
    ensures forall i :: 0 <= i < |Defaults| && Defaults[i].0 !in t ==> r[Defaults[i].0] == Defaults[i].1
  {
    FillDefaultsFrame(t, Defaults);
    KeysOfMembers(Defaults);
    DefaultsDistinct();
    forall i | 0 <= i < |Defaults| && Defaults[i].0 !in t
      ensures FillDefaults(t, Defaults)[Defaults[i].0] == Defaults[i].1
    {
      FillDefaultsMissing(t, Defaults, i);
    }
    FillDefaults(t, Defaults)
  }

  // ---------------------------------------------------------------------
  // forwardporttoV6: one path becomes a list of paths
  // ---------------------------------------------------------------------

  const OldPathKey: string := "litematica_mats_list_path"
  const PathsKey: string := "material_list_paths"

  /**
   * `forwardporttoV6` of src/porting.py as written: the old key is popped
   * with a default of `[]`, and the result is wrapped in a list, so a table
   * without a path gets the list `[[]]`.
   */
  function ToV6AsWritten(t: Table): (r: Table)
    ensures OldPathKey !in r && PathsKey in r
    ensures OldPathKey in t ==> r[PathsKey] == JList([t[OldPathKey]])
    ensures OldPathKey !in t ==> r[PathsKey] == JList([JList([])])
    ensures forall k :: k in t && k != OldPathKey && k != PathsKey ==> k in r && r[k] == t[k]
  {
    var path := if OldPathKey in t then t[OldPathKey] else JList([]);
    (t - {OldPathKey})[PathsKey := JList([path])]
  }

  /**
   * `forwardporttoV6` as intended, and as the root porting.py writes it:
   * the old path becomes the only entry of the list, and a table without
   * one gets no paths.
   */
  function ToV6(t: Table): (r: Table)
    ensures OldPathKey !in r && PathsKey in r
    ensures OldPathKey in t ==> r[PathsKey] == JList([t[OldPathKey]])
    ensures OldPathKey !in t ==> r[PathsKey] == JList([])
    ensures forall k :: k in t && k != OldPathKey && k != PathsKey ==> k in r && r[k] == t[k]
  {
    var paths := if OldPathKey in t then JList([t[OldPathKey]]) else JList([]);
    (t - {OldPathKey})[PathsKey := paths]
  }

  /**
   * A table without a path: as written it ends up with one "path" that is
   * an empty list, so its path list is no longer empty; as intended it has
   * no paths.
   */
  lemma MissingPathBecomesEmptyPath(t: Table)
    requires OldPathKey !in t
    ensures var r := ToV6AsWritten(t)[PathsKey];
      r.JList? && |r.items| == 1 && r.items[0] == JList([]) && Truthy(r)
    ensures !Truthy(ToV6(t)[PathsKey])
    ensures ToV6AsWritten(t)[PathsKey] != ToV6(t)[PathsKey]
  {
  }

  // ---------------------------------------------------------------------
  // forwardporttoV7: exclude counts get a text column
  // ---------------------------------------------------------------------

  const OldExcludeKey: string := "exclude_input"
  const ValuesKey: string := "exclude_values"
  const TextKey: string := "exclude_text"
  const ItemsKey: string := "input_items"

  /** The exclude counts as popped from the old key, `[]` when absent. */
  function ExcludeValues(t: Table): Json {
    if OldExcludeKey in t then t[OldExcludeKey] else JList([])
  }

  /**
   * The count `get_shulkers_stacks_and_items` formats for one item. A
   * shulker box is printed as `str(int(count))` before any arithmetic, so
   * it takes whatever `int()` takes, text included; any other item needs
   * a count Python can floor-divide: an integer, or a boolean as 0 or 1.
   * An item name that is not text is a TypeError.
   */
  function CellCount(count: Json, item: Json): Result<int> {
    if !item.JStr? then Err(TypeError)
    else if Contains(item.s, "shulker_box") then E.IntOf(count)
    else E.CountValue(count)
  }

  /**
   * `get_shulkers_stacks_and_items(count, item, shorthand=True)` for one
   * cell of the exclude column. A shulker box's cell is `str(int(count))`
   * or `int()`'s error; any other item's cell succeeds exactly for an
   * integer or boolean count; the only errors are a TypeError, or a
   * ValueError from text that `int()` rejects.
   */
  function ExcludeCell(count: Json, item: Json, limits: map<string, EP.StackSize>): (r: Result<string>)
    ensures item.JStr? && Contains(item.s, "shulker_box") ==>
      (r.Ok? <==> E.IntOf(count).Ok?)
      && (r.Ok? ==> r.value == IntToString(E.IntOf(count).value))
      && (r.Err? ==> r.error == E.IntOf(count).error)
    ensures item.JStr? && !Contains(item.s, "shulker_box") ==>
      (r.Ok? <==> count.JInt? || count.JBool?)
      && (r.Ok? ==> r.value == Q.FormatQuantity(E.CountValue(count).value, item.s, true, limits))
    ensures r.Err? ==> r.error == TypeError || (r.error == ValueError && count.JStr?)
  {
    match CellCount(count, item)
    case Err(e) => Err(e)
    case Ok(n) => Ok(Q.FormatQuantity(n, item.s, true, limits))
  }

  /** A shulker box's text count is read as `int()` reads it and printed back in decimal. */
  lemma ShulkerTextCell(c: string, name: string, limits: map<string, EP.StackSize>)
    requires Contains(name, "shulker_box")
    ensures ExcludeCell(JStr(c), JStr(name), limits)
      == if ParseInt(c).Ok? then Ok(IntToString(ParseInt(c).value)) else Err(ValueError)
  {
    assert E.IntOf(JStr(c)) == ParseInt(c);
  }

  /** A shulker box's count may be text: `"12"` is printed as `12`. */
  lemma ShulkerTextCount(limits: map<string, EP.StackSize>)
    ensures ExcludeCell(JStr("12"), JStr("shulker_box"), limits) == Ok("12")
  {
    ShulkerIsShulker();
    assert ParseInt("12") == Ok(12) by { TwelveText(); ParseNatToString(12); }
    assert IntToString(12) == "12" by { TwelveText(); }
    ShulkerTextCell("12", "shulker_box", limits);
  }

  /** Digit groups are read as `int()` reads them: `"1_2"` is printed as `12`. */
  lemma ShulkerGroupedCount(limits: map<string, EP.StackSize>)
    ensures ExcludeCell(JStr("1_2"), JStr("shulker_box"), limits) == Ok("12")
  {
    ShulkerIsShulker();
    assert ParseInt("1_2") == Ok(12) by { ParseOneTwo(); }
    assert IntToString(12) == "12" by { TwelveText(); }
    ShulkerTextCell("1_2", "shulker_box", limits);
  }

  /** Text that `int()` rejects is a ValueError. */
  lemma ShulkerBadCount(limits: map<string, EP.StackSize>)
    ensures ExcludeCell(JStr("x"), JStr("shulker_box"), limits) == Err(ValueError)
  {
    ShulkerIsShulker();
    ParseUnsigned("x");
    ShulkerTextCell("x", "shulker_box", limits);
  }

  /** Any other item floor-divides its count, so text is a TypeError. */
  lemma PlainTextCount(limits: map<string, EP.StackSize>)
    ensures ExcludeCell(JStr("12"), JStr("stone"), limits) == Err(TypeError)
  {
    ShorterNotContains("stone", "shulker_box");
  }

  lemma TwelveText()
    ensures NatToString(12) == "12"
  {
    assert NatToString(1) == "1";
  }

  lemma ShulkerIsShulker()
    ensures Contains("shulker_box", "shulker_box")
  {
    assert StartsWith("shulker_box", "shulker_box");
  }

  /** Whitespace around a shulker box's text count is stripped, as `int()` strips it. */
  lemma ShulkerCountStripped(x: string, limits: map<string, EP.StackSize>)
    requires |x| > 0 && !IsSpace(x[0]) && !IsSpace(x[|x| - 1])
    ensures ExcludeCell(JStr(" " + x + " "), JStr("shulker_box"), limits) == ExcludeCell(JStr(x), JStr("shulker_box"), limits)
  {
    ShulkerIsShulker();
    StripPadded(x);
    assert Strip(x) == x by { StripNonSpaceEnds(x); }
    ParseSameStrip(" " + x + " ", x);
    ShulkerTextCell(" " + x + " ", "shulker_box", limits);
    ShulkerTextCell(x, "shulker_box", limits);
  }

  /**
   * Python's loop over already-computed cells, in order: the texts of all
   * the cells, or the error of the first cell that fails.
   */
  function Collect(cells: seq<Result<string>>): (r: Result<seq<Json>>)
    ensures r.Ok? <==> forall i :: 0 <= i < |cells| ==> cells[i].Ok?
    ensures r.Ok? ==> |r.value| == |cells|
    ensures r.Ok? ==> forall i :: 0 <= i < |cells| ==> r.value[i] == JStr(cells[i].value)
    ensures r.Err? ==> exists i :: 0 <= i < |cells| && FirstErr(cells, i) && r.error == cells[i].error
  {
    if |cells| == 0 then Ok([])
    else
      match cells[0]
      case Err(e) =>
        assert FirstErr(cells, 0);
        Err(e)
      case Ok(text) =>
        match Collect(cells[1..])
        case Err(e) =>
          var k :| 0 <= k < |cells| - 1 && FirstErr(cells[1..], k) && e == cells[1..][k].error;
          assert FirstErr(cells, k + 1) by {
            forall j | 0 <= j < k + 1 ensures cells[j].Ok? {
              if j > 0 { assert cells[j] == cells[1..][j - 1]; }
            }
          }
          Err(e)
        case Ok(texts) =>
          assert forall i :: 1 <= i < |cells| ==> cells[i] == cells[1..][i - 1];
          Ok([JStr(text)] + texts)
  }

  /** Cell `i` fails and every cell before it succeeds. */
  predicate FirstErr(cells: seq<Result<string>>, i: nat)
    requires i < |cells|
  {
    cells[i].Err? && forall j :: 0 <= j < i ==> cells[j].Ok?
  }

  /** Every cell of the exclude column, formatted on its own. */
  function ExcludeCells(items: seq<Json>, counts: seq<Json>, limits: map<string, EP.StackSize>): (r: seq<Result<string>>)
    requires |items| == |counts|
    ensures |r| == |counts|
    ensures forall i :: 0 <= i < |counts| ==> r[i] == ExcludeCell(counts[i], items[i], limits)
  {
    seq(|counts|, i requires 0 <= i < |counts| => ExcludeCell(counts[i], items[i], limits))
  }

  /** Cell `i` of the exclude column fails and every cell before it succeeds. */
  predicate FirstFailure(items: seq<Json>, counts: seq<Json>, limits: map<string, EP.StackSize>, i: nat)
    requires |items| == |counts| && i < |counts|
  {
    FirstErr(ExcludeCells(items, counts, limits), i)
  }

  /** The formatting loop over the cells of the exclude column. */
  function FormatCells(items: seq<Json>, counts: seq<Json>, limits: map<string, EP.StackSize>): (r: Result<seq<Json>>)
    requires |items| == |counts|
    ensures r.Ok? <==> forall i :: 0 <= i < |counts| ==> ExcludeCell(counts[i], items[i], limits).Ok?
    ensures r.Ok? ==> |r.value| == |counts|
    ensures r.Ok? ==> forall i :: 0 <= i < |counts| ==> r.value[i] == JStr(ExcludeCell(counts[i], items[i], limits).value)
    ensures r.Err? ==> exists i :: (0 <= i < |counts| && FirstFailure(items, counts, limits, i)
      && r.error == ExcludeCell(counts[i], items[i], limits).error)
  {
    Collect(ExcludeCells(items, counts, limits))
  }

  /**
   * `format_quantities(input_items, [values, texts], is_exclude_col=True)`
   * for one exclude column: the input items must be there, both columns
   * must be lists of one length, and then each cell is formatted in turn,
   * the first failing cell raising its error.
   */
  function ExcludeTexts(t: Table, values: Json, limits: map<string, EP.StackSize>): (r: Result<seq<Json>>)
    ensures r.Ok? ==>
      ItemsKey in t && t[ItemsKey].JList? && values.JList?
      && |t[ItemsKey].items| == |values.items| == |r.value|
    ensures r.Ok? ==> forall i :: 0 <= i < |r.value| ==>
      ExcludeCell(values.items[i], t[ItemsKey].items[i], limits).Ok?
      && r.value[i] == JStr(ExcludeCell(values.items[i], t[ItemsKey].items[i], limits).value)
    ensures ItemsKey !in t ==> r == Err(KeyError)
    ensures (ItemsKey in t && t[ItemsKey].JList? && values.JList? && |t[ItemsKey].items| == |values.items|
             && forall i :: 0 <= i < |values.items| ==> ExcludeCell(values.items[i], t[ItemsKey].items[i], limits).Ok?)
            ==> r.Ok?
    ensures r.Err? && ItemsKey in t && t[ItemsKey].JList? && values.JList? && |t[ItemsKey].items| == |values.items| ==>
      exists i :: 0 <= i < |values.items| && FirstFailure(t[ItemsKey].items, values.items, limits, i)
        && r.error == ExcludeCell(values.items[i], t[ItemsKey].items[i], limits).error
    ensures r.Err? ==> r.error == KeyError || r.error == TypeError || r.error == ValueError
  {
    if ItemsKey !in t then Err(KeyError)
    else if !t[ItemsKey].JList? || !values.JList? || |t[ItemsKey].items| != |values.items| then Err(TypeError)
    else FormatCells(t[ItemsKey].items, values.items, limits)
  }

  /** A boolean count is formatted as Python's integer 0 or 1: `True` shows as `1`. */
  lemma BoolCountFormats()
    ensures ExcludeTexts(map[ItemsKey := JList([JStr("stone")])], JList([JBool(true)]), map[]) == Ok([JStr("1")])
  {
    var t := map[ItemsKey := JList([JStr("stone")])];
    var counts := JList([JBool(true)]);
    assert E.CountValue(counts.items[0]).value == 1;
    assert Q.FormatQuantity(1, "stone", true, map[]) == "1" by {
      Q.DecomposeUnique(1, 64, Q.Breakdown(0, 0, 1));
      assert Q.ShorthandParts(Q.Breakdown(0, 0, 1), 64) == [Q.Term(1, EP.Items)];
      assert NatToString(1) == "1";
    }
    var r := ExcludeTexts(t, counts, map[]);
    assert r.Ok? && |r.value| == 1 && r.value[0] == JStr("1");
    assert r.value == [JStr("1")];
  }

  /**
   * `forwardporttoV7` of src/porting.py as written: `exclude_text` is set
   * to the very list object held by `exclude_values`, so formatting the
   * text column in place also overwrites the counts with their texts.
   */
  function ToV7AsWritten(t: Table, limits: map<string, EP.StackSize>): (r: Result<Table>)
    ensures r.Ok? ==>
      OldExcludeKey !in r.value && ValuesKey in r.value && TextKey in r.value
      && r.value[ValuesKey] == r.value[TextKey]
    ensures r.Ok? ==> forall k :: k in t && k != OldExcludeKey && k != ValuesKey && k != TextKey ==>
      k in r.value && r.value[k] == t[k]
    ensures !Truthy(ExcludeValues(t)) ==> r.Ok? && ValuesKey in r.value && r.value[ValuesKey] == ExcludeValues(t)
    ensures Truthy(ExcludeValues(t)) ==> (r.Ok? <==> ExcludeTexts(t, ExcludeValues(t), limits).Ok?)
    ensures Truthy(ExcludeValues(t)) && r.Err? ==> r == Err(ExcludeTexts(t, ExcludeValues(t), limits).error)
    ensures Truthy(ExcludeValues(t)) && r.Ok? ==>
      r.value[TextKey] == JList(ExcludeTexts(t, ExcludeValues(t), limits).value)
  {
    var values := ExcludeValues(t);
    var moved := (t - {OldExcludeKey})[ValuesKey := values][TextKey := values];
    if !Truthy(values) then Ok(moved)
    else
      match ExcludeTexts(t, values, limits)
      case Err(e) => Err(e)
      case Ok(texts) => Ok(moved[ValuesKey := JList(texts)][TextKey := JList(texts)])
  }

  /**
   * `forwardporttoV7` as intended: the counts move to `exclude_values`
   * unchanged and `exclude_text` holds their shorthand texts.
   */
  function ToV7(t: Table, limits: map<string, EP.StackSize>): (r: Result<Table>)
    ensures r.Ok? ==>
      OldExcludeKey !in r.value && ValuesKey in r.value && TextKey in r.value
      && r.value[ValuesKey] == ExcludeValues(t)
    ensures r.Ok? ==> forall k :: k in t && k != OldExcludeKey && k != ValuesKey && k != TextKey ==>
      k in r.value && r.value[k] == t[k]
    ensures !Truthy(ExcludeValues(t)) ==> r.Ok? && TextKey in r.value && r.value[TextKey] == ExcludeValues(t)
    ensures Truthy(ExcludeValues(t)) ==> (r.Ok? <==> ExcludeTexts(t, ExcludeValues(t), limits).Ok?)
    ensures r.Err? ==> r.error == KeyError || r.error == TypeError || r.error == ValueError
  {
    var values := ExcludeValues(t);
    var moved := (t - {OldExcludeKey})[ValuesKey := values];
    if !Truthy(values) then Ok(moved[TextKey := values])
    else
      match ExcludeTexts(t, values, limits)
      case Err(e) => Err(e)
      case Ok(texts) => Ok(moved[TextKey := JList(texts)])
  }

  /**
   * With counts to move, the step as written leaves no counts behind:
   * `exclude_values` holds texts where the old table held integers, while
   * the intended step keeps the integers.
   */
  lemma ExcludeCountsOverwritten(t: Table, limits: map<string, EP.StackSize>)
    requires Truthy(ExcludeValues(t)) && ToV7AsWritten(t, limits).Ok?
    requires !ExcludeValues(t).items[0].JStr?
    ensures var values := ToV7AsWritten(t, limits).value[ValuesKey];
      values.JList? && |values.items| > 0 && values.items[0].JStr? && !ExcludeValues(t).items[0].JStr?
    ensures ToV7AsWritten(t, limits).value[ValuesKey] != ExcludeValues(t)
    ensures ToV7(t, limits).Ok? && ToV7(t, limits).value[ValuesKey] == ExcludeValues(t)
  {
    var values := ExcludeValues(t);
    var texts := ExcludeTexts(t, values, limits).value;
    assert ToV7AsWritten(t, limits).value[ValuesKey] == JList(texts);
    assert ExcludeCell(values.items[0], t[ItemsKey].items[0], limits).Ok?;
  }

  /** After the intended step, each exclude text reads back, through the exclude parser, as its count. */
  lemma ExcludeTextsReadBack(t: Table, limits: map<string, EP.StackSize>)
    requires Truthy(ExcludeValues(t)) && ToV7(t, limits).Ok?
    requires forall i :: 0 <= i < |ExcludeValues(t).items| ==> CellCount(ExcludeValues(t).items[i], t[ItemsKey].items[i]).value >= 0
    ensures var r := ToV7(t, limits).value;
      var values := r[ValuesKey].items;
      var items := r[ItemsKey].items;
      r[TextKey].JList? && |r[TextKey].items| == |values| == |items|
      && forall i :: 0 <= i < |values| ==>
           r[TextKey].items[i].JStr?
           && EP.ProcessExcludeFor(r[TextKey].items[i].s, items[i].s, limits) == CellCount(values[i], items[i]).value
  {
    var values := ExcludeValues(t);
    var texts := ExcludeTexts(t, values, limits).value;
    var r := ToV7(t, limits).value;
    assert r[TextKey] == JList(texts);
    assert r[ItemsKey] == t[ItemsKey];
    forall i | 0 <= i < |values.items|
      ensures EP.ProcessExcludeFor(texts[i].s, t[ItemsKey].items[i].s, limits) == CellCount(values.items[i], t[ItemsKey].items[i]).value
    {
      Q.ExcludeCellRoundTrip(CellCount(values.items[i], t[ItemsKey].items[i]).value, t[ItemsKey].items[i].s, limits);
    }
  }

  /**
   * `forwardporttoV7` of the root porting.py: the counts move to
   * `exclude_values` and `exclude_text` is the root formatter's list of
   * long forms, with no item names and so the default stack size.
   */
  function LegacyToV7(t: Table, limits: map<string, EP.StackSize>): (r: Result<Table>)
    ensures r.Ok? <==> ExcludeValues(t).JList? && forall i :: 0 <= i < |ExcludeValues(t).items| ==> ExcludeValues(t).items[i].JInt?
    ensures r.Err? ==> r.error == TypeError
    ensures r.Ok? ==>
      ValuesKey in r.value && TextKey in r.value && OldExcludeKey !in r.value
      && r.value[ValuesKey] == ExcludeValues(t)
    ensures r.Ok? ==> forall k :: k in t && k != OldExcludeKey && k != ValuesKey && k != TextKey ==>
      k in r.value && r.value[k] == t[k]
    ensures r.Ok? ==> var texts := r.value[TextKey];
      texts.JList? && |texts.items| == |ExcludeValues(t).items|
      && forall i :: 0 <= i < |texts.items| ==>
           texts.items[i] == JStr(Q.LegacyFormatQuantity(ExcludeValues(t).items[i].i, "", false, limits))
  {
    var values := ExcludeValues(t);
    if !values.JList? || exists i :: 0 <= i < |values.items| && !values.items[i].JInt? then Err(TypeError)
    else
      var counts := values.items;
      var texts := seq(|counts|, i requires 0 <= i < |counts| => JStr(Q.LegacyFormatQuantity(counts[i].i, "", false, limits)));
      Ok((t - {OldExcludeKey})[ValuesKey := values][TextKey := JList(texts)])
  }

  // ---------------------------------------------------------------------
  // forwardporttoV8: the columns move into the `tv` and `tt` records
  // ---------------------------------------------------------------------

  /** The columns the step to version 8 moves, each with the `TableCols` field it goes to. */
  const MovedColumns: seq<(string, string)> := [
    ("input_items", "input_items"),
    ("input_quantities", "input_quantities"),
    (ValuesKey, "exclude"),
    ("raw_materials", "raw_materials"),
    ("raw_quantities", "raw_quantities"),
    ("collected", "collected_data")]

  /** `table.pop(key, [])`: the value popped. */
  function PopOrEmpty(t: Table, key: string): Json {
    if key in t then t[key] else JList([])
  }

  /**
   * `forwardporttoV8` of src/porting.py as written. `TableCols` is a
   * dataclass without a `deepcopy` method, so `tv.deepcopy()` raises
   * AttributeError whatever the table holds.
   */
  function ToV8AsWritten(t: Table): (r: Result<Table>)
    ensures r.Err? && r.error == AttributeError
  {
    Err(AttributeError)
  }

  /** The `tv` record: each moved column under its field name, `[]` for a missing one. */
  function TableValues(t: Table): map<string, Json> {
    map["input_items" := PopOrEmpty(t, "input_items"),
        "input_quantities" := PopOrEmpty(t, "input_quantities"),
        "exclude" := PopOrEmpty(t, ValuesKey),
        "raw_materials" := PopOrEmpty(t, "raw_materials"),
        "raw_quantities" := PopOrEmpty(t, "raw_quantities"),
        "collected_data" := PopOrEmpty(t, "collected")]
  }

  /** The keys of the moved columns. */
  const MovedKeys: set<string> :=
    {"input_items", "input_quantities", ValuesKey, "raw_materials", "raw_quantities", "collected"}

  /**
   * `forwardporttoV8` as intended, with `copy.deepcopy(tv)` as the frontend
   * copies its records: the moved columns are popped into the `tv` record,
   * `tt` is a copy of it whose `exclude` field is the popped `exclude_text`
   * (a KeyError when that column is missing, as `pop` has no default
   * there), and the two records are stored under `tv` and `tt`.
   */
  function ToV8(t: Table): (r: Result<Table>)
    ensures r.Ok? <==> TextKey in t
    ensures r.Err? ==> r.error == KeyError
    ensures r.Ok? ==> "tv" in r.value && "tt" in r.value && r.value["tv"].JObj? && r.value["tt"].JObj?
    ensures r.Ok? ==> forall i :: 0 <= i < |MovedColumns| ==>
      MovedColumns[i].0 !in r.value && MovedColumns[i].1 in r.value["tv"].fields
      && r.value["tv"].fields[MovedColumns[i].1] == PopOrEmpty(t, MovedColumns[i].0)
    ensures r.Ok? ==> TextKey !in r.value && r.value["tt"].fields == r.value["tv"].fields["exclude" := t[TextKey]]
    ensures r.Ok? ==> forall k :: k in t && k !in MovedKeys && k != TextKey && k != "tv" && k != "tt" ==>
      k in r.value && r.value[k] == t[k]
  {
    if TextKey !in t then Err(KeyError)
    else
      var tv := TableValues(t);
      Ok((t - MovedKeys - {TextKey})["tv" := JObj(tv)]["tt" := JObj(tv["exclude" := t[TextKey]])])
  }

  /** A field of a record, `null` when absent. */
  function FieldOf(fields: map<string, Json>, name: string): Json {
    if name in fields then fields[name] else JNull
  }

  /** The record stored under a key, empty when there is none. */
  function RecordOf(t: Table, key: string): map<string, Json> {
    if key in t && t[key].JObj? then t[key].fields else map[]
  }

  /** Unpacking the two records back into the version 7 columns. */
  function FromV8(t: Table): Table {
    var tv := RecordOf(t, "tv");
    (t - {"tv", "tt"})
      ["input_items" := FieldOf(tv, "input_items")]
      ["input_quantities" := FieldOf(tv, "input_quantities")]
      [ValuesKey := FieldOf(tv, "exclude")]
      ["raw_materials" := FieldOf(tv, "raw_materials")]
      ["raw_quantities" := FieldOf(tv, "raw_quantities")]
      ["collected" := FieldOf(tv, "collected_data")]
      [TextKey := FieldOf(RecordOf(t, "tt"), "exclude")]
  }

  /**
   * The intended step loses nothing: a table holding every moved column and
   * `exclude_text`, and no `tv` or `tt` of its own, unpacks back to itself.
   */
  lemma ToV8RoundTrip(t: Table)
    requires MovedKeys <= t.Keys && TextKey in t && "tv" !in t && "tt" !in t
    ensures ToV8(t).Ok? && FromV8(ToV8(t).value) == t
  {
    var tv := TableValues(t);
    var rest := t - MovedKeys - {TextKey};
    var r := rest["tv" := JObj(tv)]["tt" := JObj(tv["exclude" := t[TextKey]])];
    assert ToV8(t) == Ok(r);
    assert r - {"tv", "tt"} == rest;
    assert RecordOf(r, "tv") == tv;
    assert FieldOf(RecordOf(r, "tt"), "exclude") == t[TextKey];
    RestoreColumns(t, rest);
  }

  /** Putting every moved column and `exclude_text` back into what is left restores the table. */
  lemma RestoreColumns(t: Table, rest: Table)
    requires MovedKeys <= t.Keys && TextKey in t && rest == t - MovedKeys - {TextKey}
    ensures rest["input_items" := t["input_items"]]["input_quantities" := t["input_quantities"]]
      [ValuesKey := t[ValuesKey]]["raw_materials" := t["raw_materials"]]
      ["raw_quantities" := t["raw_quantities"]]["collected" := t["collected"]][TextKey := t[TextKey]] == t
  {
  }

  // ---------------------------------------------------------------------
  // forwardportJson
  // ---------------------------------------------------------------------

  /**
   * The generations of the migration steps: src/porting.py as written, the
   * same steps as intended, and the root porting.py, whose step to
   * version 6 is the intended one and whose step to version 8 does nothing.
   */
  datatype Generation = Current | Intended | Legacy

  /** The migration to one target version. */
  function Step(t: Table, target: int, g: Generation, limits: map<string, EP.StackSize>): (r: Result<Table>)
    ensures target < 4 || target > OutputVersion ==> r == Ok(t)
    ensures r.Err? ==> target == 7 || target == 8
    ensures g.Current? && target == 8 ==> r == Err(AttributeError)
  {
    if target == 4 then Ok(ToV4(t))
    else if target == 5 then Ok(ToV5(t))
    else if target == 6 then Ok(if g.Current? then ToV6AsWritten(t) else ToV6(t))
    else if target == 7 then
      match g
      case Current => ToV7AsWritten(t, limits)
      case Intended => ToV7(t, limits)
      case Legacy => LegacyToV7(t, limits)
    else if target == 8 then
      match g
      case Current => ToV8AsWritten(t)
      case Intended => ToV8(t)
      case Legacy => Ok(t)
    else Ok(t)
  }

  /** The migrations to `lo + 1`, ..., `hi`, in that order, stopping at the first exception. */
  function Migrate(t: Table, lo: int, hi: int, g: Generation, limits: map<string, EP.StackSize>): (r: Result<Table>)
    ensures lo >= hi || hi < 4 ==> r == Ok(t)
    ensures r.Err? ==> lo < 8 && 7 <= hi
    ensures g.Current? && lo < 8 <= hi ==> r.Err?
    decreases hi - lo
  {
    if lo >= hi then Ok(t)
    else
      match Step(t, lo + 1, g, limits)
      case Err(e) => Err(e)
      case Ok(t1) => Migrate(t1, lo + 1, hi, g, limits)
  }

  /**
   * Migrating in one go is migrating to an intermediate version and then
   * on from there: each step runs once, in ascending order.
   */
  lemma {:induction false} MigrateSplit(t: Table, from: int, mid: int, to: int, g: Generation,
                                        limits: map<string, EP.StackSize>)
    requires from <= mid <= to
    ensures Migrate(t, from, to, g, limits) ==
      match Migrate(t, from, mid, g, limits)
      case Err(e) => Err(e)
      case Ok(t1) => Migrate(t1, mid, to, g, limits)
    decreases mid - from
  {
    if from < mid {
      match Step(t, from + 1, g, limits)
      case Err(e) =>
      case Ok(t1) => MigrateSplit(t1, from + 1, mid, to, g, limits);
    }
  }

  /** Porting a version 7 table runs only the step to version 8; in the root generation, nothing. */
  lemma FromSevenOnlyLastStep(t: Table, g: Generation, limits: map<string, EP.StackSize>)
    ensures Migrate(t, 7, OutputVersion, g, limits) == Step(t, 8, g, limits)
    ensures g.Legacy? ==> Migrate(t, 7, OutputVersion, g, limits) == Ok(t)
  {
    match Step(t, 8, g, limits)
    case Err(e) =>
    case Ok(t1) => assert Migrate(t1, 8, 8, g, limits) == Ok(t1);
  }

  /** The emptiness checks at the end of `forwardportJson`. */
  predicate Consistent(t: Table)
    requires forall k :: k in ConsistencyKeys ==> k in t
  {
    Truthy(t["input_items"]) == Truthy(t["input_quantities"]) == Truthy(t[TextKey]) == Truthy(t[ValuesKey])
    && Truthy(t["raw_materials"]) == Truthy(t["raw_quantities"])
  }

  const ConsistencyKeys: set<string> :=
    {"input_items", "input_quantities", TextKey, ValuesKey, "raw_materials", "raw_quantities"}

  /** `table[key]`, a KeyError when absent. */
  function Get(t: Table, key: string): (r: Result<Json>)
    ensures r.Ok? <==> key in t
    ensures key in t ==> r.value == t[key]
    ensures key !in t ==> r == Err(KeyError)
  {
    if key in t then Ok(t[key]) else Err(KeyError)
  }

  /**
   * The final check, reading the columns in the order Python's chained
   * comparison does: it stops at the first mismatch, so a missing later
   * column is only a KeyError when the earlier ones agree.
   */
  function Check(t: Table): (r: Result<(int, Table)>)
    ensures r.Ok? ==> r.value.0 == NoErr || r.value.0 == CjErr
    ensures r.Err? ==> r.error == KeyError
    ensures (forall k :: k in ConsistencyKeys ==> k in t) ==>
      r.Ok? && (r.value.0 == NoErr <==> Consistent(t))
    ensures r.Ok? && r.value.0 == NoErr ==>
      (forall k :: k in ConsistencyKeys ==> k in t) && Consistent(t)
      && r.value.1 == t["version" := JInt(OutputVersion)]
    ensures r.Ok? && r.value.0 == CjErr ==> r.value.1 == t
  {
    match Get(t, "input_items")
    case Err(e) => Err(e)
    case Ok(items) =>
      match Get(t, "input_quantities")
      case Err(e) => Err(e)
      case Ok(quantities) =>
        if Truthy(items) != Truthy(quantities) then Ok((CjErr, t))
        else
          match Get(t, TextKey)
          case Err(e) => Err(e)
          case Ok(text) =>
            if Truthy(quantities) != Truthy(text) then Ok((CjErr, t))
            else
              match Get(t, ValuesKey)
              case Err(e) => Err(e)
              case Ok(values) =>
                if Truthy(text) != Truthy(values) then Ok((CjErr, t))
                else
                  match Get(t, "raw_materials")
                  case Err(e) => Err(e)
                  case Ok(raw) =>
                    match Get(t, "raw_quantities")
                    case Err(e) => Err(e)
                    case Ok(rawQuantities) =>
                      if Truthy(raw) != Truthy(rawQuantities) then Ok((CjErr, t))
                      else Ok((NoErr, t["version" := JInt(OutputVersion)]))
  }

  /** The stored version as the number Python compares: a boolean, an integer or a float. */
  function NumberOf(version: Json): Option<real> {
    match version
    case JBool(b) => Some(if b then 1.0 else 0.0)
    case JInt(i) => Some(i as real)
    case JReal(x) => Some(x)
    case _ => None
  }

  /** What the version test decides: the incompatible-version code, or the steps from a version. */
  datatype Route = Incompatible | PortFrom(from: int)

  /**
   * `version <= 2 or ... or version > OUTPUT_JSON_VERSION`, then
   * `range(version + 1, ...)`. A version that is not a number (the frontend
   * passes "unspecified" for a table without one) cannot be compared with
   * an integer, and a float in range cannot be a `range` bound: both raise
   * TypeError.
   */
  function RouteOf(version: Json): (r: Result<Route>)
    ensures r.Err? <==> NumberOf(version).None? || (version.JReal? && 2.0 < version.x <= OutputVersion as real)
    ensures r.Err? ==> r.error == TypeError
    ensures r == Ok(Incompatible) <==>
      NumberOf(version).Some? && (NumberOf(version).value <= 2.0 || NumberOf(version).value > OutputVersion as real)
    ensures r.Ok? && r.value.PortFrom? ==> version == JInt(r.value.from) && 3 <= r.value.from <= OutputVersion
  {
    match NumberOf(version)
    case None => Err(TypeError)
    case Some(x) =>
      if x <= 2.0 || x > OutputVersion as real then Ok(Incompatible)
      else if version.JInt? then Ok(PortFrom(version.i))
      else Err(TypeError)
  }

  /**
   * `forwardportJson(table, version)`: the error code and the table as the
   * call leaves it, or the exception it raises.
   */
  function ForwardportJson(t: Table, version: Json, g: Generation, limits: map<string, EP.StackSize>)
    : (r: Result<(int, Table)>)
    ensures RouteOf(version).Err? ==> r == Err(TypeError)
    ensures RouteOf(version) == Ok(Incompatible) ==> r == Ok((IvErr, t))
    ensures r.Ok? ==> r.value.0 in {NoErr, IvErr, CjErr}
    ensures r.Ok? && r.value.0 == NoErr ==>
      (forall k :: k in ConsistencyKeys ==> k in r.value.1) && Consistent(r.value.1)
      && "version" in r.value.1 && r.value.1["version"] == JInt(OutputVersion)
  {
    match RouteOf(version)
    case Err(e) => Err(e)
    case Ok(Incompatible) => Ok((IvErr, t))
    case Ok(PortFrom(from)) =>
      match Migrate(t, from, OutputVersion, g, limits)
      case Err(e) => Err(e)
      case Ok(t1) => Check(t1)
  }

  /** The migration from a version below 8 is the one to version 7, then the step to 8. */
  lemma MigrateLastStep(t: Table, from: int, g: Generation, limits: map<string, EP.StackSize>)
    requires from <= 7
    ensures Migrate(t, from, OutputVersion, g, limits) ==
      match Migrate(t, from, 7, g, limits)
      case Err(e) => Err(e)
      case Ok(t7) => Step(t7, 8, g, limits)
  {
    MigrateSplit(t, from, 7, OutputVersion, g, limits);
    match Migrate(t, from, 7, g, limits)
    case Err(e) =>
    case Ok(t7) =>
      match Step(t7, 8, g, limits)
      case Err(e) =>
      case Ok(t8) => assert Migrate(t8, 8, OutputVersion, g, limits) == Ok(t8);
  }

  /** A version from 3 to 8 runs the migrations and then the final check. */
  lemma ForwardportFrom(t: Table, from: int, g: Generation, limits: map<string, EP.StackSize>)
    requires 3 <= from <= OutputVersion
    ensures ForwardportJson(t, JInt(from), g, limits) ==
      match Migrate(t, from, OutputVersion, g, limits)
      case Err(e) => Err(e)
      case Ok(t1) => Check(t1)
  {
    assert RouteOf(JInt(from)) == Ok(PortFrom(from));
  }

  /** The step to version 8 of each generation. */
  lemma StepToEight(t: Table, g: Generation, limits: map<string, EP.StackSize>)
    ensures g.Current? ==> Step(t, 8, g, limits) == Err(AttributeError)
    ensures g.Intended? ==> Step(t, 8, g, limits) == ToV8(t)
    ensures g.Legacy? ==> Step(t, 8, g, limits) == Ok(t)
  {
  }

  /**
   * As written, src/porting.py ports no table: from every version 3 to 7
   * the step to version 8 raises AttributeError, unless an earlier step
   * has raised already.
   */
  lemma CurrentPortingRaises(t: Table, from: int, limits: map<string, EP.StackSize>)
    requires 3 <= from <= 7
    ensures ForwardportJson(t, JInt(from), Current, limits).Err?
    ensures Migrate(t, from, 7, Current, limits).Ok? ==>
      ForwardportJson(t, JInt(from), Current, limits) == Err(AttributeError)
  {
    MigrateLastStep(t, from, Current, limits);
    ForwardportFrom(t, from, Current, limits);
    var m := Migrate(t, from, 7, Current, limits);
    if m.Ok? {
      StepToEight(m.value, Current, limits);
    }
  }

  /** The final check after the intended step to version 8: the columns it reads have moved. */
  lemma MovedColumnsFailCheck(t: Table)
    requires ToV8(t).Ok?
    ensures Check(ToV8(t).value) == Err(KeyError)
  {
    assert MovedColumns[0].0 == "input_items";
    assert Get(ToV8(t).value, "input_items") == Err(KeyError);
  }

  /**
   * Even with `copy.deepcopy`, the steps of src/porting.py followed by its
   * final check port no table from versions 3 to 7: the check reads
   * `input_items` after the step to version 8 has moved it into `tv`.
   */
  lemma IntendedStepsStillRaise(t: Table, from: int, limits: map<string, EP.StackSize>)
    requires 3 <= from <= 7
    ensures ForwardportJson(t, JInt(from), Intended, limits).Err?
    ensures Migrate(t, from, 7, Intended, limits).Ok? ==>
      ForwardportJson(t, JInt(from), Intended, limits) == Err(KeyError)
  {
    MigrateLastStep(t, from, Intended, limits);
    ForwardportFrom(t, from, Intended, limits);
    var m := Migrate(t, from, 7, Intended, limits);
    if m.Ok? {
      StepToEight(m.value, Intended, limits);
      if ToV8(m.value).Ok? {
        MovedColumnsFailCheck(m.value);
      }
    }
  }

  /** The intended steps up to version 7 raise only the exclude formatter's KeyError or TypeError. */
  lemma {:induction false} IntendedMigrateErrors(t: Table, lo: int, hi: int, limits: map<string, EP.StackSize>)
    requires hi <= 7
    ensures var m := Migrate(t, lo, hi, Intended, limits);
      m.Err? ==> m.error == KeyError || m.error == TypeError || m.error == ValueError
    decreases hi - lo
  {
    if lo < hi && Step(t, lo + 1, Intended, limits).Ok? {
      IntendedMigrateErrors(Step(t, lo + 1, Intended, limits).value, lo + 1, hi, limits);
    }
  }

  /**
   * `forwardportJson` as intended: the intended steps to version 7, the
   * emptiness check on the columns while they are still columns, then the
   * step to version 8 on a table that passed. A table already at version 8
   * has nothing to port.
   */
  function ForwardportIntended(t: Table, version: Json, limits: map<string, EP.StackSize>)
    : (r: Result<(int, Table)>)
    ensures RouteOf(version).Err? ==> r == Err(TypeError)
    ensures RouteOf(version) == Ok(Incompatible) ==> r == Ok((IvErr, t))
    ensures version == JInt(OutputVersion) ==> r == Ok((NoErr, t))
    ensures r.Ok? ==> r.value.0 in {NoErr, IvErr, CjErr}
    ensures r.Err? ==> r.error in {TypeError, KeyError, ValueError}
  {
    match RouteOf(version)
    case Err(e) => Err(e)
    case Ok(Incompatible) => Ok((IvErr, t))
    case Ok(PortFrom(from)) =>
      if from == OutputVersion then Ok((NoErr, t))
      else
        IntendedMigrateErrors(t, from, 7, limits);
        match Migrate(t, from, 7, Intended, limits)
        case Err(e) => Err(e)
        case Ok(t7) =>
          match Check(t7)
          case Err(e) => Err(e)
          case Ok((code, t8)) =>
            if code != NoErr then Ok((code, t8))
            else
              match ToV8(t8)
              case Err(e) => Err(e)
              case Ok(t9) => Ok((NoErr, t9))
  }

  /**
   * The intended port of a version 7 table that holds every column and no
   * records yet: it passes exactly when its columns agree about being
   * empty, a failing table comes back unchanged with the corrupt-table
   * code, and a passing one ends at version 8 with its columns packed into
   * the records, from which they unpack unchanged.
   */
  lemma IntendedPortOfSeven(t: Table, limits: map<string, EP.StackSize>)
    requires MovedKeys <= t.Keys && TextKey in t && "tv" !in t && "tt" !in t
    ensures forall k :: k in ConsistencyKeys ==> k in t
    ensures var r := ForwardportIntended(t, JInt(7), limits);
      r.Ok? && (r.value.0 == NoErr <==> Consistent(t))
      && (r.value.0 == CjErr ==> r.value.1 == t)
      && (r.value.0 == NoErr ==> FromV8(r.value.1) == t["version" := JInt(OutputVersion)])
  {
    assert ConsistencyKeys <= MovedKeys + {TextKey};
    IntendedFrom(t, 7, limits);
    assert Migrate(t, 7, 7, Intended, limits) == Ok(t);
    var c := Check(t);
    if c.value.0 == NoErr {
      ToV8RoundTrip(c.value.1);
    }
  }

  /** From a version 3 to 7 the intended port migrates to 7, checks, and on success moves the columns. */
  lemma IntendedFrom(t: Table, from: int, limits: map<string, EP.StackSize>)
    requires 3 <= from <= 7
    ensures ForwardportIntended(t, JInt(from), limits) ==
      match Migrate(t, from, 7, Intended, limits)
      case Err(e) => Err(e)
      case Ok(t7) =>
        match Check(t7)
        case Err(e) => Err(e)
        case Ok((code, t8)) =>
          if code != NoErr then Ok((code, t8))
          else match ToV8(t8) case Err(e) => Err(e) case Ok(t9) => Ok((NoErr, t9))
  {
    assert RouteOf(JInt(from)) == Ok(PortFrom(from));
  }

  /** The default table has every column the final check reads except `exclude_values`. */
  lemma DefaultsCoverChecks()
    ensures KeysOf(Defaults) >= ConsistencyKeys - {ValuesKey}
  {
    var d := Defaults;
    assert d[4].0 == "input_items" && d[5].0 == "input_quantities" && d[6].0 == TextKey;
    assert d[7].0 == "raw_materials" && d[8].0 == "raw_quantities";
    KeysOfMembers(d);
  }

  /** Every listed key is among the keys. */
  lemma {:induction false} KeysOfMembers(d: seq<(string, Json)>)
    ensures forall i :: 0 <= i < |d| ==> d[i].0 in KeysOf(d)
    decreases |d|
  {
    if |d| > 0 {
      KeysOfMembers(d[1..]);
      forall i | 1 <= i < |d| ensures d[i].0 in KeysOf(d) {
        assert d[i] == d[1..][i - 1];
      }
    }
  }

  /** The root generation's migration of a version 3 or 4 table: steps 4 (from 3 only), 5, 6 and 7. */
  lemma LegacyEarlyMigration(t: Table, version: int, limits: map<string, EP.StackSize>)
    requires version == 3 || version == 4
    ensures Migrate(t, version, OutputVersion, Legacy, limits)
      == LegacyToV7(ToV6(ToV5(if version == 3 then ToV4(t) else t)), limits)
  {
    var t4 := if version == 3 then ToV4(t) else t;
    assert Migrate(t, version, 4, Legacy, limits) == Ok(t4) by {
      if version == 3 {
        assert Step(t, 4, Legacy, limits) == Ok(t4);
        assert Migrate(t4, 4, 4, Legacy, limits) == Ok(t4);
      }
    }
    MigrateSplit(t, version, 4, OutputVersion, Legacy, limits);
    var t5 := ToV5(t4);
    var t6 := ToV6(t5);
    assert Migrate(t4, 4, OutputVersion, Legacy, limits) == Migrate(t5, 5, OutputVersion, Legacy, limits) by {
      assert Step(t4, 5, Legacy, limits) == Ok(t5);
    }
    assert Migrate(t5, 5, OutputVersion, Legacy, limits) == Migrate(t6, 6, OutputVersion, Legacy, limits) by {
      assert Step(t5, 6, Legacy, limits) == Ok(t6);
    }
    assert Migrate(t6, 6, OutputVersion, Legacy, limits) == LegacyToV7(t6, limits) by {
      assert Step(t6, 7, Legacy, limits) == LegacyToV7(t6, limits);
      match LegacyToV7(t6, limits)
      case Err(e) =>
      case Ok(t7) =>
        StepToEight(t7, Legacy, limits);
        assert Migrate(t7, 8, OutputVersion, Legacy, limits) == Ok(t7);
    }
  }

  /** After the steps to versions 5, 6 and 7, every column the final check reads is there. */
  lemma ColumnsAfterSeven(t5: Table, limits: map<string, EP.StackSize>)
    requires KeysOf(Defaults) <= t5.Keys
    requires LegacyToV7(ToV6(t5), limits).Ok?
    ensures forall k :: k in ConsistencyKeys ==> k in LegacyToV7(ToV6(t5), limits).value
  {
    DefaultsCoverChecks();
    var t6 := ToV6(t5);
    assert forall k :: k in ConsistencyKeys - {ValuesKey, TextKey} ==> k in t6;
  }

  /**
   * In the root generation a version 3 or 4 table passes through the step
   * to version 5, which supplies every column the final check reads but
   * `exclude_values`, and the step to version 7 supplies that one; so the
   * only exception left is the exclude formatter's TypeError, and the code
   * is NoErr exactly when the migrated columns agree about being empty.
   */
  lemma LegacyEarlyTablesReachCheck(t: Table, version: int, limits: map<string, EP.StackSize>)
    requires version == 3 || version == 4
    ensures var r := ForwardportJson(t, JInt(version), Legacy, limits);
      r.Err? ==> r.error == TypeError
    ensures var m := Migrate(t, version, OutputVersion, Legacy, limits);
      m.Ok? ==>
        (forall k :: k in ConsistencyKeys ==> k in m.value)
        && ForwardportJson(t, JInt(version), Legacy, limits).Ok?
        && (ForwardportJson(t, JInt(version), Legacy, limits).value.0 == NoErr <==> Consistent(m.value))
  {
    var t5 := ToV5(if version == 3 then ToV4(t) else t);
    var m := Migrate(t, version, OutputVersion, Legacy, limits);
    var r := ForwardportJson(t, JInt(version), Legacy, limits);
    assert m == LegacyToV7(ToV6(t5), limits) by {
      LegacyEarlyMigration(t, version, limits);
    }
    ForwardportFrom(t, version, Legacy, limits);
    if m.Ok? {
      assert forall k :: k in ConsistencyKeys ==> k in m.value by {
        ColumnsAfterSeven(t5, limits);
      }
      assert r == Check(m.value);
    }
  }
}

=== FILE: quantities.dfy ===
/**
 * Quantities as a player counts them: shulker boxes of 27 stacks, stacks,
 * and single items. The long form "3500 (2 SB + 1 stack + 28)" fills the
 * raw-materials column; the shorthand "2sb 1s 28" fills the exclude column
 * and is read back by the exclude parser.
 *
 * Three generations are modelled: src/helpers.py (current), the root
 * helpers.py (older, no "0" for an empty shorthand, no shulker-box case) and
 * the frontend's own `__format_quantities` (oldest, fixed stack of 64).
 */
module Quantities {
  import opened Results
  import opened Strings
  import opened ExcludeParser
  import OD = OrderedDict

  /** A quantity split into shulker boxes, stacks and single items. */
  datatype Breakdown = Breakdown(boxes: int, stacks: int, items: int)

  /** The number of items a breakdown stands for. */
  function Total(b: Breakdown, stack: int): int {
    b.boxes * (stack * ShulkerBoxSize) + b.stacks * stack + b.items
  }

  /**
   * Fewer stacks than fill a box and fewer items than fill a stack; an item
   * that does not stack has no stacks, only boxes and items.
   */
  predicate Canonical(b: Breakdown, stack: int) {
    if stack > 1 then 0 <= b.stacks < ShulkerBoxSize && 0 <= b.items < stack
    else b.stacks == 0 && 0 <= b.items < stack * ShulkerBoxSize
  }

  lemma MulBelowOne(k: int, d: int)
    requires d > 0 && k * d < d
    ensures k < 1
  {}

  lemma MulAboveMinusOne(k: int, d: int)
    requires d > 0 && k * d > -d
    ensures k > -1
  {}

  lemma MulMonotone(x: int, y: int, d: int)
    requires x <= y && d >= 0
    ensures x * d <= y * d
  {
    assert y * d - x * d == (y - x) * d;
  }

  /** Floor division and remainder, as Python's `//` and `%` by a positive divisor. */
  lemma DivModUnique(q: int, d: int, a: int, r: int)
    requires d > 0 && q == a * d + r && 0 <= r < d
    ensures q / d == a && q % d == r
  {
    var a' := q / d;
    var r' := q % d;
    assert (a' - a) * d == r - r';
    MulBelowOne(a' - a, d);
    MulAboveMinusOne(a' - a, d);
  }

  /** The stacks of a box-remainder are fewer than a box holds. */
  lemma StacksBelowBox(rest: int, stack: int)
    requires stack > 0 && 0 <= rest < stack * ShulkerBoxSize
    ensures 0 <= rest / stack < ShulkerBoxSize
  {
    var s := rest / stack;
    assert (s - 27) * stack == rest - rest % stack - 27 * stack;
    MulBelowOne(s - 26, stack);
  }

  lemma DivMod(x: int, d: int)
    requires d > 0
    ensures x == (x / d) * d + x % d && 0 <= x % d < d
    ensures x >= 0 ==> x / d >= 0
  {
    if x >= 0 {
      MulAboveMinusOne(x / d, d);
    }
  }

  lemma SplitTotal(q: int, stack: int, b: Breakdown)
    requires stack > 0
    requires b.boxes == q / (stack * ShulkerBoxSize)
    requires b.stacks * stack + b.items == q % (stack * ShulkerBoxSize)
    ensures Total(b, stack) == q
  {
    var cap := stack * ShulkerBoxSize;
    assert q == (q / cap) * cap + q % cap;
  }

  /**
   * The split `get_shulkers_stacks_and_items` computes: boxes by floor
   * division by a box's capacity, then stacks and items from the rest.
   */
  function Decompose(q: int, stack: StackSize): (b: Breakdown)
    ensures Total(b, stack) == q
    ensures Canonical(b, stack)
    ensures q >= 0 ==> b.boxes >= 0
  {
    var cap := stack * ShulkerBoxSize;
    var boxes := q / cap;
    var rest := q % cap;
    DivMod(q, cap);
    if stack > 1 then
      StacksBelowBox(rest, stack);
      DivMod(rest, stack);
      var b := Breakdown(boxes, rest / stack, rest % stack);
      SplitTotal(q, stack, b);
      b
    else
      var b := Breakdown(boxes, 0, rest);
      SplitTotal(q, stack, b);
      b
  }

  /** Any canonical breakdown of `q` is the one `Decompose` computes. */
  lemma DecomposeUnique(q: int, stack: StackSize, b: Breakdown)
    requires Canonical(b, stack) && Total(b, stack) == q
    ensures b == Decompose(q, stack)
  {
    var cap := stack * ShulkerBoxSize;
    var rest := b.stacks * stack + b.items;
    assert 0 <= rest < cap by {
      if stack > 1 {
        MulMonotone(b.stacks, ShulkerBoxSize - 1, stack);
      }
    }
    assert q == b.boxes * cap + rest;
    assert q / cap == b.boxes && q % cap == rest by {
      DivModUnique(q, cap, b.boxes, rest);
    }
    if stack > 1 {
      assert rest / stack == b.stacks && rest % stack == b.items by {
        DivModUnique(rest, stack, b.stacks, b.items);
      }
    }
  }

  // ---------------------------------------------------------------------
  // Shorthand: "Nsb Ns N", read back by the exclude parser.
  // ---------------------------------------------------------------------

  /** One shorthand term: `Nsb`, `Ns` or `N`. */
  function Term(n: nat, u: Unit): string {
    NatToString(n) + UnitText(u)
  }

  /** The terms for the non-zero parts, boxes first. */
  function ShorthandParts(b: Breakdown, stack: StackSize): seq<string> {
    (if b.boxes > 0 then [Term(b.boxes, Boxes)] else [])
    + (if stack > 1 && b.stacks > 0 then [Term(b.stacks, Stacks)] else [])
    + (if b.items > 0 then [Term(b.items, Items)] else [])
  }

  /**
   * `get_shulkers_stacks_and_items(q, shorthand=True)` of src/helpers.py:
   * the terms joined by single spaces, or "0" when there are none.
   */
  function Shorthand(q: int, stack: StackSize): string {
    var parts := ShorthandParts(Decompose(q, stack), stack);
    if |parts| == 0 then "0" else Join(parts, " ")
  }

  /** The parser's total over a list of inputs. */
  function ScanAll(parts: seq<string>, stack: int): int {
    if |parts| == 0 then 0 else ScanRuns(parts[0], stack) + ScanAll(parts[1..], stack)
  }

  lemma {:induction false} ScanAllAppend(a: seq<string>, b: seq<string>, stack: int)
    ensures ScanAll(a + b, stack) == ScanAll(a, stack) + ScanAll(b, stack)
    decreases |a|
  {
    if |a| > 0 {
      assert (a + b)[1..] == a[1..] + b;
      ScanAllAppend(a[1..], b, stack);
    } else {
      assert a + b == b;
    }
  }

  /** Every term the formatter writes is accepted by the parser. */
  lemma TermValid(n: nat, u: Unit)
    ensures ValidExclude(Term(n, u))
  {
    var d := NatToString(n);
    var t := UnitText(u);
    var s := d + t;
    TokensIffAllowed(s);
    forall i | 0 <= i < |s| ensures AllowedAt(s, i) {
      if i < |d| {
        assert s[i] == d[i];
      } else if i == |d| + 1 {
        assert s[i - 1] == t[0];
      }
    }
    ContainsPair(s, 's', 's');
    assert "ss" == ['s', 's'];
    forall i | 0 <= i < |s| - 1 ensures !(s[i] == 's' && s[i + 1] == 's') {
      if i < |d| {
        assert s[i] == d[i];
      } else {
        assert s[i + 1] == t[i + 1 - |d|];
      }
    }
  }

  /** Joining valid inputs with spaces gives a valid input whose total is the sum. */
  lemma {:induction false} JoinScan(parts: seq<string>, stack: int)
    requires |parts| > 0
    requires forall i :: 0 <= i < |parts| ==> ValidExclude(parts[i])
    ensures ValidExclude(Join(parts, " "))
    ensures ScanRuns(Join(parts, " "), stack) == ScanAll(parts, stack)
    decreases |parts|
  {
    if |parts| == 1 {
      assert ScanAll(parts[1..], stack) == 0;
    } else {
      var rest := parts[1..];
      assert parts == [parts[0]] + rest;
      JoinScan(rest, stack);
      JoinCons(parts[0], rest, " ");
      assert parts[0] + " " + Join(rest, " ") == parts[0] + [' '] + Join(rest, " ");
      ValidJoin(parts[0], ' ', Join(rest, " "));
      ScanRunsSplit(parts[0], ' ', Join(rest, " "), stack);
    }
  }

  /** One optional term: valid, and worth its count in units. */
  lemma ScanPart(p: seq<string>, present: bool, n: int, u: Unit, stack: int)
    requires n >= 0 && (!present ==> n == 0)
    requires p == if present && n > 0 then [Term(n, u)] else []
    ensures ScanAll(p, stack) == n * UnitSize(u, stack)
    ensures forall i :: 0 <= i < |p| ==> ValidExclude(p[i])
  {
    if present && n > 0 {
      assert p[1..] == [];
      ScanTerm(n, u, stack);
      TermValid(n, u);
    } else {
      assert n == 0;
    }
  }

  lemma ValidAppend(a: seq<string>, b: seq<string>)
    requires forall i :: 0 <= i < |a| ==> ValidExclude(a[i])
    requires forall i :: 0 <= i < |b| ==> ValidExclude(b[i])
    ensures forall i :: 0 <= i < |a + b| ==> ValidExclude((a + b)[i])
  {
    forall i | 0 <= i < |a + b| ensures ValidExclude((a + b)[i]) {
      if i >= |a| {
        assert (a + b)[i] == b[i - |a|];
      }
    }
  }

  /** The shorthand terms of a count's breakdown are all accepted by the parser. */
  lemma PartsValid(b: Breakdown, stack: StackSize)
    requires b.boxes >= 0 && b.stacks >= 0 && b.items >= 0
    requires stack == 1 ==> b.stacks == 0
    ensures forall i :: 0 <= i < |ShorthandParts(b, stack)| ==> ValidExclude(ShorthandParts(b, stack)[i])
  {
    var p1 := if b.boxes > 0 then [Term(b.boxes, Boxes)] else [];
    var p2 := if stack > 1 && b.stacks > 0 then [Term(b.stacks, Stacks)] else [];
    var p3 := if b.items > 0 then [Term(b.items, Items)] else [];
    ScanPart(p1, true, b.boxes, Boxes, stack);
    ScanPart(p2, stack > 1, b.stacks, Stacks, stack);
    ScanPart(p3, true, b.items, Items, stack);
    ValidAppend(p1, p2);
    ValidAppend(p1 + p2, p3);
  }

  /** The parser's values of the shorthand terms add up to the count. */
  lemma PartsValue(b: Breakdown, stack: StackSize)
    requires b.boxes >= 0 && b.stacks >= 0 && b.items >= 0
    requires stack == 1 ==> b.stacks == 0
    ensures ScanAll(ShorthandParts(b, stack), stack) == Total(b, stack)
  {
    var p1 := if b.boxes > 0 then [Term(b.boxes, Boxes)] else [];
    var p2 := if stack > 1 && b.stacks > 0 then [Term(b.stacks, Stacks)] else [];
    var p3 := if b.items > 0 then [Term(b.items, Items)] else [];
    assert ScanAll(ShorthandParts(b, stack), stack) == ScanAll(p1, stack) + ScanAll(p2, stack) + ScanAll(p3, stack) by {
      assert ShorthandParts(b, stack) == p1 + p2 + p3;
      ScanAllAppend(p1 + p2, p3, stack);
      ScanAllAppend(p1, p2, stack);
    }
    assert ScanAll(p1, stack) == b.boxes * (stack * ShulkerBoxSize) by {
      ScanPart(p1, true, b.boxes, Boxes, stack);
    }
    assert ScanAll(p2, stack) == b.stacks * stack by {
      ScanPart(p2, stack > 1, b.stacks, Stacks, stack);
    }
    assert ScanAll(p3, stack) == b.items by {
      ScanPart(p3, true, b.items, Items, stack);
    }
  }

  /** The exclude parser reads the shorthand of a count back as that count. */
  lemma ShorthandRoundTrip(q: nat, stack: StackSize)
    ensures ProcessExclude(Shorthand(q, stack), stack) == q
  {
    var b := Decompose(q, stack);
    var parts := ShorthandParts(b, stack);
    PartsValue(b, stack);
    PartsValid(b, stack);
    if |parts| == 0 {
      assert Term(0, Items) == "0";
      TermValid(0, Items);
      ScanTerm(0, Items, stack);
    } else {
      JoinScan(parts, stack);
    }
  }

  // ---------------------------------------------------------------------
  // Long form: "q (b SB + s stacks + i)".
  // ---------------------------------------------------------------------

  /** The parenthesised parts: boxes, stacks (singular for one), items. */
  function LongParts(b: Breakdown, stack: StackSize): seq<string> {
    (if b.boxes > 0 then [NatToString(b.boxes) + " SB"] else [])
    + (if stack > 1 && b.stacks > 0 then [NatToString(b.stacks) + (if b.stacks > 1 then " stacks" else " stack")] else [])
    + (if b.items > 0 then [NatToString(b.items)] else [])
  }

  /**
   * `get_shulkers_stacks_and_items(q)`: the total, followed by the parts in
   * parentheses when there is a box or a stack to show.
   */
  function LongForm(q: int, stack: StackSize): string {
    var b := Decompose(q, stack);
    var parts := LongParts(b, stack);
    if (b.boxes > 0 || (stack > 1 && b.stacks > 0)) && |parts| > 0 then
      IntToString(q) + " (" + Join(parts, " + ") + ")"
    else
      IntToString(q)
  }

  /**
   * `int(text.split("(")[0].strip())`: the total at the front of a long form,
   * as the root helpers.py re-reads already formatted cells.
   */
  function LeadingTotal(text: string): Result<int> {
    ParseInt(Strip(Split(text, '(')[0]))
  }

  /** The decimal text of an integer read back as the leading total. */
  lemma LeadingTotalOfInt(q: int)
    ensures LeadingTotal(IntToString(q)) == Ok(q)
  {
    IntToStringChars(q);
    assert '(' !in IntToString(q);
    assert Strip(IntToString(q)) == IntToString(q);
    ParseIntToString(q);
  }

  /** A count followed by any parenthesised detail reads back as the count. */
  lemma LeadingTotalWithDetail(q: int, detail: string)
    ensures LeadingTotal(IntToString(q) + " (" + detail + ")") == Ok(q)
  {
    var s := IntToString(q);
    var rest := detail + ")";
    IntToStringChars(q);
    assert s + " (" + detail + ")" == (s + " ") + ['('] + rest;
    assert '(' !in s + " ";
    SplitFirst(s + " ", '(', rest);
    StripTrailingSpace(s, ' ');
    ParseIntToString(q);
  }

  /** The leading total of a long form is the quantity it was made from. */
  lemma LongFormLeadingTotal(q: int, stack: StackSize)
    ensures LeadingTotal(LongForm(q, stack)) == Ok(q)
  {
    var b := Decompose(q, stack);
    var parts := LongParts(b, stack);
    if (b.boxes > 0 || (stack > 1 && b.stacks > 0)) && |parts| > 0 {
      LeadingTotalWithDetail(q, Join(parts, " + "));
    } else {
      LeadingTotalOfInt(q);
    }
  }

  // ---------------------------------------------------------------------
  // src/helpers.py: the formatter and the column formatter.
  // ---------------------------------------------------------------------

  /**
   * `get_shulkers_stacks_and_items(q, material, shorthand)` of
   * src/helpers.py: shulker boxes are printed as a plain count, everything
   * else by the material's stack size.
   */
  function FormatQuantity(q: int, material: string, shorthand: bool, limits: map<string, StackSize>): (r: string)
    ensures |r| > 0
    ensures Contains(material, "shulker_box") || !shorthand ==> IntToString(q) <= r
  {
    if Contains(material, "shulker_box") then IntToString(q)
    else if shorthand then Shorthand(q, StackSizeOf(limits, material))
    else LongForm(q, StackSizeOf(limits, material))
  }

  /**
   * A negative count is formatted too: floor division takes one shulker box
   * too many away, so `-5` of a 64-stack item shows as `26s 59`, the
   * remainder 1723 split into stacks and items.
   */
  lemma NegativeCountShorthand()
    ensures FormatQuantity(-5, "stone", true, map[]) == "26s 59"
  {
    var b := Decompose(-5, 64);
    DecomposeUnique(-5, 64, Breakdown(-1, 26, 59));
    assert ShorthandParts(b, 64) == [Term(26, Stacks), Term(59, Items)];
    assert NatToString(26) == "26" && NatToString(59) == "59";
  }

  /** What the exclude column shows for a count, the parser reads back as that count. */
  lemma ExcludeCellRoundTrip(q: nat, material: string, limits: map<string, StackSize>)
    ensures ProcessExcludeFor(FormatQuantity(q, material, true, limits), material, limits) == q
  {
    var stack := StackSizeOf(limits, material);
    if Contains(material, "shulker_box") {
      assert IntToString(q) == Term(q, Items);
      TermValid(q, Items);
      ScanTerm(q, Items, stack);
    } else {
      ShorthandRoundTrip(q, stack);
    }
  }

  /** What the raw-materials column shows for a count starts with that count. */
  lemma ResultCellLeadingTotal(q: nat, material: string, limits: map<string, StackSize>)
    ensures LeadingTotal(FormatQuantity(q, material, false, limits)) == Ok(q)
  {
    if Contains(material, "shulker_box") {
      LeadingTotalOfInt(q);
    } else {
      LongFormLeadingTotal(q, StackSizeOf(limits, material));
    }
  }

  /**
   * `format_quantities(materials, (values, texts), is_exclude_col)`: a
   * TypeError unless the three lists have one length, otherwise the text
   * list with every cell replaced by the formatted value.
   */
  function FormatQuantities(materials: seq<string>, values: seq<int>, texts: seq<string>,
                            excludeColumn: bool, limits: map<string, StackSize>): (r: Result<seq<string>>)
    ensures r.Ok? <==> |materials| == |values| == |texts|
    ensures r.Ok? ==> |r.value| == |texts|
    ensures r.Ok? ==> forall i :: 0 <= i < |r.value| ==>
      r.value[i] == FormatQuantity(values[i], materials[i], excludeColumn, limits)
  {
    if !(|materials| == |values| == |texts|) then Err(TypeError)
    else Ok(seq(|values|, i requires 0 <= i < |values| => FormatQuantity(values[i], materials[i], excludeColumn, limits)))
  }

  /** A formatted exclude column reads back, cell by cell, as the values it was made from. */
  lemma ExcludeColumnRoundTrip(materials: seq<string>, values: seq<nat>, texts: seq<string>,
                               limits: map<string, StackSize>)
    requires |materials| == |values| == |texts|
    ensures forall i :: 0 <= i < |values| ==>
      ProcessExcludeFor(FormatQuantities(materials, values, texts, true, limits).value[i], materials[i], limits) == values[i]
  {
    forall i | 0 <= i < |values|
      ensures ProcessExcludeFor(FormatQuantities(materials, values, texts, true, limits).value[i], materials[i], limits) == values[i]
    {
      ExcludeCellRoundTrip(values[i], materials[i], limits);
    }
  }

  // ---------------------------------------------------------------------
  // The root helpers.py generation.
  // ---------------------------------------------------------------------

  /** The root helpers.py shorthand: the terms joined by spaces, "" when there are none. */
  function LegacyShorthand(q: int, stack: StackSize): string {
    Join(ShorthandParts(Decompose(q, stack), stack), " ")
  }

  /** The older shorthand of nothing is the empty text, which the parser rejects. */
  lemma LegacyShorthandOfZero(stack: StackSize)
    ensures LegacyShorthand(0, stack) == ""
    ensures ProcessExclude(LegacyShorthand(0, stack), stack) == -1
  {
    assert ShorthandParts(Decompose(0, stack), stack) == [];
  }

  /** Away from zero the two generations of the shorthand agree. */
  lemma LegacyShorthandAgrees(q: nat, stack: StackSize)
    requires q > 0
    ensures LegacyShorthand(q, stack) == Shorthand(q, stack)
  {
    var b := Decompose(q, stack);
    assert |ShorthandParts(b, stack)| > 0;
  }

  /** The root helpers.py formatter: no shulker-box case. */
  function LegacyFormatQuantity(q: int, material: string, shorthand: bool, limits: map<string, StackSize>): string {
    if shorthand then LegacyShorthand(q, StackSizeOf(limits, material))
    else LongForm(q, StackSizeOf(limits, material))
  }

  /** A cell of the root helpers.py dictionary: a count, or an already formatted text. */
  datatype Cell = Count(n: int) | Text(s: string)

  /** What the root `format_quantities` is given. */
  datatype Materials = ListOf(counts: seq<int>) | DictOf(cells: OD.Dict<Cell>) | Neither

  /** What it produces: a new list, or the dictionary with every cell formatted. */
  datatype Formatted = FormattedList(texts: seq<string>) | FormattedDict(cells: OD.Dict<Cell>)

  /** The count in a cell: a text is re-read through its leading total. */
  function CellCount(c: Cell): Result<int> {
    match c
    case Count(n) => Ok(n)
    case Text(s) => LeadingTotal(s)
  }

  /** The dictionary branch: every cell formatted under its material's stack size, in order. */
  function FormatCells(cells: OD.Dict<Cell>, shorthand: bool, limits: map<string, StackSize>): (r: Result<OD.Dict<Cell>>)
    ensures r.Ok? ==> |r.value| == |cells|
    ensures r.Err? ==> r.error == ValueError
  {
    if |cells| == 0 then Ok([])
    else
      match CellCount(cells[0].1)
      case Err(e) => Err(e)
      case Ok(q) =>
        match FormatCells(cells[1..], shorthand, limits)
        case Err(e) => Err(e)
        case Ok(rest) => Ok([(cells[0].0, Text(LegacyFormatQuantity(q, cells[0].0, shorthand, limits)))] + rest)
  }

  /** A cell whose count can be read. */
  predicate Readable(c: Cell) {
    CellCount(c).Ok?
  }

  lemma {:induction false} FormatCellsComplete(cells: OD.Dict<Cell>, shorthand: bool, limits: map<string, StackSize>)
    requires forall i :: 0 <= i < |cells| ==> Readable(cells[i].1)
    ensures FormatCells(cells, shorthand, limits).Ok?
    decreases |cells|
  {
    if |cells| > 0 {
      assert Readable(cells[0].1);
      assert forall i :: 0 <= i < |cells[1..]| ==> cells[1..][i] == cells[i + 1];
      FormatCellsComplete(cells[1..], shorthand, limits);
    }
  }

  /** The dictionary is formatted exactly when every text cell starts with a number, else `int()` raises ValueError. */
  lemma FormatCellsOk(cells: OD.Dict<Cell>, shorthand: bool, limits: map<string, StackSize>)
    ensures FormatCells(cells, shorthand, limits).Ok? <==> forall i :: 0 <= i < |cells| ==> Readable(cells[i].1)
  {
    if FormatCells(cells, shorthand, limits).Ok? {
      forall i | 0 <= i < |cells| ensures Readable(cells[i].1) {
        FormatCellsAt(cells, shorthand, limits, i);
      }
    }
    if forall i :: 0 <= i < |cells| ==> Readable(cells[i].1) {
      FormatCellsComplete(cells, shorthand, limits);
    }
  }

  lemma FormatCellsCons(cells: OD.Dict<Cell>, shorthand: bool, limits: map<string, StackSize>)
    requires |cells| > 0 && FormatCells(cells, shorthand, limits).Ok?
    ensures Readable(cells[0].1) && FormatCells(cells[1..], shorthand, limits).Ok?
    ensures FormatCells(cells, shorthand, limits).value ==
      [(cells[0].0, Text(LegacyFormatQuantity(CellCount(cells[0].1).value, cells[0].0, shorthand, limits)))]
      + FormatCells(cells[1..], shorthand, limits).value
  {}

  /** When formatted, each cell keeps its key and holds its count's formatted text. */
  lemma {:induction false} FormatCellsAt(cells: OD.Dict<Cell>, shorthand: bool, limits: map<string, StackSize>, i: int)
    requires FormatCells(cells, shorthand, limits).Ok? && 0 <= i < |cells|
    ensures Readable(cells[i].1)
    ensures FormatCells(cells, shorthand, limits).value[i] ==
      (cells[i].0, Text(LegacyFormatQuantity(CellCount(cells[i].1).value, cells[i].0, shorthand, limits)))
    decreases |cells|
  {
    FormatCellsCons(cells, shorthand, limits);
    if i > 0 {
      FormatCellsAt(cells[1..], shorthand, limits, i - 1);
      assert cells[i] == cells[1..][i - 1];
    }
  }

  /** `format_quantities(total_materials, shorthand)` of the root helpers.py. */
  function LegacyFormatQuantities(m: Materials, shorthand: bool, limits: map<string, StackSize>): (r: Result<Formatted>)
    ensures m.Neither? <==> r == Err(TypeError)
    ensures m.ListOf? ==> r.Ok? && r.value.FormattedList? && |r.value.texts| == |m.counts|
    ensures m.DictOf? && r.Ok? ==> r.value.FormattedDict? && |r.value.cells| == |m.cells|
  {
    match m
    case ListOf(counts) =>
      Ok(FormattedList(seq(|counts|, i requires 0 <= i < |counts| => LegacyFormatQuantity(counts[i], "", shorthand, limits))))
    case DictOf(cells) =>
      FormatCells(cells, shorthand, limits).Map(d => FormattedDict(d))
    case Neither => Err(TypeError)
  }

  /** Formatting a dictionary into long forms a second time changes nothing. */
  lemma {:induction false} FormatCellsIdempotent(cells: OD.Dict<Cell>, limits: map<string, StackSize>)
    requires FormatCells(cells, false, limits).Ok?
    ensures FormatCells(FormatCells(cells, false, limits).value, false, limits) == FormatCells(cells, false, limits)
    decreases |cells|
  {
    if |cells| > 0 {
      var once := FormatCells(cells, false, limits).value;
      var q := CellCount(cells[0].1).value;
      LongFormLeadingTotal(q, StackSizeOf(limits, cells[0].0));
      assert CellCount(once[0].1) == Ok(q);
      FormatCellsIdempotent(cells[1..], limits);
      assert once[1..] == FormatCells(cells[1..], false, limits).value;
    }
  }

  // ---------------------------------------------------------------------
  // The frontend's own formatter: a fixed stack of 64.
  // ---------------------------------------------------------------------

  const FrontendStack: StackSize := 64
  const FrontendBox: int := 64 * 27

  /** The breakdown `__format_quantities` prints, when it prints one. */
  function FrontendBreakdown(q: int): (b: Breakdown)
    requires q >= FrontendStack
  {
    if q >= FrontendBox then Breakdown(q / FrontendBox, (q % FrontendBox) / FrontendStack, q % FrontendStack)
    else Breakdown(0, q / FrontendStack, q % FrontendStack)
  }

  /** Its numbers are exactly the current generation's split of the count. */
  lemma FrontendBreakdownIsDecompose(q: int)
    requires q >= FrontendStack
    ensures FrontendBreakdown(q) == Decompose(q, FrontendStack)
  {
    var b := FrontendBreakdown(q);
    if q >= FrontendBox {
      var rest := q % FrontendBox;
      StacksBelowBox(rest, FrontendStack);
      assert q % FrontendStack == rest % FrontendStack by {
        assert q == (q / FrontendBox) * FrontendBox + rest;
        DivModUnique(q, FrontendStack, (q / FrontendBox) * 27 + rest / FrontendStack, rest % FrontendStack);
      }
    } else {
      StacksBelowBox(q, FrontendStack);
    }
    DecomposeUnique(q, FrontendStack, b);
  }

  /**
   * `__format_quantities` on one count: "q (b SB + s stacks + i)" from a box
   * up, "q (s stacks + i)" from a stack up, else the plain count.
   */
  function FrontendFormat(q: int): string {
    if q >= FrontendStack then IntToString(q) + " (" + FrontendDetail(q) + ")"
    else IntToString(q)
  }

  /** The text inside the parentheses; zero parts are printed too. */
  function FrontendDetail(q: int): string
    requires q >= FrontendStack
  {
    var b := FrontendBreakdown(q);
    if q >= FrontendBox then
      IntToString(b.boxes) + " SB + " + IntToString(b.stacks) + " stacks + " + IntToString(b.items)
    else
      IntToString(b.stacks) + " stacks + " + IntToString(b.items)
  }

  /** The leading total of the frontend's text is the count. */
  lemma FrontendLeadingTotal(q: int)
    ensures LeadingTotal(FrontendFormat(q)) == Ok(q)
  {
    if q >= FrontendStack {
      LeadingTotalWithDetail(q, FrontendDetail(q));
    } else {
      LeadingTotalOfInt(q);
    }
  }

  /** `__format_quantities`: every count of the dictionary replaced by its text, in place. */
  function FrontendFormatAll(d: OD.Dict<int>): (r: OD.Dict<string>)
    ensures |r| == |d|
    ensures forall i :: 0 <= i < |d| ==> r[i] == (d[i].0, FrontendFormat(d[i].1))
  {
    seq(|d|, i requires 0 <= i < |d| => (d[i].0, FrontendFormat(d[i].1)))
  }

  /** Reading each cell's leading total gives the dictionary back. */
  lemma FrontendFormatAllLeadingTotals(d: OD.Dict<int>)
    ensures forall i :: 0 <= i < |d| ==>
      FrontendFormatAll(d)[i].0 == d[i].0 && LeadingTotal(FrontendFormatAll(d)[i].1) == Ok(d[i].1)
  {
    forall i | 0 <= i < |d|
      ensures FrontendFormatAll(d)[i].0 == d[i].0 && LeadingTotal(FrontendFormatAll(d)[i].1) == Ok(d[i].1)
    {
      FrontendLeadingTotal(d[i].1);
    }
  }
}

=== FILE: recipe_graph.dfy ===
/**
 * The weighted recipe graph and the walk that turns an item into raw
 * materials (data/graph_recipes.py and the resolver of
 * data/recipes_raw_mats_database_builder.py, with the older builder at the
 * repository root).
 *
 * The graph is kept as each node's predecessors with edge weights, in the
 * order the edges were first added, which is the order networkx lists a
 * node's predecessors in. Quantities are reals: floating-point rounding is
 * not modelled. Python's recursion limit is the resolver's `fuel`.
 */
module RecipeGraph {
  import opened Results
  import opened Strings
  import OD = OrderedDict
  import opened Recipes

  /** Every node with its predecessors and the weight of each edge into it. */
  type Graph = map<string, OD.Dict<real>>

  /** The predecessors of a node, none for a node not in the graph. */
  function PredsOf(g: Graph, n: string): OD.Dict<real> {
    if n in g then g[n] else []
  }

  /**
   * `G.add_edge(material, item, weight=w)`: both ends become nodes; a
   * repeated edge keeps its place among the item's predecessors and takes
   * the new weight.
   */
  function AddEdge(g: Graph, material: string, item: string, w: real): (r: Graph)
    ensures forall n :: n in r <==> n in g || n == material || n == item
    ensures r[item] == OD.Set(PredsOf(g, item), material, w)
    ensures material != item ==> r[material] == PredsOf(g, material)
    ensures forall n :: n in g && n != item ==> r[n] == g[n]
  {
    var g1 := if material in g then g else g[material := []];
    g1[item := OD.Set(PredsOf(g1, item), material, w)]
  }

  /** `quantity / count`: a TypeError unless both are numbers, a ZeroDivisionError for a zero count. */
  function Weight(quantity: Amount, count: Amount): (r: Result<real>)
    ensures r.Ok? <==> quantity.Num? && count.Num? && count.x != 0.0
    ensures r.Ok? ==> r.value * count.x == quantity.x
  {
    if quantity.NotNumber? || count.NotNumber? then Err(TypeError)
    else if count.x == 0.0 then Err(ZeroDivisionError)
    else Ok(quantity.x / count.x)
  }

  /** One edge into `item` per ingredient, in order; the first failure stops the loop. */
  function AddEdges(g: Graph, item: string, ings: Ingredients, count: Amount): (r: Result<Graph>)
    decreases |ings|
  {
    if |ings| == 0 then Ok(g)
    else
      match AddEdges(g, item, ings[..|ings| - 1], count)
      case Err(e) => Err(e)
      case Ok(g1) =>
        match Weight(ings[|ings| - 1].1, count)
        case Err(e) => Err(e)
        case Ok(w) => Ok(AddEdge(g1, ings[|ings| - 1].0, item, w))
  }

  /** `ingredients.pop('count', 1)`: the recipe's yield, one when it names none. */
  function YieldOf(ings: Ingredients): Amount {
    OD.GetOr(ings, "count", Num(1.0))
  }

  /**
   * `build_crafting_graph`: for each item, an edge from each ingredient
   * other than `count`, weighted by the amount needed per item made.
   */
  function BuildGraph(cost: OD.Dict<Ingredients>): Result<Graph>
    decreases |cost|
  {
    if |cost| == 0 then Ok(map[])
    else
      match BuildGraph(cost[..|cost| - 1])
      case Err(e) => Err(e)
      case Ok(g) =>
        var (item, ings) := cost[|cost| - 1];
        AddEdges(g, item, OD.Without(ings, "count"), YieldOf(ings))
  }

  /** A successful `AddEdges` is a successful prefix followed by one more edge. */
  lemma AddEdgesLast(g: Graph, item: string, ings: Ingredients, count: Amount)
    requires |ings| > 0 && AddEdges(g, item, ings, count).Ok?
    ensures AddEdges(g, item, ings[..|ings| - 1], count).Ok?
    ensures Weight(ings[|ings| - 1].1, count).Ok?
    ensures AddEdges(g, item, ings, count).value
            == AddEdge(AddEdges(g, item, ings[..|ings| - 1], count).value, ings[|ings| - 1].0, item,
                       Weight(ings[|ings| - 1].1, count).value)
  {
  }

  /** Adding one item's edges adds the item and its ingredients as nodes, and no others. */
  lemma {:induction false} AddEdgesNodes(g: Graph, item: string, ings: Ingredients, count: Amount)
    requires AddEdges(g, item, ings, count).Ok?
    ensures forall n :: n in AddEdges(g, item, ings, count).value <==>
      n in g || (|ings| > 0 && n == item) || n in OD.Keys(ings)
    decreases |ings|
  {
    if |ings| > 0 {
      var init := ings[..|ings| - 1];
      AddEdgesLast(g, item, ings, count);
      AddEdgesNodes(g, item, init, count);
      assert OD.Keys(ings) == OD.Keys(init) + [ings[|ings| - 1].0];
    }
  }

  /** Adding one item's edges changes no other node's predecessors. */
  lemma {:induction false} AddEdgesFrame(g: Graph, item: string, ings: Ingredients, count: Amount)
    requires AddEdges(g, item, ings, count).Ok?
    ensures forall n :: n in g && n != item ==>
      n in AddEdges(g, item, ings, count).value && AddEdges(g, item, ings, count).value[n] == g[n]
    decreases |ings|
  {
    if |ings| > 0 {
      AddEdgesLast(g, item, ings, count);
      AddEdgesFrame(g, item, ings[..|ings| - 1], count);
    }
  }

  /**
   * Adding one item's edges gives it an edge from each ingredient, weighted
   * by the ingredient's amount over the yield.
   */
  lemma {:induction false} AddEdgesWeight(g: Graph, item: string, ings: Ingredients, count: Amount, i: nat)
    requires i < |ings| && forall j :: i < j < |ings| ==> ings[j].0 != ings[i].0
    requires AddEdges(g, item, ings, count).Ok?
    ensures item in AddEdges(g, item, ings, count).value
    ensures Weight(ings[i].1, count).Ok?
    ensures OD.Get(AddEdges(g, item, ings, count).value[item], ings[i].0) == Some(Weight(ings[i].1, count).value)
    decreases |ings|, 1
  {
    if i < |ings| - 1 {
      EarlierEdgeWeight(g, item, ings, count, i);
    } else {
      AddEdgesLast(g, item, ings, count);
      EdgeKept(AddEdges(g, item, ings[..|ings| - 1], count).value, ings[i].0, item, Weight(ings[i].1, count).value, ings[i].0);
    }
  }

  /** An ingredient before the last keeps the edge it was given, as no later one has its name. */
  lemma {:induction false} EarlierEdgeWeight(g: Graph, item: string, ings: Ingredients, count: Amount, i: nat)
    requires i < |ings| - 1 && forall j :: i < j < |ings| ==> ings[j].0 != ings[i].0
    requires AddEdges(g, item, ings, count).Ok?
    ensures item in AddEdges(g, item, ings, count).value
    ensures Weight(ings[i].1, count).Ok?
    ensures OD.Get(AddEdges(g, item, ings, count).value[item], ings[i].0) == Some(Weight(ings[i].1, count).value)
    decreases |ings|, 0
  {
    var init := ings[..|ings| - 1];
    var last := ings[|ings| - 1];
    AddEdgesLast(g, item, ings, count);
    assert init[i] == ings[i] && ings[i].0 != last.0;
    assert forall j :: i < j < |init| ==> init[j] == ings[j];
    AddEdgesWeight(g, item, init, count, i);
    EdgeKept(AddEdges(g, item, init, count).value, last.0, item, Weight(last.1, count).value, ings[i].0);
  }

  /** Adding an edge into `item` gives it that edge and keeps its other edges. */
  lemma EdgeKept(g: Graph, material: string, item: string, w: real, k: string)
    ensures item in AddEdge(g, material, item, w)
    ensures OD.Get(AddEdge(g, material, item, w)[item], k) ==
      if k == material then Some(w) else OD.Get(PredsOf(g, item), k)
  {
  }

  /** A `count` entry never becomes a node unless an item is itself named `count`. */
  lemma {:induction false} CountIsNoIngredient(cost: OD.Dict<Ingredients>)
    requires BuildGraph(cost).Ok?
    ensures "count" in BuildGraph(cost).value ==> exists i :: 0 <= i < |cost| && cost[i].0 == "count"
    decreases |cost|
  {
    if |cost| > 0 {
      var init := cost[..|cost| - 1];
      var (item, ings) := cost[|cost| - 1];
      CountIsNoIngredient(init);
      var g := BuildGraph(init).value;
      var rest := OD.Without(ings, "count");
      AddEdgesNodes(g, item, rest, YieldOf(ings));
      assert "count" !in OD.Keys(rest);
      if "count" in g {
        var i :| 0 <= i < |init| && init[i].0 == "count";
        assert cost[i].0 == "count";
      }
    }
  }

  /** A successful `BuildGraph` is a successful prefix followed by one more item's edges. */
  lemma BuildGraphLast(cost: OD.Dict<Ingredients>)
    requires |cost| > 0 && BuildGraph(cost).Ok?
    ensures BuildGraph(cost[..|cost| - 1]).Ok?
    ensures var (item, ings) := cost[|cost| - 1];
      AddEdges(BuildGraph(cost[..|cost| - 1]).value, item, OD.Without(ings, "count"), YieldOf(ings)) == BuildGraph(cost)
  {
  }

  /**
   * Every ingredient other than `count` of every item gives an edge into
   * the item whose weight is the ingredient's amount over the item's yield.
   */
  lemma {:induction false} BuildGraphEdge(cost: OD.Dict<Ingredients>, i: nat, j: nat)
    requires OD.Valid(cost) && i < |cost| && OD.Valid(cost[i].1)
    requires j < |OD.Without(cost[i].1, "count")|
    requires BuildGraph(cost).Ok?
    ensures var (item, ings) := cost[i];
      var e := OD.Without(ings, "count")[j];
      item in BuildGraph(cost).value && Weight(e.1, YieldOf(ings)).Ok?
      && OD.Get(BuildGraph(cost).value[item], e.0) == Some(Weight(e.1, YieldOf(ings)).value)
    decreases |cost|
  {
    var init := cost[..|cost| - 1];
    var (item, ings) := cost[|cost| - 1];
    BuildGraphLast(cost);
    var g := BuildGraph(init).value;
    if i == |cost| - 1 {
      OD.WithoutValid(ings, "count");
      AddEdgesWeight(g, item, OD.Without(ings, "count"), YieldOf(ings), j);
    } else {
      assert OD.Valid(init);
      assert init[i] == cost[i];
      BuildGraphEdge(init, i, j);
      assert cost[i].0 != item;
      AddEdgesFrame(g, item, OD.Without(ings, "count"), YieldOf(ings));
    }
  }

  /**
   * The quantity of a part: the item's quantity times the part's factor.
   * A function of its own, so that equal factors give equal quantities
   * without arithmetic.
   */
  function Scale(q: real, w: real): real {
    q * w
  }

  // ---------------------------------------------------------------------
  // Raw materials by name
  // ---------------------------------------------------------------------

  /** The names the raw-material pattern lists literally. */
  predicate AxiomWord(name: string) {
    name == "stone" || name == "cobblestone" || name == "slime_ball" || name == "redstone"
    || name == "bone_meal" || name == "wheat" || name == "quartz" || name == "resin_clump"
    || name == "coal" || name == "diamond" || name == "dried_kelp" || name == "emerald"
    || name == "honey_bottle" || name == "lapis_lazuli" || name == "white_wool" || name == "leather"
  }

  /** `\w+` followed by `suffix` up to the end of the name. */
  predicate WordsThen(name: string, suffix: string) {
    |name| > |suffix| && EndsWith(name, suffix) && AllWordChars(name[..|name| - |suffix|])
  }

  /**
   * The `raw_\w+(?!_block)` alternative as it behaves: the look-ahead sits
   * at the end of the name, where nothing follows, so it never rejects and
   * every `raw_` name of word characters matches.
   */
  predicate RawAsWritten(name: string) {
    |name| > 4 && StartsWith(name, "raw_") && AllWordChars(name[4..])
  }

  /** The alternative as evidently meant: a `raw_` name that is not a storage block. */
  predicate RawIntended(name: string) {
    RawAsWritten(name) && !EndsWith(name, "_block")
  }

  /**
   * The raw-material pattern of both builders, matched from the start of
   * the name to its end: the literal names, ingots, smithing templates,
   * dyes, and `raw_` materials.
   */
  predicate AxiomAsWritten(name: string) {
    AxiomWord(name) || WordsThen(name, "_ingot") || WordsThen(name, "smithing_template")
    || WordsThen(name, "dye") || RawAsWritten(name)
  }

  /** The pattern with its `raw_` alternative as evidently meant. The resolver takes its raw-material test as a parameter. */
  predicate Axiom(name: string) {
    AxiomWord(name) || WordsThen(name, "_ingot") || WordsThen(name, "smithing_template")
    || WordsThen(name, "dye") || RawIntended(name)
  }

  /** Storage blocks of raw ores are raw materials as written, and are not as meant. */
  lemma RawBlocksAreAxioms(ore: string)
    requires |ore| > 0 && AllWordChars(ore)
    ensures AxiomAsWritten("raw_" + ore + "_block")
    ensures !Axiom("raw_" + ore + "_block")
  {
    var name := "raw_" + ore + "_block";
    assert name[..4] == "raw_";
    assert name[4..] == ore + "_block";
    assert EndsWith(name, "_block");
    NotOtherAxiom(ore + "_block", 'k');
  }

  /** The two patterns agree on every name that is not a `raw_..._block`. */
  lemma AxiomAgrees(name: string)
    requires !(StartsWith(name, "raw_") && EndsWith(name, "_block"))
    ensures Axiom(name) <==> AxiomAsWritten(name)
  {
  }

  /**
   * A `raw_` name ending in a letter other than those the other
   * alternatives end with is not matched by them.
   */
  lemma NotOtherAxiom(rest: string, last: char)
    requires |rest| > 0 && rest[|rest| - 1] == last && last != 't' && last != 'e'
    ensures !AxiomWord("raw_" + rest)
    ensures !WordsThen("raw_" + rest, "_ingot") && !WordsThen("raw_" + rest, "smithing_template")
    ensures !WordsThen("raw_" + rest, "dye")
  {
    var name := "raw_" + rest;
    assert name[|name| - 1] == last;
    assert name[0] == 'r' && name[1] == 'a';
  }
}

=== FILE: recipe_listing.dfy ===
/**
 * `list_crafting_recipes` of data/graph_recipes.py (the same function sits
 * in the older builder at the repository root): a walk of the recipe graph
 * that collects the raw materials of an item as a set of (name, quantity)
 * pairs, marking the nodes it is inside.
 */
module RecipeListing {
  import opened Results
  import OD = OrderedDict
  import opened RecipeGraph

  /** The two sets `_list_crafting_recipes_recursive` mutates: raw materials found, and nodes being visited. */
  datatype Listing = Listing(raw: set<(string, real)>, visited: set<string>)

  /**
   * `_list_crafting_recipes_recursive(graph, t, raw, visited, q)`: a raw
   * material by name is recorded at once; any other node is marked
   * visited, recorded if it has no predecessors and otherwise walked
   * through, and unmarked with `set.remove`. `graph.predecessors` fails on
   * a name that is not a node. The marks are never read.
   */
  function ListFrom(g: Graph, axiom: string -> bool, t: string, s: Listing, q: real, fuel: nat): (r: Result<Listing>)
    ensures r.Err? ==> r.error == RecursionError || r.error == GraphError || r.error == KeyError
    decreases fuel, 0
  {
    if fuel == 0 then Err(RecursionError)
    else if axiom(t) then Ok(Listing(s.raw + {(t, q)}, s.visited))
    else if t !in g then Err(GraphError)
    else if |g[t]| == 0 then Ok(Listing(s.raw + {(t, q)}, (s.visited + {t}) - {t}))
    else
      match ListAll(g, axiom, g[t], Listing(s.raw, s.visited + {t}), q, fuel - 1)
      case Err(e) => Err(e)
      case Ok(s') => if t in s'.visited then Ok(Listing(s'.raw, s'.visited - {t})) else Err(KeyError)
  }

  /** The loop over predecessors: each is walked at `q` times its edge weight. */
  function ListAll(g: Graph, axiom: string -> bool, preds: OD.Dict<real>, s: Listing, q: real, fuel: nat)
    : (r: Result<Listing>)
    ensures r.Err? ==> r.error == RecursionError || r.error == GraphError || r.error == KeyError
    decreases fuel, |preds| + 1
  {
    if |preds| == 0 then Ok(s)
    else
      match ListFrom(g, axiom, preds[0].0, s, Scale(q, preds[0].1), fuel)
      case Err(e) => Err(e)
      case Ok(s') => ListAll(g, axiom, preds[1..], s', q, fuel)
  }

  /** A pair the walk records is a raw material: one by name, or a node with no predecessors. */
  predicate LeafPair(g: Graph, axiom: string -> bool, p: (string, real)) {
    axiom(p.0) || (p.0 in g && |g[p.0]| == 0)
  }

  /**
   * The walk only adds raw materials to what was found, and on return no
   * node is left marked that was not marked before.
   */
  lemma {:induction false} ListFromShape(g: Graph, axiom: string -> bool, t: string, s: Listing, q: real, fuel: nat)
    requires ListFrom(g, axiom, t, s, q, fuel).Ok?
    ensures s.raw <= ListFrom(g, axiom, t, s, q, fuel).value.raw
    ensures forall p :: p in ListFrom(g, axiom, t, s, q, fuel).value.raw && p !in s.raw ==> LeafPair(g, axiom, p)
    ensures ListFrom(g, axiom, t, s, q, fuel).value.visited <= s.visited
    decreases fuel, 0
  {
    if fuel > 0 && !axiom(t) && t in g && |g[t]| > 0 {
      ListAllShape(g, axiom, g[t], Listing(s.raw, s.visited + {t}), q, fuel - 1);
    }
  }

  lemma {:induction false} ListAllShape(g: Graph, axiom: string -> bool, preds: OD.Dict<real>, s: Listing, q: real, fuel: nat)
    requires ListAll(g, axiom, preds, s, q, fuel).Ok?
    ensures s.raw <= ListAll(g, axiom, preds, s, q, fuel).value.raw
    ensures forall p :: p in ListAll(g, axiom, preds, s, q, fuel).value.raw && p !in s.raw ==> LeafPair(g, axiom, p)
    ensures ListAll(g, axiom, preds, s, q, fuel).value.visited <= s.visited
    decreases fuel, |preds| + 1
  {
    if |preds| > 0 {
      var s' := ListFrom(g, axiom, preds[0].0, s, Scale(q, preds[0].1), fuel).value;
      ListFromShape(g, axiom, preds[0].0, s, Scale(q, preds[0].1), fuel);
      ListAllShape(g, axiom, preds[1..], s', q, fuel);
    }
  }

  /**
   * `list_crafting_recipes`: `None` for a name that is not a node (the
   * "No known recipes" message); otherwise the raw materials found from
   * quantity 1, starting with nothing marked.
   */
  function ListCraftingRecipes(g: Graph, axiom: string -> bool, t: string, fuel: nat)
    : (r: Result<Option<set<(string, real)>>>)
    ensures t !in g ==> r == Ok(None)
  {
    if t !in g then Ok(None)
    else
      match ListFrom(g, axiom, t, Listing({}, {}), 1.0, fuel)
      case Err(e) => Err(e)
      case Ok(s) => Ok(Some(s.raw))
  }

  /**
   * Listing an item leaves the marks as it found them, with nothing
   * marked, and everything it reports is a raw material.
   */
  lemma ListCraftingRecipesShape(g: Graph, axiom: string -> bool, t: string, fuel: nat)
    requires t in g && ListFrom(g, axiom, t, Listing({}, {}), 1.0, fuel).Ok?
    ensures ListFrom(g, axiom, t, Listing({}, {}), 1.0, fuel).value.visited == {}
    ensures ListCraftingRecipes(g, axiom, t, fuel).Ok?
    ensures forall p :: p in ListCraftingRecipes(g, axiom, t, fuel).value.value ==> LeafPair(g, axiom, p)
  {
    ListFromShape(g, axiom, t, Listing({}, {}), 1.0, fuel);
  }

  /**
   * The marks are never consulted, so they do not stop a cycle: a node
   * that is its own only ingredient is walked until the recursion limit.
   */
  lemma {:induction false} SelfLoopNeverEnds(g: Graph, axiom: string -> bool, t: string, w: real, s: Listing, q: real, fuel: nat)
    requires !axiom(t) && t in g && g[t] == [(t, w)]
    ensures ListFrom(g, axiom, t, s, q, fuel) == Err(RecursionError)
    decreases fuel
  {
    if fuel > 0 {
      var s1 := Listing(s.raw, s.visited + {t});
      SelfLoopNeverEnds(g, axiom, t, w, s1, Scale(q, w), fuel - 1);
      assert g[t][0].0 == t;
    }
  }

  // ---------------------------------------------------------------------
  // The walk as its comments describe it: the marks cut cycles
  // ---------------------------------------------------------------------

  /**
   * The recursive listing with the cycle check its comments announce: a
   * node that is already being walked through is skipped. Everything else
   * is as in `ListFrom`.
   */
  function GuardedFrom(g: Graph, axiom: string -> bool, t: string, s: Listing, q: real, fuel: nat)
    : (r: Result<Listing>)
    ensures r.Err? ==> r.error == RecursionError || r.error == GraphError
    ensures t in s.visited && !axiom(t) && fuel > 0 ==> r == Ok(s)
    decreases fuel, 0
  {
    if fuel == 0 then Err(RecursionError)
    else if axiom(t) then Ok(Listing(s.raw + {(t, q)}, s.visited))
    else if t in s.visited then Ok(s)
    else if t !in g then Err(GraphError)
    else if |g[t]| == 0 then Ok(Listing(s.raw + {(t, q)}, s.visited))
    else
      match GuardedAll(g, axiom, g[t], Listing(s.raw, s.visited + {t}), q, fuel - 1)
      case Err(e) => Err(e)
      case Ok(s') => Ok(Listing(s'.raw, s'.visited - {t}))
  }

  /** The loop over predecessors of the guarded walk. */
  function GuardedAll(g: Graph, axiom: string -> bool, preds: OD.Dict<real>, s: Listing, q: real, fuel: nat)
    : (r: Result<Listing>)
    ensures r.Err? ==> r.error == RecursionError || r.error == GraphError
    decreases fuel, |preds| + 1
  {
    if |preds| == 0 then Ok(s)
    else
      match GuardedFrom(g, axiom, preds[0].0, s, Scale(q, preds[0].1), fuel)
      case Err(e) => Err(e)
      case Ok(s') => GuardedAll(g, axiom, preds[1..], s', q, fuel)
  }

  /** The guarded walk leaves the marks exactly as it found them, at every depth. */
  lemma {:induction false} GuardedKeepsMarks(g: Graph, axiom: string -> bool, t: string, s: Listing, q: real, fuel: nat)
    requires GuardedFrom(g, axiom, t, s, q, fuel).Ok?
    ensures GuardedFrom(g, axiom, t, s, q, fuel).value.visited == s.visited
    decreases fuel, 0
  {
    if fuel > 0 && !axiom(t) && t !in s.visited && t in g && |g[t]| > 0 {
      GuardedAllKeepsMarks(g, axiom, g[t], Listing(s.raw, s.visited + {t}), q, fuel - 1);
    }
  }

  lemma {:induction false} GuardedAllKeepsMarks(g: Graph, axiom: string -> bool, preds: OD.Dict<real>, s: Listing, q: real, fuel: nat)
    requires GuardedAll(g, axiom, preds, s, q, fuel).Ok?
    ensures GuardedAll(g, axiom, preds, s, q, fuel).value.visited == s.visited
    decreases fuel, |preds| + 1
  {
    if |preds| > 0 {
      var s' := GuardedFrom(g, axiom, preds[0].0, s, Scale(q, preds[0].1), fuel).value;
      GuardedKeepsMarks(g, axiom, preds[0].0, s, Scale(q, preds[0].1), fuel);
      GuardedAllKeepsMarks(g, axiom, preds[1..], s', q, fuel);
    }
  }

  /** The nodes of the graph not marked yet: the most the guarded walk can still nest. */
  function Unmarked(g: Graph, visited: set<string>): nat {
    |g.Keys - visited|
  }

  /** Marking a node of the graph leaves one node fewer unmarked. */
  lemma MarkOneMore(g: Graph, visited: set<string>, t: string)
    requires t in g && t !in visited
    ensures Unmarked(g, visited + {t}) == Unmarked(g, visited) - 1
  {
    var a := g.Keys - visited;
    assert t in a;
    assert g.Keys - (visited + {t}) == a - {t};
  }

  /**
   * With more fuel than there are unmarked nodes, the guarded walk never
   * reaches the recursion limit, whatever cycles the graph holds: it can
   * fail only on a predecessor that is not a node.
   */
  lemma {:induction false} GuardedEnds(g: Graph, axiom: string -> bool, t: string, s: Listing, q: real, fuel: nat)
    requires fuel > Unmarked(g, s.visited)
    ensures GuardedFrom(g, axiom, t, s, q, fuel).Err? ==> GuardedFrom(g, axiom, t, s, q, fuel).error == GraphError
    decreases fuel, 0
  {
    if !axiom(t) && t !in s.visited && t in g && |g[t]| > 0 {
      var s1 := Listing(s.raw, s.visited + {t});
      assert fuel - 1 > Unmarked(g, s1.visited) by { MarkOneMore(g, s.visited, t); }
      GuardedAllEnds(g, axiom, g[t], s1, q, fuel - 1);
      GuardedDescends(g, axiom, t, s, q, fuel);
    } else {
      GuardedShallow(g, axiom, t, s, q, fuel);
    }
  }

  /** A walk that does not descend fails, if at all, on a predecessor that is not a node. */
  lemma GuardedShallow(g: Graph, axiom: string -> bool, t: string, s: Listing, q: real, fuel: nat)
    requires fuel > 0 && !(!axiom(t) && t !in s.visited && t in g && |g[t]| > 0)
    ensures GuardedFrom(g, axiom, t, s, q, fuel).Err? ==> GuardedFrom(g, axiom, t, s, q, fuel).error == GraphError
  {
  }

  lemma GuardedDescends(g: Graph, axiom: string -> bool, t: string, s: Listing, q: real, fuel: nat)
    requires !axiom(t) && t !in s.visited && t in g && |g[t]| > 0 && fuel > 0
    ensures var r := GuardedAll(g, axiom, g[t], Listing(s.raw, s.visited + {t}), q, fuel - 1);
            GuardedFrom(g, axiom, t, s, q, fuel).Err? ==> r.Err? && GuardedFrom(g, axiom, t, s, q, fuel).error == r.error
  {
  }

  lemma {:induction false} GuardedAllEnds(g: Graph, axiom: string -> bool, preds: OD.Dict<real>, s: Listing, q: real, fuel: nat)
    requires fuel > Unmarked(g, s.visited)
    ensures GuardedAll(g, axiom, preds, s, q, fuel).Err? ==> GuardedAll(g, axiom, preds, s, q, fuel).error == GraphError
    decreases fuel, |preds| + 1
  {
    if |preds| > 0 {
      GuardedEnds(g, axiom, preds[0].0, s, Scale(q, preds[0].1), fuel);
      var r := GuardedFrom(g, axiom, preds[0].0, s, Scale(q, preds[0].1), fuel);
      if r.Ok? {
        GuardedKeepsMarks(g, axiom, preds[0].0, s, Scale(q, preds[0].1), fuel);
        GuardedAllEnds(g, axiom, preds[1..], r.value, q, fuel);
      }
    }
  }

  /** With the check, a node that is its own only ingredient ends at once and finds nothing. */
  lemma GuardedSelfLoopEnds(g: Graph, axiom: string -> bool, t: string, w: real, s: Listing, q: real, fuel: nat)
    requires !axiom(t) && t in g && g[t] == [(t, w)] && t !in s.visited && fuel >= 2
    ensures GuardedFrom(g, axiom, t, s, q, fuel) == Ok(s)
  {
    var s1 := Listing(s.raw, s.visited + {t});
    assert GuardedFrom(g, axiom, t, s1, Scale(q, w), fuel - 1) == Ok(s1);
    assert g[t][0] == (t, w) && g[t][1..] == [];
    assert GuardedAll(g, axiom, g[t][1..], s1, q, fuel - 1) == Ok(s1);
    assert GuardedAll(g, axiom, g[t], s1, q, fuel - 1) == Ok(s1);
    assert s1.visited - {t} == s.visited;
  }
}

=== FILE: recipes.dfy ===
/**
 * Reading the game's recipe files into ingredient lists: which recipes
 * count, how each kind of recipe lists its ingredients, how names are
 * cleaned, and which recipe wins when several make the same item
 * (data/recipes_raw_mats_database_builder.py, and the older builder
 * recipes_raw_mats_database_builder.py at the repository root).
 *
 * Recipe files are JSON; the directory listing and file reading are left
 * to the caller, who passes the recipes as a list of (file stem, recipe)
 * pairs in the order the directory listed them.
 */
module Recipes {
  import opened Results
  import opened Strings
  import opened JsonValues
  import OD = OrderedDict
  import Seqs

  /** The builder under data/ and the older one at the repository root. */
  datatype Builder = Current | Legacy

  /**
   * An ingredient amount. Ingredient amounts are numbers; a recipe's
   * `count` is copied from its JSON and need not be one.
   */
  datatype Amount = Num(x: real) | NotNumber

  /** One recipe's ingredients and amounts, `count` included, in insertion order. */
  type Ingredients = OD.Dict<Amount>

  // ---------------------------------------------------------------------
  // Recipes that are skipped
  // ---------------------------------------------------------------------

  /** `re.match(r'dye_\w+_(bed|carpet)', name)`: anchored at the start, not at the end. */
  predicate DyedBedOrCarpet(name: string) {
    StartsWith(name, "dye_")
    && exists i :: 4 < i <= |name| && AllWordChars(name[4..i])
                   && (StartsWith(name[i..], "_bed") || StartsWith(name[i..], "_carpet"))
  }

  /**
   * The ignore pattern of each builder: re-dyed beds and carpets, and for
   * the older builder also anything whose name starts with `bundle`.
   */
  predicate Ignored(b: Builder, name: string) {
    DyedBedOrCarpet(name) || (b == Legacy && StartsWith(name, "bundle"))
  }

  /** Every re-dye recipe of a bed or carpet is ignored, whatever follows its name. */
  lemma DyedBedsIgnored(b: Builder, colour: string, rest: string)
    requires |colour| > 0 && AllWordChars(colour)
    ensures Ignored(b, "dye_" + colour + "_bed" + rest)
    ensures Ignored(b, "dye_" + colour + "_carpet" + rest)
  {
    var i := 4 + |colour|;
    var bed := "dye_" + colour + "_bed" + rest;
    assert bed[..4] == "dye_" && bed[4..i] == colour && bed[i..] == "_bed" + rest;
    var carpet := "dye_" + colour + "_carpet" + rest;
    assert carpet[..4] == "dye_" && carpet[4..i] == colour && carpet[i..] == "_carpet" + rest;
  }

  /** Conversely, the current builder ignores only names that start `dye_` and mention a bed or carpet. */
  lemma IgnoredNamesAreDyed(name: string)
    requires Ignored(Current, name)
    ensures StartsWith(name, "dye_")
    ensures Contains(name, "_bed") || Contains(name, "_carpet")
  {
    var i :| 4 < i <= |name| && AllWordChars(name[4..i])
             && (StartsWith(name[i..], "_bed") || StartsWith(name[i..], "_carpet"));
    if StartsWith(name[i..], "_bed") {
      ContainsAt(name, "_bed", i);
    } else {
      ContainsAt(name, "_carpet", i);
    }
  }

  // ---------------------------------------------------------------------
  // Reading fields
  // ---------------------------------------------------------------------

  /** `j[key]`: a KeyError for a missing key; subscripting anything but an object by a string is a TypeError. */
  function Field(j: Json, key: string): (r: Result<Json>)
    ensures r.Ok? <==> j.JObj? && key in j.fields
    ensures r.Ok? ==> key in j.fields && r.value == j.fields[key]
    ensures r.Err? ==> r.error == (if j.JObj? then KeyError else TypeError)
  {
    match j
    case JObj(f) => if key in f then Ok(f[key]) else Err(KeyError)
    case _ => Err(TypeError)
  }

  /** `j.replace('minecraft:', '')`: only strings have `replace`. */
  function NameOf(j: Json): (r: Result<string>)
    ensures r.Ok? <==> j.JStr?
    ensures r.Ok? ==> r.value == Unprefixed(j.s)
    ensures r.Err? ==> r.error == AttributeError
  {
    match j
    case JStr(s) => Ok(Unprefixed(s))
    case _ => Err(AttributeError)
  }

  /** `j[key].replace('minecraft:', '')`. */
  function NamedField(j: Json, key: string): (r: Result<string>)
    ensures r.Ok? <==> Field(j, key).Ok? && Field(j, key).value.JStr?
    ensures r.Ok? ==> r.value == Unprefixed(Field(j, key).value.s)
  {
    match Field(j, key)
    case Err(e) => Err(e)
    case Ok(v) => NameOf(v)
  }

  /** The amount a JSON value stands for: numbers and booleans are numbers to Python. */
  function AmountOf(j: Json): Amount {
    match j
    case JInt(i) => Num(i as real)
    case JReal(x) => Num(x)
    case JBool(b) => Num(if b then 1.0 else 0.0)
    case _ => NotNumber
  }

  // ---------------------------------------------------------------------
  // add_ingredient
  // ---------------------------------------------------------------------

  /** `len(j)`, defined for strings, lists and objects only. */
  function Size(j: Json): Option<nat> {
    match j
    case JStr(s) => Some(|s|)
    case JList(xs) => Some(|xs|)
    case JObj(f) => Some(|f|)
    case _ => None
  }

  predicate AllSized(options: seq<Json>) {
    forall i :: 0 <= i < |options| ==> Size(options[i]).Some?
  }

  /** Option `k` is no longer than any option and strictly shorter than every option before it. */
  predicate ShortestAt(options: seq<Json>, k: nat)
    requires AllSized(options) && k < |options|
  {
    (forall j :: 0 <= j < |options| ==> Size(options[k]).value <= Size(options[j]).value)
    && (forall j :: 0 <= j < k ==> Size(options[j]).value > Size(options[k]).value)
  }

  /** The position `min(options, key=len)` picks: it keeps the first of the shortest. */
  function ShortestIndex(options: seq<Json>): (k: nat)
    requires |options| > 0 && AllSized(options)
    ensures k < |options| && ShortestAt(options, k)
  {
    if |options| == 1 then 0
    else
      var init := options[..|options| - 1];
      var k := ShortestIndex(init);
      assert forall j :: 0 <= j < |init| ==> init[j] == options[j];
      if Size(options[|options| - 1]).value < Size(options[k]).value then |options| - 1 else k
  }

  /** `min(options, key=len)`: a ValueError when empty, a TypeError if an option has no length. */
  function Shortest(options: seq<Json>): (r: Result<Json>)
    ensures |options| == 0 ==> r == Err(ValueError)
    ensures |options| > 0 && !AllSized(options) ==> r == Err(TypeError)
    ensures |options| > 0 && AllSized(options) ==>
      r.Ok? && exists k :: 0 <= k < |options| && ShortestAt(options, k) && r.value == options[k]
  {
    if |options| == 0 then Err(ValueError)
    else if !AllSized(options) then Err(TypeError)
    else Ok(options[ShortestIndex(options)])
  }

  /** The amount recorded for `k`, if it is a number. */
  function NumberAt(ings: Ingredients, k: string): Option<real> {
    var a := OD.Get(ings, k);
    if a.Some? && a.value.Num? then Some(a.value.x) else None
  }

  /** `ingredients[k] = ingredients.setdefault(k, 0) + 1.0`. */
  function Bump(ings: Ingredients, k: string): (r: Result<Ingredients>)
    ensures OD.Get(ings, k) != Some(NotNumber) ==> r.Ok?
    ensures r.Ok? ==> OD.Get(r.value, k) == Some(Num(NumberAt(ings, k).GetOr(0.0) + 1.0))
    ensures r.Ok? ==> forall k' :: k' != k ==> OD.Get(r.value, k') == OD.Get(ings, k')
  {
    if OD.Get(ings, k) == Some(NotNumber) then Err(TypeError)
    else Ok(OD.Set(ings, k, Num(NumberAt(ings, k).GetOr(0.0) + 1.0)))
  }

  /**
   * `add_ingredient`: a list of alternatives stands for its shortest
   * (first of the shortest) option; the chosen name loses its namespace
   * and its amount goes up by one.
   */
  function AddIngredient(ings: Ingredients, item: Json): (r: Result<Ingredients>)
    ensures item.JStr? && OD.Get(ings, Unprefixed(item.s)) != Some(NotNumber) ==>
      r == Bump(ings, Unprefixed(item.s))
  {
    var chosen := if item.JList? then Shortest(item.items) else Ok(item);
    match chosen
    case Err(e) => Err(e)
    case Ok(c) =>
      match NameOf(c)
      case Err(e) => Err(e)
      case Ok(n) => Bump(ings, n)
  }

  /** `add_ingredient` for each item in turn; the first failure stops the loop. */
  function AddItems(ings: Ingredients, items: seq<Json>): Result<Ingredients>
    decreases |items|
  {
    if |items| == 0 then Ok(ings)
    else
      match AddItems(ings, items[..|items| - 1])
      case Err(e) => Err(e)
      case Ok(acc) => AddIngredient(acc, items[|items| - 1])
  }

  /** How often `k` occurs in a list, counted in the floats the tally adds up. */
  function Occurrences(names: seq<string>, k: string): (r: real)
    ensures r >= 0.0
  {
    if |names| == 0 then 0.0
    else Occurrences(names[..|names| - 1], k) + (if names[|names| - 1] == k then 1.0 else 0.0)
  }

  predicate AllStrings(items: seq<Json>) {
    forall i :: 0 <= i < |items| ==> items[i].JStr?
  }

  /** The names plain string items stand for. */
  function PlainNames(items: seq<Json>): (r: seq<string>)
    requires AllStrings(items)
    ensures |r| == |items|
    ensures forall i :: 0 <= i < |items| ==> r[i] == Unprefixed(items[i].s)
  {
    if |items| == 0 then []
    else PlainNames(items[..|items| - 1]) + [Unprefixed(items[|items| - 1].s)]
  }

  /** The tally of a list of names: each name's amount is its number of occurrences. */
  ghost predicate IsTally(ings: Ingredients, names: seq<string>) {
    forall k :: OD.Get(ings, k) == TallyOf(names, k)
  }

  /** The entry a tally holds for `k`: none for a name never listed, otherwise its count. */
  function TallyOf(names: seq<string>, k: string): Option<Amount> {
    var o := Occurrences(names, k);
    if o == 0.0 then None else Some(Num(o))
  }

  /**
   * Adding plain string ingredients one by one never fails, and each
   * name's amount is the number of times it was listed.
   */
  lemma {:induction false} AddItemsTallies(items: seq<Json>)
    requires AllStrings(items)
    ensures AddItems([], items).Ok?
    ensures IsTally(AddItems([], items).value, PlainNames(items))
    decreases |items|
  {
    if |items| > 0 {
      var init := items[..|items| - 1];
      assert AllStrings(init) by {
        forall i | 0 <= i < |init| ensures init[i].JStr? { assert init[i] == items[i]; }
      }
      AddItemsTallies(init);
      var acc := AddItems([], init).value;
      var n := Unprefixed(items[|items| - 1].s);
      assert PlainNames(items) == PlainNames(init) + [n];
      TallyStep(acc, PlainNames(init), n);
    }
  }

  lemma OccurrencesSnoc(names: seq<string>, n: string, k: string)
    ensures Occurrences(names + [n], k) == Occurrences(names, k) + (if n == k then 1.0 else 0.0)
  {
    Seqs.SnocInit(names, n);
  }

  /** Listing `n` once more adds one to its entry and leaves the others. */
  lemma TallyOfSnoc(names: seq<string>, n: string, k: string)
    ensures TallyOf(names + [n], k) == (if k == n then Some(Num(Occurrences(names, k) + 1.0))
                                        else TallyOf(names, k))
  {
    OccurrencesSnoc(names, n, k);
  }

  /** Bumping a name whose entry is absent or a number `o` leaves the number `o + 1`. */
  lemma BumpCount(acc: Ingredients, n: string, o: real)
    requires OD.Get(acc, n) == (if o == 0.0 then None else Some(Num(o)))
    ensures Bump(acc, n).Ok? && OD.Get(Bump(acc, n).value, n) == Some(Num(o + 1.0))
  {
    assert NumberAt(acc, n).GetOr(0.0) == o;
  }

  /** The amount of the name just listed goes up by one. */
  lemma TallyAtSame(acc: Ingredients, names: seq<string>, n: string)
    requires OD.Get(acc, n) == TallyOf(names, n)
    ensures Bump(acc, n).Ok?
    ensures OD.Get(Bump(acc, n).value, n) == TallyOf(names + [n], n)
  {
    BumpCount(acc, n, Occurrences(names, n));
    TallyOfSnoc(names, n, n);
  }

  /** The amounts of the other names stay as they were. */
  lemma TallyAtOther(acc: Ingredients, names: seq<string>, n: string, k: string)
    requires OD.Get(acc, n) == TallyOf(names, n) && OD.Get(acc, k) == TallyOf(names, k) && k != n
    ensures Bump(acc, n).Ok?
    ensures OD.Get(Bump(acc, n).value, k) == TallyOf(names + [n], k)
  {
    TallyOfSnoc(names, n, k);
  }

  /** One more name in the list is one more in its tally. */
  lemma TallyStep(acc: Ingredients, names: seq<string>, n: string)
    requires IsTally(acc, names)
    ensures Bump(acc, n).Ok?
    ensures IsTally(Bump(acc, n).value, names + [n])
  {
    assert OD.Get(acc, n) == TallyOf(names, n);
    TallyAtSame(acc, names, n);
    forall k ensures OD.Get(Bump(acc, n).value, k) == TallyOf(names + [n], k) {
      if k != n {
        assert OD.Get(acc, k) == TallyOf(names, k);
        TallyAtOther(acc, names, n, k);
      }
    }
  }

  // ---------------------------------------------------------------------
  // Ingredients of each kind of recipe
  // ---------------------------------------------------------------------

  /** `''.join(rows)`: a list of strings, or a string, which joins to itself. */
  function JoinRows(rows: Json): (r: Result<string>)
    ensures rows.JList? && AllStrings(rows.items) ==> r == Ok(Concat(rows.items))
  {
    match rows
    case JStr(s) => Ok(s)
    case JList(xs) => if AllStrings(xs) then Ok(Concat(xs)) else Err(TypeError)
    case _ => Err(TypeError)
  }

  function Concat(xs: seq<Json>): string
    requires AllStrings(xs)
  {
    if |xs| == 0 then "" else Concat(xs[..|xs| - 1]) + xs[|xs| - 1].s
  }

  /** For each pattern symbol in turn, look up its ingredient in the key table and add it. */
  function AddPattern(ings: Ingredients, keys: Json, pattern: string): Result<Ingredients>
    decreases |pattern|
  {
    if |pattern| == 0 then Ok(ings)
    else
      match AddPattern(ings, keys, pattern[..|pattern| - 1])
      case Err(e) => Err(e)
      case Ok(acc) =>
        match Field(keys, [pattern[|pattern| - 1]])
        case Err(e) => Err(e)
        case Ok(item) => AddIngredient(acc, item)
  }

  /** The ingredient each pattern symbol stands for, when the key table has them all. */
  function Lookups(keys: map<string, Json>, pattern: string): (r: seq<Json>)
    requires forall i :: 0 <= i < |pattern| ==> [pattern[i]] in keys
    ensures |r| == |pattern|
    ensures forall i :: 0 <= i < |pattern| ==> r[i] == keys[[pattern[i]]]
  {
    if |pattern| == 0 then []
    else Lookups(keys, pattern[..|pattern| - 1]) + [keys[[pattern[|pattern| - 1]]]]
  }

  /** When every symbol has a key, the pattern adds the same as the list of looked-up items. */
  lemma {:induction false} PatternAsItems(ings: Ingredients, keys: map<string, Json>, pattern: string)
    requires forall i :: 0 <= i < |pattern| ==> [pattern[i]] in keys
    ensures AddPattern(ings, JObj(keys), pattern) == AddItems(ings, Lookups(keys, pattern))
    decreases |pattern|
  {
    if |pattern| > 0 {
      var init := pattern[..|pattern| - 1];
      PatternAsItems(ings, keys, init);
      assert Lookups(keys, pattern)[..|pattern| - 1] == Lookups(keys, init);
    }
  }

  /** `get_shaped_ingredients`. */
  function ShapedIngredients(recipe: Json): Result<Ingredients> {
    match Field(recipe, "key")
    case Err(e) => Err(e)
    case Ok(keys) =>
      match Field(recipe, "pattern")
      case Err(e) => Err(e)
      case Ok(rows) =>
        match JoinRows(rows)
        case Err(e) => Err(e)
        case Ok(p) =>
          match AddPattern([], keys, RemoveChar(p, ' '))
          case Err(e) => Err(e)
          case Ok(ings) => SetCount(ings, recipe)
  }

  /** `ingredients['count'] = recipe['result']['count']`. */
  function SetCount(ings: Ingredients, recipe: Json): Result<Ingredients> {
    match Field(recipe, "result")
    case Err(e) => Err(e)
    case Ok(res) =>
      match Field(res, "count")
      case Err(e) => Err(e)
      case Ok(c) => Ok(OD.Set(ings, "count", AmountOf(c)))
  }

  /**
   * A shaped recipe whose pattern rows are strings and whose every
   * non-space symbol has a plain string ingredient contributes one per
   * symbol occurrence to that ingredient, and its `count` is the result
   * count.
   */
  lemma ShapedCounts(keys: map<string, Json>, rows: seq<Json>, result: map<string, Json>, others: map<string, Json>)
    requires AllStrings(rows)
    requires "count" in result
    requires forall i :: 0 <= i < |RemoveChar(Concat(rows), ' ')| ==>
      var c := RemoveChar(Concat(rows), ' ')[i]; [c] in keys && keys[[c]].JStr?
    ensures
      var recipe := JObj(others["key" := JObj(keys)]["pattern" := JList(rows)]["result" := JObj(result)]);
      var pattern := RemoveChar(Concat(rows), ' ');
      var r := ShapedIngredients(recipe);
      r.Ok?
      && OD.Get(r.value, "count") == Some(AmountOf(result["count"]))
      && forall k :: k != "count" ==>
        OD.Get(r.value, k) == TallyOf(PlainNames(Lookups(keys, pattern)), k)
  {
    var recipe := JObj(others["key" := JObj(keys)]["pattern" := JList(rows)]["result" := JObj(result)]);
    var pattern := RemoveChar(Concat(rows), ' ');
    var items := Lookups(keys, pattern);
    assert AllStrings(items);
    PatternAsItems([], keys, pattern);
    AddItemsTallies(items);
    assert Field(recipe, "key") == Ok(JObj(keys));
    assert Field(recipe, "pattern") == Ok(JList(rows));
    assert Field(recipe, "result") == Ok(JObj(result));
  }

  /** `get_shapeless_ingredients`: a list of ingredients, or a string, whose characters are the ingredients. */
  function ShapelessIngredients(recipe: Json): Result<Ingredients> {
    match Field(recipe, "ingredients")
    case Err(e) => Err(e)
    case Ok(JList(xs)) =>
      (match AddItems([], xs)
       case Err(e) => Err(e)
       case Ok(ings) => SetCount(ings, recipe))
    case Ok(JStr(s)) =>
      (match AddItems([], seq(|s|, i requires 0 <= i < |s| => JStr([s[i]])))
       case Err(e) => Err(e)
       case Ok(ings) => SetCount(ings, recipe))
    case Ok(_) => Err(TypeError)
  }

  /** `get_smelting_ingredients`: one ingredient, and one item made. */
  function SmeltingIngredients(recipe: Json): (r: Result<Ingredients>)
    ensures r.Ok? ==> OD.Get(r.value, "count") == Some(Num(1.0))
  {
    match Field(recipe, "ingredient")
    case Err(e) => Err(e)
    case Ok(item) =>
      match AddIngredient([], item)
      case Err(e) => Err(e)
      case Ok(ings) => Ok(OD.Set(ings, "count", Num(1.0)))
  }

  /** A dictionary display `{k1: 1.0, ..., 'count': 1.0}`: a repeated key keeps its first place. */
  function OnceEach(names: seq<string>): (r: Ingredients)
    ensures forall k :: OD.Has(r, k) <==> k in names
    ensures forall k :: k in names ==> OD.Get(r, k) == Some(Num(1.0))
  {
    if |names| == 0 then []
    else
      var init := names[..|names| - 1];
      var last := names[|names| - 1];
      assert forall k :: k in names <==> k in init || k == last by {
        assert names == init + [last];
      }
      OD.Set(OnceEach(init), last, Num(1.0))
  }

  /** `smithing_transform` (current builder only): the addition, the base item and the template, one each. */
  function SmithingIngredients(recipe: Json): (r: Result<Ingredients>)
    ensures r.Ok? <==> NamedField(recipe, "addition").Ok? && NamedField(recipe, "base").Ok? && NamedField(recipe, "template").Ok?
    ensures r.Ok? ==>
      r.value == OnceEach([NamedField(recipe, "addition").value, NamedField(recipe, "base").value,
                           NamedField(recipe, "template").value, "count"])
  {
    match NamedField(recipe, "addition")
    case Err(e) => Err(e)
    case Ok(a) =>
      match NamedField(recipe, "base")
      case Err(e) => Err(e)
      case Ok(b) =>
        match NamedField(recipe, "template")
        case Err(e) => Err(e)
        case Ok(t) => Ok(OnceEach([a, b, t, "count"]))
  }

  /** `crafting_transmute`: a shulker box and the dye. */
  function TransmuteIngredients(recipe: Json): (r: Result<Ingredients>)
    ensures r.Ok? <==> NamedField(recipe, "material").Ok?
    ensures r.Ok? ==> r.value == OnceEach(["shulker_box", NamedField(recipe, "material").value, "count"])
  {
    match NamedField(recipe, "material")
    case Err(e) => Err(e)
    case Ok(dye) => Ok(OnceEach(["shulker_box", dye, "count"]))
  }

  /** `recipe['ingredients'][0]`. */
  function FirstIngredient(recipe: Json): Result<Json> {
    match Field(recipe, "ingredients")
    case Err(e) => Err(e)
    case Ok(JList(xs)) => if |xs| == 0 then Err(IndexError) else Ok(xs[0])
    case Ok(JStr(s)) => if |s| == 0 then Err(IndexError) else Ok(JStr([s[0]]))
    case Ok(JObj(_)) => Err(KeyError)
    case Ok(_) => Err(TypeError)
  }

  /** Re-dyeing wool: white wool and the dye, except that white dye needs only the wool. */
  function DyeWoolIngredients(recipe: Json): (r: Result<Ingredients>)
    ensures r.Ok? ==> OD.Has(r.value, "white_wool") && OD.Has(r.value, "count")
    ensures r.Ok? ==> forall k :: OD.Has(r.value, k) ==> OD.Get(r.value, k) == Some(Num(1.0))
    ensures r.Ok? ==> !OD.Has(r.value, "white_dye")
  {
    match FirstIngredient(recipe)
    case Err(e) => Err(e)
    case Ok(item) =>
      match NameOf(item)
      case Err(e) => Err(e)
      case Ok(dye) =>
        var names := if dye == "white_dye" then ["white_wool", "count"] else ["white_wool", dye, "count"];
        assert names[0] == "white_wool" && names[|names| - 1] == "count" && "white_dye" !in names;
        Ok(OnceEach(names))
  }

  // ---------------------------------------------------------------------
  // Choosing the reader by craft type
  // ---------------------------------------------------------------------

  datatype Craft = Shaped | Shapeless | Smelting | Smithing | Transmute | DyeWool | Unrecognised

  /** `recipe.get('group') == 'wool'`. */
  predicate WoolGroup(recipe: Json) {
    recipe.JObj? && "group" in recipe.fields && recipe.fields["group"] == JStr("wool")
  }

  /**
   * `get_items_from_craft_type`'s dispatch: a recipe in the `wool` group is
   * a re-dye whatever its type; only the current builder reads smithing.
   */
  function CraftOf(b: Builder, recipe: Json, craftType: string): Craft {
    if WoolGroup(recipe) then DyeWool
    else if craftType == "crafting_shaped" then Shaped
    else if craftType == "crafting_shapeless" then Shapeless
    else if craftType == "smelting" then Smelting
    else if craftType == "smithing_transform" && b == Current then Smithing
    else if craftType == "crafting_transmute" then Transmute
    else Unrecognised
  }

  /** `get_items_from_craft_type`: `None` for a craft type no reader knows. */
  function ItemsOf(b: Builder, recipe: Json, craftType: string): (r: Result<Option<Ingredients>>)
    ensures CraftOf(b, recipe, craftType) == Unrecognised <==> r == Ok(None)
  {
    match CraftOf(b, recipe, craftType)
    case Shaped => Present(ShapedIngredients(recipe))
    case Shapeless => Present(ShapelessIngredients(recipe))
    case Smelting => Present(SmeltingIngredients(recipe))
    case Smithing => Present(SmithingIngredients(recipe))
    case Transmute => Present(TransmuteIngredients(recipe))
    case DyeWool => Present(DyeWoolIngredients(recipe))
    case Unrecognised => Ok(None)
  }

  function Present(r: Result<Ingredients>): (o: Result<Option<Ingredients>>)
    ensures o != Ok(None)
  {
    match r
    case Err(e) => Err(e)
    case Ok(v) => Ok(Some(v))
  }

  // ---------------------------------------------------------------------
  // Names
  // ---------------------------------------------------------------------

  /** `name.split('_from')[0]`. */
  function CutFrom(name: string): string {
    SplitOn(name, "_from")[0]
  }

  /** The first piece of a split is the longest prefix before the first separator. */
  lemma {:induction false} FirstPiece(s: string, sep: string)
    requires |sep| > 0
    ensures StartsWith(s, SplitOn(s, sep)[0])
    ensures !Contains(SplitOn(s, sep)[0], sep)
    ensures |SplitOn(s, sep)[0]| == |s| || StartsWith(s[|SplitOn(s, sep)[0]|..], sep)
    decreases |s|
  {
    var p := SplitOn(s, sep)[0];
    if |s| == 0 {
      assert p == "";
    } else if StartsWith(s, sep) {
      assert p == "";
      assert s[|p|..] == s;
    } else {
      FirstPiece(s[1..], sep);
      var q := SplitOn(s[1..], sep)[0];
      assert p == [s[0]] + q;
      PrefixCons(s, q);
      NotStartsWithPrefix(s, p, sep);
      assert p[1..] == q;
    }
  }

  /** A prefix of the tail, with the first character put back, is a prefix of the whole. */
  lemma PrefixCons(s: string, q: string)
    requires |s| > 0 && StartsWith(s[1..], q)
    ensures StartsWith(s, [s[0]] + q)
    ensures s[|q| + 1..] == s[1..][|q|..]
  {
    assert s[..|q| + 1] == [s[0]] + s[1..][..|q|];
  }

  /** A prefix of a string that does not start with `sep` does not start with it either. */
  lemma NotStartsWithPrefix(s: string, p: string, sep: string)
    requires StartsWith(s, p) && !StartsWith(s, sep)
    ensures !StartsWith(p, sep)
  {
    if |sep| <= |p| {
      assert p[..|sep|] == s[..|sep|];
    }
  }

  /**
   * The name a recipe file's stem gives its item: cut before `_from`, a
   * leading `dye_` dropped, and for the current builder a trailing
   * `_smithing` dropped.
   */
  function CleanName(b: Builder, stem: string): string {
    Unsmith(b, Undye(CutFrom(stem)))
  }

  /** A leading `dye_` dropped: what is left, put back behind the prefix, is the name. */
  function Undye(s: string): (r: string)
    ensures (if StartsWith(s, "dye_") then "dye_" else "") + r == s
  {
    if StartsWith(s, "dye_") then
      assert s[..4] == "dye_";
      s[4..]
    else s
  }

  /** For the current builder, a trailing `_smithing` dropped. */
  function Unsmith(b: Builder, s: string): (r: string)
    ensures r + (if b == Current && EndsWith(s, "_smithing") then "_smithing" else "") == s
  {
    if b == Current && EndsWith(s, "_smithing") then
      assert s[|s| - 9..] == "_smithing";
      s[..|s| - 9]
    else s
  }

  /** `name.split('_from')[0]` is the name up to its first `_from`. */
  lemma CutFromPrefix(name: string)
    ensures StartsWith(name, CutFrom(name)) && !Contains(CutFrom(name), "_from")
    ensures |CutFrom(name)| == |name| || StartsWith(name[|CutFrom(name)|..], "_from")
  {
    FirstPiece(name, "_from");
  }

  /**
   * A cleaned name is the stem's text before its first `_from`
   * (`CutFromPrefix`), less the listed prefix and suffix.
   */
  lemma CleanNameParts(b: Builder, stem: string)
    ensures CutFrom(stem) == CleanName(b, stem) || CutFrom(stem) == "dye_" + CleanName(b, stem)
      || (b == Current && (CutFrom(stem) == CleanName(b, stem) + "_smithing"
                           || CutFrom(stem) == "dye_" + CleanName(b, stem) + "_smithing"))
  {
    var cut := CutFrom(stem);
    var undyed := Undye(cut);
    var name := Unsmith(b, undyed);
    assert name == CleanName(b, stem);
    if b == Current && EndsWith(undyed, "_smithing") && StartsWith(cut, "dye_") {
      assert "dye_" + (name + "_smithing") == "dye_" + name + "_smithing";
    }
  }

  // ---------------------------------------------------------------------
  // Tagged ingredients
  // ---------------------------------------------------------------------

  /**
   * The loop over a recipe's ingredients that replaces each `#tag` by the
   * tag's base material (a KeyError for an unknown tag); a later entry
   * overwrites an earlier one with the same resulting name.
   */
  function Retag(items: Ingredients, tags: map<string, string>): (r: Result<Ingredients>)
    decreases |items|
  {
    if |items| == 0 then Ok([])
    else
      match Retag(items[..|items| - 1], tags)
      case Err(e) => Err(e)
      case Ok(acc) =>
        var (k, v) := items[|items| - 1];
        if !StartsWith(k, "#") then Ok(OD.Set(acc, k, v))
        else if k in tags then Ok(OD.Set(acc, tags[k], v))
        else Err(KeyError)
  }

  /** Every tag among the ingredients is one the tag table knows. */
  predicate TagsKnown(items: Ingredients, tags: map<string, string>) {
    forall i :: 0 <= i < |items| && StartsWith(items[i].0, "#") ==> items[i].0 in tags
  }

  lemma TagsKnownInit(items: Ingredients, tags: map<string, string>)
    requires |items| > 0
    ensures TagsKnown(items, tags) <==>
      TagsKnown(items[..|items| - 1], tags) && (StartsWith(items[|items| - 1].0, "#") ==> items[|items| - 1].0 in tags)
  {
    var init := items[..|items| - 1];
    assert forall i :: 0 <= i < |init| ==> init[i] == items[i];
  }

  /** Retagging fails, with a KeyError, exactly when some tag is unknown. */
  lemma {:induction false} RetagFailsOnUnknownTag(items: Ingredients, tags: map<string, string>)
    ensures Retag(items, tags).Ok? <==> TagsKnown(items, tags)
    ensures Retag(items, tags).Err? ==> Retag(items, tags).error == KeyError
    decreases |items|
  {
    if |items| > 0 {
      RetagFailsOnUnknownTag(items[..|items| - 1], tags);
      TagsKnownInit(items, tags);
    }
  }

  /** After retagging, no ingredient is a tag, provided no tag's base material is one. */
  lemma {:induction false} RetagLeavesNoTags(items: Ingredients, tags: map<string, string>)
    requires forall t :: t in tags ==> !StartsWith(tags[t], "#")
    requires Retag(items, tags).Ok?
    ensures forall k :: OD.Has(Retag(items, tags).value, k) ==> !StartsWith(k, "#")
    decreases |items|
  {
    if |items| > 0 {
      RetagLeavesNoTags(items[..|items| - 1], tags);
    }
  }

  /** No ingredient is a tag. */
  predicate Untagged(items: Ingredients) {
    forall i :: 0 <= i < |items| ==> !StartsWith(items[i].0, "#")
  }

  /** The last ingredient, not a tag, is appended to the retagged rest. */
  lemma RetagLast(items: Ingredients, tags: map<string, string>)
    requires OD.Valid(items) && |items| > 0 && !StartsWith(items[|items| - 1].0, "#")
    requires Retag(items[..|items| - 1], tags) == Ok(items[..|items| - 1])
    ensures Retag(items, tags) == Ok(items)
  {
    var init := items[..|items| - 1];
    var last := items[|items| - 1];
    OD.InitValid(items);
    OD.SetAppends(init, last.0, last.1);
    Seqs.InitLast(items);
  }

  /** A recipe without tags keeps its ingredients exactly, order included. */
  lemma {:induction false} RetagWithoutTags(items: Ingredients, tags: map<string, string>)
    requires OD.Valid(items) && Untagged(items)
    ensures Retag(items, tags) == Ok(items)
    decreases |items|
  {
    if |items| > 0 {
      var init := items[..|items| - 1];
      OD.InitValid(items);
      assert Untagged(init) by {
        assert forall j :: 0 <= j < |init| ==> init[j] == items[j];
      }
      RetagWithoutTags(init, tags);
      RetagLast(items, tags);
    }
  }

  // ---------------------------------------------------------------------
  // The cost table
  // ---------------------------------------------------------------------

  /** A recipe that counts: the item's cleaned name, the craft type and the retagged ingredients. */
  datatype Entry = Entry(name: string, craft: string, items: Ingredients)

  /**
   * What one recipe file contributes: its type is read first (so an
   * ignored recipe without a readable type still fails); ignored names
   * and unrecognised craft types contribute nothing.
   */
  function Parse(b: Builder, stem: string, recipe: Json, tags: map<string, string>): (r: Result<Option<Entry>>)
    ensures NamedField(recipe, "type").Ok? && Ignored(b, stem) ==> r == Ok(None)
    ensures NamedField(recipe, "type").Ok? && CraftOf(b, recipe, NamedField(recipe, "type").value) == Unrecognised ==> r == Ok(None)
    ensures r.Ok? && r.value.Some? ==> r.value.value.name == CleanName(b, stem) && !Ignored(b, stem)
  {
    match NamedField(recipe, "type")
    case Err(e) => Err(e)
    case Ok(ct) =>
      if Ignored(b, stem) then Ok(None)
      else
        match ItemsOf(b, recipe, ct)
        case Err(e) => Err(e)
        case Ok(None) => Ok(None)
        case Ok(Some(items)) =>
          match Retag(items, tags)
          case Err(e) => Err(e)
          case Ok(modified) => Ok(Some(Entry(CleanName(b, stem), ct, modified)))
  }

  /** The craft types that may replace an earlier recipe for the same item. */
  predicate Priority(b: Builder, craftType: string) {
    craftType == "crafting_shaped" || craftType == "crafting_shapeless"
    || (b == Current && craftType == "smithing_transform")
  }

  /** An entry replaces an earlier one for its item: a priority craft type, and not `stick`. */
  predicate Overrides(b: Builder, e: Entry) {
    Priority(b, e.craft) && e.name != "stick"
  }

  /** The first recipe for an item wins unless a later one overrides it. */
  function Choose(b: Builder, table: OD.Dict<Ingredients>, e: Entry): (r: OD.Dict<Ingredients>)
    ensures OD.Get(r, e.name) == if !OD.Has(table, e.name) || Overrides(b, e) then Some(e.items) else OD.Get(table, e.name)
    ensures forall k :: k != e.name ==> OD.Get(r, k) == OD.Get(table, k)
  {
    if !OD.Has(table, e.name) then OD.Set(table, e.name, e.items)
    else if Overrides(b, e) then OD.Set(table, e.name, e.items)
    else table
  }

  function ChooseAll(b: Builder, table: OD.Dict<Ingredients>, es: seq<Entry>): OD.Dict<Ingredients>
    decreases |es|
  {
    if |es| == 0 then table else Choose(b, ChooseAll(b, table, es[..|es| - 1]), es[|es| - 1])
  }

  /** Some entry is for item `k`. */
  predicate Named(es: seq<Entry>, k: string) {
    exists i :: 0 <= i < |es| && es[i].name == k
  }

  /** No entry for `k` before position `i`. */
  predicate NoneBefore(es: seq<Entry>, i: nat, k: string) {
    forall j :: 0 <= j < i && j < |es| ==> es[j].name != k
  }

  /** No entry for `k` after position `i` may override. */
  predicate NoneLaterOverrides(b: Builder, es: seq<Entry>, i: nat, k: string) {
    forall j :: i < j < |es| && es[j].name == k ==> !Overrides(b, es[j])
  }

  lemma NamedInit(es: seq<Entry>, k: string)
    requires |es| > 0
    ensures Named(es, k) <==> Named(es[..|es| - 1], k) || es[|es| - 1].name == k
  {
    var init := es[..|es| - 1];
    if Named(es, k) && es[|es| - 1].name != k {
      var j :| 0 <= j < |es| && es[j].name == k;
      assert init[j].name == k;
    }
    if Named(init, k) {
      var j :| 0 <= j < |init| && init[j].name == k;
      assert es[j].name == k;
    }
  }

  /** The table has an item exactly when some recipe for it counts. */
  lemma {:induction false} ChosenNamed(b: Builder, es: seq<Entry>, k: string)
    ensures OD.Has(ChooseAll(b, [], es), k) <==> Named(es, k)
    decreases |es|
  {
    if |es| > 0 {
      ChosenNamed(b, es[..|es| - 1], k);
      NamedInit(es, k);
    }
  }

  /** The recipe at `i` is kept when it overrides or comes first, and no later one overrides. */
  lemma {:induction false} ChosenAt(b: Builder, es: seq<Entry>, k: string, i: nat)
    requires i < |es| && es[i].name == k
    requires Overrides(b, es[i]) || NoneBefore(es, i, k)
    requires NoneLaterOverrides(b, es, i, k)
    ensures OD.Get(ChooseAll(b, [], es), k) == Some(es[i].items)
    decreases |es|
  {
    var init := es[..|es| - 1];
    var e := es[|es| - 1];
    if i == |es| - 1 {
      if !Overrides(b, e) {
        ChosenNamed(b, init, k);
        assert !Named(init, k) by {
          forall j | 0 <= j < |init| ensures init[j].name != k { assert init[j] == es[j]; }
        }
      }
    } else {
      assert init[i] == es[i];
      assert NoneLaterOverrides(b, init, i, k) by {
        forall j | i < j < |init| && init[j].name == k ensures !Overrides(b, init[j]) { assert init[j] == es[j]; }
      }
      assert NoneBefore(es, i, k) ==> NoneBefore(init, i, k);
      ChosenAt(b, init, k, i);
      if e.name == k {
        ChosenNamed(b, init, k);
      }
    }
  }

  /**
   * Which recipe the table keeps for an item: the table has an item
   * exactly when some recipe for it counts, and it keeps the last recipe
   * that may override, or the first recipe when no later one may.
   */
  lemma ChosenRecipe(b: Builder, es: seq<Entry>, k: string)
    ensures OD.Has(ChooseAll(b, [], es), k) <==> Named(es, k)
    ensures forall i :: 0 <= i < |es| && es[i].name == k && (Overrides(b, es[i]) || NoneBefore(es, i, k))
                        && NoneLaterOverrides(b, es, i, k) ==>
      OD.Get(ChooseAll(b, [], es), k) == Some(es[i].items)
  {
    ChosenNamed(b, es, k);
    forall i | 0 <= i < |es| && es[i].name == k && (Overrides(b, es[i]) || NoneBefore(es, i, k))
               && NoneLaterOverrides(b, es, i, k)
      ensures OD.Get(ChooseAll(b, [], es), k) == Some(es[i].items)
    {
      ChosenAt(b, es, k, i);
    }
  }

  /** How one recipe file is read: its stem and contents to an entry, if it counts. */
  type Parser = (string, Json) -> Result<Option<Entry>>

  /** `Parse` for one builder and tag table. */
  function ParserOf(b: Builder, tags: map<string, string>): Parser {
    (stem, recipe) => Parse(b, stem, recipe, tags)
  }

  /** The entries of the recipes that count, in order; the first failure stops the loop. */
  function ParseAll(recipes: seq<(string, Json)>, parse: Parser): Result<seq<Entry>>
    decreases |recipes|
  {
    if |recipes| == 0 then Ok([])
    else
      match ParseAll(recipes[..|recipes| - 1], parse)
      case Err(e) => Err(e)
      case Ok(es) =>
        match parse(recipes[|recipes| - 1].0, recipes[|recipes| - 1].1)
        case Err(e) => Err(e)
        case Ok(None) => Ok(es)
        case Ok(Some(e)) => Ok(es + [e])
  }

  /** The item -> ingredients table built recipe by recipe. */
  function ChooseEach(b: Builder, recipes: seq<(string, Json)>, parse: Parser): Result<OD.Dict<Ingredients>>
    decreases |recipes|
  {
    if |recipes| == 0 then Ok([])
    else
      match ChooseEach(b, recipes[..|recipes| - 1], parse)
      case Err(e) => Err(e)
      case Ok(table) =>
        match parse(recipes[|recipes| - 1].0, recipes[|recipes| - 1].1)
        case Err(e) => Err(e)
        case Ok(None) => Ok(table)
        case Ok(Some(e)) => Ok(Choose(b, table, e))
  }

  /** `get_raw_materials_cost_dict`: the item -> ingredients table of a builder. */
  function CostTable(b: Builder, recipes: seq<(string, Json)>, tags: map<string, string>): Result<OD.Dict<Ingredients>> {
    ChooseEach(b, recipes, ParserOf(b, tags))
  }

  /** Building the table recipe by recipe is choosing among the entries of the recipes that count. */
  lemma {:induction false} ChooseEachChooses(b: Builder, recipes: seq<(string, Json)>, parse: Parser)
    ensures ParseAll(recipes, parse).Err? ==> ChooseEach(b, recipes, parse) == Err(ParseAll(recipes, parse).error)
    ensures ParseAll(recipes, parse).Ok? ==> ChooseEach(b, recipes, parse) == Ok(ChooseAll(b, [], ParseAll(recipes, parse).value))
    decreases |recipes|
  {
    if |recipes| > 0 {
      ChooseEachChooses(b, recipes[..|recipes| - 1], parse);
      var pa := ParseAll(recipes[..|recipes| - 1], parse);
      if pa.Ok? {
        var es := pa.value;
        var e := parse(recipes[|recipes| - 1].0, recipes[|recipes| - 1].1);
        if e.Ok? && e.value.Some? {
          var es' := es + [e.value.value];
          assert es'[..|es'| - 1] == es;
        }
      }
    }
  }

  /**
   * The cost table fails with the first recipe's failure; otherwise it is
   * the choice among the entries of the recipes that count.
   */
  lemma CostTableChooses(b: Builder, recipes: seq<(string, Json)>, tags: map<string, string>)
    ensures ParseAll(recipes, ParserOf(b, tags)).Err? ==>
      CostTable(b, recipes, tags) == Err(ParseAll(recipes, ParserOf(b, tags)).error)
    ensures ParseAll(recipes, ParserOf(b, tags)).Ok? ==>
      CostTable(b, recipes, tags) == Ok(ChooseAll(b, [], ParseAll(recipes, ParserOf(b, tags)).value))
  {
    ChooseEachChooses(b, recipes, ParserOf(b, tags));
  }
}

=== FILE: release_watcher.dfy ===
/**
 * The release watcher (extractor/scripts/check_and_extract_new_versions.py):
 * it reads the game's version manifest, decides which releases still have
 * to be extracted and archived, and processes them oldest first, stopping
 * at the first failure. Release times are integers (the parsing of ISO
 * timestamps is a parameter that may fail), the file system is a predicate
 * on paths, and processing one release is a parameter that succeeds or not.
 */
module ReleaseWatcher {
  import opened Results
  import opened Ordering
  import OD = OrderedDict
  import ER = ExtractorRunner
  import Seqs

  datatype Release = Release(version: string, time: int)

  /** The fields of one manifest entry the watcher reads, each absent or a string. */
  datatype Entry = Entry(kind: Option<string>, id: Option<string>, releaseTime: Option<string>, time: Option<string>)

  /** Python truthiness of an optional string: present and not empty. */
  predicate Truthy(o: Option<string>) { o.Some? && |o.value| > 0 }

  /** `entry.get("releaseTime") or entry.get("time")`. */
  function RawTime(e: Entry): Option<string> {
    if Truthy(e.releaseTime) then e.releaseTime else e.time
  }

  /**
   * The release an entry contributes: only entries of type `release` with
   * an id and a time, and only when the time parses.
   */
  function Accepted(e: Entry, parse: string -> Option<int>): (r: Option<Release>)
    ensures r.Some? ==> e.kind == Some("release") && Truthy(e.id) && r.value.version == e.id.value
    ensures r.Some? ==> Truthy(RawTime(e)) && parse(RawTime(e).value) == Some(r.value.time)
    ensures e.kind == Some("release") && Truthy(e.id) && Truthy(RawTime(e)) && parse(RawTime(e).value).Some? ==> r.Some?
  {
    if e.kind != Some("release") || !Truthy(e.id) || !Truthy(RawTime(e)) then None
    else
      match parse(RawTime(e).value)
      case None => None
      case Some(t) => Some(Release(e.id.value, t))
  }

  /** The loop of `fetch_release_manifest`: the accepted entries in manifest order. */
  function Filter(entries: seq<Entry>, parse: string -> Option<int>): (r: seq<Release>)
    ensures forall x :: x in r <==> exists e :: e in entries && Accepted(e, parse) == Some(x)
  {
    if |entries| == 0 then []
    else
      var e := entries[|entries| - 1];
      var init := entries[..|entries| - 1];
      Seqs.InitLastMembers(entries);
      match Accepted(e, parse)
      case None => Filter(init, parse)
      case Some(x) => Filter(init, parse) + [x]
  }

  predicate ByTime(a: Release, b: Release) { a.time <= b.time }

  lemma ByTimeTotalPreorder()
    ensures TotalPreorder(ByTime)
  {
  }

  /** `fetch_release_manifest` after the download: the accepted releases, ordered by release time. */
  function ReleaseManifest(entries: seq<Entry>, parse: string -> Option<int>): (r: seq<Release>)
    ensures SortedBy(r, ByTime)
    ensures multiset(r) == multiset(Filter(entries, parse))
  {
    ByTimeTotalPreorder();
    SortBy(Filter(entries, parse), ByTime)
  }

  /**
   * The manifest lists exactly the releases of entries of type `release`
   * with an id and a time that parses.
   */
  lemma ManifestMembers(entries: seq<Entry>, parse: string -> Option<int>, x: Release)
    ensures x in ReleaseManifest(entries, parse) <==>
      exists e :: e in entries && e.kind == Some("release") && Truthy(e.id) && Truthy(RawTime(e))
        && parse(RawTime(e).value).Some? && x == Release(e.id.value, parse(RawTime(e).value).value)
  {
    ByTimeTotalPreorder();
    SortByMembers(Filter(entries, parse), ByTime);
  }

  // ---------------------------------------------------------------------
  // Completed versions
  // ---------------------------------------------------------------------

  /** `LIMTED_STACKS_NAME` and `RAW_MATS_TABLE_NAME`: the shared tables under the game data directory. */
  const LimitedStacksName: string := "limited_stack_items.json"
  const RawMatsTableName: string := "raw_materials_table.json"

  /**
   * `is_version_complete`: the version's directory holds the three target
   * files by name, and both shared tables exist.
   */
  predicate IsVersionComplete(fs: ER.FileSystem, dataGame: ER.Path, version: string) {
    fs(dataGame + [version])
    && (forall j :: 0 <= j < |ER.TargetFiles| ==> fs(dataGame + [version] + [ER.Name(ER.TargetFiles[j])]))
    && fs(dataGame + [LimitedStacksName]) && fs(dataGame + [RawMatsTableName])
  }

  /**
   * Archiving a version copies the files completeness looks for: once the
   * copy into the version's directory has succeeded, the version counts as
   * complete as soon as its directory and the shared tables exist, whether
   * or not existing files were overwritten.
   */
  lemma ArchivedIsComplete(fs: ER.FileSystem, root: ER.Path, dataGame: ER.Path, version: string,
                           overwrite: bool, copies: seq<ER.Copy>, after: ER.FileSystem)
    requires ER.CopyTargets(fs, root, dataGame + [version], overwrite, ER.TargetFiles) == Ok(copies)
    requires forall p :: fs(p) ==> after(p)
    requires forall c :: c in copies ==> after(c.to)
    requires after(dataGame + [version])
    requires after(dataGame + [LimitedStacksName]) && after(dataGame + [RawMatsTableName])
    ensures IsVersionComplete(after, dataGame, version)
  {
    ER.CopyTargetsCopies(fs, root, dataGame + [version], overwrite, ER.TargetFiles);
  }

  // ---------------------------------------------------------------------
  // The processing queue
  // ---------------------------------------------------------------------

  /** `release_map[version]`: the manifest's last release of that version, if any. */
  function ReleaseOf(releases: seq<Release>, v: string): (r: Option<Release>)
    ensures r.Some? ==> r.value in releases && r.value.version == v
    ensures r.None? <==> forall x :: x in releases ==> x.version != v
  {
    if |releases| == 0 then None
    else
      var last := releases[|releases| - 1];
      var init := releases[..|releases| - 1];
      Seqs.InitLastMembers(releases);
      if last.version == v then Some(last) else ReleaseOf(init, v)
  }

  /** A seen version that is in the manifest and whose files are complete. */
  predicate Completed(releases: seq<Release>, seen: seq<string>, complete: string -> bool, v: string) {
    v in seen && ReleaseOf(releases, v).Some? && complete(v)
  }

  /** `incomplete`: the manifest release of every seen version in the manifest that is not complete. */
  function Incomplete(releases: seq<Release>, seen: seq<string>, complete: string -> bool): (r: seq<Release>)
    ensures forall x :: x in r <==> exists v :: v in seen && ReleaseOf(releases, v) == Some(x) && !complete(v)
  {
    if |seen| == 0 then []
    else
      var v := seen[|seen| - 1];
      var init := seen[..|seen| - 1];
      Seqs.InitLastMembers(seen);
      var rest := Incomplete(releases, init, complete);
      if ReleaseOf(releases, v).Some? && !complete(v) then rest + [ReleaseOf(releases, v).value] else rest
  }

  /** `last_completed_time`: the latest release time of a completed version, if there is one. */
  function LastCompleted(releases: seq<Release>, seen: seq<string>, complete: string -> bool): (t: Option<int>)
    ensures t.None? <==> forall v :: v in seen ==> !(ReleaseOf(releases, v).Some? && complete(v))
    ensures t.Some? ==>
      exists v :: v in seen && ReleaseOf(releases, v).Some? && complete(v) && ReleaseOf(releases, v).value.time == t.value
    ensures t.Some? ==>
      forall v :: v in seen && ReleaseOf(releases, v).Some? && complete(v) ==> ReleaseOf(releases, v).value.time <= t.value
  {
    if |seen| == 0 then None
    else
      var v := seen[|seen| - 1];
      var init := seen[..|seen| - 1];
      Seqs.InitLastMembers(seen);
      var rest := LastCompleted(releases, init, complete);
      if !(ReleaseOf(releases, v).Some? && complete(v)) then rest
      else
        var tv := ReleaseOf(releases, v).value.time;
        match rest
        case None => Some(tv)
        case Some(t) => Some(if t < tv then tv else t)
  }

  /** The releases of the manifest strictly newer than `t`, in manifest order. */
  function Newer(releases: seq<Release>, t: int): (r: seq<Release>)
    ensures forall x :: x in r <==> x in releases && x.time > t
  {
    if |releases| == 0 then []
    else
      var last := releases[|releases| - 1];
      var init := releases[..|releases| - 1];
      Seqs.InitLastMembers(releases);
      if last.time > t then Newer(init, t) + [last] else Newer(init, t)
  }

  /**
   * What follows the incomplete versions in `pending`: with no completed
   * version, the newest manifest release; otherwise every release newer
   * than the newest completed one.
   */
  function Fresh(releases: seq<Release>, seen: seq<string>, complete: string -> bool): (r: seq<Release>)
    ensures forall x :: x in r ==> x in releases
  {
    match LastCompleted(releases, seen, complete)
    case None => if |releases| > 0 then [releases[|releases| - 1]] else []
    case Some(t) => Newer(releases, t)
  }

  /** `pending`: the incomplete versions by release time, then the later releases. */
  function Pending(releases: seq<Release>, seen: seq<string>, complete: string -> bool): (r: seq<Release>)
    ensures forall x :: x in r ==> x in releases
  {
    ByTimeTotalPreorder();
    var inc := Incomplete(releases, seen, complete);
    SortByMembers(inc, ByTime);
    assert forall x :: x in inc ==> x in releases;
    SortBy(inc, ByTime) + Fresh(releases, seen, complete)
  }

  /**
   * What `unique_by_version` keeps about the releases folded into it: each
   * version once, each entry a release of those keyed by its version, and
   * a key for every version among them.
   */
  ghost predicate DedupeOf(d: OD.Dict<Release>, pending: seq<Release>) {
    OD.Valid(d)
    && (forall e :: e in d ==> e.1.version == e.0 && e.1 in pending)
    && (forall v :: OD.Has(d, v) <==> exists p :: p in pending && p.version == v)
  }

  /** `unique_by_version`: the pending releases assigned in order, keyed by version. */
  function Dedupe(pending: seq<Release>): (d: OD.Dict<Release>)
    ensures DedupeOf(d, pending)
  {
    if |pending| == 0 then []
    else
      var p := pending[|pending| - 1];
      var init := pending[..|pending| - 1];
      Seqs.InitLastMembers(pending);
      var acc := Dedupe(init);
      DedupeStep(acc, init, p, pending);
      OD.Set(acc, p.version, p)
  }

  /** Assigning one more release keeps the facts. */
  lemma DedupeStep(acc: OD.Dict<Release>, init: seq<Release>, p: Release, pending: seq<Release>)
    requires DedupeOf(acc, init)
    requires forall x :: x in pending <==> x in init || x == p
    ensures DedupeOf(OD.Set(acc, p.version, p), pending)
  {
    var r := OD.Set(acc, p.version, p);
    OD.SetValid(acc, p.version, p);
    OD.SetEntries(acc, p.version, p);
    forall v ensures OD.Has(r, v) <==> exists q :: q in pending && q.version == v {
      if v == p.version {
        assert p in pending;
      } else {
        assert OD.Has(r, v) == OD.Has(acc, v);
        if exists q :: q in pending && q.version == v {
          var q :| q in pending && q.version == v;
          assert q in init;
        }
        if OD.Has(acc, v) {
          var q :| q in init && q.version == v;
          assert q in pending;
        }
      }
    }
  }

  predicate EntryByTime(a: (string, Release), b: (string, Release)) { a.1.time <= b.1.time }

  lemma EntryByTimeTotalPreorder()
    ensures TotalPreorder(EntryByTime)
  {
  }

  /** The releases of a dictionary's entries, in order. */
  function Values(d: OD.Dict<Release>): (r: seq<Release>)
    ensures |r| == |d|
    ensures forall i :: 0 <= i < |d| ==> r[i] == d[i].1
  {
    if |d| == 0 then [] else [d[0].1] + Values(d[1..])
  }

  /**
   * `versions_to_process`: the pending releases, one per version, ordered
   * by release time. The queue holds each version once, in release-time
   * order, and only releases of the manifest.
   */
  function VersionsToProcess(releases: seq<Release>, seen: seq<string>, complete: string -> bool)
    : (q: seq<Release>)
    ensures SortedBy(q, ByTime)
    ensures forall i, j :: 0 <= i < j < |q| ==> q[i].version != q[j].version
    ensures forall x :: x in q ==> x in releases
  {
    var pending := Pending(releases, seen, complete);
    var s := SortedDedupe(pending);
    ValuesSorted(s);
    ValuesDistinct(s);
    ValuesFrom(s, pending);
    Values(s)
  }

  /** The deduplicated dictionary ordered by release time, keeping each version's entry. */
  function SortedDedupe(pending: seq<Release>): (s: OD.Dict<Release>)
    ensures DedupeOf(s, pending)
    ensures SortedBy(s, EntryByTime)
  {
    var d := Dedupe(pending);
    EntryByTimeTotalPreorder();
    var s := SortBy(d, EntryByTime);
    OD.PermutedDict(d, s);
    SortByMembers(d, EntryByTime);
    assert forall v :: OD.Has(s, v) == OD.Has(d, v);
    s
  }

  lemma ValuesSorted(s: OD.Dict<Release>)
    requires SortedBy(s, EntryByTime)
    ensures SortedBy(Values(s), ByTime)
  {
    var q := Values(s);
    forall i, j | 0 <= i < j < |q| ensures ByTime(q[i], q[j]) {
      assert EntryByTime(s[i], s[j]);
    }
  }

  lemma ValuesDistinct(s: OD.Dict<Release>)
    requires OD.Valid(s)
    requires forall e :: e in s ==> e.1.version == e.0
    ensures forall i, j :: 0 <= i < j < |Values(s)| ==> Values(s)[i].version != Values(s)[j].version
  {
    var q := Values(s);
    forall i, j | 0 <= i < j < |q| ensures q[i].version != q[j].version {
      assert s[i] in s && s[j] in s;
    }
  }

  lemma ValuesFrom(s: OD.Dict<Release>, pending: seq<Release>)
    requires forall e :: e in s ==> e.1 in pending
    ensures forall x :: x in Values(s) ==> x in pending
  {
    var q := Values(s);
    forall x | x in q ensures x in pending {
      var i :| 0 <= i < |q| && q[i] == x;
      assert s[i] in s;
    }
  }

  /** A version has a release in the values exactly when it is a key. */
  lemma ValuesVersions(s: OD.Dict<Release>, v: string)
    requires forall e :: e in s ==> e.1.version == e.0
    ensures (exists x :: x in Values(s) && x.version == v) <==> OD.Has(s, v)
  {
    var q := Values(s);
    OD.KeysMembership(s, v);
    if exists x :: x in q && x.version == v {
      var x :| x in q && x.version == v;
      var i :| 0 <= i < |q| && q[i] == x;
      assert s[i] in s;
    }
    if OD.Has(s, v) {
      var i :| 0 <= i < |s| && s[i].0 == v;
      assert s[i] in s;
      assert q[i] in q;
    }
  }

  /**
   * Why a version is queued: it was seen in the manifest but is not
   * complete; or no version is complete and it is the newest release; or
   * it has a release newer than the newest completed release.
   */
  ghost predicate Queued(releases: seq<Release>, seen: seq<string>, complete: string -> bool, v: string) {
    (v in seen && ReleaseOf(releases, v).Some? && !complete(v))
    || match LastCompleted(releases, seen, complete)
       case None => |releases| > 0 && releases[|releases| - 1].version == v
       case Some(t) => exists r :: r in releases && r.version == v && r.time > t
  }

  /** A version has a pending release exactly when it is queued for one of the three reasons. */
  lemma PendingVersions(releases: seq<Release>, seen: seq<string>, complete: string -> bool, v: string)
    ensures (exists p :: p in Pending(releases, seen, complete) && p.version == v) <==> Queued(releases, seen, complete, v)
  {
    ByTimeTotalPreorder();
    var inc := Incomplete(releases, seen, complete);
    var later := Fresh(releases, seen, complete);
    SortByMembers(inc, ByTime);
    var pending := Pending(releases, seen, complete);
    assert forall p :: p in pending <==> p in inc || p in later;
    IncompleteVersions(releases, seen, complete, v);
    FreshVersions(releases, seen, complete, v);
  }

  /** A seen version has an incomplete release exactly when it is in the manifest and not complete. */
  lemma IncompleteVersions(releases: seq<Release>, seen: seq<string>, complete: string -> bool, v: string)
    ensures (exists p :: p in Incomplete(releases, seen, complete) && p.version == v)
      <==> v in seen && ReleaseOf(releases, v).Some? && !complete(v)
  {
    var inc := Incomplete(releases, seen, complete);
    if v in seen && ReleaseOf(releases, v).Some? && !complete(v) {
      assert ReleaseOf(releases, v).value in inc;
    }
    if exists p :: p in inc && p.version == v {
      var p :| p in inc && p.version == v;
      var w :| w in seen && ReleaseOf(releases, w) == Some(p) && !complete(w);
    }
  }

  /** The releases after the incomplete ones: the newest, or those newer than the newest completed. */
  lemma FreshVersions(releases: seq<Release>, seen: seq<string>, complete: string -> bool, v: string)
    ensures (exists p :: p in Fresh(releases, seen, complete) && p.version == v) <==>
      match LastCompleted(releases, seen, complete)
      case None => |releases| > 0 && releases[|releases| - 1].version == v
      case Some(t) => exists r :: r in releases && r.version == v && r.time > t
  {
    match LastCompleted(releases, seen, complete)
    case None =>
    case Some(t) =>
      if exists r :: r in releases && r.version == v && r.time > t {
        var r :| r in releases && r.version == v && r.time > t;
        assert r in Fresh(releases, seen, complete);
      }
  }

  /**
   * The queue holds a release of a version exactly when the version is
   * queued: every seen but incomplete version of the manifest; the newest
   * release when nothing is complete; otherwise every release strictly newer
   * than the newest completed one; and nothing else.
   */
  lemma QueueMembers(releases: seq<Release>, seen: seq<string>, complete: string -> bool, v: string)
    ensures (exists x :: x in VersionsToProcess(releases, seen, complete) && x.version == v)
      <==> Queued(releases, seen, complete, v)
  {
    var pending := Pending(releases, seen, complete);
    var s := SortedDedupe(pending);
    assert VersionsToProcess(releases, seen, complete) == Values(s);
    ValuesVersions(s, v);
    PendingVersions(releases, seen, complete, v);
  }

  // ---------------------------------------------------------------------
  // The check cycle
  // ---------------------------------------------------------------------

  /**
   * The loop of `perform_check_cycle`: process the releases in order and
   * stop after the first one that fails. The result is the releases
   * attempted.
   */
  function RunQueue(queue: seq<Release>, succeeds: Release -> bool): (done: seq<Release>)
    ensures |done| <= |queue| && done == queue[..|done|]
  {
    if |queue| == 0 then []
    else if succeeds(queue[0]) then [queue[0]] + RunQueue(queue[1..], succeeds)
    else [queue[0]]
  }

  /**
   * Every release attempted before the last one succeeded, and the run
   * ends early only at a failure: the attempted releases are the queue up
   * to and including its first failure, or all of it.
   */
  lemma {:induction false} RunQueueStopsAtFailure(queue: seq<Release>, succeeds: Release -> bool)
    ensures forall i :: 0 <= i < |RunQueue(queue, succeeds)| - 1 ==> succeeds(RunQueue(queue, succeeds)[i])
    ensures |RunQueue(queue, succeeds)| < |queue| ==>
      |RunQueue(queue, succeeds)| > 0 && !succeeds(RunQueue(queue, succeeds)[|RunQueue(queue, succeeds)| - 1])
    ensures (forall i :: 0 <= i < |queue| ==> succeeds(queue[i])) ==> RunQueue(queue, succeeds) == queue
    decreases |queue|
  {
    if |queue| > 0 && succeeds(queue[0]) {
      var rest := RunQueue(queue[1..], succeeds);
      RunQueueStopsAtFailure(queue[1..], succeeds);
      assert forall i :: 1 <= i < |queue| ==> queue[i] == queue[1..][i - 1];
      assert RunQueue(queue, succeeds) == [queue[0]] + rest;
      if forall i :: 0 <= i < |queue| ==> succeeds(queue[i]) {
        assert rest == queue[1..];
        assert queue == [queue[0]] + queue[1..];
      }
    }
  }

  /**
   * `perform_check_cycle`: a manifest that cannot be fetched ends the cycle
   * without processing anything; otherwise the queue for the seen versions
   * is processed until the first failure.
   */
  function PerformCheckCycle(manifest: Result<seq<Entry>>, parse: string -> Option<int>, seen: seq<string>,
                             complete: string -> bool, succeeds: Release -> bool): (done: seq<Release>)
    ensures manifest.Err? ==> done == []
    ensures manifest.Ok? ==>
      var queue := VersionsToProcess(ReleaseManifest(manifest.value, parse), seen, complete);
      |done| <= |queue| && done == queue[..|done|]
  {
    match manifest
    case Err(_) => []
    case Ok(entries) => RunQueue(VersionsToProcess(ReleaseManifest(entries, parse), seen, complete), succeeds)
  }
}

=== FILE: resolver.dfy ===
/**
 * The walk from an item to its raw materials, and the raw-materials table
 * built from it (data/recipes_raw_mats_database_builder.py, with the older
 * builder at the repository root).
 *
 * Totals are kept in the order materials were first met, as Python's
 * `defaultdict` keeps them. Python's recursion limit is the resolver's
 * `fuel`; which names count as raw materials is a parameter, so that the
 * pattern as written and as meant can both be run.
 */
module RawMaterials {
  import opened Results
  import opened Strings
  import OD = OrderedDict
  import opened Ordering
  import opened Recipes
  import opened RecipeGraph


  /** Raw-material totals, in the order materials were first met. */
  type Totals = OD.Dict<real>

  /** `raw_materials[k] += q` on a `defaultdict(float)`. */
  function AddTo(acc: Totals, k: string, q: real): (r: Totals)
    ensures OD.Get(r, k) == Some(OD.GetOr(acc, k, 0.0) + q)
    ensures forall k' :: k' != k ==> OD.Get(r, k') == OD.Get(acc, k')
    ensures OD.Valid(acc) ==> OD.Valid(r)
  {
    var v := OD.GetOr(acc, k, 0.0) + q;
    OD.SetKeepsValid(acc, k, v);
    OD.Set(acc, k, v)
  }

  /** `re.sub(r'^(stripped|carved)_', '', t)` when `re.match(r'(stripped|carved)_', t)`. */
  function StrippedOrCarved(t: string): Option<string> {
    if StartsWith(t, "stripped_") then Some(t[9..])
    else if StartsWith(t, "carved_") then Some(t[7..])
    else None
  }

  /** Where the walk stops: a raw material by name, or a node with no predecessors. */
  predicate IsLeaf(g: Graph, k: string, axiom: string -> bool) {
    axiom(k) || (k in g && |g[k]| == 0)
  }

  predicate ResolverError(e: Exception) {
    e == RecursionError || e == GraphError || e == ValueError
  }

  /** No edge has a negative weight. */
  ghost predicate NonNegative(g: Graph) {
    forall n, e :: n in g && e in g[n] ==> e.1 >= 0.0
  }

  /**
   * `_handle_special_cases`: the items the current builder replaces by
   * others before any other rule, each with the factor its quantity is
   * scaled by: a netherite ingot is four netherite scrap and four gold
   * ingots, sugar is sugar cane, and a stripped or carved block is the
   * plain one. The older builder only has the netherite rule.
   */
  function Special(b: Builder, t: string): (r: Option<OD.Dict<real>>)
    ensures r.Some? ==> forall e :: e in r.value ==> e.1 >= 0.0
  {
    if t == "netherite_ingot" then Some([("netherite_scrap", 4.0), ("gold_ingot", 4.0)])
    else if b == Legacy then None
    else if t == "sugar" then Some([("sugar_cane", 1.0)])
    else match StrippedOrCarved(t)
      case Some(plain) => Some([(plain, 1.0)])
      case None => None
  }

  /** What the walk does at one item. */
  datatype Step =
    | Leaf                                     // add the item's own quantity
    | Walk(parts: OD.Dict<real>, self: bool)   // walk each part at the quantity times its factor,
                                               // after adding the item itself when `self` holds
    | Fail(error: Exception)

  /** The totals a walk starts from: the item itself is added first when the step says so. */
  function Counted(acc: Totals, t: string, q: real, self: bool): Totals {
    if self then AddTo(acc, t, q) else acc
  }

  /**
   * One step of `_get_ingredients_recursive`: special cases first, then
   * raw materials by name (a smithing template also brings in its other
   * ingredients, which `list.remove` finds only if the template is among
   * them), then nodes without predecessors; anything else expands into its
   * predecessors. Asking for the predecessors of an item that is not a
   * node is a GraphError.
   */
  function StepOf(b: Builder, g: Graph, t: string, axiom: string -> bool): (r: Step)
    ensures r.Fail? ==> r.error == GraphError || r.error == ValueError
    ensures r.Leaf? ==> IsLeaf(g, t, axiom)
    ensures r.Walk? && r.self ==> axiom(t)
  {
    match Special(b, t)
    case Some(parts) => Walk(parts, false)
    case None =>
      if axiom(t) then
        if b == Current && EndsWith(t, "_smithing_template") then
          if t !in g then Fail(GraphError)
          else if !OD.Has(g[t], t) then Fail(ValueError)
          else Walk(OD.Without(g[t], t), true)
        else Leaf
      else if t !in g then Fail(GraphError)
      else if |g[t]| == 0 then Leaf
      else Walk(g[t], false)
  }

  /** What the walk does at each item. */
  type Stepper = string -> Step

  /** The steps of one builder over one graph. */
  function Steps(b: Builder, g: Graph, axiom: string -> bool): Stepper {
    u => StepOf(b, g, u, axiom)
  }

  /** Steps stop only at leaves, and count an item walked past only when it is a leaf. */
  ghost predicate LeafSteps(step: Stepper, g: Graph, axiom: string -> bool) {
    forall u :: (step(u).Leaf? || (step(u).Walk? && step(u).self)) ==> IsLeaf(g, u, axiom)
  }

  /** Steps fail only with the errors the graph lookups raise. */
  ghost predicate LookupFailures(step: Stepper) {
    forall u :: step(u).Fail? ==> step(u).error == GraphError || step(u).error == ValueError
  }

  /** No step scales a quantity by a negative factor. */
  ghost predicate NonNegativeSteps(step: Stepper) {
    forall u :: step(u).Walk? ==> forall e :: e in step(u).parts ==> e.1 >= 0.0
  }

  lemma StepsAreSound(b: Builder, g: Graph, axiom: string -> bool)
    ensures LeafSteps(Steps(b, g, axiom), g, axiom)
    ensures LookupFailures(Steps(b, g, axiom))
    ensures NonNegative(g) ==> NonNegativeSteps(Steps(b, g, axiom))
  {
  }

  /**
   * `_get_ingredients_recursive`: add `q` of item `t`, expanded into raw
   * materials, to the totals; `fuel` stands for the recursion limit.
   */
  function Resolve(step: Stepper, t: string, acc: Totals, q: real, fuel: nat): Result<Totals>
    decreases fuel, 0
  {
    if fuel == 0 then Err(RecursionError)
    else
      match step(t)
      case Fail(e) => Err(e)
      case Leaf => Ok(AddTo(acc, t, q))
      case Walk(parts, self) => ResolveAll(step, parts, Counted(acc, t, q, self), q, fuel - 1)
  }

  /** The loop over predecessors: each is resolved at `q` times its edge weight. */
  function ResolveAll(step: Stepper, preds: OD.Dict<real>, acc: Totals, q: real, fuel: nat): Result<Totals>
    decreases fuel, |preds| + 1
  {
    if |preds| == 0 then Ok(acc)
    else
      match Resolve(step, preds[0].0, acc, Scale(q, preds[0].1), fuel)
      case Err(e) => Err(e)
      case Ok(a) => ResolveAll(step, preds[1..], a, q, fuel)
  }

  /** The walk fails only by running out of recursion or by a failed graph lookup. */
  lemma {:induction false} ResolveErrors(step: Stepper, t: string, acc: Totals, q: real, fuel: nat)
    requires LookupFailures(step) && Resolve(step, t, acc, q, fuel).Err?
    ensures ResolverError(Resolve(step, t, acc, q, fuel).error)
    decreases fuel, 0
  {
    if fuel > 0 && step(t).Walk? {
      ResolveAllErrors(step, step(t).parts, Counted(acc, t, q, step(t).self), q, fuel - 1);
    }
  }

  lemma {:induction false} ResolveAllErrors(step: Stepper, preds: OD.Dict<real>, acc: Totals, q: real, fuel: nat)
    requires LookupFailures(step) && ResolveAll(step, preds, acc, q, fuel).Err?
    ensures ResolverError(ResolveAll(step, preds, acc, q, fuel).error)
    decreases fuel, |preds| + 1
  {
    if |preds| > 0 {
      var first := Resolve(step, preds[0].0, acc, Scale(q, preds[0].1), fuel);
      if first.Err? {
        ResolveErrors(step, preds[0].0, acc, Scale(q, preds[0].1), fuel);
      } else {
        ResolveAllErrors(step, preds[1..], first.value, q, fuel);
      }
    }
  }

  /**
   * `r` keeps every material counted in `acc`, and every material it adds
   * is a leaf.
   */
  ghost predicate Grew(g: Graph, axiom: string -> bool, acc: Totals, r: Totals) {
    (forall k :: OD.Has(acc, k) ==> OD.Has(r, k))
    && (forall k :: OD.Has(r, k) ==> OD.Has(acc, k) || IsLeaf(g, k, axiom))
  }

  lemma GrewChains(g: Graph, axiom: string -> bool, a: Totals, b: Totals, c: Totals)
    requires Grew(g, axiom, a, b) && Grew(g, axiom, b, c)
    ensures Grew(g, axiom, a, c)
  {
  }

  lemma GrewByLeaf(g: Graph, axiom: string -> bool, acc: Totals, t: string, q: real)
    requires IsLeaf(g, t, axiom)
    ensures Grew(g, axiom, acc, AddTo(acc, t, q))
  {
  }

  lemma GrewFromCounted(g: Graph, axiom: string -> bool, acc: Totals, t: string, q: real, self: bool, r: Totals)
    requires self ==> IsLeaf(g, t, axiom)
    requires Grew(g, axiom, Counted(acc, t, q, self), r)
    ensures Grew(g, axiom, acc, r)
  {
    if self {
      GrewByLeaf(g, axiom, acc, t, q);
      GrewChains(g, axiom, acc, Counted(acc, t, q, self), r);
    }
  }

  /**
   * The walk keeps every material already counted, and the only materials
   * it adds are leaves: raw materials by name or nodes without predecessors.
   */
  lemma {:induction false} ResolveKeys(step: Stepper, g: Graph, axiom: string -> bool, t: string, acc: Totals, q: real,
                                       fuel: nat)
    requires LeafSteps(step, g, axiom) && Resolve(step, t, acc, q, fuel).Ok?
    ensures Grew(g, axiom, acc, Resolve(step, t, acc, q, fuel).value)
    decreases fuel, 0
  {
    var r := Resolve(step, t, acc, q, fuel);
    if step(t).Walk? {
      var a := Counted(acc, t, q, step(t).self);
      ResolveAllKeys(step, g, axiom, step(t).parts, a, q, fuel - 1);
      GrewFromCounted(g, axiom, acc, t, q, step(t).self, r.value);
    } else {
      GrewByLeaf(g, axiom, acc, t, q);
    }
  }

  lemma {:induction false} ResolveAllKeys(step: Stepper, g: Graph, axiom: string -> bool, preds: OD.Dict<real>,
                                          acc: Totals, q: real, fuel: nat)
    requires LeafSteps(step, g, axiom) && ResolveAll(step, preds, acc, q, fuel).Ok?
    ensures Grew(g, axiom, acc, ResolveAll(step, preds, acc, q, fuel).value)
    decreases fuel, |preds| + 1
  {
    var r := ResolveAll(step, preds, acc, q, fuel);
    if |preds| > 0 {
      var a := Resolve(step, preds[0].0, acc, Scale(q, preds[0].1), fuel).value;
      ResolveKeys(step, g, axiom, preds[0].0, acc, Scale(q, preds[0].1), fuel);
      ResolveAllKeys(step, g, axiom, preds[1..], a, q, fuel);
      GrewChains(g, axiom, acc, a, r.value);
    }
  }

  /** No material's total in `r` is below its total in `acc` (an absent one counts as zero). */
  ghost predicate NoLess(acc: Totals, r: Totals) {
    forall k :: OD.GetOr(r, k, 0.0) >= OD.GetOr(acc, k, 0.0)
  }

  lemma NoLessChains(a: Totals, b: Totals, c: Totals)
    requires NoLess(a, b) && NoLess(b, c)
    ensures NoLess(a, c)
  {
  }

  lemma NoLessByAdding(acc: Totals, t: string, q: real)
    requires q >= 0.0
    ensures NoLess(acc, AddTo(acc, t, q))
  {
  }

  lemma NoLessFromCounted(acc: Totals, t: string, q: real, self: bool, r: Totals)
    requires q >= 0.0 && NoLess(Counted(acc, t, q, self), r)
    ensures NoLess(acc, r)
  {
    if self {
      NoLessByAdding(acc, t, q);
      NoLessChains(acc, Counted(acc, t, q, self), r);
    }
  }

  /** With no negative factors, the walk only ever adds to the totals. */
  lemma {:induction false} ResolveGrows(step: Stepper, t: string, acc: Totals, q: real, fuel: nat)
    requires q >= 0.0 && NonNegativeSteps(step) && Resolve(step, t, acc, q, fuel).Ok?
    ensures NoLess(acc, Resolve(step, t, acc, q, fuel).value)
    decreases fuel, 0
  {
    var r := Resolve(step, t, acc, q, fuel);
    if step(t).Walk? {
      ResolveAllGrows(step, step(t).parts, Counted(acc, t, q, step(t).self), q, fuel - 1);
      NoLessFromCounted(acc, t, q, step(t).self, r.value);
    } else {
      NoLessByAdding(acc, t, q);
    }
  }

  lemma {:induction false} ResolveAllGrows(step: Stepper, preds: OD.Dict<real>, acc: Totals, q: real, fuel: nat)
    requires q >= 0.0 && NonNegativeSteps(step) && (forall e :: e in preds ==> e.1 >= 0.0)
    requires ResolveAll(step, preds, acc, q, fuel).Ok?
    ensures NoLess(acc, ResolveAll(step, preds, acc, q, fuel).value)
    decreases fuel, |preds| + 1
  {
    var r := ResolveAll(step, preds, acc, q, fuel);
    if |preds| > 0 {
      var a := Resolve(step, preds[0].0, acc, Scale(q, preds[0].1), fuel).value;
      assert preds[0] in preds;
      assert Scale(q, preds[0].1) >= 0.0;
      ResolveGrows(step, preds[0].0, acc, Scale(q, preds[0].1), fuel);
      forall e | e in preds[1..] ensures e.1 >= 0.0 {
        assert e in preds;
      }
      ResolveAllGrows(step, preds[1..], a, q, fuel);
      NoLessChains(acc, a, r.value);
    }
  }

  /** Each material is listed once in the totals, however often the walk meets it. */
  lemma {:induction false} ResolveValid(step: Stepper, t: string, acc: Totals, q: real, fuel: nat)
    requires OD.Valid(acc) && Resolve(step, t, acc, q, fuel).Ok?
    ensures OD.Valid(Resolve(step, t, acc, q, fuel).value)
    decreases fuel, 0
  {
    if step(t).Walk? {
      ResolveAllValid(step, step(t).parts, Counted(acc, t, q, step(t).self), q, fuel - 1);
    }
  }

  lemma {:induction false} ResolveAllValid(step: Stepper, preds: OD.Dict<real>, acc: Totals, q: real, fuel: nat)
    requires OD.Valid(acc) && ResolveAll(step, preds, acc, q, fuel).Ok?
    ensures OD.Valid(ResolveAll(step, preds, acc, q, fuel).value)
    decreases fuel, |preds| + 1
  {
    if |preds| > 0 {
      var a := Resolve(step, preds[0].0, acc, Scale(q, preds[0].1), fuel).value;
      ResolveValid(step, preds[0].0, acc, Scale(q, preds[0].1), fuel);
      ResolveAllValid(step, preds[1..], a, q, fuel);
    }
  }

  /** The outcome of a walk that did not hit the recursion limit. */
  predicate Settled(r: Result<Totals>) {
    r.Ok? || r.error != RecursionError
  }

  /**
   * The recursion limit only cuts walks short: a walk that finished within
   * `fuel` levels gives the same outcome with any larger limit.
   */
  lemma {:induction false} ResolveFuel(step: Stepper, t: string, acc: Totals, q: real, fuel: nat, more: nat)
    requires fuel <= more && Settled(Resolve(step, t, acc, q, fuel))
    ensures Resolve(step, t, acc, q, more) == Resolve(step, t, acc, q, fuel)
    decreases fuel, 0
  {
    if step(t).Walk? {
      ResolveAllFuel(step, step(t).parts, Counted(acc, t, q, step(t).self), q, fuel - 1, more - 1);
    }
  }

  lemma {:induction false} ResolveAllFuel(step: Stepper, preds: OD.Dict<real>, acc: Totals, q: real, fuel: nat, more: nat)
    requires fuel <= more && Settled(ResolveAll(step, preds, acc, q, fuel))
    ensures ResolveAll(step, preds, acc, q, more) == ResolveAll(step, preds, acc, q, fuel)
    decreases fuel, |preds| + 1
  {
    if |preds| > 0 {
      var first := Resolve(step, preds[0].0, acc, Scale(q, preds[0].1), fuel);
      ResolveFuel(step, preds[0].0, acc, Scale(q, preds[0].1), fuel, more);
      if first.Ok? {
        ResolveAllFuel(step, preds[1..], first.value, q, fuel, more);
      }
    }
  }

  /**
   * A raw material by name is a leaf even when recipes make it, which is
   * what breaks the cycles between semi-raw materials: unless a special
   * case or the smithing-template rule applies, it adds its own quantity
   * and nothing else.
   */
  lemma AxiomIsLeaf(b: Builder, g: Graph, t: string, acc: Totals, q: real, fuel: nat, axiom: string -> bool)
    requires fuel > 0 && axiom(t) && t != "netherite_ingot"
    requires b == Current ==> t != "sugar" && StrippedOrCarved(t).None? && !EndsWith(t, "_smithing_template")
    ensures Resolve(Steps(b, g, axiom), t, acc, q, fuel) == Ok(AddTo(acc, t, q))
  {
  }

  /** An item that is neither a raw material nor a node has no predecessors to ask for. */
  lemma UnknownItemFails(b: Builder, g: Graph, t: string, acc: Totals, q: real, fuel: nat, axiom: string -> bool)
    requires fuel > 0 && !axiom(t) && t !in g && t != "netherite_ingot"
    requires b == Current ==> t != "sugar" && StrippedOrCarved(t).None?
    ensures Resolve(Steps(b, g, axiom), t, acc, q, fuel) == Err(GraphError)
  {
  }

  /** An item with none of the special names is not a special case. */
  lemma NotSpecial(b: Builder, t: string)
    requires |t| > 0 && t[0] != 's' && t[0] != 'c' && t != "netherite_ingot"
    ensures Special(b, t).None?
  {
    assert !StartsWith(t, "stripped_") by { assert "stripped_"[0] == 's'; }
    assert !StartsWith(t, "carved_") by { assert "carved_"[0] == 'c'; }
    assert t != "sugar" by { assert "sugar"[0] == 's'; }
  }

  /** A leaf that is neither a special case nor a smithing template stops the walk. */
  lemma LeafStops(b: Builder, g: Graph, t: string, axiom: string -> bool)
    requires IsLeaf(g, t, axiom) && Special(b, t).None? && !EndsWith(t, "_smithing_template")
    ensures Steps(b, g, axiom)(t) == Leaf
  {
  }

  /** A walk that reaches a leaf at once adds the leaf's own quantity. */
  lemma ResolveLeaf(step: Stepper, t: string, acc: Totals, q: real, fuel: nat)
    requires fuel > 0 && step(t) == Leaf
    ensures Resolve(step, t, acc, q, fuel) == Ok(AddTo(acc, t, q))
  {
  }

  /** Predecessors are resolved one after the other, each from the totals the one before left. */
  lemma ResolveAllFirst(step: Stepper, preds: OD.Dict<real>, acc: Totals, q: real, fuel: nat, a: Totals)
    requires |preds| > 0 && Resolve(step, preds[0].0, acc, Scale(q, preds[0].1), fuel) == Ok(a)
    ensures ResolveAll(step, preds, acc, q, fuel) == ResolveAll(step, preds[1..], a, q, fuel)
  {
  }

  /** An item that stands for one leaf adds that leaf, at the item's quantity times the factor. */
  lemma ResolveThroughOne(step: Stepper, t: string, u: string, w: real, acc: Totals, q: real, fuel: nat)
    requires fuel >= 2 && step(t) == Walk([(u, w)], false) && step(u) == Leaf
    ensures Resolve(step, t, acc, q, fuel) == Ok(AddTo(acc, u, Scale(q, w)))
  {
    var parts := [(u, w)];
    var a := AddTo(acc, u, Scale(q, w));
    ResolveLeaf(step, u, acc, Scale(q, w), fuel - 1);
    assert parts[0].0 == u && parts[0].1 == w && parts[1..] == [];
    ResolveAllFirst(step, parts, acc, q, fuel - 1, a);
  }

  /** An item that stands for two leaves adds both, in order. */
  lemma ResolveThroughTwo(step: Stepper, t: string, u: string, wu: real, v: string, wv: real, acc: Totals,
                          q: real, fuel: nat)
    requires fuel >= 2 && step(t) == Walk([(u, wu), (v, wv)], false) && step(u) == Leaf && step(v) == Leaf
    ensures Resolve(step, t, acc, q, fuel) == Ok(AddTo(AddTo(acc, u, Scale(q, wu)), v, Scale(q, wv)))
  {
    var parts := [(u, wu), (v, wv)];
    var rest := [(v, wv)];
    var a := AddTo(acc, u, Scale(q, wu));
    var b := AddTo(a, v, Scale(q, wv));
    ResolveLeaf(step, u, acc, Scale(q, wu), fuel - 1);
    ResolveLeaf(step, v, a, Scale(q, wv), fuel - 1);
    assert parts[0].0 == u && parts[0].1 == wu && parts[1..] == rest;
    ResolveAllFirst(step, parts, acc, q, fuel - 1, a);
    assert rest[0].0 == v && rest[0].1 == wv && rest[1..] == [];
    ResolveAllFirst(step, rest, a, q, fuel - 1, b);
  }

  /**
   * A netherite ingot is counted as four netherite scrap and four gold
   * ingots, with both builders, although its name has the shape of a raw
   * material.
   */
  lemma NetheriteIsNotALeaf(b: Builder, g: Graph, axiom: string -> bool, q: real, fuel: nat)
    requires fuel >= 2 && axiom("gold_ingot") && "netherite_scrap" in g && |g["netherite_scrap"]| == 0
    ensures Resolve(Steps(b, g, axiom), "netherite_ingot", [], q, fuel)
         == Ok([("netherite_scrap", 4.0 * q), ("gold_ingot", 4.0 * q)])
  {
    var step := Steps(b, g, axiom);
    NetheriteSteps(b, g, axiom);
    ResolveThroughTwo(step, "netherite_ingot", "netherite_scrap", 4.0, "gold_ingot", 4.0, [], q, fuel);
    assert Scale(q, 4.0) == 4.0 * q;
    AddTwoFresh("netherite_scrap", 4.0 * q, "gold_ingot", 4.0 * q);
  }

  /** Two different materials added to empty totals are listed in the order they were added. */
  lemma AddTwoFresh(k1: string, x: real, k2: string, y: real)
    requires k1 != k2
    ensures AddTo(AddTo([], k1, x), k2, y) == [(k1, x), (k2, y)]
  {
    OD.SetAppends([], k1, 0.0 + x);
    assert AddTo([], k1, x) == [(k1, x)];
    OD.SetAppends([(k1, x)], k2, 0.0 + y);
  }

  lemma NetheriteSteps(b: Builder, g: Graph, axiom: string -> bool)
    requires axiom("gold_ingot") && "netherite_scrap" in g && |g["netherite_scrap"]| == 0
    ensures Steps(b, g, axiom)("netherite_ingot") == Walk([("netherite_scrap", 4.0), ("gold_ingot", 4.0)], false)
    ensures Steps(b, g, axiom)("netherite_scrap") == Leaf
    ensures Steps(b, g, axiom)("gold_ingot") == Leaf
  {
    assert "netherite_scrap"[10] != "netherite_ingot"[10];
    NotSpecial(b, "netherite_scrap");
    LeafStops(b, g, "netherite_scrap", axiom);
    assert "gold_ingot"[0] == 'g';
    NotSpecial(b, "gold_ingot");
    assert !EndsWith("gold_ingot", "_smithing_template");
    LeafStops(b, g, "gold_ingot", axiom);
  }

  /** Both raw-material patterns name the netherite ingot (and the gold ingot). */
  lemma NetheriteMatchesThePattern()
    ensures Axiom("netherite_ingot") && AxiomAsWritten("netherite_ingot")
    ensures Axiom("gold_ingot")
  {
    assert WordsThen("netherite_ingot", "_ingot") by {
      assert "netherite_ingot"[..9] == "netherite";
      assert AllWordChars("netherite");
    }
    assert WordsThen("gold_ingot", "_ingot") by {
      assert "gold_ingot"[..4] == "gold";
      assert AllWordChars("gold");
    }
  }

  /** The current builder counts sugar as sugar cane, one for one. */
  lemma SugarIsCane(g: Graph, axiom: string -> bool, acc: Totals, q: real, fuel: nat)
    requires fuel >= 2 && IsLeaf(g, "sugar_cane", axiom)
    ensures Resolve(Steps(Current, g, axiom), "sugar", acc, q, fuel) == Ok(AddTo(acc, "sugar_cane", q))
  {
    var step := Steps(Current, g, axiom);
    assert step("sugar") == Walk([("sugar_cane", 1.0)], false);
    assert step("sugar_cane") == Leaf by {
      assert Special(Current, "sugar_cane").None? by {
        assert "sugar_cane" != "netherite_ingot" && "sugar_cane" != "sugar";
        assert !StartsWith("sugar_cane", "stripped_") by { assert "sugar_cane"[1] != "stripped_"[1]; }
        assert !StartsWith("sugar_cane", "carved_");
      }
      assert !EndsWith("sugar_cane", "_smithing_template");
      LeafStops(Current, g, "sugar_cane", axiom);
    }
    ResolveThroughOne(step, "sugar", "sugar_cane", 1.0, acc, q, fuel);
    assert q * 1.0 == q;
  }

  /**
   * The current builder counts a stripped or carved block as the plain
   * block it was made from.
   */
  lemma StrippedIsPlain(g: Graph, axiom: string -> bool, plain: string, acc: Totals, q: real, fuel: nat)
    requires fuel >= 2 && IsLeaf(g, plain, axiom)
    requires Special(Current, plain).None? && !EndsWith(plain, "_smithing_template")
    ensures Resolve(Steps(Current, g, axiom), "stripped_" + plain, acc, q, fuel) == Ok(AddTo(acc, plain, q))
    ensures Resolve(Steps(Current, g, axiom), "carved_" + plain, acc, q, fuel) == Ok(AddTo(acc, plain, q))
  {
    var step := Steps(Current, g, axiom);
    var s := "stripped_" + plain;
    var c := "carved_" + plain;
    assert step(s) == Walk([(plain, 1.0)], false) by {
      assert s != "netherite_ingot" && s != "sugar" by { assert s[0] == 's'; }
      assert s[..9] == "stripped_" && s[9..] == plain;
    }
    assert step(c) == Walk([(plain, 1.0)], false) by {
      assert c != "netherite_ingot" && c != "sugar" by { assert c[0] == 'c'; }
      assert !StartsWith(c, "stripped_") by { assert c[0] == 'c'; }
      assert c[..7] == "carved_" && c[7..] == plain;
    }
    LeafStops(Current, g, plain, axiom);
    ResolveThroughOne(step, s, plain, 1.0, acc, q, fuel);
    ResolveThroughOne(step, c, plain, 1.0, acc, q, fuel);
    assert q * 1.0 == q;
  }

  /**
   * The `raw_` pattern at work: a storage block of raw ore, made from the
   * raw ore, is a raw material itself as the pattern is written, and is
   * counted as the raw ore it is made from as meant.
   */
  lemma RawBlockResolution(b: Builder, g: Graph, ore: string, w: real, acc: Totals, q: real, fuel: nat)
    requires fuel >= 2 && |ore| > 0 && AllWordChars(ore) && ore[|ore| - 1] != 'k' && ore[|ore| - 1] != 'e'
    requires "raw_" + ore + "_block" in g && g["raw_" + ore + "_block"] == [("raw_" + ore, w)]
    ensures Resolve(Steps(b, g, AxiomAsWritten), "raw_" + ore + "_block", acc, q, fuel)
         == Ok(AddTo(acc, "raw_" + ore + "_block", q))
    ensures Resolve(Steps(b, g, Axiom), "raw_" + ore + "_block", acc, q, fuel)
         == Ok(AddTo(acc, "raw_" + ore, q * w))
  {
    var raw := "raw_" + ore;
    var block := raw + "_block";
    RawBlocksAreAxioms(ore);
    assert block[0] == 'r' && raw[0] == 'r';
    NotSpecial(b, block);
    NotSpecial(b, raw);
    assert !EndsWith(block, "_smithing_template") by { assert block[|block| - 1] == 'k'; }
    LeafStops(b, g, block, AxiomAsWritten);
    ResolveLeaf(Steps(b, g, AxiomAsWritten), block, acc, q, fuel);
    assert Steps(b, g, Axiom)(block) == Walk([(raw, w)], false);
    assert Axiom(raw) by {
      assert raw[..4] == "raw_" && raw[4..] == ore;
      assert !EndsWith(raw, "_block") by { assert raw[|raw| - 1] != 'k'; }
    }
    assert !EndsWith(raw, "_smithing_template") by { assert raw[|raw| - 1] != 'e'; }
    LeafStops(b, g, raw, Axiom);
    ResolveThroughOne(Steps(b, g, Axiom), block, raw, w, acc, q, fuel);
  }
}

=== FILE: results.dfy ===
/**
 * Optional values and results that carry the kind of exception the
 * original Python or Java code would raise.
 */
module Results {

  datatype Option<T> = None | Some(value: T) {
    predicate IsSome() { Some? }

    function GetOr(default: T): T {
      match this
      case None => default
      case Some(v) => v
    }
  }

  /** The exception kinds the modelled code raises, named as in the source language. */
  datatype Exception =
    | ValueError
    | TypeError
    | KeyError
    | IndexError
    | AttributeError
    | UnboundLocalError
    | ZeroDivisionError
    | RecursionError
    | GraphError            // networkx: node not in graph
    | ExtractionError       // extractor_runner.ExtractionError
    | IllegalArgument       // java.lang.IllegalArgumentException
    | NumberFormat          // java.lang.NumberFormatException
    | IndexOutOfBounds      // java.lang.StringIndexOutOfBoundsException
    | NullPointer           // java.lang.NullPointerException
    | IOFailure             // java.io.IOException
    | ExternalFailure       // any failure of a collaborator the model does not see

  datatype Result<T> = Ok(value: T) | Err(error: Exception) {
    predicate IsOk() { Ok? }

    function Map<U>(f: T -> U): Result<U> {
      match this
      case Ok(v) => Ok(f(v))
      case Err(e) => Err(e)
    }
  }
}

=== FILE: seqs.dfy ===
/** Facts about the last element of a sequence, used by the folds that recurse on a prefix. */
module Seqs {
  /** A sequence is its elements before the last, then the last. */
  lemma InitLast<T>(s: seq<T>)
    requires |s| > 0
    ensures s[..|s| - 1] + [s[|s| - 1]] == s
  {
  }

  /** Appending one element and dropping it again gives the sequence back. */
  lemma SnocInit<T>(s: seq<T>, x: T)
    ensures (s + [x])[..|s|] == s && (s + [x])[|s|] == x
  {
  }

  /** An element of a non-empty list is in the list without its last element, or is that last element. */
  lemma InitLastMembers<T>(s: seq<T>)
    requires |s| > 0
    ensures forall x :: x in s <==> x in s[..|s| - 1] || x == s[|s| - 1]
  {
    InitLast(s);
  }
}

=== FILE: source_extractor.dfy ===
/**
 * The entry point of the Java extractor (SimpleSourceExtractor.java): it
 * reads a version from its input, refuses versions older than 1.21, copies
 * the three target sources out of the decompiled jars, and removes its
 * temporary directories. The pipeline run and the jars are parameters.
 */
module SourceExtractor {
  import opened Results
  import opened Strings
  import opened VersionTokens
  import ER = ExtractorRunner
  import Seqs

  // ---------------------------------------------------------------------
  // Reading the version
  // ---------------------------------------------------------------------

  /** `String.trim` removes every character up to and including the space. */
  predicate IsTrimmed(c: char) { c <= ' ' }

  function LTrim(s: string): (r: string)
    ensures |r| <= |s| && r == s[|s| - |r|..]
    ensures |r| > 0 ==> !IsTrimmed(r[0])
    ensures forall i :: 0 <= i < |s| - |r| ==> IsTrimmed(s[i])
  {
    if |s| > 0 && IsTrimmed(s[0]) then
      var t := LTrim(s[1..]);
      assert s[|s| - |t|..] == s[1..][|s| - 1 - |t|..];
      assert forall i :: 1 <= i < |s| - |t| ==> s[i] == s[1..][i - 1];
      t
    else s
  }

  function RTrim(s: string): (r: string)
    ensures |r| <= |s| && r == s[..|r|]
    ensures |r| > 0 ==> !IsTrimmed(r[|r| - 1])
    ensures forall i :: |r| <= i < |s| ==> IsTrimmed(s[i])
  {
    if |s| > 0 && IsTrimmed(s[|s| - 1]) then RTrim(s[..|s| - 1]) else s
  }

  /** `String.trim`: both ends cut back to a character above the space. */
  function Trim(s: string): (r: string)
    ensures |r| <= |s|
    ensures |r| > 0 ==> !IsTrimmed(r[0]) && !IsTrimmed(r[|r| - 1])
  {
    RTrim(LTrim(s))
  }

  lemma {:induction false} TokenOfLTrim(s: string)
    ensures Token(LTrim(s)) == Token(s)
    decreases |s|
  {
    if |s| > 0 && IsTrimmed(s[0]) {
      TokenOfLTrim(s[1..]);
      TokenDropFirst(s);
    }
  }

  lemma {:induction false} TokenOfRTrim(s: string)
    ensures Token(RTrim(s)) == Token(s)
    decreases |s|
  {
    if |s| > 0 && IsTrimmed(s[|s| - 1]) {
      var t := s[..|s| - 1];
      assert RTrim(s) == RTrim(t);
      TokenOfRTrim(t);
      assert !IsTokenChar(s[|s| - 1]);
      TokenDropLast(s);
    }
  }

  /**
   * `normalizeVersionInput`: the first version token of the trimmed input
   * with `_` turned into `.`; `IllegalArgumentException` when there is none.
   */
  function NormalizeVersionInput(raw: string): (r: Result<string>)
    ensures r.Err? ==> r.error == IllegalArgument
  {
    match Token(Trim(raw))
    case None => Err(IllegalArgument)
    case Some(t) => Ok(Dotted(t))
  }

  /**
   * The Java extractor and its Python driver read the same version from
   * the same input, although `String.trim` and `str.strip` remove
   * different characters: both fail on the same inputs and otherwise agree.
   */
  lemma NormalizationsAgree(raw: string)
    ensures NormalizeVersionInput(raw).Err? <==> ER.NormaliseVersion(raw).Err?
    ensures NormalizeVersionInput(raw).Ok? ==> NormalizeVersionInput(raw) == ER.NormaliseVersion(raw)
  {
    TokenOfLTrim(raw);
    TokenOfRTrim(LTrim(raw));
    ER.NormaliseVersionUnstripped(raw);
  }

  /** `sanitizedVersionSegment`: letters, digits, `.`, `-` and `_` are kept, anything else becomes `_`. */
  function SanitizedVersionSegment(version: string): (r: string)
    ensures |r| == |version|
    ensures forall i :: 0 <= i < |r| ==> r[i] == (if IsSegmentChar(version[i]) then version[i] else '_')
  {
    Sanitise(version)
  }

  /**
   * The version directory is named after the normalised version itself, and
   * the Java and Python sanitising agree on every text.
   */
  lemma SegmentOfNormalizedVersion(raw: string)
    requires NormalizeVersionInput(raw).Ok?
    ensures SanitizedVersionSegment(NormalizeVersionInput(raw).value) == NormalizeVersionInput(raw).value
  {
    var t := Token(Trim(raw)).value;
    TokenIsFirstLongest(Trim(raw), FirstDigit(Trim(raw)), t, 0);
    DottedIsSegment(t);
  }

  // ---------------------------------------------------------------------
  // Supported versions
  // ---------------------------------------------------------------------

  /** `Integer.MAX_VALUE`. */
  const IntMax: int := 0x7fff_ffff

  /**
   * `parseIntSafely`: the value of the leading digits, 0 when there are
   * none; `Integer.parseInt` throws when the digits exceed the `int` range.
   */
  function ParseIntSafely(part: string): (r: Result<int>)
    ensures r.Ok? ==> 0 <= r.value <= IntMax
    ensures r.Err? ==> r.error == NumberFormat
    ensures |part| == 0 || !IsDigit(part[0]) ==> r == Ok(0)
  {
    var digits := DigitPrefix(part);
    if |digits| == 0 then Ok(0)
    else if DigitsValue(digits) > IntMax then Err(NumberFormat)
    else Ok(DigitsValue(digits))
  }

  /** The decimal text of an `int`, followed by anything but a digit, reads back as that number. */
  lemma ParseIntSafelyOfNumber(n: nat, rest: string)
    requires n <= IntMax
    requires |rest| > 0 ==> !IsDigit(rest[0])
    ensures ParseIntSafely(NatToString(n) + rest) == Ok(n)
  {
    DigitPrefixOfDigits(NatToString(n), rest);
  }

  /** `numbers[i]`: the `i`-th dot-separated part read as a number, 0 past the last part. */
  function PartValue(parts: seq<string>, i: nat): (r: Result<int>)
    ensures r.Ok? ==> r.value >= 0
  {
    if i < |parts| then ParseIntSafely(parts[i]) else Ok(0)
  }

  /**
   * `isSupportedVersion`: the part before the first `-`, split at dots,
   * read as major, minor and patch. A part whose digits exceed the `int`
   * range makes the check throw.
   */
  function IsSupportedVersion(version: string): (r: Result<bool>)
    ensures r.Err? ==> r.error == NumberFormat
  {
    var parts := Split(Split(version, '-')[0], '.');
    match PartValue(parts, 0)
    case Err(e) => Err(e)
    case Ok(major) =>
      match PartValue(parts, 1)
      case Err(e) => Err(e)
      case Ok(minor) =>
        match PartValue(parts, 2)
        case Err(e) => Err(e)
        case Ok(patch) =>
          Ok(if major > 1 then true
             else if major < 1 then false
             else if minor > 21 then true
             else if minor < 21 then false
             else patch >= 0)
  }

  /** The text `major.minor.patch` of three numbers. */
  function VersionText(major: nat, minor: nat, patch: nat): string {
    NatToString(major) + (['.'] + (NatToString(minor) + (['.'] + NatToString(patch))))
  }

  /**
   * A version `major.minor.patch`, with or without a `-` suffix, is
   * supported exactly when it is 1.21 or newer; the patch never matters.
   */
  lemma SupportedNumbers(major: nat, minor: nat, patch: nat, tail: string)
    requires major <= IntMax && minor <= IntMax && patch <= IntMax
    ensures IsSupportedVersion(VersionText(major, minor, patch)) == Ok(major > 1 || (major == 1 && minor >= 21))
    ensures IsSupportedVersion(VersionText(major, minor, patch) + (['-'] + tail))
      == Ok(major > 1 || (major == 1 && minor >= 21))
  {
    var a := NatToString(major);
    var b := NatToString(minor);
    var c := NatToString(patch);
    var numeric := VersionText(major, minor, patch);
    NoCharInDigits('.', a);
    NoCharInDigits('.', b);
    NoCharInDigits('.', c);
    NoDashInVersionText(a, b, c);
    SplitThree(a, b, c, '.');
    ParseIntSafelyOfNumber(major, "");
    ParseIntSafelyOfNumber(minor, "");
    ParseIntSafelyOfNumber(patch, "");
    assert a + "" == a && b + "" == b && c + "" == c;
    SupportedOfParts(numeric, a, b, c, major, minor, patch);
    SplitConsRight(numeric, '-', tail);
    SupportedOfParts(numeric + (['-'] + tail), a, b, c, major, minor, patch);
  }

  /** A text of digits holds no other character. */
  lemma NoCharInDigits(c: char, d: string)
    requires AllDigits(d) && !IsDigit(c)
    ensures c !in d
  {
  }

  lemma NoDashInVersionText(a: string, b: string, c: string)
    requires AllDigits(a) && AllDigits(b) && AllDigits(c)
    ensures '-' !in a + (['.'] + (b + (['.'] + c)))
  {
    NoCharInDigits('-', a);
    NoCharInDigits('-', b);
    NoCharInDigits('-', c);
  }

  /** The check on a version whose numeric part splits into three numbers. */
  lemma SupportedOfParts(version: string, a: string, b: string, c: string, major: int, minor: int, patch: int)
    requires Split(Split(version, '-')[0], '.') == [a, b, c]
    requires ParseIntSafely(a) == Ok(major) && ParseIntSafely(b) == Ok(minor) && ParseIntSafely(c) == Ok(patch)
    requires patch >= 0
    ensures IsSupportedVersion(version) == Ok(major > 1 || (major == 1 && minor >= 21))
  {
  }

  /**
   * `extract`: normalise the input, refuse an unsupported version with
   * `IllegalArgumentException`, and only then run the pipeline on it.
   */
  function Extract(raw: string, run: string -> Result<seq<ER.Path>>): (r: Result<seq<ER.Path>>)
  {
    match NormalizeVersionInput(raw)
    case Err(e) => Err(e)
    case Ok(v) =>
      match IsSupportedVersion(v)
      case Err(e) => Err(e)
      case Ok(supported) => if supported then run(v) else Err(IllegalArgument)
  }

  /**
   * Input without a version, or a version older than 1.21, is refused
   * before any work: the outcome does not depend on the pipeline at all. A
   * supported version is handed to the pipeline in its normalised form.
   */
  lemma ExtractRefusesFirst(raw: string, run: string -> Result<seq<ER.Path>>, run': string -> Result<seq<ER.Path>>)
    ensures NormalizeVersionInput(raw).Err? ==> Extract(raw, run) == Err(IllegalArgument)
    ensures NormalizeVersionInput(raw).Ok? && IsSupportedVersion(NormalizeVersionInput(raw).value) == Ok(false) ==>
      Extract(raw, run) == Err(IllegalArgument)
    ensures !(NormalizeVersionInput(raw).Ok? && IsSupportedVersion(NormalizeVersionInput(raw).value) == Ok(true)) ==>
      Extract(raw, run) == Extract(raw, run') && Extract(raw, run).Err?
    ensures NormalizeVersionInput(raw).Ok? && IsSupportedVersion(NormalizeVersionInput(raw).value) == Ok(true) ==>
      Extract(raw, run) == run(NormalizeVersionInput(raw).value)
  {
  }

  // ---------------------------------------------------------------------
  // Copying the target sources
  // ---------------------------------------------------------------------

  /** `extractFileName`: the text after the last `/`, or all of it when there is none. */
  function ExtractFileName(p: string): (r: string)
    ensures '/' !in r
    ensures |r| <= |p| && r == p[|p| - |r|..]
    ensures '/' in p ==> |r| < |p| && p[|p| - |r| - 1] == '/'
    ensures '/' !in p ==> r == p
  {
    if |p| == 0 then p
    else if p[|p| - 1] == '/' then ""
    else
      var init := p[..|p| - 1];
      var r := ExtractFileName(init) + [p[|p| - 1]];
      assert forall x :: x in p <==> x in init || x == p[|p| - 1] by { Seqs.InitLastMembers(p); }
      assert p == init + [p[|p| - 1]] by { Seqs.InitLast(p); }
      r
  }

  /** The file name after a directory is the part after the slash. */
  lemma {:induction false} FileNameAfterSlash(dir: string, name: string)
    requires '/' !in name
    ensures ExtractFileName(dir + "/" + name) == name
    decreases |name|
  {
    var p := dir + "/" + name;
    if |name| == 0 {
      assert p[|p| - 1] == '/';
    } else {
      var init := name[..|name| - 1];
      Seqs.InitLastMembers(name);
      FileNameAfterSlash(dir, init);
      assert p[..|p| - 1] == dir + "/" + init;
      assert p[|p| - 1] == name[|name| - 1];
      Seqs.InitLast(name);
    }
  }

  /** `TARGET_SOURCES`: the three sources in the jars, by their path inside. */
  const TargetSources: seq<string> := [
    "net/minecraft/world/item" + "/" + "Items.java",
    "net/minecraft/world/level/block" + "/" + "Blocks.java",
    "net/minecraft/world/entity" + "/" + "EntityType.java"
  ]

  /**
   * The Java extractor writes each source under the name the Python driver
   * looks for when the tree is flattened: its targets, in the opposite
   * order, have the file names of the driver's target files.
   */
  lemma FileNamesMatchDriver()
    ensures |TargetSources| == |ER.TargetFiles|
    ensures forall i :: 0 <= i < |TargetSources| ==>
      ExtractFileName(TargetSources[i]) == ER.Name(ER.TargetFiles[|ER.TargetFiles| - 1 - i])
  {
    forall i | 0 <= i < |TargetSources|
      ensures ExtractFileName(TargetSources[i]) == ER.Name(ER.TargetFiles[|ER.TargetFiles| - 1 - i])
    {
      if i == 0 {
        ItemsName();
      } else if i == 1 {
        BlocksName();
      } else {
        EntityTypeName();
      }
    }
  }

  lemma ItemsName()
    ensures ExtractFileName(TargetSources[0]) == ER.Name(ER.TargetFiles[2])
  {
    FileNameAfterSlash("net/minecraft/world/item", "Items.java");
  }

  lemma BlocksName()
    ensures ExtractFileName(TargetSources[1]) == ER.Name(ER.TargetFiles[1])
  {
    FileNameAfterSlash("net/minecraft/world/level/block", "Blocks.java");
  }

  lemma EntityTypeName()
    ensures ExtractFileName(TargetSources[2]) == ER.Name(ER.TargetFiles[0])
  {
    FileNameAfterSlash("net/minecraft/world/entity", "EntityType.java");
  }

  /** A decompiled jar as `tryCopyFromJar` finds it. */
  datatype Jar =
    | Absent                      // no path, or no file there
    | Unreadable                  // opening it as a file system throws `IOException`
    | Entries(names: set<string>) // the paths it holds

  /** The jar holds the source, so copying from it succeeds. */
  predicate Holds(jar: Jar, source: string) { jar.Entries? && source in jar.names }

  /** The jar is passed over: missing, or without the source. */
  predicate Skips(jar: Jar, source: string) { jar.Absent? || (jar.Entries? && source !in jar.names) }

  /** `tryCopyFromJar`: whether the source was copied out of the jar. */
  function TryCopyFromJar(jar: Jar, source: string): (r: Result<bool>)
    ensures r == Ok(true) <==> Holds(jar, source)
    ensures r == Ok(false) <==> Skips(jar, source)
    ensures r.Err? <==> jar.Unreadable?
  {
    match jar
    case Absent => Ok(false)
    case Unreadable => Err(IOFailure)
    case Entries(names) => Ok(source in names)
  }

  /**
   * One turn of the copy loop: the jars are tried in order and the index
   * of the one the source is copied from is returned; when none has it the
   * loop throws `IOException`.
   */
  function CopyTarget(jars: seq<Jar>, source: string): (r: Result<nat>)
    ensures r.Ok? ==> r.value < |jars| && Holds(jars[r.value], source)
    ensures r.Ok? ==> forall j :: 0 <= j < r.value ==> Skips(jars[j], source)
    ensures r.Err? ==> r.error == IOFailure
    ensures r.Err? <==>
      !exists i :: 0 <= i < |jars| && Holds(jars[i], source) && forall j :: 0 <= j < i ==> Skips(jars[j], source)
  {
    if |jars| == 0 then Err(IOFailure)
    else
      match TryCopyFromJar(jars[0], source)
      case Err(e) => Err(e)
      case Ok(copied) =>
        if copied then Ok(0)
        else
          var rest := CopyTarget(jars[1..], source);
          assert forall j :: 1 <= j < |jars| ==> jars[j] == jars[1..][j - 1];
          match rest
          case Err(e) =>
            assert forall i :: 1 <= i < |jars| && Holds(jars[i], source) ==> exists j :: 0 <= j < i && !Skips(jars[j], source) by {
              forall i | 1 <= i < |jars| && Holds(jars[i], source)
                ensures exists j :: 0 <= j < i && !Skips(jars[j], source)
              {
                assert Holds(jars[1..][i - 1], source);
                var j :| 0 <= j < i - 1 && !Skips(jars[1..][j], source);
                assert !Skips(jars[j + 1], source);
              }
            }
            Err(e)
          case Ok(i) => Ok(i + 1)
  }

  /**
   * `extractSelectedSources` over the targets: each is copied from the
   * merged jar, else the client jar, else the server jar; the first target
   * none of them yields stops the loop with `IOException`.
   */
  function ExtractSelectedSources(merged: Jar, client: Jar, server: Jar, targets: seq<string>): (r: Result<seq<nat>>)
    ensures r.Ok? ==> |r.value| == |targets|
    ensures r.Ok? ==> forall i :: 0 <= i < |targets| ==> CopyTarget([merged, client, server], targets[i]) == Ok(r.value[i])
    ensures r.Err? <==> exists i :: 0 <= i < |targets| && CopyTarget([merged, client, server], targets[i]).Err?
  {
    if |targets| == 0 then Ok([])
    else
      match CopyTarget([merged, client, server], targets[0])
      case Err(e) => Err(e)
      case Ok(j) =>
        var rest := ExtractSelectedSources(merged, client, server, targets[1..]);
        assert forall i :: 1 <= i < |targets| ==> targets[i] == targets[1..][i - 1];
        match rest
        case Err(e) => Err(e)
        case Ok(js) => Ok([j] + js)
  }

  /**
   * Where a target comes from: the merged jar whenever it holds it; the
   * client jar only when the merged jar is missing or lacks it; the server
   * jar only when both others are passed over.
   */
  lemma FallbackOrder(merged: Jar, client: Jar, server: Jar, source: string)
    ensures Holds(merged, source) ==> CopyTarget([merged, client, server], source) == Ok(0)
    ensures Skips(merged, source) && Holds(client, source) ==> CopyTarget([merged, client, server], source) == Ok(1)
    ensures Skips(merged, source) && Skips(client, source) && Holds(server, source) ==>
      CopyTarget([merged, client, server], source) == Ok(2)
    ensures Skips(merged, source) && Skips(client, source) && Skips(server, source) ==>
      CopyTarget([merged, client, server], source) == Err(IOFailure)
  {
    var jars := [merged, client, server];
    assert jars[1..] == [client, server] && jars[1..][1..] == [server] && [server][1..] == [];
    var r0 := CopyTarget([], source);
    var r1 := CopyTarget([server], source);
    var r2 := CopyTarget([client, server], source);
    var r3 := CopyTarget(jars, source);
  }

  // ---------------------------------------------------------------------
  // Cleanup and configuration
  // ---------------------------------------------------------------------

  /** `Path.startsWith`: the path begins with all components of the other. */
  predicate PathStartsWith(p: ER.Path, q: ER.Path) { |q| <= |p| && p[..|q|] == q }

  /**
   * `cleanupPathQuietly`: the directory whose deletion is attempted, if
   * any. A failed deletion is only reported, so it does not show here.
   */
  function CleanupPathQuietly(path: Option<ER.Path>, cwd: ER.Path): (deleted: Option<ER.Path>)
    ensures deleted.Some? <==> path.Some? && PathStartsWith(path.value, cwd)
    ensures deleted.Some? ==> deleted == path
  {
    match path
    case None => None
    case Some(p) => if PathStartsWith(p, cwd) then Some(p) else None
  }

  /** `cleanupTemporaryArtifacts`: the artifact store, then the temporary directory. */
  function CleanupTemporaryArtifacts(store: Option<ER.Path>, tmp: Option<ER.Path>, cwd: ER.Path): (deleted: seq<ER.Path>)
    ensures forall p :: p in deleted ==> PathStartsWith(p, cwd)
    ensures forall p :: p in deleted ==> Some(p) == store || Some(p) == tmp
    ensures store.Some? && PathStartsWith(store.value, cwd) ==> store.value in deleted
    ensures tmp.Some? && PathStartsWith(tmp.value, cwd) ==> tmp.value in deleted
  {
    var a := CleanupPathQuietly(store, cwd);
    var b := CleanupPathQuietly(tmp, cwd);
    (if a.Some? then [a.value] else []) + (if b.Some? then [b.value] else [])
  }

  /** `Math.max(1, Math.min(2, x))`. */
  function ClampThreads(x: int): (r: int)
    ensures 1 <= r <= 2
    ensures 1 <= x <= 2 ==> r == x
    ensures x < 1 ==> r == 1
    ensures x > 2 ==> r == 2
  {
    if 1 > (if 2 < x then 2 else x) then 1 else if 2 < x then 2 else x
  }

  /** `Math.min(16, x)`. */
  function ClampRequests(x: int): (r: int)
    ensures r <= 16
    ensures x <= 16 ==> r == x
    ensures x > 16 ==> r == 16
  {
    if 16 < x then 16 else x
  }

  /** The limits `initialize` rewrites in the global configuration. */
  datatype Limits = Limits(remappingThreads: int, decompilingThreads: int, requestsPerOrigin: int)

  /**
   * `initialize`: remapping and decompiling use one or two threads and an
   * origin gets at most 16 requests; a setting already within bounds is kept.
   */
  function Initialize(l: Limits): (r: Limits)
    ensures 1 <= r.remappingThreads <= 2 && 1 <= r.decompilingThreads <= 2 && r.requestsPerOrigin <= 16
  {
    Limits(ClampThreads(l.remappingThreads), ClampThreads(l.decompilingThreads), ClampRequests(l.requestsPerOrigin))
  }

  /** Applying the limits twice is applying them once, and they never raise a setting's order. */
  lemma InitializeIdempotent(l: Limits, m: Limits)
    ensures Initialize(Initialize(l)) == Initialize(l)
    ensures l.remappingThreads <= m.remappingThreads ==> Initialize(l).remappingThreads <= Initialize(m).remappingThreads
    ensures l.decompilingThreads <= m.decompilingThreads ==> Initialize(l).decompilingThreads <= Initialize(m).decompilingThreads
    ensures l.requestsPerOrigin <= m.requestsPerOrigin ==> Initialize(l).requestsPerOrigin <= Initialize(m).requestsPerOrigin
  {
  }
}

=== FILE: sparrow.dfy ===
/**
 * The Ornithe Sparrow signature patches (SparrowSignatures.java): which
 * published build, if any, serves a version and jar variant; where its
 * files go; and the steps that fetch it or read it. The remote version
 * list is a lookup from a version key to the latest build for it, which
 * may fail; the file system is a pair of predicates.
 */
module Sparrow {
  import opened Results
  import opened Strings
  import opened Steps
  import BM = BuildMeta
  import ER = ExtractorRunner

  /** The parts of `OrderedVersion` the signatures provider reads. */
  datatype OrderedVersion = OrderedVersion(
    launcherFriendlyVersionName: string,
    hasSharedVersioning: bool,
    hasSharedObfuscation: bool)

  /** `sparrowVersions.getLatest`: the newest build for a key, none, or a failed fetch. */
  type Lookup = string -> Result<Option<BM.GameVersionBuildMeta>>

  /** `minecraftJar.name().toLowerCase()`. */
  function JarSuffix(jar: MinecraftJar): string {
    Lower(JarName(jar))
  }

  lemma JarSuffixes()
    ensures JarSuffix(Client) == "client"
    ensures JarSuffix(Server) == "server"
  {
  }

  /**
   * `versionKey`: the version name for the merged jar, otherwise the name,
   * `-` and the jar variant in lower case.
   */
  function VersionKey(v: OrderedVersion, jar: MinecraftJar): string {
    if jar == Merged then v.launcherFriendlyVersionName
    else v.launcherFriendlyVersionName + "-" + JarSuffix(jar)
  }

  /** The three variants of one version are looked up under three different keys. */
  lemma VersionKeysDistinct(v: OrderedVersion, a: MinecraftJar, b: MinecraftJar)
    ensures VersionKey(v, a) == VersionKey(v, b) ==> a == b
    ensures VersionKey(v, a)[..|v.launcherFriendlyVersionName|] == v.launcherFriendlyVersionName
  {
    JarSuffixes();
    var n := v.launcherFriendlyVersionName;
    if a != b && a != Merged && b != Merged {
      assert VersionKey(v, a)[|n| + 1] != VersionKey(v, b)[|n| + 1];
    }
  }

  /** `doSignaturesExist(version, jar)`: a build is published; a failed lookup counts as none. */
  predicate SignaturesExistFor(v: OrderedVersion, jar: MinecraftJar, latest: Lookup) {
    var r := latest(VersionKey(v, jar));
    r.Ok? && r.value.Some?
  }

  /** `doSignaturesExist(version)`: for the client, the server or the merged jar. */
  function DoSignaturesExist(v: OrderedVersion, latest: Lookup): (r: bool)
    ensures r <==> exists jar :: SignaturesExistFor(v, jar, latest)
  {
    var r := SignaturesExistFor(v, Client, latest) || SignaturesExistFor(v, Server, latest)
      || SignaturesExistFor(v, Merged, latest);
    assert r <== exists jar :: SignaturesExistFor(v, jar, latest) by {
      if exists jar :: SignaturesExistFor(v, jar, latest) {
        var jar :| SignaturesExistFor(v, jar, latest);
        assert jar == Client || jar == Server || jar == Merged;
      }
    }
    r
  }

  /**
   * The variant whose signatures serve a request: the merged one when the
   * version does not share versioning between client and server, or shares
   * obfuscation; otherwise the variant asked for.
   */
  function UsedJar(v: OrderedVersion, jar: MinecraftJar): (r: MinecraftJar)
    ensures r == jar || r == Merged
    ensures r != jar <==> jar != Merged && (!v.hasSharedVersioning || v.hasSharedObfuscation)
  {
    if !v.hasSharedVersioning || v.hasSharedObfuscation then Merged else jar
  }

  /** `canSignaturesBeUsedOn`: signatures exist for the variant that serves the request. */
  function CanSignaturesBeUsedOn(v: OrderedVersion, jar: MinecraftJar, latest: Lookup): (r: bool)
    ensures r ==> DoSignaturesExist(v, latest)
    ensures v.hasSharedVersioning && !v.hasSharedObfuscation ==> (r <==> SignaturesExistFor(v, jar, latest))
    ensures !v.hasSharedVersioning || v.hasSharedObfuscation ==> (r <==> SignaturesExistFor(v, Merged, latest))
  {
    SignaturesExistFor(v, UsedJar(v, jar), latest)
  }

  /** `<key>-ornithe-sparrow-build.<build><ext>`, the build written by `%d`. */
  function SignaturesFileName(key: string, build: int, ext: string): (r: string)
    ensures StartsWith(r, key) && EndsWith(r, ext)
  {
    var r := key + "-ornithe-sparrow-build." + IntToString(build) + ext;
    assert r[..|key|] == key;
    assert r[|r| - |ext|..] == ext;
    r
  }

  /**
   * `getSignaturesPathInternal` (extension `.sigs`) and
   * `getSignaturesJarPath` (extension `.jar`): the file in the patch store
   * named after the key and the latest build, or none (`null`) when there
   * is no build or the lookup fails.
   */
  function SignaturesPath(v: OrderedVersion, jar: MinecraftJar, latest: Lookup, store: ER.Path, ext: string): (r: Option<ER.Path>)
    ensures r.Some? <==> SignaturesExistFor(v, jar, latest)
    ensures r.Some? ==> |r.value| == |store| + 1 && r.value[..|store|] == store
    ensures r.Some? ==>
      r.value[|store|] == SignaturesFileName(VersionKey(v, jar), latest(VersionKey(v, jar)).value.value.build, ext)
  {
    match latest(VersionKey(v, jar))
    case Err(_) => None
    case Ok(None) => None
    case Ok(Some(meta)) =>
      var p := store + [SignaturesFileName(VersionKey(v, jar), meta.build, ext)];
      assert p[..|store|] == store;
      Some(p)
  }

  /** The signatures file and the jar it is extracted from are different files. */
  lemma SigsAndJarDiffer(v: OrderedVersion, jar: MinecraftJar, latest: Lookup, store: ER.Path)
    requires SignaturesExistFor(v, jar, latest)
    ensures SignaturesPath(v, jar, latest, store, ".sigs") != SignaturesPath(v, jar, latest, store, ".jar")
  {
    var s := SignaturesPath(v, jar, latest, store, ".sigs").value[|store|];
    var j := SignaturesPath(v, jar, latest, store, ".jar").value[|store|];
    assert s[|s| - 1] == 's';
    assert j[|j| - 1] == 'r';
  }

  /** What providing the signatures does to the file system, in order. */
  datatype Effect =
    | Delete(path: ER.Path)              // `Files.deleteIfExists`
    | Download(to: ER.Path)              // the Maven download of the build's jar
    | CopyOut(from: ER.Path, to: ER.Path) // `signatures/mappings.sigs` copied out of the jar

  datatype Provided = Provided(status: StepStatus, effects: seq<Effect>)

  /**
   * `provideSignatures`. No build: `NOT_RUN`. A signatures file that
   * exists and validates: `UP_TO_DATE`. Otherwise the file is deleted, the
   * build's jar downloaded and the signatures copied out of it, and the
   * outcome is the download's merged with `SUCCESS`. A failed lookup, a
   * failed download and a failed copy all throw.
   */
  function ProvideSignatures(
    v: OrderedVersion, jar: MinecraftJar, latest: Lookup, store: ER.Path,
    present: ER.Path -> bool, validates: ER.Path -> bool,
    download: Result<StepStatus>, copied: bool,
    merge: (StepStatus, StepStatus) -> StepStatus): (r: Result<Provided>)
    ensures latest(VersionKey(v, jar)).Err? ==> r.Err?
    ensures latest(VersionKey(v, jar)) == Ok(None) ==> r == Ok(Provided(NotRun, []))
    ensures SignaturesExistFor(v, jar, latest) ==>
      var p := SignaturesPath(v, jar, latest, store, ".sigs").value;
      var q := SignaturesPath(v, jar, latest, store, ".jar").value;
      if present(p) && validates(p) then r == Ok(Provided(UpToDate, []))
      else if download.Err? then r == Err(download.error)
      else if !copied then r == Err(IOFailure)
      else r == Ok(Provided(merge(download.value, Success), [Delete(p), Download(q), CopyOut(q, p)]))
  {
    match latest(VersionKey(v, jar))
    case Err(e) => Err(e)
    case Ok(None) => Ok(Provided(NotRun, []))
    case Ok(Some(_)) =>
      var p := SignaturesPath(v, jar, latest, store, ".sigs").value;
      var q := SignaturesPath(v, jar, latest, store, ".jar").value;
      if present(p) && validates(p) then Ok(Provided(UpToDate, []))
      else
        match download
        case Err(e) => Err(e)
        case Ok(d) =>
          if !copied then Err(IOFailure)
          else Ok(Provided(merge(d, Success), [Delete(p), Download(q), CopyOut(q, p)]))
  }

  /**
   * Providing is idempotent: once the signatures have been copied into
   * place and validate, providing them again does nothing and reports
   * `UP_TO_DATE`, whatever a download would now do. `present'` is the file
   * system after the first call: it keeps every file and holds what the
   * call wrote.
   */
  lemma ProvideTwice(
    v: OrderedVersion, jar: MinecraftJar, latest: Lookup, store: ER.Path,
    present: ER.Path -> bool, present': ER.Path -> bool, validates: ER.Path -> bool,
    download: Result<StepStatus>, copied: bool, download': Result<StepStatus>, copied': bool,
    merge: (StepStatus, StepStatus) -> StepStatus)
    requires ProvideSignatures(v, jar, latest, store, present, validates, download, copied, merge).Ok?
    requires forall p :: present(p) ==> present'(p)
    requires forall p ::
      Written(ProvideSignatures(v, jar, latest, store, present, validates, download, copied, merge).value, p) ==>
        present'(p) && validates(p)
    ensures SignaturesExistFor(v, jar, latest) ==>
      ProvideSignatures(v, jar, latest, store, present', validates, download', copied', merge) == Ok(Provided(UpToDate, []))
  {
    var first := ProvideSignatures(v, jar, latest, store, present, validates, download, copied, merge).value;
    if SignaturesExistFor(v, jar, latest) {
      var p := SignaturesPath(v, jar, latest, store, ".sigs").value;
      if !(present(p) && validates(p)) {
        assert first.effects[2].to == p;
        assert Written(first, p);
      }
    }
  }

  /** The run wrote the file: it is the target of one of its copies. */
  predicate Written(run: Provided, p: ER.Path) {
    exists i :: 0 <= i < |run.effects| && run.effects[i].CopyOut? && run.effects[i].to == p
  }

  /**
   * `visit`: the signatures read are those of the variant that serves the
   * request; with no build there is no path and reading it throws
   * `NullPointerException`.
   */
  function Visit(v: OrderedVersion, jar: MinecraftJar, latest: Lookup, store: ER.Path): (r: Result<ER.Path>)
    ensures r.Err? ==> r.error == NullPointer
    ensures r.Ok? ==> Some(r.value) == SignaturesPath(v, UsedJar(v, jar), latest, store, ".sigs")
  {
    match SignaturesPath(v, UsedJar(v, jar), latest, store, ".sigs")
    case None => Err(NullPointer)
    case Some(p) => Ok(p)
  }

  /** `visit` succeeds exactly for the requests `canSignaturesBeUsedOn` accepts. */
  lemma VisitMatchesCheck(v: OrderedVersion, jar: MinecraftJar, latest: Lookup, store: ER.Path)
    ensures Visit(v, jar, latest, store).Ok? <==> CanSignaturesBeUsedOn(v, jar, latest)
  {
  }
}

=== FILE: steps.dfy ===
/**
 * The vocabulary the extractor's pipeline steps share: the outcome of a
 * step, the jar variant a step works on, and the storage keys of the
 * artifacts the modelled steps produce. `StepStatus.merge`,
 * `StepStatus.isSuccessful` and `StepOutput.merge` are not part of this
 * model; the steps that use them take them as parameters.
 */
module Steps {
  /** `StepStatus`. */
  datatype StepStatus = NotRun | UpToDate | Success | Failed

  /** `MinecraftJar`: the variant of the game jar a step works on. */
  datatype MinecraftJar = Client | Server | Merged

  /** `MinecraftJar.name()`. */
  function JarName(jar: MinecraftJar): string {
    match jar
    case Client => "CLIENT"
    case Server => "SERVER"
    case Merged => "MERGED"
  }

  /** The storage keys of the artifacts the modelled steps write. */
  datatype StorageKey =
    | DecompiledMergedJar
    | DecompiledClientJar
    | DecompiledServerJar
    | LaunchableClientJar

  /** `StepOutput`: the outcome and the keys of the artifacts it produced or confirmed. */
  datatype StepOutput = StepOutput(status: StepStatus, keys: set<StorageKey>)

  /** `StepOutput.ofEmptyResultSet`. */
  function OfEmptyResultSet(status: StepStatus): StepOutput {
    StepOutput(status, {})
  }

  /** `StepOutput.ofSingle`. */
  function OfSingle(status: StepStatus, key: StorageKey): StepOutput {
    StepOutput(status, {key})
  }
}

=== FILE: strings.dfy ===
/**
 * Character classes and the handful of Python/Java string operations the
 * modelled code relies on. Character classes are the ASCII ones; the
 * Unicode extensions of `\d`, `\w`, `\s`, `isalnum` and `isdigit` are not
 * modelled.
 */
module Strings {
  import opened Results

  predicate IsDigit(c: char) { '0' <= c <= '9' }
  predicate IsUpper(c: char) { 'A' <= c <= 'Z' }
  predicate IsLower(c: char) { 'a' <= c <= 'z' }
  predicate IsLetter(c: char) { IsUpper(c) || IsLower(c) }
  predicate IsAlnum(c: char) { IsLetter(c) || IsDigit(c) }
  /** Regex `\w`. */
  predicate IsWordChar(c: char) { IsAlnum(c) || c == '_' }
  /** Regex `\s` and `str.isspace` on ASCII. */
  predicate IsSpace(c: char) {
    c == ' ' || c == '\t' || c == '\n' || c == '\r' || c == '\U{000B}' || c == '\U{000C}'
    || ('\U{001C}' <= c <= '\U{001F}')
  }
  /** Unicode general category Cc ("control"), the part of category C met in names. */
  predicate IsControl(c: char) { c < ' ' || ('\U{007F}' <= c <= '\U{009F}') }

  predicate AllChars(s: string, p: char -> bool) { forall i :: 0 <= i < |s| ==> p(s[i]) }
  predicate AllDigits(s: string) { forall i :: 0 <= i < |s| ==> IsDigit(s[i]) }
  predicate AllWordChars(s: string) { forall i :: 0 <= i < |s| ==> IsWordChar(s[i]) }

  function LowerChar(c: char): (r: char)
    ensures !IsUpper(r)
    ensures IsUpper(c) ==> IsLower(r)
    ensures !IsUpper(c) ==> r == c
  {
    if IsUpper(c) then (c as int + 32) as char else c
  }

  /** `str.lower()` on ASCII letters. */
  function Lower(s: string): (r: string)
    ensures |r| == |s|
    ensures forall i :: 0 <= i < |s| ==> r[i] == LowerChar(s[i])
  {
    if |s| == 0 then [] else [LowerChar(s[0])] + Lower(s[1..])
  }

  predicate StartsWith(s: string, p: string) { |p| <= |s| && s[..|p|] == p }
  predicate EndsWith(s: string, p: string) { |p| <= |s| && s[|s| - |p|..] == p }

  /** Python `p in s` for strings. */
  predicate Contains(s: string, p: string)
    decreases |s|
  {
    StartsWith(s, p) || (|s| > 0 && Contains(s[1..], p))
  }

  predicate ContainsChar(s: string, c: char) { c in s }

  /** `str.replace(old, new)`: every non-overlapping occurrence, scanned from the left. */
  function Replace(s: string, pat: string, rep: string): (r: string)
    requires |pat| > 0
    ensures !Contains(s, pat) ==> r == s
    decreases |s|
  {
    if |s| == 0 then []
    else if StartsWith(s, pat) then rep + Replace(s[|pat|..], pat, rep)
    else
      [s[0]] + Replace(s[1..], pat, rep)
  }

  /** `s.replace("minecraft:", "")`: drop the game's namespace from an identifier. */
  function Unprefixed(s: string): string { Replace(s, "minecraft:", "") }

  /** Dropping the namespace from a namespaced id gives what dropping it from the bare id gives. */
  lemma UnprefixedNamespaced(s: string)
    ensures Unprefixed("minecraft:" + s) == Unprefixed(s)
  {
    var p := "minecraft:";
    assert StartsWith(p + s, p);
    assert (p + s)[|p|..] == s;
  }

  /** Remove every occurrence of one character. */
  function RemoveChar(s: string, c: char): (r: string)
    ensures c !in r
    ensures |r| <= |s|
    ensures forall x :: x in r ==> x in s
  {
    if |s| == 0 then [] else (if s[0] == c then [] else [s[0]]) + RemoveChar(s[1..], c)
  }

  /** Lowering a concatenation lowers each side. */
  lemma LowerAppend(a: string, b: string)
    ensures Lower(a + b) == Lower(a) + Lower(b)
  {
    var l := Lower(a + b);
    assert forall i :: 0 <= i < |a + b| ==> l[i] == LowerChar((a + b)[i]);
    assert l == Lower(a) + Lower(b);
  }

  /** Removing a character the text does not hold changes nothing. */
  lemma {:induction false} RemoveCharAbsent(s: string, c: char)
    requires c !in s
    ensures RemoveChar(s, c) == s
    decreases |s|
  {
    if |s| > 0 {
      RemoveCharAbsent(s[1..], c);
      assert s == [s[0]] + s[1..];
    }
  }

  /** Removing a character from a concatenation removes it from each side. */
  lemma {:induction false} RemoveCharAppend(a: string, b: string, c: char)
    ensures RemoveChar(a + b, c) == RemoveChar(a, c) + RemoveChar(b, c)
    decreases |a|
  {
    if |a| == 0 {
      assert a + b == b;
    } else {
      assert (a + b)[1..] == a[1..] + b;
      RemoveCharAppend(a[1..], b, c);
    }
  }

  /** Replace every occurrence of one character by another. */
  function ReplaceChar(s: string, a: char, b: char): (r: string)
    ensures |r| == |s|
    ensures forall i :: 0 <= i < |s| ==> r[i] == (if s[i] == a then b else s[i])
  {
    if |s| == 0 then [] else [if s[0] == a then b else s[0]] + ReplaceChar(s[1..], a, b)
  }

  /** `str.split(sep)` for a one-character separator. */
  function Split(s: string, sep: char): (r: seq<string>)
    ensures |r| >= 1
    ensures forall k :: 0 <= k < |r| ==> sep !in r[k]
    ensures sep !in s ==> r == [s]
  {
    if |s| == 0 then [""]
    else
      var rest := Split(s[1..], sep);
      if s[0] == sep then [""] + rest
      else
        assert sep !in s ==> [s[0]] + rest[0] == s;
        [[s[0]] + rest[0]] + rest[1..]
  }

  /** `str.split(sep)` for a separator string of any positive length. */
  function SplitOn(s: string, sep: string): (r: seq<string>)
    requires |sep| > 0
    ensures |r| >= 1
    decreases |s|
  {
    if |s| == 0 then [""]
    else if StartsWith(s, sep) then [""] + SplitOn(s[|sep|..], sep)
    else
      var rest := SplitOn(s[1..], sep);
      [[s[0]] + rest[0]] + rest[1..]
  }

  function Join(parts: seq<string>, sep: string): (r: string)
    ensures |parts| == 1 ==> r == parts[0]
  {
    if |parts| == 0 then ""
    else if |parts| == 1 then parts[0]
    else parts[0] + sep + Join(parts[1..], sep)
  }

  function LStrip(s: string): (r: string)
    ensures |r| <= |s| && r == s[|s| - |r|..]
    ensures |r| > 0 ==> !IsSpace(r[0])
    ensures forall i :: 0 <= i < |s| - |r| ==> IsSpace(s[i])
  {
    if |s| > 0 && IsSpace(s[0]) then
      var t := LStrip(s[1..]);
      assert s[|s| - |t|..] == s[1..][|s| - 1 - |t|..];
      assert forall i :: 1 <= i < |s| - |t| ==> s[i] == s[1..][i - 1];
      t
    else s
  }

  function RStrip(s: string): (r: string)
    ensures |r| <= |s| && r == s[..|r|]
    ensures |r| > 0 ==> !IsSpace(r[|r| - 1])
    ensures forall i :: |r| <= i < |s| ==> IsSpace(s[i])
  {
    if |s| > 0 && IsSpace(s[|s| - 1]) then RStrip(s[..|s| - 1]) else s
  }

  /** `str.strip()`. */
  function Strip(s: string): (r: string)
    ensures |r| <= |s|
    ensures |r| > 0 ==> !IsSpace(r[0]) && !IsSpace(r[|r| - 1])
    ensures (forall i :: 0 <= i < |s| ==> !IsSpace(s[i])) ==> r == s
  {
    RStrip(LStrip(s))
  }

  function DigitValue(c: char): (r: nat)
    requires IsDigit(c)
    ensures r < 10
  {
    c as int - '0' as int
  }

  function DigitChar(d: nat): (r: char)
    requires d < 10
    ensures IsDigit(r) && DigitValue(r) == d
  {
    ('0' as int + d) as char
  }

  /** The value of a string of decimal digits. */
  function DigitsValue(s: string): nat
    requires AllDigits(s)
  {
    if |s| == 0 then 0 else DigitsValue(s[..|s| - 1]) * 10 + DigitValue(s[|s| - 1])
  }

  /** The decimal text of a natural number, as `str(n)` prints it. */
  function NatToString(n: nat): (r: string)
    ensures |r| > 0 && AllDigits(r)
    ensures DigitsValue(r) == n
    ensures |r| > 1 ==> r[0] != '0'
  {
    if n < 10 then [DigitChar(n)]
    else
      var r := NatToString(n / 10) + [DigitChar(n % 10)];
      assert r[..|r| - 1] == NatToString(n / 10);
      r
  }

  /** `str(i)` / `String.valueOf(i)` for any integer. */
  function IntToString(i: int): (r: string)
    ensures |r| > 0
    ensures i >= 0 ==> r == NatToString(i)
  {
    if i >= 0 then NatToString(i) else "-" + NatToString(-i)
  }

  /** The longest prefix of decimal digits. */
  function DigitPrefix(s: string): (r: string)
    ensures |r| <= |s| && r == s[..|r|] && AllDigits(r)
    ensures |r| < |s| ==> !IsDigit(s[|r|])
  {
    if |s| > 0 && IsDigit(s[0]) then [s[0]] + DigitPrefix(s[1..]) else ""
  }

  /** The digit prefix of digits followed by something other than a digit is those digits. */
  lemma DigitPrefixOfDigits(d: string, rest: string)
    requires AllDigits(d)
    requires |rest| > 0 ==> !IsDigit(rest[0])
    ensures DigitPrefix(d + rest) == d
  {
    var s := d + rest;
    var r := DigitPrefix(s);
    assert r == s[..|d|] == d;
  }

  /**
   * The digits of an integer literal as `int()` accepts them: decimal
   * digits, with single underscores allowed between two digits.
   */
  predicate IsGroupedDigits(s: string)
    decreases |s|
  {
    |s| > 0 && IsDigit(s[0])
    && (|s| == 1
        || (s[1] == '_' && IsGroupedDigits(s[2..]))
        || (s[1] != '_' && IsGroupedDigits(s[1..])))
  }

  /** The value of the digits of a text, skipping anything that is not a digit. */
  function GroupedValue(s: string): nat {
    if |s| == 0 then 0
    else if IsDigit(s[|s| - 1]) then GroupedValue(s[..|s| - 1]) * 10 + DigitValue(s[|s| - 1])
    else GroupedValue(s[..|s| - 1])
  }

  /** On plain digits the grouped value is the ordinary value. */
  lemma {:induction false} GroupedValueOfDigits(s: string)
    requires AllDigits(s)
    ensures GroupedValue(s) == DigitsValue(s)
  {
    if |s| > 0 {
      GroupedValueOfDigits(s[..|s| - 1]);
    }
  }

  /**
   * Python `int(text)` on a string: surrounding whitespace, an optional sign
   * and decimal digits, which may be grouped by single underscores.
   */
  function ParseInt(text: string): (r: Result<int>)
    ensures r.Ok? <==> (
      var t := Strip(text);
      var body := if |t| > 0 && (t[0] == '+' || t[0] == '-') then t[1..] else t;
      IsGroupedDigits(body))
  {
    var t := Strip(text);
    var negative := |t| > 0 && t[0] == '-';
    var body := if |t| > 0 && (t[0] == '+' || t[0] == '-') then t[1..] else t;
    if IsGroupedDigits(body) then
      Ok(if negative then -(GroupedValue(body) as int) else GroupedValue(body))
    else Err(ValueError)
  }

  /** Plain digits are grouped digits. */
  lemma PlainDigitsGrouped(d: string)
    requires |d| > 0 && AllDigits(d)
    ensures IsGroupedDigits(d) && GroupedValue(d) == DigitsValue(d)
  {
    DigitsAreGrouped(d);
    GroupedValueOfDigits(d);
  }

  lemma {:induction false} DigitsAreGrouped(d: string)
    requires |d| > 0 && AllDigits(d)
    ensures IsGroupedDigits(d)
    decreases |d|
  {
    if |d| > 1 {
      assert IsDigit(d[1]);
      DigitsAreGrouped(d[1..]);
    }
  }

  /** Plain digits read as their value. */
  lemma ParsePlainDigits(text: string)
    requires |text| > 0 && AllDigits(text)
    ensures ParseInt(text) == Ok(DigitsValue(text))
  {
    assert Strip(text) == text by {
      forall i | 0 <= i < |text| ensures !IsSpace(text[i]) { assert IsDigit(text[i]); }
    }
    assert !(text[0] == '+' || text[0] == '-') by { assert IsDigit(text[0]); }
    PlainDigitsGrouped(text);
  }

  /** Unsigned text without whitespace is read as grouped digits or not at all. */
  lemma ParseUnsigned(s: string)
    requires |s| > 0 && s[0] != '+' && s[0] != '-'
    requires forall i :: 0 <= i < |s| ==> !IsSpace(s[i])
    ensures ParseInt(s) == if IsGroupedDigits(s) then Ok(GroupedValue(s) as int) else Err(ValueError)
  {
    assert Strip(s) == s;
  }

  /** Digit groups are read as the digits without their underscores: `int("1_000") == 1000`. */
  lemma ParseGroupedDigits()
    ensures ParseInt("1_000") == Ok(1000)
  {
    var s := "1_000";
    ParseUnsigned(s);
    assert IsGroupedDigits(s);
    assert GroupedValue(s) == 1000 by {
      assert s[..4] == "1_00" && "1_00"[..3] == "1_0" && "1_0"[..2] == "1_" && "1_"[..1] == "1";
    }
  }

  /** `int()` only sees the stripped text. */
  lemma ParseSameStrip(a: string, b: string)
    requires Strip(a) == Strip(b)
    ensures ParseInt(a) == ParseInt(b)
  {
  }

  /** `int("1_2") == 12`. */
  lemma ParseOneTwo()
    ensures ParseInt("1_2") == Ok(12)
  {
    ParseUnsigned("1_2");
    GroupOfTwelve();
  }

  lemma GroupOfTwelve()
    ensures IsGroupedDigits("1_2") && GroupedValue("1_2") == 12
  {
    var b := "1_2";
    assert b[2..] == "2";
    assert b[..2] == "1_" && "1_"[..1] == "1";
  }

  /** Two underscores in a row are a ValueError. */
  lemma ParseDoubleUnderscore()
    ensures ParseInt("1__0") == Err(ValueError)
  {
    var s := "1__0";
    ParseUnsigned(s);
    assert s[2..] == "_0";
  }

  /** A leading underscore is a ValueError. */
  lemma ParseLeadingUnderscore()
    ensures ParseInt("_10") == Err(ValueError)
  {
    var s := "_10";
    ParseUnsigned(s);
    assert s[0] == '_';
  }

  /** A trailing underscore is a ValueError. */
  lemma ParseTrailingUnderscore()
    ensures ParseInt("10_") == Err(ValueError)
  {
    var s := "10_";
    ParseUnsigned(s);
    assert s[1..] == "0_" && "0_"[2..] == "";
  }

  /** `int(str(n)) == n`: the decimal text of a number parses back to it. */
  lemma ParseNatToString(n: nat)
    ensures ParseInt(NatToString(n)) == Ok(n)
  {
    ParsePlainDigits(NatToString(n));
  }

  /** `int(str(i)) == i` for every integer. */
  lemma ParseIntToString(i: int)
    ensures ParseInt(IntToString(i)) == Ok(i)
  {
    if i >= 0 {
      ParseNatToString(i);
    } else {
      ParseNegativeDigits(NatToString(-i));
    }
  }

  /** A minus sign before plain digits reads as the negated value. */
  lemma ParseNegativeDigits(d: string)
    requires |d| > 0 && AllDigits(d)
    ensures ParseInt("-" + d) == Ok(-(DigitsValue(d) as int))
  {
    PlainDigitsGrouped(d);
    SignedDigitsStrip(d);
    ParseMinus(d);
  }

  /** A minus sign before plain digits has no whitespace to strip. */
  lemma SignedDigitsStrip(d: string)
    requires AllDigits(d)
    ensures Strip("-" + d) == "-" + d
  {
    var s := "-" + d;
    forall k | 0 <= k < |s| ensures !IsSpace(s[k]) {
      if k > 0 { assert s[k] == d[k - 1]; }
    }
  }

  /** A minus sign before grouped digits, with nothing to strip, reads as the negated value. */
  lemma ParseMinus(d: string)
    requires IsGroupedDigits(d) && Strip("-" + d) == "-" + d
    ensures ParseInt("-" + d) == Ok(-(GroupedValue(d) as int))
  {
    assert ("-" + d)[1..] == d;
  }

  /** Python `str.isdigit()` on ASCII: non-empty and all digits. */
  predicate IsDigitString(s: string) { |s| > 0 && AllDigits(s) }

  /** Text without whitespace, then whitespace, strips back to the text. */
  lemma StripTrailingSpace(s: string, c: char)
    requires |s| > 0 && IsSpace(c)
    requires forall i :: 0 <= i < |s| ==> !IsSpace(s[i])
    ensures Strip(s + [c]) == s
  {
    var t := s + [c];
    assert LStrip(t) == t by { assert t[0] == s[0]; }
    assert t[..|t| - 1] == s;
    assert RStrip(s) == s;
  }

  /** The first piece of a split is the text up to the first separator. */
  lemma SplitFirst(a: string, sep: char, b: string)
    requires sep !in a
    ensures Split(a + [sep] + b, sep)[0] == a
    decreases |a|
  {
    var s := a + [sep] + b;
    if |a| == 0 {
      assert s[0] == sep;
    } else {
      assert s[1..] == a[1..] + [sep] + b;
      SplitFirst(a[1..], sep, b);
      assert a == [a[0]] + a[1..];
    }
  }

  /** Text made of a separator-free piece, a separator and more text splits at that separator. */
  lemma {:induction false} SplitCons(a: string, sep: char, b: string)
    requires sep !in a
    ensures Split(a + [sep] + b, sep) == [a] + Split(b, sep)
    decreases |a|
  {
    var s := a + [sep] + b;
    if |a| == 0 {
      assert s[1..] == b;
    } else {
      assert s[1..] == a[1..] + [sep] + b;
      SplitCons(a[1..], sep, b);
      assert a == [a[0]] + a[1..];
    }
  }

  /** `SplitCons` for text built from the right. */
  lemma SplitConsRight(a: string, sep: char, b: string)
    requires sep !in a
    ensures Split(a + ([sep] + b), sep) == [a] + Split(b, sep)
  {
    assert a + ([sep] + b) == a + [sep] + b;
    SplitCons(a, sep, b);
  }

  /** Replacing keeps every character inside a class both the text and the replacement keep to. */
  lemma {:induction false} ReplaceKeepsClass(s: string, pat: string, rep: string, p: char -> bool)
    requires |pat| > 0 && AllChars(s, p) && AllChars(rep, p)
    ensures AllChars(Replace(s, pat, rep), p)
    decreases |s|
  {
    if |s| > 0 {
      if StartsWith(s, pat) {
        ReplaceKeepsClass(s[|pat|..], pat, rep, p);
      } else {
        ReplaceKeepsClass(s[1..], pat, rep, p);
      }
    }
  }

  /** Text that neither starts nor ends with whitespace is its own strip. */
  lemma StripNonSpaceEnds(s: string)
    requires |s| > 0 && !IsSpace(s[0]) && !IsSpace(s[|s| - 1])
    ensures Strip(s) == s
  {
    assert LStrip(s) == s;
  }

  /** Text that starts with a non-space character strips to something non-empty. */
  lemma StripKeepsFirst(s: string)
    requires |s| > 0 && !IsSpace(s[0])
    ensures |Strip(s)| > 0
  {
    assert LStrip(s) == s;
  }

  /** One space of padding on each side strips away. */
  lemma StripPadded(x: string)
    requires |x| > 0 && !IsSpace(x[0]) && !IsSpace(x[|x| - 1])
    ensures Strip(" " + x + " ") == x
  {
    var s := " " + x + " ";
    assert s[1..] == x + " ";
    assert LStrip(x + " ") == x + " " by {
      assert (x + " ")[0] == x[0];
    }
    assert RStrip(x + " ") == RStrip(x) by {
      assert (x + " ")[..|x|] == x;
    }
    assert RStrip(x) == x;
  }

  /** A pattern found at some position is contained in the text. */
  /** A text shorter than the pattern cannot contain it. */
  lemma {:induction false} ShorterNotContains(s: string, p: string)
    requires |s| < |p|
    ensures !Contains(s, p)
    decreases |s|
  {
    if |s| > 0 { ShorterNotContains(s[1..], p); }
  }

  lemma {:induction false} ContainsAt(s: string, p: string, k: nat)
    requires k <= |s| && StartsWith(s[k..], p)
    ensures Contains(s, p)
    decreases k
  {
    if k > 0 {
      assert s[1..][k - 1..] == s[k..];
      ContainsAt(s[1..], p, k - 1);
    }
  }

  /** The decimal text of an integer holds no whitespace and no parenthesis. */
  lemma IntToStringChars(i: int)
    ensures forall k :: 0 <= k < |IntToString(i)| ==> !IsSpace(IntToString(i)[k]) && IntToString(i)[k] != '('
  {
    var s := IntToString(i);
    var d := NatToString(if i >= 0 then i else -i);
    forall k | 0 <= k < |s| ensures !IsSpace(s[k]) && s[k] != '(' {
      if i < 0 && k > 0 {
        assert s[k] == d[k - 1];
      } else if i >= 0 {
        assert s[k] == d[k];
      }
    }
  }

  /** Joining with one more part in front. */
  lemma JoinCons(a: string, rest: seq<string>, sep: string)
    requires |rest| >= 1
    ensures Join([a] + rest, sep) == a + sep + Join(rest, sep)
  {
    assert ([a] + rest)[1..] == rest;
  }

  /** Extending the first part of a join extends the joined text. */
  lemma JoinHead(c: char, rest: seq<string>, sep: string)
    requires |rest| >= 1
    ensures Join([[c] + rest[0]] + rest[1..], sep) == [c] + Join(rest, sep)
  {
    if |rest| > 1 {
      JoinCons([c] + rest[0], rest[1..], sep);
      JoinCons(rest[0], rest[1..], sep);
      assert rest == [rest[0]] + rest[1..];
    }
  }

  /** Splitting on a separator and joining with it gives the text back. */
  lemma {:induction false} SplitJoin(s: string, sep: char)
    ensures Join(Split(s, sep), [sep]) == s
    decreases |s|
  {
    if |s| > 0 {
      var rest := Split(s[1..], sep);
      SplitJoin(s[1..], sep);
      assert s == [s[0]] + s[1..];
      if s[0] == sep {
        JoinCons("", rest, [sep]);
      } else {
        JoinHead(s[0], rest, [sep]);
      }
    }
  }

  /** Three separator-free parts joined by the separator split back into those parts. */
  lemma SplitThree(a: string, b: string, c: string, sep: char)
    requires sep !in a && sep !in b && sep !in c
    ensures Split(a + ([sep] + (b + ([sep] + c))), sep) == [a, b, c]
  {
    var bc := b + ([sep] + c);
    assert Split(bc, sep) == [b, c] by {
      SplitConsRight(b, sep, c);
    }
    SplitConsRight(a, sep, bc);
  }

  /** Four separator-free parts joined by the separator split back into those parts. */
  lemma SplitFour(a: string, b: string, c: string, d: string, sep: char)
    requires sep !in a && sep !in b && sep !in c && sep !in d
    ensures Split(a + ([sep] + (b + ([sep] + (c + ([sep] + d))))), sep) == [a, b, c, d]
  {
    var cd := c + ([sep] + d);
    var bcd := b + ([sep] + cd);
    assert Split(cd, sep) == [c, d] by {
      SplitConsRight(c, sep, d);
    }
    assert Split(bcd, sep) == [b, c, d] by {
      SplitConsRight(b, sep, cd);
    }
    SplitConsRight(a, sep, bcd);
  }
}

=== FILE: version_tokens.dfy ===
/**
 * The version token both the Python driver (src/extractor_runner.py) and
 * the Java extractor (SimpleSourceExtractor.java) search for in what the
 * user typed: the regular expression `[0-9]+(?:[._-][0-9A-Za-z]+)*`,
 * searched from the left. The first match starts at the first digit; its
 * digits and groups are taken greedily and nothing follows the repetition,
 * so the match is the longest token starting there.
 */
module VersionTokens {
  import opened Results
  import opened Strings

  /** The separators `[._-]`. */
  predicate IsSep(c: char) { c == '.' || c == '_' || c == '-' }

  /** A character a token may hold. */
  predicate IsTokenChar(c: char) { IsAlnum(c) || IsSep(c) }

  /**
   * The strings the pattern matches in full, described by their
   * characters: a digit first; only letters, digits and separators; every
   * separator followed by a letter or digit; and no letter before the
   * first separator.
   */
  ghost predicate IsToken(t: string) {
    |t| > 0 && IsDigit(t[0])
    && (forall j :: 0 <= j < |t| ==> IsTokenChar(t[j]))
    && (forall j :: 0 <= j < |t| && IsSep(t[j]) ==> j + 1 < |t| && IsAlnum(t[j + 1]))
    && (forall j :: 0 <= j < |t| && IsLetter(t[j]) ==> exists i :: 0 <= i < j && IsSep(t[i]))
  }

  // ---------------------------------------------------------------------
  // The matcher
  // ---------------------------------------------------------------------

  /** The position of the first digit, or the length when there is none. */
  function FirstDigit(s: string): (i: nat)
    ensures i <= |s|
    ensures forall j :: 0 <= j < i ==> !IsDigit(s[j])
    ensures i < |s| ==> IsDigit(s[i])
  {
    if |s| == 0 || IsDigit(s[0]) then 0 else 1 + FirstDigit(s[1..])
  }

  /** `[0-9]+` and `[0-9A-Za-z]+`, taken greedily: the length of the longest run of `p`. */
  function Run(s: string, p: char -> bool): (n: nat)
    ensures n <= |s|
    ensures forall j :: 0 <= j < n ==> p(s[j])
    ensures n < |s| ==> !p(s[n])
  {
    if |s| > 0 && p(s[0]) then 1 + Run(s[1..], p) else 0
  }

  /** The groups `(?:[._-][0-9A-Za-z]+)*`, repeated as often as they match. */
  function Groups(s: string): (n: nat)
    ensures n <= |s|
    decreases |s|
  {
    if |s| >= 2 && IsSep(s[0]) && IsAlnum(s[1]) then
      var a := Run(s[1..], IsAlnum);
      1 + a + Groups(s[1 + a..])
    else 0
  }

  /** The length of the match at the start of `u`, which starts with a digit. */
  function MatchLen(u: string): (n: nat)
    requires |u| > 0 && IsDigit(u[0])
    ensures 1 <= n <= |u|
  {
    var d := Run(u, IsDigit);
    d + Groups(u[d..])
  }

  /** `re.search(...).group(1)` / `Matcher.find()` then `group(1)`: the first match, if any. */
  function Token(s: string): (r: Option<string>)
    ensures r.None? <==> forall j :: 0 <= j < |s| ==> !IsDigit(s[j])
  {
    var i := FirstDigit(s);
    if i == |s| then None else Some(MatchAt(s[i..]))
  }

  /** The match at the start of `u`, which starts with a digit. */
  function MatchAt(u: string): string
    requires |u| > 0 && IsDigit(u[0])
  {
    u[..MatchLen(u)]
  }

  /** The token with every `_` turned into `.`, as both callers return it. */
  function Dotted(t: string): (r: string)
    ensures |r| == |t| && '_' !in r
  {
    ReplaceChar(t, '_', '.')
  }

  // ---------------------------------------------------------------------
  // What the match is
  // ---------------------------------------------------------------------

  /** The groups part of a token: empty, or a separator first, each separator followed by a letter or digit. */
  ghost predicate GroupShaped(w: string) {
    (|w| == 0 || IsSep(w[0]))
    && (forall j :: 0 <= j < |w| ==> IsTokenChar(w[j]))
    && (forall j :: 0 <= j < |w| && IsSep(w[j]) ==> j + 1 < |w| && IsAlnum(w[j + 1]))
  }

  /** The repeated groups match a group-shaped prefix. */
  lemma {:induction false} GroupsShaped(s: string)
    ensures GroupShaped(s[..Groups(s)])
    decreases |s|
  {
    var n := Groups(s);
    if n > 0 {
      var a := Run(s[1..], IsAlnum);
      var rest := s[1 + a..];
      GroupsShaped(rest);
      var g := Groups(rest);
      var w := s[..n];
      forall j | 0 <= j < |w| ensures IsTokenChar(w[j]) && (IsSep(w[j]) ==> j + 1 < |w| && IsAlnum(w[j + 1])) {
        if j == 0 {
        } else if j <= a {
          assert w[j] == s[1..][j - 1];
          if j < a { assert w[j + 1] == s[1..][j]; }
        } else {
          assert w[j] == rest[..g][j - 1 - a];
          if j + 1 < |w| { assert w[j + 1] == rest[..g][j - a]; }
        }
      }
    }
  }

  /**
   * Where the repeated groups stop after `n` characters, no group starts:
   * the next separator is not followed by a letter or digit, and after at
   * least one group the next character is no letter or digit.
   */
  lemma {:induction false} GroupsStop(s: string, n: nat)
    requires n == Groups(s) && n < |s|
    ensures !(n + 1 < |s| && IsSep(s[n]) && IsAlnum(s[n + 1]))
    ensures n > 0 ==> !IsAlnum(s[n])
    decreases |s|
  {
    if |s| >= 2 && IsSep(s[0]) && IsAlnum(s[1]) {
      var a := Run(s[1..], IsAlnum);
      var rest := s[1 + a..];
      var g := Groups(rest);
      assert n == 1 + a + g;
      assert s[n] == rest[g];
      if g > 0 {
        GroupsStop(rest, g);
        if n + 1 < |s| {
          assert s[n + 1] == rest[g + 1];
        }
      } else {
        assert rest[0] == s[1..][a];
        if n + 1 < |s| {
          assert s[n + 1] == rest[1];
        }
      }
    }
  }

  /** A digit run followed by group-shaped text is a token. */
  lemma DigitsThenGroups(u: string, d: nat)
    requires 0 < d <= |u|
    requires forall j :: 0 <= j < d ==> IsDigit(u[j])
    requires GroupShaped(u[d..])
    ensures IsToken(u)
  {
    var w := u[d..];
    forall j | 0 <= j < |u| ensures IsTokenChar(u[j]) && (IsSep(u[j]) ==> j + 1 < |u| && IsAlnum(u[j + 1])) {
      if j >= d {
        assert u[j] == w[j - d];
        if j + 1 < |u| { assert u[j + 1] == w[j + 1 - d]; }
      }
    }
    forall j | 0 <= j < |u| && IsLetter(u[j]) ensures exists i :: 0 <= i < j && IsSep(u[i]) {
      assert u[j] == w[j - d];
      assert IsSep(u[d]) by { assert u[d] == w[0]; }
    }
  }

  /** The match at a digit is a token. */
  lemma MatchIsToken(u: string)
    requires |u| > 0 && IsDigit(u[0])
    ensures IsToken(MatchAt(u))
  {
    var d := Run(u, IsDigit);
    var v := u[d..];
    GroupsShaped(v);
    var m := u[..MatchLen(u)];
    assert m[d..] == v[..Groups(v)];
    DigitsThenGroups(m, d);
  }

  /** No longer prefix of `u` is a token: the match is the longest one. */
  lemma MatchIsLongest(u: string, k: nat)
    requires |u| > 0 && IsDigit(u[0])
    requires MatchLen(u) < k <= |u|
    ensures !IsToken(u[..k])
  {
    var d := Run(u, IsDigit);
    var v := u[d..];
    var m := MatchLen(u);
    var w := u[..k];
    GroupsStop(v, Groups(v));
    assert u[m] == v[Groups(v)];
    if m + 1 < |u| {
      assert u[m + 1] == v[Groups(v) + 1];
    }
    assert w[m] == u[m];
    if !IsTokenChar(u[m]) {
      assert !IsTokenChar(w[m]);
    } else if IsSep(u[m]) {
      if m + 1 < k {
        assert w[m + 1] == u[m + 1];
        assert !IsAlnum(w[m + 1]);
      }
    } else if IsLetter(u[m]) {
      assert Groups(v) == 0;
      forall i | 0 <= i < m ensures !IsSep(w[i]) {
        assert w[i] == u[i];
      }
    } else {
      assert false;
    }
  }

  /**
   * The first match `t` starts at the first digit `i` and is a token; no
   * longer stretch of text from there on is one, so it is the longest.
   */
  lemma TokenIsFirstLongest(s: string, i: int, t: string, k: int)
    requires Token(s) == Some(t) && i == FirstDigit(s)
    ensures i < |s| && |t| <= |s| - i && t == s[i..][..|t|] && IsToken(t)
    ensures |t| < k <= |s| - i ==> !IsToken(s[i..][..k])
  {
    MatchIsToken(s[i..]);
    if |t| < k <= |s| - i {
      MatchIsLongest(s[i..], k);
    }
  }

  /** Cutting `u` where a character no token holds follows keeps the match at its start. */
  lemma MatchOfPrefix(u: string, n: nat)
    requires 0 < n <= |u| && IsDigit(u[0])
    requires n < |u| ==> !IsTokenChar(u[n])
    ensures MatchAt(u[..n]) == MatchAt(u)
  {
    var w := u[..n];
    var m := MatchLen(u);
    var m' := MatchLen(w);
    MatchWithin(u, n);
    MatchIsToken(u);
    MatchIsToken(w);
    assert w[..m'] == u[..m'];
    assert w[..m] == u[..m];
    if m' > m {
      MatchIsLongest(u, m');
      assert false;
    }
    if m > m' {
      MatchIsLongest(w, m);
      assert false;
    }
  }

  /** The match ends before a character no token holds. */
  lemma MatchWithin(u: string, n: nat)
    requires 0 < n <= |u| && IsDigit(u[0])
    requires n < |u| ==> !IsTokenChar(u[n])
    ensures MatchLen(u) <= n
  {
    MatchIsToken(u);
    if MatchLen(u) > n {
      assert false;
    }
  }

  /** The first digit is the one position with no digit before it and a digit at it, or the end. */
  lemma FirstDigitAt(s: string, f: nat)
    requires f <= |s|
    requires forall j :: 0 <= j < f ==> !IsDigit(s[j])
    requires f < |s| ==> IsDigit(s[f])
    ensures FirstDigit(s) == f
  {
  }

  /** A leading character that is not a digit does not change the first token. */
  lemma TokenDropFirst(s: string)
    requires |s| > 0 && !IsDigit(s[0])
    ensures Token(s[1..]) == Token(s)
  {
    var i := FirstDigit(s[1..]);
    if i < |s| - 1 {
      assert s[1..][i..] == s[1 + i..];
    }
  }

  /** A trailing character that no token holds does not change the first token. */
  lemma TokenDropLast(s: string)
    requires |s| > 0 && !IsTokenChar(s[|s| - 1])
    ensures Token(s[..|s| - 1]) == Token(s)
  {
    var t := s[..|s| - 1];
    var i := FirstDigit(s);
    forall j | 0 <= j < i && j < |t| ensures !IsDigit(t[j]) {
      assert t[j] == s[j];
    }
    if i < |s| {
      assert t[i] == s[i];
      FirstDigitAt(t, i);
      var u := s[i..];
      assert t[i..] == u[..|u| - 1];
      MatchOfPrefix(u, |u| - 1);
    } else {
      FirstDigitAt(t, |t|);
    }
  }

  /** Leading white space holds no digit, so stripping it keeps the first token. */
  lemma {:induction false} TokenOfLStrip(s: string)
    ensures Token(LStrip(s)) == Token(s)
    decreases |s|
  {
    if |s| > 0 && IsSpace(s[0]) {
      TokenOfLStrip(s[1..]);
      TokenDropFirst(s);
    }
  }

  /** Trailing white space is no token character, so stripping it keeps the first token. */
  lemma {:induction false} TokenOfRStrip(s: string)
    ensures Token(RStrip(s)) == Token(s)
    decreases |s|
  {
    if |s| > 0 && IsSpace(s[|s| - 1]) {
      var t := s[..|s| - 1];
      assert RStrip(s) == RStrip(t);
      TokenOfRStrip(t);
      assert !IsTokenChar(s[|s| - 1]);
      TokenDropLast(s);
    }
  }

  /** `raw.strip()` before the search does not change what it finds. */
  lemma TokenOfStrip(s: string)
    ensures Token(Strip(s)) == Token(s)
  {
    TokenOfLStrip(s);
    TokenOfRStrip(LStrip(s));
  }

  // ---------------------------------------------------------------------
  // A token matches in full
  // ---------------------------------------------------------------------

  /** Group-shaped text is matched in full by the repeated groups. */
  lemma {:induction false} GroupShapedMatches(w: string)
    requires GroupShaped(w)
    ensures Groups(w) == |w|
    decreases |w|
  {
    if |w| > 0 {
      assert IsAlnum(w[1]);
      var a := Run(w[1..], IsAlnum);
      var rest := w[1 + a..];
      if |rest| > 0 {
        assert rest[0] == w[1 + a] == w[1..][a];
      }
      forall j | 0 <= j < |rest| ensures IsTokenChar(rest[j]) && (IsSep(rest[j]) ==> j + 1 < |rest| && IsAlnum(rest[j + 1])) {
        assert rest[j] == w[1 + a + j];
        if j + 1 < |rest| { assert rest[j + 1] == w[1 + a + j + 1]; }
      }
      GroupShapedMatches(rest);
    }
  }

  /** A token matches itself in full. */
  lemma TokenMatchesInFull(t: string)
    requires IsToken(t)
    ensures MatchLen(t) == |t|
  {
    var d := Run(t, IsDigit);
    var w := t[d..];
    if |w| > 0 {
      assert w[0] == t[d];
      assert forall i :: 0 <= i < d ==> !IsSep(t[i]);
    }
    forall j | 0 <= j < |w| ensures IsTokenChar(w[j]) && (IsSep(w[j]) ==> j + 1 < |w| && IsAlnum(w[j + 1])) {
      assert w[j] == t[d + j];
      if j + 1 < |w| { assert w[j + 1] == t[d + j + 1]; }
    }
    GroupShapedMatches(w);
  }

  /** Turning `_` into `.` keeps a token a token. */
  lemma DottedToken(t: string)
    requires IsToken(t)
    ensures IsToken(Dotted(t))
  {
    var r := Dotted(t);
    forall j | 0 <= j < |r| && IsLetter(r[j]) ensures exists i :: 0 <= i < j && IsSep(r[i]) {
      var i :| 0 <= i < j && IsSep(t[i]);
      assert IsSep(r[i]);
    }
  }

  /** A dotted token is found whole in itself and stays as it is. */
  lemma DottedTokenIsFixed(t: string)
    requires IsToken(t)
    ensures Token(Dotted(t)) == Some(Dotted(t))
    ensures Dotted(Dotted(t)) == Dotted(t)
  {
    var r := Dotted(t);
    DottedToken(t);
    TokenMatchesInFull(r);
    assert r[0..] == r;
    assert FirstDigit(r) == 0;
    assert Token(r) == Some(MatchAt(r));
    assert MatchAt(r) == r[..|r|] == r;
    assert forall i :: 0 <= i < |r| ==> Dotted(r)[i] == r[i];
  }

  // ---------------------------------------------------------------------
  // Path segments
  // ---------------------------------------------------------------------

  /** The characters a path segment keeps: letters, digits, `.`, `-` and `_`. */
  predicate IsSegmentChar(c: char) { IsAlnum(c) || c == '.' || c == '-' || c == '_' }

  /**
   * `sanitise_segment` / `sanitizedVersionSegment`: each character is kept
   * when a segment may hold it and becomes `_` otherwise.
   */
  function Sanitise(s: string): (r: string)
    ensures |r| == |s|
    ensures forall i :: 0 <= i < |s| ==> r[i] == (if IsSegmentChar(s[i]) then s[i] else '_')
  {
    if |s| == 0 then [] else [if IsSegmentChar(s[0]) then s[0] else '_'] + Sanitise(s[1..])
  }

  /** A sanitised segment holds only segment characters, so sanitising it again changes nothing. */
  lemma SanitiseIdempotent(s: string)
    ensures forall i :: 0 <= i < |Sanitise(s)| ==> IsSegmentChar(Sanitise(s)[i])
    ensures Sanitise(Sanitise(s)) == Sanitise(s)
  {
  }

  /** Sanitising leaves a string alone exactly when all its characters are segment characters. */
  lemma SanitiseFixedIff(s: string)
    ensures Sanitise(s) == s <==> forall i :: 0 <= i < |s| ==> IsSegmentChar(s[i])
  {
    if Sanitise(s) == s {
      forall i | 0 <= i < |s| ensures IsSegmentChar(s[i]) {
        assert Sanitise(s)[i] == s[i];
      }
    }
  }

  /** A normalised version is a clean directory name: sanitising leaves it as it is. */
  lemma DottedIsSegment(t: string)
    requires IsToken(t)
    ensures Sanitise(Dotted(t)) == Dotted(t)
  {
    var r := Dotted(t);
    assert forall i :: 0 <= i < |r| ==> IsTokenChar(t[i]);
    SanitiseFixedIff(r);
  }
}

=== FILE: versioned_json.dfy ===
/**
 * Version-keyed storage of per-item payloads, where each version stores only
 * what changed since the best earlier version (src/versioned_json.py).
 *
 * A stored document is an insertion-ordered dictionary whose keys are
 * version strings (plus the bookkeeping key "version"); each version entry
 * is a patch: an object whose `null` values delete an item.
 */
module VersionedJson {
  import opened Results
  import opened Strings
  import opened Ordering
  import OD = OrderedDict
  import opened JsonValues

  type Doc = OD.Dict<Json>
  type Payload = map<string, Json>

  const VersionField: string := "version"

  /** `re.findall(r"\d+", v)` read as integers. */
  function DigitRuns(s: string): (r: seq<nat>)
    ensures |r| == 0 <==> (forall i :: 0 <= i < |s| ==> !IsDigit(s[i]))
    decreases |s|
  {
    if |s| == 0 then []
    else if !IsDigit(s[0]) then DigitRuns(s[1..])
    else
      var p := DigitPrefix(s);
      [DigitsValue(p)] + DigitRuns(s[|p|..])
  }

  /** `version_key`: the tuple of digit runs; a version without digits is rejected. */
  function VersionKey(v: string): (r: Result<seq<nat>>)
    ensures r.Ok? <==> exists i :: 0 <= i < |v| && IsDigit(v[i])
    ensures r.Ok? ==> |r.value| > 0 && r.value == DigitRuns(v)
    ensures r.Err? ==> r.error == ValueError
  {
    var runs := DigitRuns(v);
    if |runs| == 0 then Err(ValueError) else Ok(runs)
  }

  predicate ValidVersion(v: string) { |DigitRuns(v)| > 0 }

  /** `version_key(a) <= version_key(b)`. */
  predicate KeyLe(a: string, b: string) { !IntSeqLess(DigitRuns(b), DigitRuns(a)) }

  /** `version_key(a) < version_key(b)`. */
  predicate KeyLt(a: string, b: string) { IntSeqLess(DigitRuns(a), DigitRuns(b)) }

  lemma KeyLeTotalPreorder()
    ensures TotalPreorder(KeyLe)
    ensures TotalPreorder((a: string, b: string) => KeyLe(b, a))
  {
    forall a: string, b: string ensures KeyLe(a, b) || KeyLe(b, a) {
      if IntSeqLess(DigitRuns(b), DigitRuns(a)) { IntSeqLessAsymmetric(DigitRuns(b), DigitRuns(a)); }
    }
    forall a: string, b: string, c: string | KeyLe(a, b) && KeyLe(b, c) ensures KeyLe(a, c) {
      IntSeqLessTotal(DigitRuns(a), DigitRuns(b));
      IntSeqLessTotal(DigitRuns(b), DigitRuns(c));
      if IntSeqLess(DigitRuns(c), DigitRuns(a)) {
        if DigitRuns(a) == DigitRuns(b) {
        } else {
          IntSeqLessTransitive(DigitRuns(c), DigitRuns(a), DigitRuns(b));
        }
      }
    }
  }

  /** `sort_versions`: ascending by version key, stable; any version without digits is an error. */
  function SortVersions(vs: seq<string>): (r: Result<seq<string>>)
    ensures r.Ok? <==> forall i :: 0 <= i < |vs| ==> ValidVersion(vs[i])
    ensures r.Ok? ==> multiset(r.value) == multiset(vs)
    ensures r.Ok? ==> forall i, j :: 0 <= i < j < |r.value| ==> KeyLe(r.value[i], r.value[j])
  {
    if exists i :: 0 <= i < |vs| && !ValidVersion(vs[i]) then Err(ValueError)
    else
      KeyLeTotalPreorder();
      Ok(SortBy(vs, KeyLe))
  }

  /** Candidate `c` may serve as a baseline for target key `tk`. */
  predicate Qualifies(c: string, tk: seq<nat>) {
    ValidVersion(c) && !IntSeqLess(tk, DigitRuns(c))
  }

  /** The left-to-right scan of `resolve_best_version` with its running best. */
  function BestFrom(avail: seq<string>, tk: seq<nat>, best: Option<string>): Option<string>
    decreases |avail|
  {
    if |avail| == 0 then best
    else
      var c := avail[0];
      if !Qualifies(c, tk) then BestFrom(avail[1..], tk, best)
      else if best.None? || IntSeqLess(DigitRuns(best.value), DigitRuns(c)) then
        BestFrom(avail[1..], tk, Some(c))
      else BestFrom(avail[1..], tk, best)
  }

  /**
   * `resolve_best_version`: the first candidate with the greatest version key
   * not above the target; candidates without digits are skipped, a target
   * without digits is an error.
   */
  function ResolveBestVersion(avail: seq<string>, target: string): (r: Result<Option<string>>)
    ensures r.Err? <==> !ValidVersion(target)
  {
    match VersionKey(target)
    case Err(e) => Err(e)
    case Ok(tk) => Ok(BestFrom(avail, tk, None))
  }

  lemma {:induction false} BestFromFound(avail: seq<string>, tk: seq<nat>, best: Option<string>)
    requires best.Some? ==> Qualifies(best.value, tk)
    ensures var r := BestFrom(avail, tk, best);
      && (r.Some? ==> Qualifies(r.value, tk) && (r == best || r.value in avail))
      && (r.None? <==> best.None? && forall c :: c in avail ==> !Qualifies(c, tk))
    decreases |avail|
  {
    if |avail| > 0 {
      var c := avail[0];
      if !Qualifies(c, tk) {
        BestFromFound(avail[1..], tk, best);
      } else if best.None? || IntSeqLess(DigitRuns(best.value), DigitRuns(c)) {
        BestFromFound(avail[1..], tk, Some(c));
      } else {
        BestFromFound(avail[1..], tk, best);
      }
    }
  }

  lemma {:induction false} BestFromMaximal(avail: seq<string>, tk: seq<nat>, best: Option<string>)
    requires best.Some? ==> Qualifies(best.value, tk)
    ensures var r := BestFrom(avail, tk, best);
      && (r.Some? ==> forall c :: c in avail && Qualifies(c, tk) ==> !KeyLt(r.value, c))
      && (best.Some? ==> r.Some? && !KeyLt(r.value, best.value))
    decreases |avail|
  {
    var r := BestFrom(avail, tk, best);
    if |avail| == 0 {
      if best.Some? { IntSeqLessIrreflexive(DigitRuns(best.value)); }
    } else {
      var c := avail[0];
      if !Qualifies(c, tk) {
        BestFromMaximal(avail[1..], tk, best);
      } else if best.None? || IntSeqLess(DigitRuns(best.value), DigitRuns(c)) {
        BestFromMaximal(avail[1..], tk, Some(c));
        if best.Some? {
          IntSeqLessTotal(DigitRuns(r.value), DigitRuns(c));
          if DigitRuns(r.value) != DigitRuns(c) {
            IntSeqLessTransitive(DigitRuns(best.value), DigitRuns(c), DigitRuns(r.value));
          }
          IntSeqLessAsymmetric(DigitRuns(best.value), DigitRuns(r.value));
        }
      } else {
        BestFromMaximal(avail[1..], tk, best);
        if KeyLt(r.value, c) {
          IntSeqLessTotal(DigitRuns(r.value), DigitRuns(best.value));
          if DigitRuns(r.value) != DigitRuns(best.value) {
            IntSeqLessTransitive(DigitRuns(best.value), DigitRuns(r.value), DigitRuns(c));
          }
        }
      }
    }
  }

  /** A baseline that replaces the running best has a strictly greater key. */
  lemma {:induction false} BestFromIncreases(avail: seq<string>, tk: seq<nat>, best: Option<string>)
    ensures var r := BestFrom(avail, tk, best);
      r != best ==> r.Some? && (best.Some? ==> KeyLt(best.value, r.value))
    decreases |avail|
  {
    var r := BestFrom(avail, tk, best);
    if |avail| > 0 && r != best {
      var c := avail[0];
      if !Qualifies(c, tk) {
        BestFromIncreases(avail[1..], tk, best);
      } else if best.None? || IntSeqLess(DigitRuns(best.value), DigitRuns(c)) {
        BestFromIncreases(avail[1..], tk, Some(c));
        if best.Some? && r != Some(c) {
          IntSeqLessTransitive(DigitRuns(best.value), DigitRuns(c), DigitRuns(r.value));
        }
      } else {
        BestFromIncreases(avail[1..], tk, best);
      }
    }
  }

  /** The step of `BestFrom` on the head candidate. */
  function BestStep(c: string, tk: seq<nat>, best: Option<string>): Option<string> {
    if !Qualifies(c, tk) then best
    else if best.None? || IntSeqLess(DigitRuns(best.value), DigitRuns(c)) then Some(c)
    else best
  }

  /** A baseline that replaces the running best is strictly above every earlier qualifying candidate. */
  lemma {:induction false} BestFromFirst(avail: seq<string>, tk: seq<nat>, best: Option<string>)
    ensures var r := BestFrom(avail, tk, best);
      r.Some? && r != best ==>
        exists i :: 0 <= i < |avail| && avail[i] == r.value &&
          forall j :: 0 <= j < i && Qualifies(avail[j], tk) ==> KeyLt(avail[j], r.value)
    decreases |avail|
  {
    var r := BestFrom(avail, tk, best);
    if |avail| > 0 && r.Some? && r != best {
      var c := avail[0];
      var next := BestStep(c, tk, best);
      assert r == BestFrom(avail[1..], tk, next);
      if r == next {
        assert avail[0] == r.value;
      } else {
        BestFromFirst(avail[1..], tk, next);
        BestFromIncreases(avail[1..], tk, next);
        var i :| 0 <= i < |avail[1..]| && avail[1..][i] == r.value &&
          forall j :: 0 <= j < i && Qualifies(avail[1..][j], tk) ==> KeyLt(avail[1..][j], r.value);
        if Qualifies(c, tk) {
          HeadBelowResult(c, tk, best, next, r.value);
        }
        ShiftWitness(avail, tk, i, r.value);
      }
    }
  }

  lemma HeadBelowResult(c: string, tk: seq<nat>, best: Option<string>, next: Option<string>, r: string)
    requires Qualifies(c, tk)
    requires next == BestStep(c, tk, best)
    requires next.Some? ==> KeyLt(next.value, r)
    ensures KeyLt(c, r)
  {
    if next != Some(c) {
      IntSeqLessTotal(DigitRuns(c), DigitRuns(best.value));
      if DigitRuns(c) != DigitRuns(best.value) {
        IntSeqLessTransitive(DigitRuns(c), DigitRuns(best.value), DigitRuns(r));
      }
    }
  }

  lemma ShiftWitness(avail: seq<string>, tk: seq<nat>, i: int, r: string)
    requires |avail| > 0 && 0 <= i < |avail| - 1 && avail[i + 1] == r
    requires Qualifies(avail[0], tk) ==> KeyLt(avail[0], r)
    requires forall j :: 0 <= j < i && Qualifies(avail[1..][j], tk) ==> KeyLt(avail[1..][j], r)
    ensures exists i' :: 0 <= i' < |avail| && avail[i'] == r &&
                 forall j :: 0 <= j < i' && Qualifies(avail[j], tk) ==> KeyLt(avail[j], r)
  {
    forall j | 0 <= j < i + 1 && Qualifies(avail[j], tk) ensures KeyLt(avail[j], r) {
      if j > 0 { assert avail[j] == avail[1..][j - 1]; }
    }
  }

  /**
   * The baseline chosen by `resolve_best_version` is a candidate whose key is
   * not above the target and not below any other such candidate, and no
   * earlier candidate has an equal key; it is absent exactly when no
   * candidate qualifies.
   */
  lemma ResolveBestVersionSpec(avail: seq<string>, target: string)
    requires ValidVersion(target)
    ensures var r := ResolveBestVersion(avail, target);
      && r.Ok?
      && (r.value.None? <==> forall c :: c in avail ==> !Qualifies(c, DigitRuns(target)))
      && (r.value.Some? ==>
            && r.value.value in avail
            && Qualifies(r.value.value, DigitRuns(target))
            && (forall c :: c in avail && Qualifies(c, DigitRuns(target)) ==> !KeyLt(r.value.value, c))
            && (exists i :: 0 <= i < |avail| && avail[i] == r.value.value &&
                  forall j :: 0 <= j < i && Qualifies(avail[j], DigitRuns(target)) ==> KeyLt(avail[j], avail[i])))
  {
    BestFromFound(avail, DigitRuns(target), None);
    BestFromMaximal(avail, DigitRuns(target), None);
    BestFromFirst(avail, DigitRuns(target), None);
    BestFromIncreases(avail, DigitRuns(target), None);
  }

  /** Apply one patch object: `null` deletes an item, any other value sets it. */
  function Patch(acc: Payload, patch: Payload): (r: Payload)
    ensures forall k :: k in r <==> (k in patch && patch[k] != JNull) || (k !in patch && k in acc)
    ensures forall k :: k in r ==> r[k] == (if k in patch then patch[k] else acc[k])
  {
    map k | k in acc.Keys + patch.Keys && (k !in patch || patch[k] != JNull)
      :: if k in patch then patch[k] else acc[k]
  }

  /** One step of the replay: entries that are not objects are skipped. */
  function ApplyEntry(acc: Payload, entry: Json): Payload {
    if entry.JObj? then Patch(acc, entry.fields) else acc
  }

  /** Replay the entries of `vs`, in list order, onto an empty payload. */
  function Replay(doc: Doc, vs: seq<string>): Payload {
    if |vs| == 0 then map[]
    else ApplyEntry(Replay(doc, vs[..|vs| - 1]), OD.GetOr(doc, vs[|vs| - 1], JNull))
  }

  /** The versions the replay loop visits before it breaks at the first key above the target. */
  function Upto(vs: seq<string>, tk: seq<nat>): (r: seq<string>)
    ensures |r| <= |vs| && r == vs[..|r|]
    ensures forall i :: 0 <= i < |r| ==> !IntSeqLess(tk, DigitRuns(r[i]))
    ensures |r| < |vs| ==> IntSeqLess(tk, DigitRuns(vs[|r|]))
  {
    if |vs| == 0 || IntSeqLess(tk, DigitRuns(vs[0])) then []
    else
      var rest := Upto(vs[1..], tk);
      var r := [vs[0]] + rest;
      assert r == vs[..|r|] by {
        assert vs[1..][..|rest|] == vs[1..|r|];
      }
      assert forall i :: 0 < i < |r| ==> r[i] == rest[i - 1];
      r
  }

  /** The keys of a document other than "version", in document order. */
  function VersionKeysOf(keys: seq<string>): (r: seq<string>)
    ensures forall k :: k in r <==> k in keys && k != VersionField
    ensures |r| <= |keys|
  {
    if |keys| == 0 then []
    else (if keys[0] == VersionField then [] else [keys[0]]) + VersionKeysOf(keys[1..])
  }

  /** `apply_versioned_payload`: the full payload of `target`, replayed from the patches. */
  function ApplyVersionedPayload(doc: Doc, target: string): (r: Result<Payload>)
    ensures |VersionKeysOf(OD.Keys(doc))| == 0 ==> r == Ok(map[])
    ensures |VersionKeysOf(OD.Keys(doc))| > 0 ==>
      (r.Ok? <==> ValidVersion(target) && forall k :: k in VersionKeysOf(OD.Keys(doc)) ==> ValidVersion(k))
    ensures r.Ok? ==> forall k :: k in r.value ==> r.value[k] != JNull
  {
    var vkeys := VersionKeysOf(OD.Keys(doc));
    if |vkeys| == 0 then Ok(map[])
    else
      match SortVersions(vkeys)
      case Err(e) => Err(e)
      case Ok(sorted) =>
        match VersionKey(target)
        case Err(e) => Err(e)
        case Ok(tk) =>
          ReplayHasNoNull(doc, Upto(sorted, tk));
          Ok(Replay(doc, Upto(sorted, tk)))
  }

  lemma {:induction false} ReplayHasNoNull(doc: Doc, vs: seq<string>)
    ensures forall k :: k in Replay(doc, vs) ==> Replay(doc, vs)[k] != JNull
  {
    if |vs| > 0 { ReplayHasNoNull(doc, vs[..|vs| - 1]); }
  }

  /** `d.get(k, _MISSING)`: a missing item is distinct from a `null` one. */
  function Find(m: Payload, k: string): Option<Json> {
    if k in m then Some(m[k]) else None
  }

  /** `prev_value == new_value` on two lookups: `_MISSING` equals only itself, values compare as Python does. */
  predicate SameFind(a: Option<Json>, b: Option<Json>) {
    match a
    case None => b.None?
    case Some(x) => b.Some? && PyEq(x, b.value)
  }

  /** Two payloads with the same items, each pair of values equal to Python. */
  predicate PayloadEq(p: Payload, q: Payload) {
    p.Keys == q.Keys && forall k :: k in p ==> PyEq(p[k], q[k])
  }

  /**
   * `calculate_diff`: every item present in only one payload, or whose two
   * values Python finds unequal; `null` for a removed item, the new value
   * otherwise.
   */
  function CalculateDiff(before: Payload, after: Payload): (r: Payload)
    ensures forall k :: k in r <==> (k in before || k in after) && !(k in before && k in after && PyEq(before[k], after[k]))
    ensures forall k :: k in r ==> r[k] == (if k in after then after[k] else JNull)
  {
    map k | k in before.Keys + after.Keys && !SameFind(Find(before, k), Find(after, k))
      :: if k in after then after[k] else JNull
  }

  predicate NoNulls(p: Payload) { forall k :: k in p ==> p[k] != JNull }

  /**
   * Patching the before payload with the diff yields the after payload, up
   * to Python equality: an item whose value changed takes the new value
   * itself, and an item Python finds unchanged keeps the old one.
   */
  lemma DiffPatchRoundTrip(before: Payload, after: Payload)
    requires NoNulls(before) && NoNulls(after)
    ensures PayloadEq(Patch(before, CalculateDiff(before, after)), after)
    ensures forall k :: k in after && !(k in before && PyEq(before[k], after[k])) ==>
      Patch(before, CalculateDiff(before, after))[k] == after[k]
  {
    var r := Patch(before, CalculateDiff(before, after));
    assert forall k :: k in r <==> k in after;
    forall k | k in r ensures PyEq(r[k], after[k]) {
      PyEqReflexive(after[k]);
    }
  }

  /** An empty diff means the payloads are equal to Python. */
  lemma EmptyDiffMeansEqual(before: Payload, after: Payload)
    requires |CalculateDiff(before, after)| == 0
    ensures PayloadEq(before, after)
  {
    assert CalculateDiff(before, after) == map[];
    forall k | k in before || k in after ensures k in before && k in after && PyEq(before[k], after[k]) {
      assert k !in CalculateDiff(before, after);
    }
  }

  /** A payload differs from itself nowhere. */
  lemma DiffWithSelfEmpty(p: Payload)
    ensures CalculateDiff(p, p) == map[]
  {
    forall k | k in p ensures PyEq(p[k], p[k]) { PyEqReflexive(p[k]); }
  }

  /**
   * The storing half of `update_versioned_data`, on the document with any
   * previous entry for `v` removed: the whole payload when there is no other
   * version, otherwise the diff against the best earlier version, and nothing
   * when that diff is empty.
   */
  function StoreVersion(data: Doc, v: string, payload: Payload): Result<Doc> {
    var vkeys := VersionKeysOf(OD.Keys(data));
    if |vkeys| == 0 then Ok(OD.Set(data, v, JObj(payload)))
    else
      match ResolveBestVersion(vkeys, v)
      case Err(e) => Err(e)
      case Ok(baseline) =>
        var base: Result<Payload> :=
          if baseline.Some? then ApplyVersionedPayload(data, baseline.value) else Ok(map[]);
        match base
        case Err(e) => Err(e)
        case Ok(b) =>
          var diff := CalculateDiff(b, payload);
          if |diff| > 0 then Ok(OD.Set(data, v, JObj(diff))) else Ok(data)
  }

  /**
   * `update_versioned_data`: store `payload` for `v`, then keep "version"
   * pointing at the highest version recorded.
   */
  function UpdateVersionedData(doc: Doc, v: string, payload: Payload): (r: Result<Doc>)
    requires OD.Valid(doc)
    ensures r.Ok? ==> OD.Get(r.value, VersionField).Some? && OD.Get(r.value, VersionField).value.JStr?
    ensures r.Ok? ==> var h := OD.Get(doc, VersionField);
      OD.Get(r.value, VersionField).value.s ==
        (if h.Some? && h.value.JStr? && !KeyLe(h.value.s, v) then h.value.s else v)
    ensures r.Ok? ==> var h := OD.Get(doc, VersionField);
      h.None? || h.value.JNull? || (h.value.JStr? && ValidVersion(h.value.s) && ValidVersion(v))
    ensures r.Ok? ==> forall k :: k != v && k != VersionField ==> OD.Get(r.value, k) == OD.Get(doc, k)
  {
    var highest: Option<Json> := OD.Get(doc, VersionField);
    var data := OD.Pop(doc, v);
    match StoreVersion(data, v, payload)
    case Err(e) => Err(e)
    case Ok(d) =>
      StoreVersionFrame(data, v, payload);
      match highest
      case None => Ok(OD.Set(d, VersionField, JStr(v)))
      case Some(JNull) => Ok(OD.Set(d, VersionField, JStr(v)))
      case Some(JStr(h)) =>
        if !ValidVersion(v) || !ValidVersion(h) then Err(ValueError)
        else if KeyLe(h, v) then Ok(OD.Set(d, VersionField, JStr(v)))
        else Ok(OD.Set(d, VersionField, JStr(h)))
      case Some(_) => if !ValidVersion(v) then Err(ValueError) else Err(TypeError)
  }

  /** Storing a version touches no other entry. */
  lemma StoreVersionFrame(data: Doc, v: string, payload: Payload)
    ensures StoreVersion(data, v, payload).Ok? ==>
      forall k :: k != v ==> OD.Get(StoreVersion(data, v, payload).value, k) == OD.Get(data, k)
  {
  }

  /** `order_versioned_payload`: "version" first, then versions from newest to oldest. */
  function OrderVersionedPayload(doc: Doc): (r: Result<Doc>)
    requires OD.Valid(doc)
    ensures r.Ok? <==> forall k :: k in VersionKeysOf(OD.Keys(doc)) ==> ValidVersion(k)
    ensures r.Ok? ==> forall k :: OD.Get(r.value, k) == OD.Get(doc, k)
    ensures r.Ok? ==> OD.Has(doc, VersionField) ==>
      |OD.Keys(r.value)| > 0 && OD.Keys(r.value)[0] == VersionField
    ensures r.Ok? ==> var ks := VersionKeysOf(OD.Keys(r.value));
      forall i, j :: 0 <= i < j < |ks| ==> KeyLe(ks[j], ks[i])
  {
    var vkeys := VersionKeysOf(OD.Keys(doc));
    var head: Doc := if OD.Has(doc, VersionField) then [(VersionField, OD.Get(doc, VersionField).value)] else [];
    if exists i :: 0 <= i < |vkeys| && !ValidVersion(vkeys[i]) then Err(ValueError)
    else
      var desc := SortDescending(vkeys);
      var body := Entries(doc, desc);
      OrderedLookup(doc, desc, head);
      OrderedKeys(doc, desc, head);
      Ok(head + body)
  }

  /** `sorted(vs, key=version_key, reverse=True)`. */
  function SortDescending(vs: seq<string>): (r: seq<string>)
    ensures forall k :: k in r <==> k in vs
    ensures forall i, j :: 0 <= i < j < |r| ==> KeyLe(r[j], r[i])
  {
    KeyLeTotalPreorder();
    var r := SortBy(vs, (a: string, b: string) => KeyLe(b, a));
    SameMembers(r, vs);
    r
  }

  lemma SameMembers(a: seq<string>, b: seq<string>)
    requires multiset(a) == multiset(b)
    ensures forall k :: k in a <==> k in b
  {
    forall k ensures k in a <==> k in b {
      assert k in a <==> k in multiset(a);
      assert k in b <==> k in multiset(b);
    }
  }

  /** The entries of `doc` for the listed keys, in list order. */
  function Entries(doc: Doc, ks: seq<string>): (r: Doc)
    requires forall k :: k in ks ==> k in OD.Keys(doc)
    ensures OD.Keys(r) == ks
    ensures forall k :: OD.Get(r, k) == (if k in ks then OD.Get(doc, k) else None)
  {
    if |ks| == 0 then []
    else
      var rest := Entries(doc, ks[1..]);
      var r := [(ks[0], OD.Get(doc, ks[0]).value)] + rest;
      assert r[1..] == rest;
      r
  }

  lemma OrderedLookup(doc: Doc, desc: seq<string>, head: Doc)
    requires forall k :: k in desc <==> k in VersionKeysOf(OD.Keys(doc))
    requires head == if OD.Has(doc, VersionField) then [(VersionField, OD.Get(doc, VersionField).value)] else []
    ensures forall k :: OD.Get(head + Entries(doc, desc), k) == OD.Get(doc, k)
  {
    forall k ensures OD.Get(head + Entries(doc, desc), k) == OD.Get(doc, k) {
      GetAppend(head, Entries(doc, desc), k);
    }
  }

  lemma OrderedKeys(doc: Doc, desc: seq<string>, head: Doc)
    requires forall k :: k in desc <==> k in VersionKeysOf(OD.Keys(doc))
    requires head == if OD.Has(doc, VersionField) then [(VersionField, OD.Get(doc, VersionField).value)] else []
    ensures OD.Has(doc, VersionField) ==>
      |OD.Keys(head + Entries(doc, desc))| > 0 && OD.Keys(head + Entries(doc, desc))[0] == VersionField
    ensures VersionKeysOf(OD.Keys(head + Entries(doc, desc))) == desc
  {
    assert VersionField !in desc;
    HeadThenKeys(head, Entries(doc, desc));
  }

  /** Putting the "version" entry, or nothing, in front leaves the version keys alone. */
  lemma HeadThenKeys(head: Doc, body: Doc)
    requires VersionField !in OD.Keys(body)
    requires |head| == 0 || (|head| == 1 && head[0].0 == VersionField)
    ensures |head| == 1 ==> |OD.Keys(head + body)| > 0 && OD.Keys(head + body)[0] == VersionField
    ensures VersionKeysOf(OD.Keys(head + body)) == OD.Keys(body)
  {
    KeysAppend(head, body);
    VersionKeysOfAppend(OD.Keys(head), OD.Keys(body));
    VersionKeysOfIdentity(OD.Keys(body));
    assert VersionKeysOf(OD.Keys(head)) == [];
  }

  lemma {:induction false} KeysAppend<V>(a: OD.Dict<V>, b: OD.Dict<V>)
    ensures OD.Keys(a + b) == OD.Keys(a) + OD.Keys(b)
  {
  }

  lemma {:induction false} GetAppend(a: Doc, b: Doc, k: string)
    ensures OD.Get(a + b, k) == if OD.Get(a, k).Some? then OD.Get(a, k) else OD.Get(b, k)
  {
    if |a| > 0 {
      GetAppend(a[1..], b, k);
      assert (a + b)[0] == a[0];
      assert (a + b)[1..] == a[1..] + b;
    } else {
      assert a + b == b;
    }
  }

  lemma {:induction false} VersionKeysOfAppend(a: seq<string>, b: seq<string>)
    ensures VersionKeysOf(a + b) == VersionKeysOf(a) + VersionKeysOf(b)
  {
    if |a| > 0 {
      VersionKeysOfAppend(a[1..], b);
      assert (a + b)[1..] == a[1..] + b;
    } else {
      assert a + b == b;
    }
  }

  lemma {:induction false} VersionKeysOfIdentity(ks: seq<string>)
    requires VersionField !in ks
    ensures VersionKeysOf(ks) == ks
  {
    if |ks| > 0 {
      VersionKeysOfIdentity(ks[1..]);
      assert ks == [ks[0]] + ks[1..];
    }
  }

  // ---------------------------------------------------------------------
  // Round trip: what `update_versioned_data` stores for a version replays
  // to exactly the payload it was given.
  // ---------------------------------------------------------------------

  ghost predicate NoDup(s: seq<string>) {
    forall i, j :: 0 <= i < j < |s| ==> s[i] != s[j]
  }

  /** No two different versions in `ks` share a version key. */
  ghost predicate KeysDistinct(ks: seq<string>) {
    forall a, b :: a in ks && b in ks && a != b ==> DigitRuns(a) != DigitRuns(b)
  }

  /** The same, disregarding `v`. */
  ghost predicate KeysDistinctExcept(ks: seq<string>, v: string) {
    forall a, b :: a in ks && b in ks && a != v && b != v && a != b ==> DigitRuns(a) != DigitRuns(b)
  }

  ghost predicate StrictlySorted(s: seq<string>) {
    forall i, j :: 0 <= i < j < |s| ==> KeyLt(s[i], s[j])
  }

  lemma {:induction false} NoDupCount(s: seq<string>, x: string)
    requires NoDup(s)
    ensures multiset(s)[x] <= 1
  {
    if |s| > 0 {
      assert NoDup(s[1..]);
      NoDupCount(s[1..], x);
      assert s == [s[0]] + s[1..];
      if s[0] == x { assert x !in s[1..]; }
    }
  }

  lemma DupCount(s: seq<string>, i: int, j: int)
    requires 0 <= i < j < |s| && s[i] == s[j]
    ensures multiset(s)[s[i]] >= 2
  {
    assert s == s[..j] + s[j..];
    assert s[i] in s[..j];
    assert s[j] == s[j..][0];
  }

  /** Sorting versions whose keys are all different yields a strictly increasing list. */
  lemma StrictFromSorted(s: seq<string>, orig: seq<string>)
    requires multiset(s) == multiset(orig) && NoDup(orig)
    requires KeysDistinct(orig)
    requires forall i, j :: 0 <= i < j < |s| ==> KeyLe(s[i], s[j])
    ensures StrictlySorted(s)
  {
    forall i, j | 0 <= i < j < |s| ensures KeyLt(s[i], s[j]) {
      if s[i] == s[j] {
        DupCount(s, i, j);
        NoDupCount(orig, s[i]);
      }
      assert s[i] in multiset(orig) && s[j] in multiset(orig);
      IntSeqLessTotal(DigitRuns(s[i]), DigitRuns(s[j]));
    }
  }

  lemma HeadIsMember(s: seq<string>)
    ensures |s| > 0 ==> s[0] in s
  {
  }

  /** The first element of a strictly increasing list is below every later member. */
  lemma HeadBelow(a: seq<string>, x: string)
    requires StrictlySorted(a) && |a| > 0
    requires x in a[1..]
    ensures x in a && KeyLt(a[0], x) && x != a[0]
  {
    var k :| 0 <= k < |a[1..]| && a[1..][k] == x;
    assert a[k + 1] == x;
    IntSeqLessIrreflexive(DigitRuns(x));
  }

  lemma StrictTail(a: seq<string>)
    requires StrictlySorted(a) && |a| > 0
    ensures StrictlySorted(a[1..])
  {
    forall i, j | 0 <= i < j < |a| - 1 ensures KeyLt(a[1..][i], a[1..][j]) {
      assert a[1..][i] == a[i + 1] && a[1..][j] == a[j + 1];
    }
  }

  /** A member other than the head lies in the tail. */
  lemma InTail(a: seq<string>, x: string)
    requires |a| > 0 && x in a && x != a[0]
    ensures x in a[1..]
  {
    assert a == [a[0]] + a[1..];
  }

  /** Two strictly increasing lists with the same members start alike. */
  lemma SameHead(a: seq<string>, b: seq<string>)
    requires StrictlySorted(a) && StrictlySorted(b)
    requires forall x :: x in a <==> x in b
    requires |a| > 0
    ensures |b| > 0 && a[0] == b[0]
  {
    HeadIsMember(a);
    HeadIsMember(b);
    if a[0] != b[0] {
      InTail(b, a[0]);
      InTail(a, b[0]);
      HeadBelow(b, a[0]);
      HeadBelow(a, b[0]);
      IntSeqLessAsymmetric(DigitRuns(a[0]), DigitRuns(b[0]));
    }
  }

  lemma SameTail(a: seq<string>, b: seq<string>)
    requires StrictlySorted(a) && StrictlySorted(b)
    requires forall x :: x in a <==> x in b
    requires |a| > 0 && |b| > 0 && a[0] == b[0]
    ensures forall x :: x in a[1..] <==> x in b[1..]
  {
    forall x ensures x in a[1..] <==> x in b[1..] {
      if x in a[1..] {
        HeadBelow(a, x);
        InTail(b, x);
      }
      if x in b[1..] {
        HeadBelow(b, x);
        InTail(a, x);
      }
    }
  }

  /** Two strictly increasing lists with the same members are equal. */
  lemma {:induction false} StrictlySortedUnique(a: seq<string>, b: seq<string>)
    requires StrictlySorted(a) && StrictlySorted(b)
    requires forall x :: x in a <==> x in b
    ensures a == b
    decreases |a|
  {
    if |a| == 0 {
      HeadIsMember(b);
    } else {
      SameHead(a, b);
      SameTail(a, b);
      StrictTail(a);
      StrictTail(b);
      StrictlySortedUnique(a[1..], b[1..]);
      assert a == [a[0]] + a[1..] && b == [b[0]] + b[1..];
    }
  }

  /** A version not above the target, in a sorted list, is visited by the replay loop. */
  lemma UptoCovers(s: seq<string>, tk: seq<nat>, k: int)
    requires forall i, j :: 0 <= i < j < |s| ==> KeyLe(s[i], s[j])
    requires 0 <= k < |s| && !IntSeqLess(tk, DigitRuns(s[k]))
    ensures k < |Upto(s, tk)|
  {
    var n := |Upto(s, tk)|;
    if n < k {
      var a, b := DigitRuns(s[n]), DigitRuns(s[k]);
      assert IntSeqLess(tk, a);
      assert !IntSeqLess(b, a) by { assert KeyLe(s[n], s[k]); }
      IntSeqLessTotal(a, b);
      if a != b {
        IntSeqLessTransitive(tk, a, b);
      }
    } else if n == k {
      assert false;
    }
  }

  /** On a sorted list the replay loop visits exactly the versions not above the target. */
  lemma UptoMembers(s: seq<string>, tk: seq<nat>)
    requires forall i, j :: 0 <= i < j < |s| ==> KeyLe(s[i], s[j])
    ensures forall x :: x in Upto(s, tk) <==> x in s && !IntSeqLess(tk, DigitRuns(x))
  {
    var u := Upto(s, tk);
    forall x | x in s && !IntSeqLess(tk, DigitRuns(x)) ensures x in u {
      var k :| 0 <= k < |s| && s[k] == x;
      UptoCovers(s, tk, k);
      assert s[k] == u[k];
    }
  }

  lemma StrictPrefix(s: seq<string>, n: int)
    requires StrictlySorted(s) && 0 <= n <= |s|
    ensures StrictlySorted(s[..n])
  {
  }

  /** Replaying the same versions from two documents that agree on them gives the same payload. */
  lemma {:induction false} ReplayFrame(d1: Doc, d2: Doc, vs: seq<string>)
    requires forall x :: x in vs ==> OD.Get(d1, x) == OD.Get(d2, x)
    ensures Replay(d1, vs) == Replay(d2, vs)
  {
    if |vs| > 0 {
      assert vs[|vs| - 1] in vs;
      ReplayFrame(d1, d2, vs[..|vs| - 1]);
    }
  }

  lemma ValidKeysNoDup(d: Doc)
    requires OD.Valid(d)
    ensures NoDup(OD.Keys(d))
  {
  }

  /** The preconditions under which a stored version reads back exactly. */
  ghost predicate WellFormedUpdate(doc: Doc, v: string, payload: Payload) {
    && OD.Valid(doc)
    && ValidVersion(v)
    && NoNulls(payload)
    && (forall k :: k in VersionKeysOf(OD.Keys(doc)) ==> ValidVersion(k))
    && KeysDistinctExcept(VersionKeysOf(OD.Keys(doc)), v)
    && (forall k :: k in VersionKeysOf(OD.Keys(doc)) && k != v ==> DigitRuns(k) != DigitRuns(v))
    && (OD.Get(doc, VersionField).Some? ==>
          OD.Get(doc, VersionField).value.JNull? ||
          (OD.Get(doc, VersionField).value.JStr? && ValidVersion(OD.Get(doc, VersionField).value.s)))
  }

  /** What the round trip needs of the document once the old entry for `v` is gone. */
  ghost predicate StorePre(data: Doc, v: string, payload: Payload) {
    VersionsPre(data, v) && NoNulls(payload)
  }

  /** The stored versions are valid, pairwise distinct by key, and distinct from `v`. */
  ghost predicate VersionsPre(data: Doc, v: string) {
    && OD.Valid(data)
    && v !in OD.Keys(data)
    && ValidVersion(v)
    && (forall k :: k in VersionKeysOf(OD.Keys(data)) ==> ValidVersion(k) && DigitRuns(k) != DigitRuns(v))
    && KeysDistinct(VersionKeysOf(OD.Keys(data)))
  }

  /**
   * Reading back the version just stored by `update_versioned_data` yields
   * the stored payload, up to Python equality, whether the entry became a
   * full payload, a diff, or was dropped as an empty diff.
   */
  lemma UpdateThenApply(doc: Doc, v: string, payload: Payload)
    requires WellFormedUpdate(doc, v, payload)
    ensures UpdateVersionedData(doc, v, payload).Ok?
    ensures ApplyVersionedPayload(UpdateVersionedData(doc, v, payload).value, v).Ok?
    ensures PayloadEq(ApplyVersionedPayload(UpdateVersionedData(doc, v, payload).value, v).value, payload)
  {
    var data := OD.Pop(doc, v);
    PopKeepsPre(doc, v);
    StoreSucceeds(data, v, payload);
    var hv := OD.Get(doc, VersionField);
    var h := if hv.Some? && hv.value.JStr? && !KeyLe(hv.value.s, v) then hv.value.s else v;
    UpdateShape(doc, v, payload, h);
    StoreThenApply(data, v, payload, UpdateVersionedData(doc, v, payload).value, JStr(h));
  }

  /** Dropping the old entry for `v` leaves the other versions as they were. */
  lemma PopKeepsPre(doc: Doc, v: string)
    requires OD.Valid(doc) && ValidVersion(v)
    requires forall k :: k in VersionKeysOf(OD.Keys(doc)) ==> ValidVersion(k)
    requires KeysDistinctExcept(VersionKeysOf(OD.Keys(doc)), v)
    requires forall k :: k in VersionKeysOf(OD.Keys(doc)) && k != v ==> DigitRuns(k) != DigitRuns(v)
    ensures VersionsPre(OD.Pop(doc, v), v)
  {
    var data := OD.Pop(doc, v);
    forall k ensures k in OD.Keys(data) <==> k in OD.Keys(doc) && k != v {
      assert OD.Get(data, k).Some? <==> k in OD.Keys(data);
      assert OD.Get(doc, k).Some? <==> k in OD.Keys(doc);
    }
  }

  /** The updated document is the stored one with "version" set to `h`. */
  lemma UpdateShape(doc: Doc, v: string, payload: Payload, h: string)
    requires WellFormedUpdate(doc, v, payload)
    requires StoreVersion(OD.Pop(doc, v), v, payload).Ok?
    requires var hv := OD.Get(doc, VersionField);
      h == if hv.Some? && hv.value.JStr? && !KeyLe(hv.value.s, v) then hv.value.s else v
    ensures UpdateVersionedData(doc, v, payload) ==
      Ok(OD.Set(StoreVersion(OD.Pop(doc, v), v, payload).value, VersionField, JStr(h)))
  {
  }

  lemma StoreSucceeds(data: Doc, v: string, payload: Payload)
    requires StorePre(data, v, payload)
    ensures StoreVersion(data, v, payload).Ok?
  {
    var vkeys := VersionKeysOf(OD.Keys(data));
    if |vkeys| > 0 {
      ResolveBestVersionSpec(vkeys, v);
    }
  }

  /** Reading a version back is the replay of the sorted versions up to it. */
  lemma ApplyIsReplay(doc: Doc, target: string)
    requires ValidVersion(target)
    requires |VersionKeysOf(OD.Keys(doc))| > 0
    requires forall k :: k in VersionKeysOf(OD.Keys(doc)) ==> ValidVersion(k)
    ensures ApplyVersionedPayload(doc, target) == Ok(Replay(doc, Upto(SortedVersionKeys(doc), DigitRuns(target))))
  {
    KeyLeTotalPreorder();
  }

  /**
   * Storing a version above every stored one leaves what any lower version
   * reads back unchanged. Stored in ascending order, every version keeps
   * reading back the payload `UpdateThenApply` promises for it.
   */
  lemma UpdateKeepsEarlier(doc: Doc, v: string, payload: Payload, w: string)
    requires WellFormedUpdate(doc, v, payload)
    requires forall k :: k in VersionKeysOf(OD.Keys(doc)) ==> KeyLt(k, v)
    requires ValidVersion(w) && KeyLt(w, v)
    ensures UpdateVersionedData(doc, v, payload).Ok?
    ensures ApplyVersionedPayload(UpdateVersionedData(doc, v, payload).value, w) == ApplyVersionedPayload(doc, w)
  {
    assert v !in VersionKeysOf(OD.Keys(doc)) by { IntSeqLessIrreflexive(DigitRuns(v)); }
    VersionFieldInvalid();
    assert OD.Get(doc, v) == None;
    OD.PopAbsent(doc, v);
    PopKeepsPre(doc, v);
    StoreSucceeds(doc, v, payload);
    var hv := OD.Get(doc, VersionField);
    var h := if hv.Some? && hv.value.JStr? && !KeyLe(hv.value.s, v) then hv.value.s else v;
    UpdateShape(doc, v, payload, h);
    StoreKeepsEarlier(doc, v, payload, UpdateVersionedData(doc, v, payload).value, JStr(h), w);
  }

  /** The storing half of `UpdateKeepsEarlier`, once "version" is set to `h`. */
  lemma StoreKeepsEarlier(data: Doc, v: string, payload: Payload, final: Doc, h: Json, w: string)
    requires StorePre(data, v, payload) && StoreVersion(data, v, payload).Ok?
    requires forall k :: k in VersionKeysOf(OD.Keys(data)) ==> KeyLt(k, v)
    requires final == OD.Set(StoreVersion(data, v, payload).value, VersionField, h)
    requires ValidVersion(w) && KeyLt(w, v)
    ensures ApplyVersionedPayload(final, w) == ApplyVersionedPayload(data, w)
  {
    var stored := StoreVersion(data, v, payload).value;
    KeysOfFinal(stored, final, h);
    if |VersionKeysOf(OD.Keys(data))| == 0 {
      assert stored == OD.Set(data, v, JObj(payload));
      DiffShape(data, v, JObj(payload), final, h);
      AppendedAbove(data, v, final, w);
    } else {
      StoreIsDiff(data, v, payload);
      var diff := CalculateDiff(Replay(data, Upto(SortedVersionKeys(data), DigitRuns(v))), payload);
      if |diff| > 0 {
        DiffShape(data, v, JObj(diff), final, h);
        AppendedAbove(data, v, final, w);
      } else {
        SameVersionsApply(final, data, w);
      }
    }
  }

  /** Two documents holding the same versions with the same entries read back alike. */
  lemma SameVersionsApply(d1: Doc, d2: Doc, w: string)
    requires VersionKeysOf(OD.Keys(d1)) == VersionKeysOf(OD.Keys(d2))
    requires forall x :: x in VersionKeysOf(OD.Keys(d1)) ==> OD.Get(d1, x) == OD.Get(d2, x)
    requires ValidVersion(w) && forall k :: k in VersionKeysOf(OD.Keys(d1)) ==> ValidVersion(k)
    ensures ApplyVersionedPayload(d1, w) == ApplyVersionedPayload(d2, w)
  {
    assert SortedVersionKeys(d1) == SortedVersionKeys(d2);
    var vkeys := VersionKeysOf(OD.Keys(d1));
    if |vkeys| > 0 {
      ApplyIsReplay(d1, w);
      ApplyIsReplay(d2, w);
      var below := Upto(SortedVersionKeys(d1), DigitRuns(w));
      forall x | x in below ensures OD.Get(d1, x) == OD.Get(d2, x) {
        assert x in SortedVersionKeys(d1);
      }
      ReplayFrame(d1, d2, below);
    }
  }

  /**
   * Appending a version above all others does not change what a lower
   * version reads back, when the other entries are kept.
   */
  lemma AppendedAbove(data: Doc, v: string, final: Doc, w: string)
    requires VersionsPre(data, v) && OD.Valid(final)
    requires forall k :: k in VersionKeysOf(OD.Keys(data)) ==> KeyLt(k, v)
    requires VersionKeysOf(OD.Keys(final)) == VersionKeysOf(OD.Keys(data)) + [v]
    requires forall x :: x != v && x != VersionField ==> OD.Get(final, x) == OD.Get(data, x)
    requires ValidVersion(w) && KeyLt(w, v)
    ensures ApplyVersionedPayload(final, w) == ApplyVersionedPayload(data, w)
  {
    var tw := DigitRuns(w);
    SortedAppendAbove(data, v, final);
    var sorted := SortedVersionKeys(data);
    ApplyIsReplay(final, w);
    UptoAbove(sorted, v, tw);
    var below := Upto(sorted, tw);
    if |VersionKeysOf(OD.Keys(data))| > 0 {
      ApplyIsReplay(data, w);
      VersionFieldInvalid();
      forall x | x in below ensures OD.Get(final, x) == OD.Get(data, x) {
        assert x in sorted;
        IntSeqLessIrreflexive(DigitRuns(v));
      }
      ReplayFrame(final, data, below);
    } else {
      assert sorted == [];
    }
  }

  /** A version above all others sorts last. */
  lemma SortedAppendAbove(data: Doc, v: string, final: Doc)
    requires VersionsPre(data, v) && OD.Valid(final)
    requires forall k :: k in VersionKeysOf(OD.Keys(data)) ==> KeyLt(k, v)
    requires VersionKeysOf(OD.Keys(final)) == VersionKeysOf(OD.Keys(data)) + [v]
    ensures SortedVersionKeys(final) == SortedVersionKeys(data) + [v]
  {
    var sorted := SortedVersionKeys(data);
    var sorted2 := SortedVersionKeys(final);
    BelowAppend(data, v, final);
    forall x | x in sorted ensures !IntSeqLess(DigitRuns(v), DigitRuns(x)) {
      IntSeqLessAsymmetric(DigitRuns(x), DigitRuns(v));
    }
    UptoAll(sorted, DigitRuns(v));
    var n := |Upto(sorted2, DigitRuns(v))|;
    assert n == |sorted2|;
  }

  /** The replay loop visits a whole list when nothing in it is above the target. */
  lemma {:induction false} UptoAll(s: seq<string>, tk: seq<nat>)
    requires forall x :: x in s ==> !IntSeqLess(tk, DigitRuns(x))
    ensures Upto(s, tk) == s
  {
    if |s| > 0 {
      assert s[0] in s;
      assert forall x :: x in s[1..] ==> x in s;
      UptoAll(s[1..], tk);
    }
  }

  /** A version above the target appended to a list does not change what the replay loop visits. */
  lemma {:induction false} UptoAbove(s: seq<string>, v: string, tk: seq<nat>)
    requires IntSeqLess(tk, DigitRuns(v))
    ensures Upto(s + [v], tk) == Upto(s, tk)
  {
    if |s| > 0 {
      assert (s + [v])[1..] == s[1..] + [v];
      UptoAbove(s[1..], v, tk);
    }
  }

  /** The versions of `data` in ascending order, as the replay loop sees them. */
  function SortedVersionKeys(data: Doc): (r: seq<string>)
    ensures |r| == |VersionKeysOf(OD.Keys(data))|
    ensures forall k :: k in r <==> k in VersionKeysOf(OD.Keys(data))
    ensures forall i, j :: 0 <= i < j < |r| ==> KeyLe(r[i], r[j])
  {
    KeyLeTotalPreorder();
    var r := SortBy(VersionKeysOf(OD.Keys(data)), KeyLe);
    SameMembers(r, VersionKeysOf(OD.Keys(data)));
    r
  }

  lemma {:induction false} VersionKeysOfNoDup(ks: seq<string>)
    requires NoDup(ks)
    ensures NoDup(VersionKeysOf(ks))
  {
    if |ks| > 0 {
      VersionKeysOfNoDup(ks[1..]);
      assert ks[0] !in ks[1..];
    }
  }

  lemma SortedVersionKeysStrict(data: Doc)
    requires OD.Valid(data)
    requires KeysDistinct(VersionKeysOf(OD.Keys(data)))
    ensures StrictlySorted(SortedVersionKeys(data))
  {
    KeyLeTotalPreorder();
    ValidKeysNoDup(data);
    VersionKeysOfNoDup(OD.Keys(data));
    StrictFromSorted(SortedVersionKeys(data), VersionKeysOf(OD.Keys(data)));
  }

  /** `Upto` only looks at which elements lie above the cut. */
  lemma {:induction false} UptoCongruent(s: seq<string>, t1: seq<nat>, t2: seq<nat>)
    requires forall x :: x in s ==> (IntSeqLess(t1, DigitRuns(x)) <==> IntSeqLess(t2, DigitRuns(x)))
    ensures Upto(s, t1) == Upto(s, t2)
  {
    if |s| > 0 {
      assert s[0] in s;
      assert forall x :: x in s[1..] ==> x in s;
      UptoCongruent(s[1..], t1, t2);
    }
  }

  /**
   * For a version `x` other than the target, cutting at the baseline `b` and
   * cutting at the target `tk` agree, because `b` is the greatest version not
   * above the target.
   */
  lemma CutAgree(x: string, b: string, tk: seq<nat>)
    requires Qualifies(b, tk)
    requires Qualifies(x, tk) ==> !KeyLt(b, x)
    requires DigitRuns(x) != tk
    ensures IntSeqLess(DigitRuns(b), DigitRuns(x)) <==> IntSeqLess(tk, DigitRuns(x))
  {
    IntSeqLessTotal(DigitRuns(x), DigitRuns(b));
    if IntSeqLess(tk, DigitRuns(x)) && !IntSeqLess(DigitRuns(b), DigitRuns(x)) {
      if DigitRuns(x) != DigitRuns(b) { IntSeqLessTransitive(tk, DigitRuns(x), DigitRuns(b)); }
    }
  }

  /** The baseline payload equals the replay of every stored version below `v`. */
  lemma BaselineIsBelow(data: Doc, v: string)
    requires ValidVersion(v)
    requires forall k :: k in VersionKeysOf(OD.Keys(data)) ==> ValidVersion(k) && DigitRuns(k) != DigitRuns(v)
    requires |VersionKeysOf(OD.Keys(data))| > 0
    ensures var baseline := BestFrom(VersionKeysOf(OD.Keys(data)), DigitRuns(v), None);
      baseline.Some? ==>
        ApplyVersionedPayload(data, baseline.value) == Ok(Replay(data, Upto(SortedVersionKeys(data), DigitRuns(v))))
    ensures var baseline := BestFrom(VersionKeysOf(OD.Keys(data)), DigitRuns(v), None);
      baseline.None? ==> Upto(SortedVersionKeys(data), DigitRuns(v)) == []
  {
    var vkeys := VersionKeysOf(OD.Keys(data));
    var tk := DigitRuns(v);
    var sorted := SortedVersionKeys(data);
    ResolveBestVersionSpec(vkeys, v);
    var baseline := BestFrom(vkeys, tk, None);
    if baseline.Some? {
      var b := baseline.value;
      forall x | x in sorted
        ensures IntSeqLess(DigitRuns(b), DigitRuns(x)) <==> IntSeqLess(tk, DigitRuns(x))
      {
        CutAgree(x, b, tk);
      }
      UptoCongruent(sorted, DigitRuns(b), tk);
      ApplyIsReplay(data, b);
    } else {
      UptoMembers(sorted, tk);
      HeadIsMember(Upto(sorted, tk));
    }
  }

  /** With other versions present, storing `v` records its diff against the replay below it. */
  lemma StoreIsDiff(data: Doc, v: string, payload: Payload)
    requires ValidVersion(v)
    requires forall k :: k in VersionKeysOf(OD.Keys(data)) ==> ValidVersion(k) && DigitRuns(k) != DigitRuns(v)
    requires |VersionKeysOf(OD.Keys(data))| > 0
    ensures var diff := CalculateDiff(Replay(data, Upto(SortedVersionKeys(data), DigitRuns(v))), payload);
      StoreVersion(data, v, payload) == if |diff| > 0 then Ok(OD.Set(data, v, JObj(diff))) else Ok(data)
  {
    BaselineIsBelow(data, v);
    var vkeys := VersionKeysOf(OD.Keys(data));
    assert ResolveBestVersion(vkeys, v) == Ok(BestFrom(vkeys, DigitRuns(v), None));
  }

  lemma StoreThenApply(data: Doc, v: string, payload: Payload, final: Doc, h: Json)
    requires StorePre(data, v, payload)
    requires StoreVersion(data, v, payload).Ok?
    requires final == OD.Set(StoreVersion(data, v, payload).value, VersionField, h)
    ensures ApplyVersionedPayload(final, v).Ok? && PayloadEq(ApplyVersionedPayload(final, v).value, payload)
  {
    var vkeys := VersionKeysOf(OD.Keys(data));
    if |vkeys| == 0 {
      StoreFirstVersion(data, v, payload, final, h);
      forall k | k in payload ensures PyEq(payload[k], payload[k]) { PyEqReflexive(payload[k]); }
    } else {
      StoreIsDiff(data, v, payload);
      var below := Upto(SortedVersionKeys(data), DigitRuns(v));
      ReplayHasNoNull(data, below);
      var base := Replay(data, below);
      if |CalculateDiff(base, payload)| > 0 {
        StoreDiff(data, v, payload, final, h, base);
        DiffPatchRoundTrip(base, payload);
      } else {
        EmptyDiffMeansEqual(base, payload);
        StoreSame(data, v, final, h);
      }
    }
  }

  /** When nothing changed, the document reads back the baseline at `v`. */
  lemma StoreSame(data: Doc, v: string, final: Doc, h: Json)
    requires ValidVersion(v)
    requires forall k :: k in VersionKeysOf(OD.Keys(data)) ==> ValidVersion(k)
    requires |VersionKeysOf(OD.Keys(data))| > 0
    requires final == OD.Set(data, VersionField, h)
    ensures ApplyVersionedPayload(final, v) == Ok(Replay(data, Upto(SortedVersionKeys(data), DigitRuns(v))))
  {
    KeysOfFinal(data, final, h);
    ApplyIsReplay(final, v);
    var below := Upto(SortedVersionKeys(data), DigitRuns(v));
    assert SortedVersionKeys(final) == SortedVersionKeys(data);
    forall x | x in below ensures OD.Get(final, x) == OD.Get(data, x) {
      assert x in SortedVersionKeys(data);
    }
    ReplayFrame(final, data, below);
  }

  /** The bookkeeping key is never a version: it has no digits. */
  lemma VersionFieldInvalid()
    ensures !ValidVersion(VersionField)
  {
    assert forall i :: 0 <= i < |VersionField| ==> !IsDigit(VersionField[i]);
  }

  lemma StoreFirstVersion(data: Doc, v: string, payload: Payload, final: Doc, h: Json)
    requires v !in OD.Keys(data) && ValidVersion(v) && NoNulls(payload)
    requires |VersionKeysOf(OD.Keys(data))| == 0
    requires final == OD.Set(OD.Set(data, v, JObj(payload)), VersionField, h)
    ensures ApplyVersionedPayload(final, v) == Ok(payload)
  {
    FirstVersionShape(data, v, payload, final, h);
    SingleVersionApply(final, v, payload);
  }

  lemma FirstVersionShape(data: Doc, v: string, payload: Payload, final: Doc, h: Json)
    requires v !in OD.Keys(data) && ValidVersion(v)
    requires |VersionKeysOf(OD.Keys(data))| == 0
    requires final == OD.Set(OD.Set(data, v, JObj(payload)), VersionField, h)
    ensures VersionKeysOf(OD.Keys(final)) == [v]
    ensures OD.GetOr(final, v, JNull) == JObj(payload)
  {
    var stored := OD.Set(data, v, JObj(payload));
    OD.SetKeys(data, v, JObj(payload));
    KeysOfFinal(stored, final, h);
    VersionFieldInvalid();
    VersionKeysOfAppend(OD.Keys(data), [v]);
    assert VersionKeysOf([v]) == [v];
  }

  /** A document holding one version reads back that version's full payload. */
  lemma SingleVersionApply(doc: Doc, v: string, payload: Payload)
    requires VersionKeysOf(OD.Keys(doc)) == [v] && ValidVersion(v)
    requires OD.GetOr(doc, v, JNull) == JObj(payload) && NoNulls(payload)
    ensures ApplyVersionedPayload(doc, v) == Ok(payload)
  {
    ApplyIsReplay(doc, v);
    var sorted := SortedVersionKeys(doc);
    assert sorted == [v] by {
      assert |sorted| == 1 && sorted[0] in VersionKeysOf(OD.Keys(doc));
    }
    IntSeqLessIrreflexive(DigitRuns(v));
    assert Upto(sorted, DigitRuns(v)) == [v];
    ReplaySingle(doc, v, payload);
  }

  /** Replaying a single full payload gives it back. */
  lemma ReplaySingle(doc: Doc, v: string, payload: Payload)
    requires OD.GetOr(doc, v, JNull) == JObj(payload) && NoNulls(payload)
    ensures Replay(doc, [v]) == payload
  {
    assert [v][..0] == [];
    assert Replay(doc, [v]) == Patch(map[], payload);
  }

  lemma StoreDiff(data: Doc, v: string, payload: Payload, final: Doc, h: Json, base: Payload)
    requires StorePre(data, v, payload)
    requires |VersionKeysOf(OD.Keys(data))| > 0
    requires base == Replay(data, Upto(SortedVersionKeys(data), DigitRuns(v)))
    requires final == OD.Set(OD.Set(data, v, JObj(CalculateDiff(base, payload))), VersionField, h)
    ensures ApplyVersionedPayload(final, v) == Ok(Patch(base, CalculateDiff(base, payload)))
  {
    var diff := CalculateDiff(base, payload);
    DiffShape(data, v, JObj(diff), final, h);
    var below := Upto(SortedVersionKeys(data), DigitRuns(v));
    BelowAppend(data, v, final);
    ApplyIsReplay(final, v);
    forall x | x in below ensures OD.Get(final, x) == OD.Get(data, x) {
      assert x in SortedVersionKeys(data);
    }
    ReplayFrame(final, data, below);
    ReplayLast(final, below, v);
  }

  lemma ReplayLast(doc: Doc, below: seq<string>, v: string)
    ensures Replay(doc, below + [v]) == ApplyEntry(Replay(doc, below), OD.GetOr(doc, v, JNull))
  {
    assert (below + [v])[..|below|] == below;
  }

  /** The document after storing an entry for `v` and setting "version". */
  lemma DiffShape(data: Doc, v: string, entry: Json, final: Doc, h: Json)
    requires OD.Valid(data) && v !in OD.Keys(data) && ValidVersion(v)
    requires final == OD.Set(OD.Set(data, v, entry), VersionField, h)
    ensures VersionKeysOf(OD.Keys(final)) == VersionKeysOf(OD.Keys(data)) + [v]
    ensures OD.GetOr(final, v, JNull) == entry
    ensures forall x :: x != v && x != VersionField ==> OD.Get(final, x) == OD.Get(data, x)
    ensures OD.Valid(final)
  {
    var stored := OD.Set(data, v, entry);
    OD.SetKeys(data, v, entry);
    KeysOfFinal(stored, final, h);
    VersionFieldInvalid();
    VersionKeysOfAppend(OD.Keys(data), [v]);
    assert VersionKeysOf([v]) == [v];
    OD.SetValid(data, v, entry);
    OD.SetValid(stored, VersionField, h);
  }

  /** Adding `v` to the versions adds it at the end of the replayed prefix up to `v`. */
  lemma BelowAppend(data: Doc, v: string, final: Doc)
    requires VersionsPre(data, v)
    requires OD.Valid(final)
    requires VersionKeysOf(OD.Keys(final)) == VersionKeysOf(OD.Keys(data)) + [v]
    ensures Upto(SortedVersionKeys(final), DigitRuns(v)) == Upto(SortedVersionKeys(data), DigitRuns(v)) + [v]
  {
    SortedVersionKeysStrict(data);
    FinalDistinct(data, v, final);
    SortedVersionKeysStrict(final);
    UptoAppend(SortedVersionKeys(data), SortedVersionKeys(final), v);
  }

  /** The same, for the sorted lists of versions themselves. */
  lemma UptoAppend(sorted: seq<string>, sorted2: seq<string>, v: string)
    requires StrictlySorted(sorted) && StrictlySorted(sorted2)
    requires forall x :: x in sorted2 <==> x in sorted || x == v
    requires forall x :: x in sorted ==> DigitRuns(x) != DigitRuns(v)
    ensures Upto(sorted2, DigitRuns(v)) == Upto(sorted, DigitRuns(v)) + [v]
  {
    var tk := DigitRuns(v);
    var below := Upto(sorted, tk);
    var below2 := Upto(sorted2, tk);
    UptoAppendMembers(sorted, sorted2, v);
    StrictPrefix(sorted, |below|);
    StrictPrefix(sorted2, |below2|);
    BelowIsLess(sorted, v);
    AppendStrict(below, v);
    StrictlySortedUnique(below2, below + [v]);
  }

  lemma UptoAppendMembers(sorted: seq<string>, sorted2: seq<string>, v: string)
    requires StrictlySorted(sorted) && StrictlySorted(sorted2)
    requires forall x :: x in sorted2 <==> x in sorted || x == v
    ensures forall x :: x in Upto(sorted2, DigitRuns(v)) <==> x in Upto(sorted, DigitRuns(v)) + [v]
  {
    var tk := DigitRuns(v);
    StrictIsSorted(sorted);
    StrictIsSorted(sorted2);
    UptoMembers(sorted, tk);
    UptoMembers(sorted2, tk);
    IntSeqLessIrreflexive(tk);
  }

  /** Every version the replay visits below `v` has a smaller key than `v`. */
  lemma BelowIsLess(sorted: seq<string>, v: string)
    requires forall x :: x in sorted ==> DigitRuns(x) != DigitRuns(v)
    ensures forall x :: x in Upto(sorted, DigitRuns(v)) ==> KeyLt(x, v)
  {
    var below := Upto(sorted, DigitRuns(v));
    forall x | x in below ensures KeyLt(x, v) {
      var i :| 0 <= i < |below| && below[i] == x;
      assert x == sorted[i];
      IntSeqLessTotal(DigitRuns(v), DigitRuns(x));
    }
  }

  lemma StrictIsSorted(s: seq<string>)
    requires StrictlySorted(s)
    ensures forall i, j :: 0 <= i < j < |s| ==> KeyLe(s[i], s[j])
  {
    forall i, j | 0 <= i < j < |s| ensures KeyLe(s[i], s[j]) {
      IntSeqLessAsymmetric(DigitRuns(s[i]), DigitRuns(s[j]));
    }
  }

  lemma FinalDistinct(data: Doc, v: string, final: Doc)
    requires KeysDistinctExcept(VersionKeysOf(OD.Keys(data)), v)
    requires forall k :: k in VersionKeysOf(OD.Keys(data)) && k != v ==> DigitRuns(k) != DigitRuns(v)
    requires VersionKeysOf(OD.Keys(final)) == VersionKeysOf(OD.Keys(data)) + [v]
    ensures KeysDistinct(VersionKeysOf(OD.Keys(final)))
  {
    var old_keys := VersionKeysOf(OD.Keys(data));
    forall x, y | x in old_keys + [v] && y in old_keys + [v] && x != y ensures DigitRuns(x) != DigitRuns(y) {
      if x == v {
        assert y in old_keys;
      } else if y == v {
        assert x in old_keys;
      } else {
        assert x in old_keys && y in old_keys;
      }
    }
  }

  lemma KeysOfFinal(stored: Doc, final: Doc, h: Json)
    requires final == OD.Set(stored, VersionField, h)
    ensures VersionKeysOf(OD.Keys(final)) == VersionKeysOf(OD.Keys(stored))
    ensures forall x :: x != VersionField ==> OD.Get(final, x) == OD.Get(stored, x)
  {
    OD.SetKeys(stored, VersionField, h);
    if !OD.Has(stored, VersionField) {
      VersionKeysOfAppend(OD.Keys(stored), [VersionField]);
    }
  }

  lemma AppendStrict(below: seq<string>, v: string)
    requires StrictlySorted(below)
    requires forall x :: x in below ==> KeyLt(x, v)
    ensures StrictlySorted(below + [v])
  {
    var s := below + [v];
    forall i, j | 0 <= i < j < |s| ensures KeyLt(s[i], s[j]) {
      if j == |below| { assert s[i] in below; }
    }
  }
}
